=== FILE: README.md ===
# Game rules of the web arcade, in Dafny

The web front end of the arcade ships sixteen small games, each a React
page under `apps/web/src/pages/`. This project models the rules those pages
implement and proves properties of them:

- **2048**: sliding and merging a row, the four moves, spawning a tile, game over.
- **Tic-tac-toe**: winner detection, minimax with depth scoring, and the rule-based levels.
- **Gomoku**: the five-in-a-row check in four directions and candidate generation.
- **Reversi**: flips in eight directions, legal moves, passing, and the end of the game.
- **Xiangqi (Chinese chess)**: the move rules of every piece, the facing-generals rule, check, and move application.
- **Blackjack**: hand values with soft aces, the dealer's S17/H17 rule, hit, stand, double, and settlement.
- **Poker arrange**: a 4 x 13 grid with a row per suit and a column per rank, a shuffled 52-card stock, moving cards between stock and grid by click or drag, auto-place, undo, and the win once every card sits on its own cell.
- **Bubble wrap**: popping, combos, power rows, columns and bombs, and the challenge pattern.
- **Pac-Man**: the maze, pellets and power pellets, the ghosts' choice of direction, collisions, and spawning.
- **Whack-a-mole**: rounds of distinct holes, hits, and the countdown.
- **Snake**: steering, moving, growing, and collisions.
- **Space shooter**: the cannon and its bullets, a formation of eighteen enemies that marches and descends, hits, and the reset once the formation reaches the bottom.
- **Memory**: flipping cards, matching pairs, and closing a failed pair.
- **Minesweeper**: fifteen randomly placed mines on a 10 x 10 board, neighbour counts, the flood reveal, and a new board after a mine.
- **Tetris**: the seven shapes, rotation, collision, locking, and line clears.
- **Tank 90**: the brick-and-steel map, moving tanks, bullets against walls and tanks, the base, and the enemy waves.

The state a page keeps with `useState` or `useRef` and changes in its
handlers becomes a `class`. The class's methods name their frame with
`modifies` and state the new state; the few that state only part of it
are named under "## Left out". Pure helpers (winners, hand
values, move rules, slides) become functions with named results, with
lemmas about them. Loops that change variables become methods with loop
invariants, proved against those functions. Every random draw
(`Math.random`, a shuffle, a roll) becomes a parameter, so each property
holds for every draw. A timer or animation frame becomes an explicit call
to the step method it would trigger. `common.dfy` holds the shared
helpers: `Option`, integer helpers, and grid positions.

Where the code does something its own design evidently did not intend,
the model keeps two versions:

- a member suffixed `AsWritten` follows the code line by line, and a lemma exhibits the input that goes wrong;
- the corrected definition carries the intended property, and the rest of the model uses it.

The one exception is the Tank 90 enemy aim: the battle keeps the
candidates as the code builds them, since the page does reach the states
they lead to, and the corrected candidates are stated beside them.

These pairs are listed under "## Findings".

## Model

| member | source | states |
|---|---|---|
| Game2048.EmptyBoard | apps/web/src/pages/Game2048.tsx:8-10 | an n x n board of zeros |
| Game2048.NonZero | apps/web/src/pages/Game2048.tsx:40 | the filter keeps only non-zero tiles and never lengthens the row |
| Game2048.SlideRow | apps/web/src/pages/Game2048.tsx:39-58 | slide keeps the length of the row |
| Game2048.MergeLength | apps/web/src/pages/Game2048.tsx:44-54 | the merge loop emits at most as many tiles as it reads and at least half as many, and emits no zero from zero-free input |
| Game2048.MergeIdentity | apps/web/src/pages/Game2048.tsx:44-54 | a row without equal neighbours is emitted unchanged and earns nothing |
| Game2048.GainIffMerged | apps/web/src/pages/Game2048.tsx:44-54 | on positive tiles the points are non-negative, and zero exactly when no merge shortened the row |
| Game2048.MergeSum | apps/web/src/pages/Game2048.tsx:44-54 | merging keeps the sum of the tiles |
| Game2048.NonZeroSum | apps/web/src/pages/Game2048.tsx:40 | dropping zeros keeps the sum |
| Game2048.NonZeroAppend | apps/web/src/pages/Game2048.tsx:40 | the filter distributes over concatenation |
| Game2048.NonZeroOfZeros | apps/web/src/pages/Game2048.tsx:40 | a row of zeros filters to nothing and sums to 0 |
| Game2048.NonZeroOfNonZero | apps/web/src/pages/Game2048.tsx:40 | a zero-free row filters to itself |
| Game2048.PadFacts | apps/web/src/pages/Game2048.tsx:55 | padding a zero-free row with zeros keeps its tiles and its sum |
| Game2048.SlideShape | apps/web/src/pages/Game2048.tsx:39-58 | slide keeps the length, packs the tiles to the left with only zeros after them, and those tiles are the merged non-zero tiles of the row |
| Game2048.SlideSum | apps/web/src/pages/Game2048.tsx:39-58 | slide keeps the sum of the row |
| Game2048.MergeOnceExample | apps/web/src/pages/Game2048.tsx:44-54 | a tile merges at most once per slide: [2,2,2,2] gives [4,4,0,0] and [2,2,4,0] gives [4,4,0,0] |
| Game2048.MergedMeansChanged | apps/web/src/pages/Game2048.tsx:50 | a merge always changes the row, so setting `moved` at a merge agrees with comparing rows |
| Game2048.Slide | apps/web/src/pages/Game2048.tsx:39-58 | slide(row, n) returns the slid row, `moved` exactly when it differs from the input, and the points of the merges |
| Game2048.MergeTiles | apps/web/src/pages/Game2048.tsx:44-54 | the merge loop returns the merged tiles and their points, and `moved` exactly when some pair merged |
| Game2048.MergeAdvance | apps/web/src/pages/Game2048.tsx:45-53 | one step of the merge loop, over a pair or a single tile, keeps the emitted prefix a prefix of the merged row |
| Game2048.GainAdvance | apps/web/src/pages/Game2048.tsx:45-53 | one step of the merge loop keeps the points so far a prefix of the row's points |
| Game2048.MergeStep | apps/web/src/pages/Game2048.tsx:45-53 | from position i the loop merges an equal pair into its double and skips the partner, or passes a single tile on |
| Game2048.PadZeros | apps/web/src/pages/Game2048.tsx:55 | the padding loop appends zeros up to length n |
| Game2048.SlideRows | apps/web/src/pages/Game2048.tsx:64-69 | moving left keeps the number and length of the rows |
| Game2048.ReverseRows | apps/web/src/pages/Game2048.tsx:78-81 | reversing every row keeps the board's shape |
| Game2048.Transpose | apps/web/src/pages/Game2048.tsx:86-88 | transpose swaps rows and columns: cell (c, r) of the result is cell (r, c) of the board |
| Game2048.TransposeInvolution | apps/web/src/pages/Game2048.tsx:86-88 | transposing a square board twice gives it back |
| Game2048.SlideRowsSquare | apps/web/src/pages/Game2048.tsx:60-71 | sliding every row keeps a board square |
| Game2048.ReverseRowsInvolution | apps/web/src/pages/Game2048.tsx:78-81 | reversing every row twice gives the board back |
| Game2048.MoveLeft | apps/web/src/pages/Game2048.tsx:60-71 | moveLeft slides every row, reports `moved` exactly when the board changed, and earns the sum of the rows' points |
| Game2048.SlideRowsStep | apps/web/src/pages/Game2048.tsx:64-69 | one row of the map: the board so far grows by the slid row, it differs from the input exactly when some row changed, and the row's points come off the rest |
| Game2048.MoveRight | apps/web/src/pages/Game2048.tsx:73-84 | moveRight reverses, slides and reverses every row, with `moved` exactly when the board changed |
| Game2048.MoveUp | apps/web/src/pages/Game2048.tsx:90-93 | moveUp is moveLeft conjugated by transpose, with `moved` exactly when the board changed |
| Game2048.MoveDown | apps/web/src/pages/Game2048.tsx:95-98 | moveDown is moveRight conjugated by transpose, with `moved` exactly when the board changed |
| Game2048.ArrowMove | apps/web/src/pages/Game2048.tsx:145-151 | an arrow key's move keeps the board square, with `moved` exactly when it changed |
| Game2048.MovedSquare | apps/web/src/pages/Game2048.tsx:60-98 | every arrow move keeps an n x n board n x n |
| Game2048.MoveUpSlidesColumns | apps/web/src/pages/Game2048.tsx:90-93 | moving up slides each column on its own, so each column keeps its sum |
| Game2048.MoveLeftSlidesRows | apps/web/src/pages/Game2048.tsx:60-71 | moving left keeps the sum of each row |
| Game2048.HasMoves | apps/web/src/pages/Game2048.tsx:100-110 | hasMoves is true exactly when some cell is empty or two horizontally or vertically adjacent cells are equal |
| Game2048.StuckRow | apps/web/src/pages/Game2048.tsx:39-58 | a full row without equal neighbours does not slide |
| Game2048.StuckRows | apps/web/src/pages/Game2048.tsx:60-84 | a full board without equal horizontal neighbours is unchanged by left and right |
| Game2048.StuckColumns | apps/web/src/pages/Game2048.tsx:90-98 | a board with no moves is unchanged by up and down |
| Game2048.NoMovesIsStuck | apps/web/src/pages/Game2048.tsx:179 | when hasMoves is false no arrow key changes the board: the game is over |
| Game2048.RowEmptiesExact | apps/web/src/pages/Game2048.tsx:15 | the scan of one row lists exactly its zero cells |
| Game2048.EmptiesExact | apps/web/src/pages/Game2048.tsx:13-15 | `empties` lists exactly the zero cells of the board |
| Game2048.TileValue | apps/web/src/pages/Game2048.tsx:19-27 | a new tile is 2 or 4, or 2, 4 or 8 in hard mode |
| Game2048.AddTileFillsOneEmpty | apps/web/src/pages/Game2048.tsx:12-30 | addRandomTile leaves a full board as it is, and otherwise writes the new tile into exactly one empty cell |
| Game2048.AddRandomTile | apps/web/src/pages/Game2048.tsx:12-30 | the method agrees with the tile-adding function for the given draws |
| Game2048.AddTileKeepsSquare | apps/web/src/pages/Game2048.tsx:12-30 | adding a tile keeps the board n x n |
| Game2048.Game.constructor | apps/web/src/pages/Game2048.tsx:120-133 | a new game: the board of the mode's size with two random tiles, score and steps 0, 150 seconds in timed mode |
| Game2048.Game.KeyPress | apps/web/src/pages/Game2048.tsx:139-158 | a non-arrow key, an expired timer or an exhausted step budget changes nothing; an arrow that moves adds its points and one step and places a tile; an arrow that does not move changes nothing |
| Game2048.Game.Tick | apps/web/src/pages/Game2048.tsx:165-170 | the timer counts down once a second only in timed mode and while time is left |
| TicTacToe.LinesInRange | apps/web/src/pages/TicTacToe.tsx:8-12 | the eight winning lines name cells 0..8 |
| TicTacToe.LineWinnerFacts | apps/web/src/pages/TicTacToe.tsx:13-15 | the line scan answers 0, 1 or 2; a non-zero answer owns a complete line, and 0 means no line is complete |
| TicTacToe.CalcWinnerSpec | apps/web/src/pages/TicTacToe.tsx:7-18 | calcWinner names a player exactly when that player has a line, answers -1 exactly for a full board without a line and 0 exactly for an unfinished board without one |
| TicTacToe.Game.constructor | apps/web/src/pages/TicTacToe.tsx:21-24 | an empty board, X to move, no result, no history |
| TicTacToe.Game.Place | apps/web/src/pages/TicTacToe.tsx:48-57 | place is ignored once there is a result or on a taken cell; otherwise the mover's disc fills the cell, the history grows by it, the result is calcWinner of the new board and the turn passes only when there is no result |
| TicTacToe.Game.Undo | apps/web/src/pages/TicTacToe.tsx:38-46 | undo is ignored with an empty history or a result; otherwise the last-played cell is cleared, the history drops it and the turn flips |
| TicTacToe.PlaceThenUndo | apps/web/src/pages/TicTacToe.tsx:38-57 | a move that does not end the game, then undo, restores board, turn and history |
| TicTacToe.ImmediateWinFacts | apps/web/src/pages/TicTacToe.tsx:85-92 | the scan from cell k answers -1 exactly when no empty cell wins at once, and otherwise the lowest empty cell that wins |
| TicTacToe.FindImmediateWin | apps/web/src/pages/TicTacToe.tsx:85-92 | findImmediateWin returns -1 exactly when no empty cell completes a line for `who`, otherwise the lowest such cell |
| TicTacToe.FirstInOrder | apps/web/src/pages/TicTacToe.tsx:94-98 | the scan of the order answers -1 exactly when every cell of it from k on is taken, otherwise the first empty one |
| TicTacToe.OrderIsPermutation | apps/web/src/pages/TicTacToe.tsx:95 | the order 4, 0, 2, 6, 8, 1, 3, 5, 7 lists every cell |
| TicTacToe.BestHeuristic | apps/web/src/pages/TicTacToe.tsx:94-98 | bestHeuristic returns an empty cell, and -1 exactly on a full board |
| TicTacToe.FullInOrder | apps/web/src/pages/TicTacToe.tsx:94-98 | a board is full exactly when every cell of the order is taken |
| TicTacToe.TerminalScore | apps/web/src/pages/TicTacToe.tsx:61-64 | a finished board scores 10 - depth for the AI's line, depth - 10 for the opponent's line and 0 for a draw |
| TicTacToe.DrawScoredAsLoss | apps/web/src/pages/TicTacToe.tsx:61-64 | as written a drawn board scores depth - 10 like a loss, so the draw branch is never reached; the corrected score gives 0 |
| TicTacToe.MinimaxFacts | apps/web/src/pages/TicTacToe.tsx:60-83 | minimax on a finished board answers the terminal score with move -1; on an unfinished board it answers an empty cell; scores lie in -10..10 |
| TicTacToe.SearchFacts | apps/web/src/pages/TicTacToe.tsx:70-82 | the loop over the order, with an empty cell still to try or already chosen, ends on an empty cell and a score in -10..10 |
| TicTacToe.DrawScoresZero | apps/web/src/pages/TicTacToe.tsx:64 | with the corrected scores a drawn board scores 0 with move -1 |
| TicTacToe.MinimaxSearch | apps/web/src/pages/TicTacToe.tsx:60-83 | the recursive minimax with its loop returns exactly the score and move of the minimax function |
| TicTacToe.EasyAlwaysBlocksAsWritten | apps/web/src/pages/TicTacToe.tsx:106-117 | as written the easy level blocks whenever it cannot win and can block, whatever the draws |
| TicTacToe.ThreatBoardFacts | apps/web/src/pages/TicTacToe.tsx:85-92 | on X X _ / _ O _ / _ _ _ O has no winning cell, X wins at cell 2, and the empty cells are 2, 3, 5, 6, 7, 8 |
| TicTacToe.ThreatOfX | apps/web/src/pages/TicTacToe.tsx:85-92 | on that board X completes the top row at cell 2 |
| TicTacToe.NoWinForO | apps/web/src/pages/TicTacToe.tsx:85-92 | on that board no empty cell gives O a line |
| TicTacToe.ThreatEmpties | apps/web/src/pages/TicTacToe.tsx:112 | on that board `empties` is 2, 3, 5, 6, 7, 8 |
| TicTacToe.NoLineWithTwo | apps/web/src/pages/TicTacToe.tsx:7-18 | a board with O discs on at most two cells never has O as winner |
| TicTacToe.EasyMaySkipBlock | apps/web/src/pages/TicTacToe.tsx:106-117 | on the threat board the source's easy level always blocks at cell 2, while the corrected one misses the block on a low skip draw and blocks on a high one |
| TicTacToe.NormalLevelPriorities | apps/web/src/pages/TicTacToe.tsx:100-110 | the normal level plays an immediate win first, then a block, then the heuristic, and any cell it returns is empty |
| TicTacToe.ComputeAIMove | apps/web/src/pages/TicTacToe.tsx:100-123 | computeAIMoveByLevel returns the corrected move choice for every level |
| TicTacToe.ComputeRuleMove | apps/web/src/pages/TicTacToe.tsx:105-122 | the easy and normal levels' rule-based choice |
| ChineseChess.StartBoard | apps/web/src/pages/ChineseChess.tsx:19-40 | the opening position is a 10 x 9 board |
| ChineseChess.RowCountCells | apps/web/src/pages/ChineseChess.tsx:21 | a row's piece count of one side is the sum over its nine cells |
| ChineseChess.StartRowCounts | apps/web/src/pages/ChineseChess.tsx:24-38 | the back rank holds 9 pieces of its side, the cannon row 2, the soldier row 5, the empty rows none |
| ChineseChess.StartBoardFacts | apps/web/src/pages/ChineseChess.tsx:19-40 | the opening position has 16 pieces per side, the black general on row 0 and the red one on row 9, both on file 4 |
| ChineseChess.StartCount | apps/web/src/pages/ChineseChess.tsx:19-40 | each side starts with 16 pieces |
| ChineseChess.OpeningCount | apps/web/src/pages/ChineseChess.tsx:23-38 | a board laid out row by row as the opening has 16 pieces per side |
| ChineseChess.PieceCountRows | apps/web/src/pages/ChineseChess.tsx:21 | a side's piece count on the board is the sum of its ten rows' counts |
| ChineseChess.PathExact | apps/web/src/pages/ChineseChess.tsx:51-56 | walking from the first step towards the target visits exactly the squares strictly between |
| ChineseChess.BetweenExact | apps/web/src/pages/ChineseChess.tsx:51-56 | the squares lineClear visits are exactly those strictly between the two ends |
| ChineseChess.OccupantsZero | apps/web/src/pages/ChineseChess.tsx:54 | no occupant is counted exactly when every visited square is empty |
| ChineseChess.BetweenOnBoard | apps/web/src/pages/ChineseChess.tsx:54 | the squares between two squares on the board are on the board |
| ChineseChess.ScreensZero | apps/web/src/pages/ChineseChess.tsx:51-56 | no screen lies between two squares exactly when every square strictly between them is empty |
| ChineseChess.LineClear | apps/web/src/pages/ChineseChess.tsx:51-56 | lineClear's loop counts the pieces strictly between two squares of one line |
| ChineseChess.PalaceBound | apps/web/src/pages/ChineseChess.tsx:82-87 | a general or advisor only moves inside its own palace |
| ChineseChess.ElephantRule | apps/web/src/pages/ChineseChess.tsx:88-95 | an elephant moves two squares diagonally, with the middle square empty, never across the river |
| ChineseChess.HorseRule | apps/web/src/pages/ChineseChess.tsx:96-103 | a horse moves one square straight and one diagonally, exactly when its leg square is empty |
| ChineseChess.RookRule | apps/web/src/pages/ChineseChess.tsx:104-107 | a rook reaches a square exactly when it is on the same line with every square between empty |
| ChineseChess.CannonRule | apps/web/src/pages/ChineseChess.tsx:108-113 | a cannon moves like a rook onto an empty square and captures only over a screen |
| ChineseChess.SoldierRule | apps/web/src/pages/ChineseChess.tsx:114-121 | a soldier steps forward, or sideways once across the river |
| ChineseChess.Moved | apps/web/src/pages/ChineseChess.tsx:542-548 | applying a move keeps the board 10 x 9 |
| ChineseChess.MovedFacts | apps/web/src/pages/ChineseChess.tsx:542-548 | applying a move empties the origin, puts the piece on the target and leaves every other square as it was |
| ChineseChess.KingFrom | apps/web/src/pages/ChineseChess.tsx:72-75 | the search answers a square of the board or the missing mark `(-1, -1)` |
| ChineseChess.KingFromFacts | apps/web/src/pages/ChineseChess.tsx:72-75 | a found square holds the side's general, and nothing is found exactly when no square from there on holds it |
| ChineseChess.KingPos | apps/web/src/pages/ChineseChess.tsx:72-75 | kingPos's nested loops give the first square in row order holding the side's general, or `(-1, -1)` |
| ChineseChess.RowKing | apps/web/src/pages/ChineseChess.tsx:73 | one row of the search: the general's column in that row, or the scan goes on to the next row |
| ChineseChess.KingFromStep | apps/web/src/pages/ChineseChess.tsx:73 | the search stops at a square holding the general and otherwise moves to the next |
| ChineseChess.SquareOf | apps/web/src/pages/ChineseChess.tsx:73 | the scan's index `r * 9 + c` stands for row r, column c |
| ChineseChess.FacingAsWrittenImpliesFacing | apps/web/src/pages/ChineseChess.tsx:58-66 | whatever the centre-file check reports as facing is facing |
| ChineseChess.FacingScanFacts | apps/web/src/pages/ChineseChess.tsx:60-65 | a file scan that reports facing has seen both generals on the file with no piece between them |
| ChineseChess.FileFacing | apps/web/src/pages/ChineseChess.tsx:58-66 | the loops on one file report facing exactly as the file's specification does |
| ChineseChess.GeneralFacing | apps/web/src/pages/ChineseChess.tsx:58-66 | the corrected check reports facing generals on any file |
| ChineseChess.ScanSkipsEmpty | apps/web/src/pages/ChineseChess.tsx:61 | the scan passes over empty squares without changing its answer |
| ChineseChess.FacingMissedOffCentre | apps/web/src/pages/ChineseChess.tsx:58-66 | as written, generals facing each other on file 3 are not reported, though they face |
| ChineseChess.KingAttacked | apps/web/src/pages/ChineseChess.tsx:191-196 | the loop reports check exactly when some enemy piece attacks the side's general |
| ChineseChess.NoThreatStep | apps/web/src/pages/ChineseChess.tsx:137-140 | a row with no attacker extends the rows known to be clear |
| ChineseChess.ThreatFound | apps/web/src/pages/ChineseChess.tsx:137-140 | an attacker on any row means the general is in check |
| ChineseChess.NoThreatAnywhere | apps/web/src/pages/ChineseChess.tsx:137-141 | with every row clear the general is not in check |
| ChineseChess.RowThreat | apps/web/src/pages/ChineseChess.tsx:137-140 | one row of the scan reports exactly whether an enemy piece there attacks the general |
| ChineseChess.IsLegalMove | apps/web/src/pages/ChineseChess.tsx:125-142 | isLegalMove answers exactly the legality predicate |
| ChineseChess.LegalMeans | apps/web/src/pages/ChineseChess.tsx:125-142 | a legal move goes from the side's own piece to a different square on the board, empty or an enemy's, by the piece's rule, and leaves no facing generals and no check on its own general |
| ChineseChess.RowPicksHas | apps/web/src/pages/ChineseChess.tsx:536-537 | the moves listed for one row are exactly those to a square of the row passing the test |
| ChineseChess.RowPicksFrom | apps/web/src/pages/ChineseChess.tsx:536-537 | every move listed for a row starts on the given square |
| ChineseChess.PicksHas | apps/web/src/pages/ChineseChess.tsx:536-537 | the moves listed over the target loops are exactly those to a square of the board passing the test |
| ChineseChess.PicksFrom | apps/web/src/pages/ChineseChess.tsx:536-537 | every listed move starts on the given square |
| ChineseChess.TargetsUpToHas | apps/web/src/pages/ChineseChess.tsx:536-537 | a piece's listed moves are exactly its legal moves |
| ChineseChess.MovesInRowHas | apps/web/src/pages/ChineseChess.tsx:535-537 | the moves listed for the pieces of one row are exactly the legal moves of the side's pieces there |
| ChineseChess.TargetsFrom | apps/web/src/pages/ChineseChess.tsx:536-537 | every move listed for a piece starts on its square |
| ChineseChess.LegalOwns | apps/web/src/pages/ChineseChess.tsx:128 | a legal move starts on one of the side's own pieces and ends on the board |
| ChineseChess.MovesUpToHas | apps/web/src/pages/ChineseChess.tsx:533-540 | the moves listed for the first rows are exactly the legal moves of the side's pieces there |
| ChineseChess.TargetsOf | apps/web/src/pages/ChineseChess.tsx:536-537 | the target loops list a piece's legal moves in row-major order |
| ChineseChess.TargetsRow | apps/web/src/pages/ChineseChess.tsx:536-537 | one target row lists the legal moves to that row in column order |
| ChineseChess.ListMoves | apps/web/src/pages/ChineseChess.tsx:533-540 | listMoves's loops return every legal move of the side, in row-major order |
| ChineseChess.RowMoveList | apps/web/src/pages/ChineseChess.tsx:535-537 | one origin row lists the legal moves of the side's pieces there |
| ChineseChess.HasAnyLegalIffMoves | apps/web/src/pages/ChineseChess.tsx:144-149 | the side has a legal move exactly when the move list is not empty |
| ChineseChess.LegalListed | apps/web/src/pages/ChineseChess.tsx:144-149 | a side with a legal move has a non-empty move list |
| ChineseChess.ListedLegal | apps/web/src/pages/ChineseChess.tsx:144-149 | a non-empty move list means the side has a legal move |
| ChineseChess.MoveListed | apps/web/src/pages/ChineseChess.tsx:533-540 | a move is listed exactly when it is legal |
| ChineseChess.HasAnyLegal | apps/web/src/pages/ChineseChess.tsx:144-149 | hasAnyLegal's loops report exactly whether the side has a legal move |
| ChineseChess.RowHasMove | apps/web/src/pages/ChineseChess.tsx:145-146 | one origin row reports exactly whether the side's pieces there have a legal move |
| ChineseChess.MovesRowTail | apps/web/src/pages/ChineseChess.tsx:145-146 | a move found among a row's first columns is a move of the whole row |
| ChineseChess.MovesTail | apps/web/src/pages/ChineseChess.tsx:145-147 | a move found in any row makes the side's move list non-empty |
| ChineseChess.ComputeOverInfo | apps/web/src/pages/ChineseChess.tsx:187-198 | the game is over exactly when the side to move has no legal move; the other side wins and `check` says whether the general is attacked |
| ChineseChess.Game.constructor | apps/web/src/pages/ChineseChess.tsx:166-173 | a new game: the opening position, red to move, nothing selected, no history, the computer off and playing black |
| ChineseChess.Game.Restart | apps/web/src/pages/ChineseChess.tsx:218 | restart brings back the opening position, red to move, no selection and no history, keeping the computer settings |
| ChineseChess.Game.SelectOrMove | apps/web/src/pages/ChineseChess.tsx:200-215 | on the computer's turn a click does nothing; a click on a legal target of the selection makes the move, passes the turn and records the position; otherwise an own piece is selected and anything else clears the selection |
| ChineseChess.Game.ComputerMove | apps/web/src/pages/ChineseChess.tsx:223-234 | on the computer's turn in an unfinished game the selection clears and a given legal move is made, the turn passes and the position is recorded; otherwise nothing changes |
| ChineseChess.Game.Undo | apps/web/src/pages/ChineseChess.tsx:217 | undo brings back the last recorded position and side to move and drops that record; with no history nothing changes |
| ChineseChess.MoveThenUndo | apps/web/src/pages/ChineseChess.tsx:200-217 | a move followed by undo gives back the position, the side to move and the history |
| Gomoku.EmptyBoard | apps/web/src/pages/Gomoku.tsx:69 | a 15 x 15 board of empty points |
| Gomoku.Put | apps/web/src/pages/Gomoku.tsx:358-359 | the copied board with one point set: that point holds the value and the board keeps its size |
| Gomoku.Streak | apps/web/src/pages/Gomoku.tsx:57 | a walk of at most `left` steps counts at most `left` stones |
| Gomoku.WalkStep | apps/web/src/pages/Gomoku.tsx:57-58 | walking n + 1 steps is walking n steps and one more |
| Gomoku.Ahead | apps/web/src/pages/Gomoku.tsx:57 | the points the forward loop pushes are 1..n steps along the direction, nearest first |
| Gomoku.Behind | apps/web/src/pages/Gomoku.tsx:58 | the points the backward loop unshifts are n..1 steps against the direction, farthest first |
| Gomoku.StreakStones | apps/web/src/pages/Gomoku.tsx:57 | every point a streak counts is on the board and holds a `who` stone |
| Gomoku.JoinContiguous | apps/web/src/pages/Gomoku.tsx:56-58 | points walked back, the start, then points walked forward form a contiguous run along the direction |
| Gomoku.LineContiguous | apps/web/src/pages/Gomoku.tsx:56-58 | the line built for one direction is contiguous along it |
| Gomoku.JoinStones | apps/web/src/pages/Gomoku.tsx:56-58 | in such a run the start sits after the backward points and every other point holds a `who` stone |
| Gomoku.LineFacts | apps/web/src/pages/Gomoku.tsx:56-58 | the line through p has p at the index of the backward streak (at most 4), and every other point holds a `who` stone |
| Gomoku.FirstFive | apps/web/src/pages/Gomoku.tsx:59 | the first five points of such a line still contain p, are contiguous, and hold `who` stones apart from p |
| Gomoku.WinFromSome | apps/web/src/pages/Gomoku.tsx:55-60 | a line found from direction k on has five points, contains p, is contiguous along one of the four directions and holds `who` stones apart from p |
| Gomoku.WinFromNone | apps/web/src/pages/Gomoku.tsx:55-61 | no line is found exactly when no direction from k on reaches five points |
| Gomoku.WinFacts | apps/web/src/pages/Gomoku.tsx:52-62 | findWin returns null for `who` 0 and whenever no direction reaches five; a returned line has five contiguous points including p, all `who` stones apart from p |
| Gomoku.RunAhead | apps/web/src/pages/Gomoku.tsx:57 | the forward loop pushes the `who` stones after p, at most four, nearest first |
| Gomoku.RunBehind | apps/web/src/pages/Gomoku.tsx:58 | the backward loop unshifts the `who` stones before p, at most four, farthest first |
| Gomoku.RunLine | apps/web/src/pages/Gomoku.tsx:56-58 | one direction builds the line backward points, p, forward points |
| Gomoku.FindWin | apps/web/src/pages/Gomoku.tsx:52-62 | the loops of findWin compute exactly the specified first five-point line, or none |
| Gomoku.CanWinAt | apps/web/src/pages/Gomoku.tsx:103-108 | canWinAt is false on an occupied point and for `who` 0; the board given is a value and is left as it was |
| Gomoku.CanWinAtMeansFour | apps/web/src/pages/Gomoku.tsx:103-108 | a winning point completes five contiguous points through it, the four others already holding `who` stones |
| Gomoku.OpenEnd | apps/web/src/pages/Gomoku.tsx:113 | an open end counts 0 or 1 |
| Gomoku.StreakIsCappedRun | apps/web/src/pages/Gomoku.tsx:57-58 | the streak findWin looks at is the run of stones capped at four |
| Gomoku.WinIffLongRun | apps/web/src/pages/Gomoku.tsx:52-62 | findWin finds a line exactly when some direction has at least five stones in a row through p (overlines count) |
| Gomoku.CountSide | apps/web/src/pages/Gomoku.tsx:111-113 | one side of countLine counts the run of `who` stones and whether its end is an empty point |
| Gomoku.CountLine | apps/web/src/pages/Gomoku.tsx:110-120 | countLine returns 1 plus both runs, so total >= 1, and open, the number of empty ends, in 0..2 |
| Gomoku.RunFacts | apps/web/src/pages/Gomoku.tsx:112 | every point of a run holds a `who` stone and the point after it does not |
| Gomoku.HasNeighbour | apps/web/src/pages/Gomoku.tsx:158-167 | hasNeighbor is true exactly when some other point within Chebyshev distance `dist` holds a stone |
| Gomoku.HasAnyStone | apps/web/src/pages/Gomoku.tsx:171-172 | the opening scan of genCandidates finds a stone exactly when the board has one |
| Gomoku.CandidatesInRowExact | apps/web/src/pages/Gomoku.tsx:177-183 | the candidates of one row are exactly its empty points with a stone within two |
| Gomoku.CandidatesUpToExact | apps/web/src/pages/Gomoku.tsx:177-183 | the candidates of the first r rows are exactly their empty points with a stone within two |
| Gomoku.CandidatesExact | apps/web/src/pages/Gomoku.tsx:177-183 | the candidate list holds exactly the empty points with a stone within two |
| Gomoku.InsertDescPerm | apps/web/src/pages/Gomoku.tsx:184 | inserting into the sorted list adds the point and nothing else |
| Gomoku.InsertDescFacts | apps/web/src/pages/Gomoku.tsx:184 | inserting keeps the list in descending score order |
| Gomoku.SortDescFacts | apps/web/src/pages/Gomoku.tsx:184 | the sort orders by descending score and is a permutation |
| Gomoku.GenCandidatesFacts | apps/web/src/pages/Gomoku.tsx:169-186 | genCandidates returns only the centre (7, 7) on an empty board; otherwise exactly the empty points with a stone within two, sorted by descending score |
| Gomoku.GenCandidates | apps/web/src/pages/Gomoku.tsx:169-186 | the loops of genCandidates compute exactly the specified list |
| Gomoku.HistoryPut | apps/web/src/pages/Gomoku.tsx:358-360 | placing a stone on an empty point and recording it keeps the stones equal to the move history |
| Gomoku.HistoryPop | apps/web/src/pages/Gomoku.tsx:400-406 | clearing the last recorded stone and dropping it keeps the stones equal to the move history |
| Gomoku.WinLength | apps/web/src/pages/Gomoku.tsx:59 | a reported line has five points |
| Gomoku.WinIsFiveStones | apps/web/src/pages/Gomoku.tsx:361-363 | once p holds the stone, a reported line is five points through p, all holding it |
| Gomoku.PlaceResultSound | apps/web/src/pages/Gomoku.tsx:355-382 | place extends the move history by the stones it places and keeps it equal to the stones on the board; a winner is declared exactly when a line is reported, which has five points |
| Gomoku.PlaceResultWinner | apps/web/src/pages/Gomoku.tsx:361-374 | a declared winner owns all five points of the winning line, which include the last stone placed |
| Gomoku.PlaceOn | apps/web/src/pages/Gomoku.tsx:358-381 | the body of place after its guard computes the specified outcome, which is sound |
| Gomoku.Game.constructor | apps/web/src/pages/Gomoku.tsx:69-76 | an empty board, black to move, no winner, no history, no winning line |
| Gomoku.Game.Restart | apps/web/src/pages/Gomoku.tsx:411-414 | restart empties the board, gives black the move and clears winner, history and winning line, keeping the game mode |
| Gomoku.Game.Place | apps/web/src/pages/Gomoku.tsx:355-382 | place is a no-op once there is a winner or on an occupied point, and otherwise produces the specified outcome |
| Gomoku.Game.PlaceFresh | apps/web/src/pages/Gomoku.tsx:357-381 | the body of place once its guard has passed produces the specified outcome |
| Gomoku.Game.Adopt | apps/web/src/pages/Gomoku.tsx:363-381 | the setState calls take on the computed outcome |
| Gomoku.Game.Undo | apps/web/src/pages/Gomoku.tsx:400-409 | undo is a no-op with no moves or after a win; otherwise the last stone is cleared, the history drops it, the turn flips and the winning line is cleared |
| Gomoku.Game.ComputerOpens | apps/web/src/pages/Gomoku.tsx:384-398 | with the computer on black, no winner and no moves, its first stone is placed and white is to move; otherwise nothing changes |
| Gomoku.PlaceThenUndo | apps/web/src/pages/Gomoku.tsx:355-409 | in a two-player game, a placement that does not win followed by undo restores board, history and turn |
| Gomoku.Dirs4AreDirs | apps/web/src/pages/Gomoku.tsx:101 | the four line directions are unit steps, and so are their opposites |
| Reversi.Opponent | apps/web/src/pages/Reversi.tsx:31 | opponent gives a colour, and on a colour the other one |
| Reversi.OpponentInvolution | apps/web/src/pages/Reversi.tsx:31 | opponent of opponent is the colour itself |
| Reversi.MakeBoard | apps/web/src/pages/Reversi.tsx:21-25 | an 8 x 8 board with exactly four discs, black on (3,4) and (4,3), white on (3,3) and (4,4), and every other square empty |
| Reversi.DirsAreDirs | apps/web/src/pages/Reversi.tsx:10-19 | the eight directions are unit steps other than (0, 0) |
| Reversi.WalkRun | apps/web/src/pages/Reversi.tsx:38-40 | the inner while walks exactly the run of opponent discs and stops on the first square after it |
| Reversi.RunStep | apps/web/src/pages/Reversi.tsx:40 | on an opponent disc the run is that square followed by the run from the next square, with the same end |
| Reversi.CollectFlips | apps/web/src/pages/Reversi.tsx:33-44 | collectFlips returns exactly the specified flip list |
| Reversi.FlipsUpToNext | apps/web/src/pages/Reversi.tsx:37-42 | one pass of the direction loop appends that direction's flips |
| Reversi.FlipsAlong | apps/web/src/pages/Reversi.tsx:38-41 | one pass walks the run next to the square and keeps it only when it is non-empty and closed by a disc of the mover |
| Reversi.DirFlipsOf | apps/web/src/pages/Reversi.tsx:40-41 | given the walked run and its stopping square, the direction's flips are the run when it is non-empty and closed by the mover, and nothing otherwise |
| Reversi.RunIsOpponent | apps/web/src/pages/Reversi.tsx:40 | every square of a run is on the board and holds an opponent disc |
| Reversi.FlipsUpToFacts | apps/web/src/pages/Reversi.tsx:37-42 | every flip found so far is an in-bounds opponent disc on a run next to the square that a disc of the mover closes |
| Reversi.DirFlipsFlanked | apps/web/src/pages/Reversi.tsx:40-41 | the flips along one direction are opponent discs bracketed along it |
| Reversi.FlipsFacts | apps/web/src/pages/Reversi.tsx:33-44 | collectFlips returns nothing for an occupied square, and every flip is an in-bounds opponent disc bracketed by a disc of the mover |
| Reversi.FlipGrid | apps/web/src/pages/Reversi.tsx:48-49 | the table of flip lists has one list per square |
| Reversi.FlipGridAt | apps/web/src/pages/Reversi.tsx:49 | entry (r, c) of the table is collectFlips at (r, c) |
| Reversi.LegalMoves | apps/web/src/pages/Reversi.tsx:46-53 | legalMoves returns exactly the specified list |
| Reversi.LegalUpToNext | apps/web/src/pages/Reversi.tsx:48 | one row of the outer loop appends that row's moves |
| Reversi.LegalInRowNext | apps/web/src/pages/Reversi.tsx:48-50 | one column of the inner loop appends that square's move, if any |
| Reversi.CellMove | apps/web/src/pages/Reversi.tsx:49-50 | the inner loop body lists the square's move exactly when it flips something |
| Reversi.RowMoves | apps/web/src/pages/Reversi.tsx:48-51 | the inner loop lists the moves of row r in column order |
| Reversi.LegalInRowExact | apps/web/src/pages/Reversi.tsx:48-51 | among its first k columns a row lists exactly the squares with a non-empty flip list, each with that list |
| Reversi.LegalUpToExact | apps/web/src/pages/Reversi.tsx:48-51 | the first k rows list exactly their squares with a non-empty flip list |
| Reversi.LegalExact | apps/web/src/pages/Reversi.tsx:46-53 | legalMoves lists exactly the squares with a non-empty flip list, each with that list |
| Reversi.LegalSound | apps/web/src/pages/Reversi.tsx:46-53 | a listed move is in bounds and carries its square's non-empty flip list |
| Reversi.LegalComplete | apps/web/src/pages/Reversi.tsx:46-53 | every square with a non-empty flip list is listed |
| Reversi.LegalOnEmpty | apps/web/src/pages/Reversi.tsx:33-53 | every listed move is on an empty square |
| Reversi.FlipsOnlyOnEmpty | apps/web/src/pages/Reversi.tsx:34 | a square that flips something is empty |
| Reversi.LegalNonEmpty | apps/web/src/pages/Reversi.tsx:46-53 | the list is non-empty exactly when some square flips something |
| Reversi.GameOverIff | apps/web/src/pages/Reversi.tsx:64 | gameOver holds exactly when neither colour has a square that flips |
| Reversi.ApplyMove | apps/web/src/pages/Reversi.tsx:55-60 | applyMove on a copy gives the board with the played square and every flip set to the mover; the input board is a value and is not changed |
| Reversi.AppliedStones | apps/web/src/pages/Reversi.tsx:55-60 | after a move the mover's discs are the old ones plus the played square and the flips, and the opponent's are the old ones minus the flips: no other square changes colour |
| Reversi.AppliedCounts | apps/web/src/pages/Reversi.tsx:55-62 | the mover's count rises by the number of flipped squares plus one and the opponent's falls by the number of flipped squares |
| Reversi.GainLose | apps/web/src/pages/Reversi.tsx:55-62 | adding the played square and the flips to disjoint discs, and taking the flips away from the opponent, adds and subtracts their sizes |
| Reversi.ApplyCounts | apps/web/src/pages/Reversi.tsx:46-62 | a legal move adds the flips plus one to the mover and takes the flips from the opponent |
| Reversi.StonesBeforeStep | apps/web/src/pages/Reversi.tsx:62 | one square of the scan adds it to its colour's count when it holds that colour |
| Reversi.StonesBeforeNextRow | apps/web/src/pages/Reversi.tsx:62 | finishing a row of the scan is starting the next one |
| Reversi.StonesBeforeEnds | apps/web/src/pages/Reversi.tsx:62 | the scan starts at no disc and ends at every disc of the colour |
| Reversi.ScoreOf | apps/web/src/pages/Reversi.tsx:62 | scoreOf counts the black and the white discs, which together never exceed 64 |
| Reversi.CountRow | apps/web/src/pages/Reversi.tsx:62 | one row of scoreOf adds that row's discs of each colour, at most 8 in all |
| Reversi.IsOver | apps/web/src/pages/Reversi.tsx:64 | the page's gameOver test agrees with the specified one |
| Reversi.LookupMove | apps/web/src/pages/Reversi.tsx:169-183 | the `valid` lookup finds a move at (r, c) exactly when it is in bounds and flips something, and then carries that flip list |
| Reversi.FindSquare | apps/web/src/pages/Reversi.tsx:172-182 | the search returns the index of a move at (r, c), or the length of the list when there is none |
| Reversi.TurnAfter | apps/web/src/pages/Reversi.tsx:186-196 | the opponent moves next unless it has no move while the mover still has one; if neither can move the turn still passes |
| Reversi.RecordedPush | apps/web/src/pages/Reversi.tsx:184 | saving one more well-formed position keeps the history well-formed, also once the last entry is dropped |
| Reversi.Game.constructor | apps/web/src/pages/Reversi.tsx:159-162 | restart: the starting board, black to move, no history, no last move |
| Reversi.Game.Place | apps/web/src/pages/Reversi.tsx:179-197 | place is ignored when the game is over or the square flips nothing; otherwise the position is saved, the move is applied with exactly its flips, `last` is the square and the turn follows the pass rule |
| Reversi.Game.Undo | apps/web/src/pages/Reversi.tsx:199-204 | undo restores the saved board and turn and drops that entry; with no history nothing changes |
| Reversi.PlaceThenUndo | apps/web/src/pages/Reversi.tsx:179-204 | a legal move followed by undo gives back board, turn and history |
| Blackjack.Deck | apps/web/src/pages/Blackjack.tsx:14 | one deck is 52 cards |
| Blackjack.Ordered | apps/web/src/pages/Blackjack.tsx:13-15 | `decks` decks before shuffling are 52 cards each |
| Blackjack.DeckDistinctValid | apps/web/src/pages/Blackjack.tsx:11-14 | one deck holds every card of value 1..13 in each of the four suits exactly once and nothing else |
| Blackjack.MultisetOfDistinct | apps/web/src/pages/Blackjack.tsx:14 | in a list without repeats every element occurs once |
| Blackjack.OrderedCounts | apps/web/src/pages/Blackjack.tsx:13-15 | the unshuffled shoe holds every card exactly `decks` times and nothing else |
| Blackjack.MadeShoeIsShoe | apps/web/src/pages/Blackjack.tsx:10-22 | a permutation of six ordered decks is a shoe |
| Blackjack.MakeShoe | apps/web/src/pages/Blackjack.tsx:10-22 | makeShoe returns 52 x decks cards, a permutation of the ordered decks, whatever the random draws |
| Blackjack.PushDeck | apps/web/src/pages/Blackjack.tsx:14 | the inner loops push one deck, suit by suit, ace to king |
| Blackjack.Shuffle | apps/web/src/pages/Blackjack.tsx:17-20 | the Fisher-Yates loop only reorders the cards |
| Blackjack.ReduceFacts | apps/web/src/pages/Blackjack.tsx:35-38 | the loop turns aces from 11 into 1, 10 points each, only while the total is over 21; an ace left at 11 means the total is at most 21 |
| Blackjack.HandValueFacts | apps/web/src/pages/Blackjack.tsx:24-41 | the total is the raw sum less 10 for some number of aces; a soft hand is at most 21; over 21 every ace counts 1; an ace is counted 1 only when 11 would exceed 21 |
| Blackjack.ComputeHandValue | apps/web/src/pages/Blackjack.tsx:24-41 | the two loops of handValue compute the specified total and softness |
| Blackjack.BlackjackIffAceAndTen | apps/web/src/pages/Blackjack.tsx:48-50 | two cards make a blackjack exactly when one is an ace and the other a ten or a court card |
| Blackjack.TwoCards | apps/web/src/pages/Blackjack.tsx:27-33 | a two-card hand's raw sum and ace count are those of its cards |
| Blackjack.DealerPlayStops | apps/web/src/pages/Blackjack.tsx:148-157 | the dealer stops on 17 or more, and never on a soft 17 under H17 |
| Blackjack.DealerPlayShape | apps/web/src/pages/Blackjack.tsx:148-157 | the dealer's new cards are the end of the shoe popped in order, and the shoe keeps the rest |
| Blackjack.ShapeStep | apps/web/src/pages/Blackjack.tsx:151-152 | taking the last card and then the end of the rest is taking the end of the shoe |
| Blackjack.DealerPlayTakes | apps/web/src/pages/Blackjack.tsx:148-157 | playing out the dealer creates and loses no card |
| Blackjack.PlayDealer | apps/web/src/pages/Blackjack.tsx:148-157 | the loop of playDealer computes the specified dealer play, or reports running out of cards |
| Blackjack.Settle | apps/web/src/pages/Blackjack.tsx:159-169 | settle reports a dealer bust exactly above 21, and otherwise a win, loss or push exactly as the player's total is above, below or equal to the dealer's |
| Blackjack.SettleSwap | apps/web/src/pages/Blackjack.tsx:159-169 | with neither total over 21, swapping them swaps win and loss and keeps a push |
| Blackjack.StaleDoubleLoses | apps/web/src/pages/Blackjack.tsx:130-145 | 5 and 6 doubled into a ten make 21 against the dealer's 20, yet the page reports a doubled loss; the corrected settlement reports a doubled win |
| Blackjack.DoubleOutcomeFacts | apps/web/src/pages/Blackjack.tsx:130-146 | a double ends in a player bust exactly when the doubled hand exceeds 21, and otherwise in a doubled settlement |
| Blackjack.NaturalOutcome | apps/web/src/pages/Blackjack.tsx:81-91 | after a deal the round ends exactly when a hand is a blackjack: both, the player's only, or the dealer's only |
| Blackjack.DrawConserves | apps/web/src/pages/Blackjack.tsx:102-103 | popping the shoe onto a hand keeps every card |
| Blackjack.DealOut | apps/web/src/pages/Blackjack.tsx:68-92 | deal's pops and natural checks compute the specified table |
| Blackjack.DealFacts | apps/web/src/pages/Blackjack.tsx:68-92 | a deal takes four cards, two to each hand, keeps every card, opens doubling, and ends the round exactly on a natural |
| Blackjack.HitFacts | apps/web/src/pages/Blackjack.tsx:100-111 | a hit is ignored after the round; otherwise it adds one card, closes doubling, keeps every card and ends the round exactly on a bust |
| Blackjack.StandFacts | apps/web/src/pages/Blackjack.tsx:113-128 | standing keeps every card, ends the round with the player's hand unchanged, leaves the dealer on 17 or more and settles the two totals |
| Blackjack.Regroup | apps/web/src/pages/Blackjack.tsx:130-145 | the card bookkeeping of a double: what the dealer drew came from what the player left in the shoe |
| Blackjack.DoubleConserves | apps/web/src/pages/Blackjack.tsx:130-145 | doubling keeps every card |
| Blackjack.DoubleFacts | apps/web/src/pages/Blackjack.tsx:130-146 | doubling is ignored after the round or once doubling is closed; otherwise the player gets exactly a third card, the round ends and doubling closes, with the corrected settlement |
| Blackjack.Game.constructor | apps/web/src/pages/Blackjack.tsx:54-97 | the page opens with a deal from a fresh shoe under S17 |
| Blackjack.Game.Deal | apps/web/src/pages/Blackjack.tsx:68-92 | deal(fresh) draws from a new shoe when asked or when fewer than 20 cards remain, and otherwise from the current one |
| Blackjack.Game.Put | apps/web/src/pages/Blackjack.tsx:73-78 | the setState calls lay the table out |
| Blackjack.Game.Hit | apps/web/src/pages/Blackjack.tsx:100-111 | the page state becomes the table after a hit |
| Blackjack.Game.Stand | apps/web/src/pages/Blackjack.tsx:113-128 | the page state becomes the table after standing |
| Blackjack.Game.DoubleDown | apps/web/src/pages/Blackjack.tsx:130-146 | the page state becomes the table after the corrected double |
| Blackjack.Game.ToggleRule | apps/web/src/pages/Blackjack.tsx:209 | the S17 / H17 switch flips the rule and leaves the table alone |
| PokerArrange.SuitRow | apps/web/src/pages/PokerArrange.tsx:64 | `suitOrder.indexOf` gives the row 0..3 whose suit is the card's |
| PokerArrange.SuitRowUnique | apps/web/src/pages/PokerArrange.tsx:19 | each suit has exactly one row |
| PokerArrange.EmptyGrid | apps/web/src/pages/PokerArrange.tsx:33 | a 4 x 13 grid of empty cells |
| PokerArrange.Put | apps/web/src/pages/PokerArrange.tsx:67 | writing one cell of the copied grid keeps it 4 x 13 |
| PokerArrange.Deck | apps/web/src/pages/PokerArrange.tsx:21-25 | the built deck has 52 cards |
| PokerArrange.BuildDeck | apps/web/src/pages/PokerArrange.tsx:21-25 | the nested loops push the cards suit by suit, ace to king |
| PokerArrange.DeckFacts | apps/web/src/pages/PokerArrange.tsx:21-25 | the deck holds 52 valid, distinct cards, every suit and rank once |
| PokerArrange.IsWin | apps/web/src/pages/PokerArrange.tsx:43-53 | the scan reports a win exactly when every cell holds the card of its row's suit and its column's rank |
| PokerArrange.WonTargets | apps/web/src/pages/PokerArrange.tsx:43-53 | in a won grid every card sits on its target cell |
| PokerArrange.LocateFrom | apps/web/src/pages/PokerArrange.tsx:104-110 | the scan from index k finds a cell holding the card, or the card is on no cell from k on |
| PokerArrange.Locate | apps/web/src/pages/PokerArrange.tsx:103-111 | a found position holds the card; nothing found means the card is on no cell |
| PokerArrange.FindCardPosition | apps/web/src/pages/PokerArrange.tsx:103-111 | findCardPosition's loops return the first cell in row-major order holding the card, or nothing |
| PokerArrange.Flat | apps/web/src/pages/PokerArrange.tsx:40 | the flattened grid lists the 52 cells in row-major order |
| PokerArrange.FlatPut | apps/web/src/pages/PokerArrange.tsx:67 | writing a cell writes the matching entry of the flattened grid |
| PokerArrange.PutCount | apps/web/src/pages/PokerArrange.tsx:67 | writing a cell trades the cell's old card for the new contents in the count of cards on the grid |
| PokerArrange.NotOnGrid | apps/web/src/pages/PokerArrange.tsx:103-111 | a card the search does not find is on no cell |
| PokerArrange.OnGridAt | apps/web/src/pages/PokerArrange.tsx:103-111 | a card found on a cell is counted on the grid |
| PokerArrange.Without | apps/web/src/pages/PokerArrange.tsx:86 | the filter removes every copy of the card and nothing else |
| PokerArrange.AutoPlace | apps/web/src/pages/PokerArrange.tsx:62-100 | autoPlaceCard puts the card on its target cell, saves the position and clears the selection |
| PokerArrange.AutoPlaceConserves | apps/web/src/pages/PokerArrange.tsx:62-100 | auto-placing a card on the table keeps every card's count |
| PokerArrange.AutoPlaceFromGrid | apps/web/src/pages/PokerArrange.tsx:69-81 | from the grid the card moves or swaps with its target's card, keeping every card |
| PokerArrange.MoveWithin | apps/web/src/pages/PokerArrange.tsx:71-80 | trading the contents of two cells keeps every card of the grid |
| PokerArrange.AutoPlaceFromStock | apps/web/src/pages/PokerArrange.tsx:82-95 | from the stock the card leaves it and a displaced card goes on top of the stock, keeping every card |
| PokerArrange.WonIsFixed | apps/web/src/pages/PokerArrange.tsx:62-100 | once the grid is won, auto-placing any card moves nothing |
| PokerArrange.CellClick | apps/web/src/pages/PokerArrange.tsx:114-134 | a cell click keeps the grid 4 x 13 |
| PokerArrange.CellClickFacts | apps/web/src/pages/PokerArrange.tsx:114-134 | a cell click keeps every card: a filled cell's card goes on top of the stock; an empty cell receives the selected card, which leaves the stock, or else the stock's top card |
| PokerArrange.ClickFilled | apps/web/src/pages/PokerArrange.tsx:116-122 | clicking a filled cell empties it and puts its card on top of the stock |
| PokerArrange.ClickSelected | apps/web/src/pages/PokerArrange.tsx:124-130 | clicking an empty cell with a selection places the selected card and removes it from the stock |
| PokerArrange.ClickTop | apps/web/src/pages/PokerArrange.tsx:132-133 | clicking an empty cell without a selection places the stock's top card |
| PokerArrange.DropFromStockAsWritten | apps/web/src/pages/PokerArrange.tsx:146-149 | the drop as written keeps the grid 4 x 13 |
| PokerArrange.DropOnFilledLosesCard | apps/web/src/pages/PokerArrange.tsx:146-149 | as written a stock card dropped on a filled cell is removed from the stock yet not placed: the grid is unchanged and the table holds fewer of it |
| PokerArrange.DropFromStock | apps/web/src/pages/PokerArrange.tsx:146-149 | the corrected drop keeps the grid 4 x 13 |
| PokerArrange.DropFromStockConserves | apps/web/src/pages/PokerArrange.tsx:146-149 | the corrected drop keeps every card and places the card exactly when the cell is empty |
| PokerArrange.DropFromGrid | apps/web/src/pages/PokerArrange.tsx:150-153 | a grid-to-grid drop keeps the grid 4 x 13 |
| PokerArrange.DropFromGridSwaps | apps/web/src/pages/PokerArrange.tsx:150-153 | a grid-to-grid drop trades the two cells' contents and keeps every card |
| PokerArrange.Undo | apps/web/src/pages/PokerArrange.tsx:56 | undo with no history changes nothing; otherwise it drops the last entry and clears the selection |
| PokerArrange.UndoReverts | apps/web/src/pages/PokerArrange.tsx:55-56 | every move followed by undo gives back the grid, the stock and the history it started from |
| PokerArrange.Game.constructor | apps/web/src/pages/PokerArrange.tsx:33-36 | an empty grid, the shuffled deck as stock, no selection, no history |
| PokerArrange.Game.Reset | apps/web/src/pages/PokerArrange.tsx:57 | reset empties the grid, deals a freshly shuffled deck to the stock and clears history and selection |
| PokerArrange.Game.SelectTop | apps/web/src/pages/PokerArrange.tsx:262 | clicking the stock's top card selects it and changes nothing else |
| PokerArrange.Game.AutoPlaceCard | apps/web/src/pages/PokerArrange.tsx:62-100 | the page state becomes the auto-placed table |
| PokerArrange.Game.OnCellClick | apps/web/src/pages/PokerArrange.tsx:114-134 | the page state becomes the table after the cell click |
| PokerArrange.Game.OnDropFromStock | apps/web/src/pages/PokerArrange.tsx:142-155 | the page state becomes the table after the corrected drop from the stock |
| PokerArrange.Game.OnDropFromGrid | apps/web/src/pages/PokerArrange.tsx:142-155 | the page state becomes the table after the grid-to-grid drop |
| PokerArrange.Game.UndoMove | apps/web/src/pages/PokerArrange.tsx:56 | the page state becomes the undone table |
| BubbleWrap.DivModUnique | apps/web/src/pages/BubbleWrap.tsx:220 | cell `q * cols + m` has row q and column m, so `floor(index / cols)` and `index % cols` recover them |
| BubbleWrap.FlatRowCol | apps/web/src/pages/BubbleWrap.tsx:220 | every cell of the sheet has a row below rows and a column below cols |
| BubbleWrap.FlatBound | apps/web/src/pages/BubbleWrap.tsx:213-225 | `r * cols + c` of an on-sheet row and column is a cell of the sheet |
| BubbleWrap.BuildGrid | apps/web/src/pages/BubbleWrap.tsx:131-140 | buildGrid's nested loops make r x c unpopped cells whose ids are their positions |
| BubbleWrap.Unpopped | apps/web/src/pages/BubbleWrap.tsx:183 | the set holds exactly the indices of bubbles not yet popped |
| BubbleWrap.Indices | apps/web/src/pages/BubbleWrap.tsx:161-162 | the indices below `rows * cols`, as many as there are cells |
| BubbleWrap.AllWhole | apps/web/src/pages/BubbleWrap.tsx:136 | on a freshly built sheet every bubble is whole |
| BubbleWrap.PatternSize | apps/web/src/pages/BubbleWrap.tsx:160 | a pattern asks for `18 + floor(roll * 8)` bubbles, 18 to 25 |
| BubbleWrap.RegenAsWritten | apps/web/src/pages/BubbleWrap.tsx:157-166 | as written the draws add distinct indices of the whole sheet, popped or not, until the pattern has its size |
| BubbleWrap.Regen | apps/web/src/pages/BubbleWrap.tsx:157-166 | the corrected draw picks only whole bubbles, as many as asked for or as there are |
| BubbleWrap.PopKeepsPattern | apps/web/src/pages/BubbleWrap.tsx:201-203 | a pattern on whole bubbles stays on whole bubbles after a pop; popping one of its bubbles removes exactly that one |
| BubbleWrap.PatternClears | apps/web/src/pages/BubbleWrap.tsx:201-207 | with the corrected draw, popping the pattern's bubbles in turn empties it, which earns the 50-point bonus |
| BubbleWrap.StuckPatternAsWritten | apps/web/src/pages/BubbleWrap.tsx:181-208 | as written a popped bubble drawn into the pattern can never be popped again, so the pattern never empties |
| BubbleWrap.PoppedInPatternAsWritten | apps/web/src/pages/BubbleWrap.tsx:157-166 | as written, on a sheet whose first bubble is popped the draw may choose it: such a stuck pattern is possible |
| BubbleWrap.Tap | apps/web/src/pages/BubbleWrap.tsx:186-197 | a pop within 350 ms of the last one adds one to the combo, otherwise the combo restarts at 1; the best combo never falls below it |
| BubbleWrap.QuickRun | apps/web/src/pages/BubbleWrap.tsx:186-197 | n pops each within 350 ms of the one before raise the combo by n, and the best combo keeps up |
| BubbleWrap.Game.constructor | apps/web/src/pages/BubbleWrap.tsx:112-142 | a 10 x 14 classic sheet of whole bubbles, score 0, no combo, 60 seconds, no power armed |
| BubbleWrap.Game.Burst | apps/web/src/pages/BubbleWrap.tsx:182-184 | a pop marks exactly that one bubble popped |
| BubbleWrap.Game.PopOne | apps/web/src/pages/BubbleWrap.tsx:181-209 | popOne acts only on a whole bubble: it pops it, adds `1 + floor(combo / 5)`, updates the combo, in challenge mode strikes it off the pattern and, when the pattern empties, adds 50 and draws a new one |
| BubbleWrap.Game.PowerRow | apps/web/src/pages/BubbleWrap.tsx:212-215 | the row power pops exactly the bubbles of the clicked row |
| BubbleWrap.Game.PowerCol | apps/web/src/pages/BubbleWrap.tsx:216-218 | the column power pops exactly the bubbles of the clicked column |
| BubbleWrap.Game.PopCell | apps/web/src/pages/BubbleWrap.tsx:217 | popping the cell at row r, column c pops exactly that bubble |
| BubbleWrap.Game.ColumnCell | apps/web/src/pages/BubbleWrap.tsx:217 | `r * cols + col` is the one cell of row r in column col |
| BubbleWrap.Game.PowerBomb | apps/web/src/pages/BubbleWrap.tsx:219-228 | the bomb pops exactly the on-sheet bubbles of the 3 x 3 block around the clicked cell, at most 9 |
| BubbleWrap.Game.BombRow | apps/web/src/pages/BubbleWrap.tsx:222-227 | one row of the bomb pops exactly the block's cells in that row |
| BubbleWrap.Game.BombCell | apps/web/src/pages/BubbleWrap.tsx:223-225 | an off-sheet block cell is skipped; an on-sheet one is popped |
| BubbleWrap.Game.BlockCell | apps/web/src/pages/BubbleWrap.tsx:223-225 | a block offset names a cell exactly when its row and column are on the sheet, and then it is `rr * cols + cc` |
| BubbleWrap.Game.Strike | apps/web/src/pages/BubbleWrap.tsx:230-236 | a click pops exactly the armed power's cells, or the clicked cell without one |
| BubbleWrap.Game.OnCellClick | apps/web/src/pages/BubbleWrap.tsx:230-236 | a click after the timed round's end does nothing; otherwise it pops the armed power's cells and disarms the power |
| BubbleWrap.Game.TogglePower | apps/web/src/pages/BubbleWrap.tsx:313-315 | a power button arms its power, and a second press disarms it; the sheet, score, mode, pattern, combo tally, clock and size stay |
| BubbleWrap.Game.Tick | apps/web/src/pages/BubbleWrap.tsx:143-149 | the clock runs down one second at a time only in timed mode while time is left; mode, sheet, score, pattern, power, combo tally and size stay |
| BubbleWrap.Game.SheetSize | apps/web/src/pages/BubbleWrap.tsx:112-113 | a sheet of at least 10 x 14 has at least 140 cells, room for any pattern |
| BubbleWrap.Game.NewPattern | apps/web/src/pages/BubbleWrap.tsx:157-166 | a new pattern lies on whole bubbles and, on a fresh sheet, has its full size |
| BubbleWrap.Game.ResetAll | apps/web/src/pages/BubbleWrap.tsx:172-177 | reset builds a fresh sheet, clears score and combos, sets the clock to 60 and draws a new pattern in challenge mode |
| BubbleWrap.Game.SetMode | apps/web/src/pages/BubbleWrap.tsx:287-305 | a mode button switches the mode and resets: a fresh sheet, score 0, the combos cleared with the last tap time kept, the clock at 60, power and size kept; the challenge button draws a pattern, the reset draws one when leaving the challenge mode, and otherwise the pattern stays |
| BubbleWrap.Game.AddRow | apps/web/src/pages/BubbleWrap.tsx:306 | one more row up to 18, with a fresh sheet when it grows and a new pattern in challenge mode; score, mode, power, clock and combo tally stay, and at the cap nothing changes |
| BubbleWrap.Game.AddCol | apps/web/src/pages/BubbleWrap.tsx:307 | one more column up to 24, with a fresh sheet when it grows and a new pattern in challenge mode; score, mode, power, clock and combo tally stay, and at the cap nothing changes |
| Pacman.MapsFacts | apps/web/src/pages/Pacman.tsx:19-88 | every maze is 17 x 9 and open at Pac-Man's start and at the ghosts' home cell |
| Pacman.CountUpdateOther | apps/web/src/pages/Pacman.tsx:507-508 | overwriting a character that is not the counted one with another such character leaves the count alone |
| Pacman.RowEat | apps/web/src/pages/Pacman.tsx:507-508 | blanking a dot or power pellet removes exactly one pellet from its row |
| Pacman.PelletsRow | apps/web/src/pages/Pacman.tsx:231 | replacing one row changes the maze's pellet count by the difference of the two rows' counts |
| Pacman.Eat | apps/web/src/pages/Pacman.tsx:506-509 | eating a pellet removes exactly one from the maze, so `remaining` keeps matching the pellets left |
| Pacman.ResolvedGhosts | apps/web/src/pages/Pacman.tsx:465-470 | each ghost goes home if it is frightened and on Pac-Man's cell, and stays as it is otherwise |
| Pacman.MeetFacts | apps/web/src/pages/Pacman.tsx:463-480 | after the meeting no frightened ghost is on Pac-Man's cell, ghosts elsewhere are untouched, and the eaten plus the catching ghosts are exactly those on his cell |
| Pacman.MeetGhosts | apps/web/src/pages/Pacman.tsx:463-480 | resolveCollision's loop: 200 points per frightened ghost on the cell, one life and a return to the start per normal one, game over once lives reach zero |
| Pacman.Best | apps/web/src/pages/Pacman.tsx:534-548 | the stable ascending sort's head is an option with the lowest score |
| Pacman.BestByDistance | apps/web/src/pages/Pacman.tsx:534-548 | with the direction bonuses ranked by distance, the chosen option is one nearest to Pac-Man, or farthest when fleeing |
| Pacman.WalkableDirsFacts | apps/web/src/pages/Pacman.tsx:525 | the filter keeps exactly the candidate directions leading onto a walkable cell |
| Pacman.WalkableDirsDistinct | apps/web/src/pages/Pacman.tsx:525 | filtering candidates without repeats gives walkable directions without repeats |
| Pacman.WithoutFacts | apps/web/src/pages/Pacman.tsx:530 | dropping the reversal keeps every other direction and only those |
| Pacman.UnreversedFacts | apps/web/src/pages/Pacman.tsx:528-531 | the reversal is dropped only when there is another choice: what remains is walkable, empty only when nothing was, and holds the reversal only when it was the one way |
| Pacman.DirsDistinct | apps/web/src/pages/Pacman.tsx:522 | the four candidate directions are distinct |
| Pacman.OptionsFacts | apps/web/src/pages/Pacman.tsx:522-531 | a ghost's options are walkable neighbours among the four directions; none only at a dead stop; the reversal only as the sole way out |
| Pacman.WithoutOneOfTwo | apps/web/src/pages/Pacman.tsx:529-530 | dropping one direction from two or more distinct ones leaves some, never the dropped one |
| Pacman.WalkableDistinct | apps/web/src/pages/Pacman.tsx:525 | the first two walkable directions differ |
| Pacman.AllWalkable | apps/web/src/pages/Pacman.tsx:522-525 | every walkable direction is one of the four and leads onto an open cell of the maze |
| Pacman.Pick | apps/web/src/pages/Pacman.tsx:548 | the pick is the best option, or standing still when there is none |
| Pacman.TurnKeeps | apps/web/src/pages/Pacman.tsx:520-551 | a ghost on an open cell with no negative fright stays so after its step |
| Pacman.TurnFacts | apps/web/src/pages/Pacman.tsx:520-551 | the ghost moves by its new direction onto an open cell (or stays put with nowhere to go), reverses only at a dead end, and its fright counts down while positive |
| Pacman.StepFacts | apps/web/src/pages/Pacman.tsx:522-551 | moving by an option lands on a walkable neighbour and reverses only when that is the one way out |
| Pacman.GhostChases | apps/web/src/pages/Pacman.tsx:533-548 | as intended a normal ghost takes an option nearest to Pac-Man and a frightened one an option farthest from him |
| Pacman.NormalGhostFleesAsWritten | apps/web/src/pages/Pacman.tsx:539-546 | as written a normal ghost scores `-dist` and the ascending sort picks an option farthest from Pac-Man |
| Pacman.FleeingExample | apps/web/src/pages/Pacman.tsx:539-548 | a concrete ghost two columns from Pac-Man: the written scoring steps it away, the intended one towards him |
| Pacman.GhostCount | apps/web/src/pages/Pacman.tsx:274 | a level has `min(level, 4)` ghosts |
| Pacman.GhostInterval | apps/web/src/pages/Pacman.tsx:239-240 | ghosts step every 240 ms (140 in challenge mode) less 10 per level, never under 90 |
| Pacman.IntervalMonotone | apps/web/src/pages/Pacman.tsx:239-240 | ghosts never get slower as the level goes up |
| Pacman.MapIndex | apps/web/src/pages/Pacman.tsx:121 | level l plays maze `(l - 1) % 6` |
| Pacman.MapCycle | apps/web/src/pages/Pacman.tsx:121 | the mazes come round again every six levels |
| Pacman.SpawnAsWritten | apps/web/src/pages/Pacman.tsx:275-279 | ghost i starts at column `COLS - 2 - i % 2`, row `ROWS - 2 - floor(i / 2)` |
| Pacman.GhostInWallAsWritten | apps/web/src/pages/Pacman.tsx:274-279 | as written the third ghost of level 3 starts inside a wall of maze 3 |
| Pacman.Spawn | apps/web/src/pages/Pacman.tsx:274-279 | the corrected spawn starts every ghost on an open cell, at its written cell or at home |
| Pacman.Game.constructor | apps/web/src/pages/Pacman.tsx:270-291 | reset: the level's maze, its pellet count, `min(level, 4)` ghosts, Pac-Man at the start, score 0, 3 lives, not over, not complete, not paused |
| Pacman.Game.Steer | apps/web/src/pages/Pacman.tsx:245-248 | an arrow key sets Pac-Man's direction and nothing else |
| Pacman.Game.Walk | apps/web/src/pages/Pacman.tsx:502-505 | Pac-Man moves to the next cell if it is walkable and stays otherwise |
| Pacman.Game.EatHere | apps/web/src/pages/Pacman.tsx:506-509 | a dot scores 10 and a power pellet 50 and frightens every ghost for 40 steps; the pellet is blanked and counted off; the level completes and pauses once none remain |
| Pacman.Game.EatPellet | apps/web/src/pages/Pacman.tsx:507-508 | the pellet under Pac-Man is blanked, `remaining` drops by one and the score rises by 10 or 50 |
| Pacman.Game.Frighten | apps/web/src/pages/Pacman.tsx:508 | every ghost is frightened for 40 steps |
| Pacman.Game.Resolve | apps/web/src/pages/Pacman.tsx:463-480 | the page state becomes the outcome of the meeting loop on Pac-Man's cell |
| Pacman.Game.PacStep | apps/web/src/pages/Pacman.tsx:502-511 | Pac-Man's grid step keeps the walls and the invariants; pellets only fall, score only rises and lives only fall |
| Pacman.Game.MoveGhost | apps/web/src/pages/Pacman.tsx:520-551 | one ghost takes its intended step and nothing else changes |
| Pacman.Game.GhostStep | apps/web/src/pages/Pacman.tsx:519-553 | each ghost steps in turn and the meeting check follows it; the maze is unchanged, score only rises and lives only fall |
| Mole.MoleCount | apps/web/src/pages/Mole.tsx:14 | a round shows between 3 and 5 moles: `floor(3 + roll * 3)` for a roll in [0, 1) |
| Mole.PopUp | apps/web/src/pages/Mole.tsx:13-16 | the draw loop ends with exactly `MoleCount(roll)` distinct holes, each one of the nine |
| Mole.Remove | apps/web/src/pages/Mole.tsx:24 | the filter keeps exactly the holes other than i, never lengthens the list and changes nothing when i is absent |
| Mole.RemoveDistinct | apps/web/src/pages/Mole.tsx:24 | on distinct holes, removing a present hole shortens the list by exactly one and keeps it distinct |
| Mole.Countdown | apps/web/src/pages/Mole.tsx:19 | the timer tick: down by one while positive, otherwise zero |
| Mole.TicksFacts | apps/web/src/pages/Mole.tsx:8-19 | n ticks take a timer at t to `max(0, t - n)`: a 30-second round reaches zero after 30 ticks and stays there |
| Mole.Game.constructor | apps/web/src/pages/Mole.tsx:7-9 | a new game: score 0, 30 seconds, no moles |
| Mole.Game.Spawn | apps/web/src/pages/Mole.tsx:12-18 | a new round replaces the moles with exactly MoleCount(roll) = floor(3 + roll * 3) distinct holes (3 to 5); score and clock untouched |
| Mole.Game.Tick | apps/web/src/pages/Mole.tsx:19 | the clock runs down by one, stopping at zero; nothing else changes |
| Mole.Game.Hit | apps/web/src/pages/Mole.tsx:22-25 | a click scores one exactly when a mole is in that hole and time is left, and then that mole (only) goes down; otherwise nothing changes |
| Mole.Game.Reset | apps/web/src/pages/Mole.tsx:26 | score back to 0 and clock back to 30; the moles on show stay |
| Snake.RandomFood | apps/web/src/pages/Snake.tsx:9-11 | food always lands on the 20 x 20 board |
| Snake.Steer | apps/web/src/pages/Snake.tsx:20-25 | (corrected guard) an arrow key is taken exactly when it does not reverse the direction the snake last moved in, and otherwise the direction stays; a unit direction stays a unit direction |
| Snake.SteerAgreesAsWritten | apps/web/src/pages/Snake.tsx:20-25 | with one key between two moves, the corrected guard and the written one choose the same direction |
| Snake.TwoKeysReverseAsWritten | apps/web/src/pages/Snake.tsx:20-25 | as written, Left then Down within one tick turn a snake heading up to heading down |
| Snake.NeckBittenAsWritten | apps/web/src/pages/Snake.tsx:20-25 | as written, after those two keys the next head is the snake's own second segment |
| Snake.NoNeckBite | apps/web/src/pages/Snake.tsx:42-43 | with the corrected guard the next head is never the second segment |
| Snake.Game.constructor | apps/web/src/pages/Snake.tsx:15-17 | one segment at (10, 10), heading up, food on the board |
| Snake.Game.Press | apps/web/src/pages/Snake.tsx:20-25 | a key changes only the direction, through the guard, and keeps the snake well formed |
| Snake.Game.Tick | apps/web/src/pages/Snake.tsx:41-53 | off the board or onto the body the snake restarts at the centre with new food; on the food it grows by the head and the food moves; otherwise it moves, dropping its tail; the direction it moved in becomes the heading the next key is checked against; the board invariants hold after each case |
| Snake.TickLength | apps/web/src/pages/Snake.tsx:41-53 | a tick grows the snake by one exactly when it eats, keeps its length when it moves, and leaves one segment after a crash |
| Space.Formation | apps/web/src/pages/Space.tsx:40-44 | eighteen enemies in 3 rows of 6, 40 apart from x = 40 and 30 apart from y = 40 |
| Space.Rise | apps/web/src/pages/Space.tsx:52-53 | the bullets left are exactly those that were 6 lower and are still above -10; none is added |
| Space.FirstHit | apps/web/src/pages/Space.tsx:56-61 | the index found is the first enemy within 15 of the bullet on both axes; none found means no enemy is hit |
| Space.ShootoutCounts | apps/web/src/pages/Space.tsx:55-63 | every bullet used up takes exactly one enemy: as many enemies go as bullets; with no enemies every bullet stays |
| Space.ShootoutSubsets | apps/web/src/pages/Space.tsx:55-63 | the hit loop creates nothing: the bullets and enemies left are drawn from those there before |
| Space.MarchFacts | apps/web/src/pages/Space.tsx:65-73 | every enemy shifts by the direction; all drop 10 and the direction flips exactly when some enemy passed an edge |
| Space.FormationAloft | apps/web/src/pages/Space.tsx:40-44 | the fresh formation has not reached the bottom, so a reset cannot trigger another |
| Space.Game.constructor | apps/web/src/pages/Space.tsx:9-13 | the game starts as after `reset`, with the cannon at rest |
| Space.Game.Reset | apps/web/src/pages/Space.tsx:35-45 | the cannon centred, no bullets, the full formation, moving right |
| Space.Game.Press | apps/web/src/pages/Space.tsx:16-20 | Left sets speed -4, Right sets 4, Space fires one bullet from the cannon at HEIGHT - 40; nothing else changes |
| Space.Game.Release | apps/web/src/pages/Space.tsx:21-23 | releasing an arrow stops the cannon; nothing else changes |
| Space.Game.Fight | apps/web/src/pages/Space.tsx:55-63 | the hit loop leaves exactly the field the reference `Shootout` gives |
| Space.Game.Volley | apps/web/src/pages/Space.tsx:52-63 | rising then the hit loop; every bullet left is above -10 |
| Space.Game.Tick | apps/web/src/pages/Space.tsx:47-74 | the cannon moves and is clamped to [20, 280], bullets rise and hit, the formation marches, and if it reached the bottom the game resets; after the tick no enemy is at the bottom |
| Memory.Unshuffled | apps/web/src/pages/Memory.tsx:9 | sixteen closed cards with ids 0..15, the eight icons twice over (icon k mod 8 on card k) |
| Memory.UnshuffledDeck | apps/web/src/pages/Memory.tsx:5-9 | the unshuffled deck is a deck: sixteen cards, every icon on exactly two of them |
| Memory.SwapDeck | apps/web/src/pages/Memory.tsx:10 | exchanging two cards keeps every icon on exactly two cards |
| Memory.SwapPaired | apps/web/src/pages/Memory.tsx:10 | after an exchange every card still has a twin |
| Memory.SwapNoTriple | apps/web/src/pages/Memory.tsx:10 | after an exchange no icon is on three cards |
| Memory.Deal | apps/web/src/pages/Memory.tsx:8-12 | the Fisher-Yates loop (with `j <= i` drawn for each i) deals a permutation of the unshuffled deck, all closed, every icon twice |
| Memory.SwapDealt | apps/web/src/pages/Memory.tsx:10 | one exchange keeps a dealt deck dealt and keeps its multiset of cards |
| Memory.ClickedAsWritten | apps/web/src/pages/Memory.tsx:17-29 | as written: an open or done card is ignored; otherwise only that card opens, it joins the selection, and a second selection counts one step |
| Memory.Clicked | apps/web/src/pages/Memory.tsx:17-29 | (corrected) the same, except that clicks are ignored while two cards wait |
| Memory.Settled | apps/web/src/pages/Memory.tsx:24-28 | the first two selected cards both become done when their icons agree and both close otherwise; no other card changes; the selection is cleared; steps unchanged |
| Memory.StrandedForeverAsWritten | apps/web/src/pages/Memory.tsx:17-28 | as written, a card left open, not done and unselected stays so through any click or settle, so the game can never be complete |
| Memory.ThirdClickStrandsAsWritten | apps/web/src/pages/Memory.tsx:17-28 | as written, three quick clicks on closed cards select all three and the pending settle strands the third |
| Memory.DealtInv | apps/web/src/pages/Memory.tsx:8-15 | a freshly dealt table satisfies the game invariant (deck, selection, shown cards, matched pairs) |
| Memory.InvNoStranded | apps/web/src/pages/Memory.tsx:17-28 | under the invariant no card is ever stranded |
| Memory.ClickKeeps | apps/web/src/pages/Memory.tsx:17-29 | the corrected click keeps the invariant |
| Memory.SettleKeeps | apps/web/src/pages/Memory.tsx:24-28 | settling keeps the invariant: cards with the same icon are done together |
| Memory.CompleteSettled | apps/web/src/pages/Memory.tsx:31 | when every card is done nothing is left selected |
| Memory.PairCompletes | apps/web/src/pages/Memory.tsx:17-28 | from a settled table, clicking an unfinished card and then its twin counts one step and, once settled, marks both done and changes no other card |
| Memory.Game.constructor | apps/web/src/pages/Memory.tsx:8-15 | a dealt, shuffled deck with nothing selected, no steps, and the game not complete |
| Memory.Game.Click | apps/web/src/pages/Memory.tsx:17-29 | the state becomes `Clicked(old state, i)` and the invariant holds |
| Memory.Game.Settle | apps/web/src/pages/Memory.tsx:24-28 | the state becomes `Settled(old state)` and the invariant holds |
| Minesweeper.CreateBoard | apps/web/src/pages/Minesweeper.tsx:13-41 | a new 10 x 10 board: exactly fifteen mines, nothing revealed, every square without a mine carries the number of mines among its in-bounds neighbours, and no mine stands next to a square counted 0 |
| Minesweeper.PlaceMines | apps/web/src/pages/Minesweeper.tsx:17-25 | the mine loop ends with exactly fifteen distinct mined squares and every other field at its initial value |
| Minesweeper.Plant | apps/web/src/pages/Minesweeper.tsx:19-24 | an effective draw puts a mine on a square that had none, and on no other square |
| Minesweeper.CountRow | apps/web/src/pages/Minesweeper.tsx:27-38 | one row of the counting loop: each square of the row without a mine gets its neighbour count; the mines, the revealed marks and the other rows are untouched |
| Minesweeper.CountAround | apps/web/src/pages/Minesweeper.tsx:29-36 | the 3 x 3 scan counts exactly the mines among the in-bounds neighbours, the square itself excluded |
| Minesweeper.AroundFacts | apps/web/src/pages/Minesweeper.tsx:29-37 | a neighbour count lies in 0..8, and a count of 0 means no neighbour holds a mine |
| Minesweeper.AroundUpToBound | apps/web/src/pages/Minesweeper.tsx:30-36 | the first k squares of the scan contribute at most k (k - 1 once the centre is passed), and a zero partial count means each of them contributed nothing |
| Minesweeper.CountsMakeZeroSafe | apps/web/src/pages/Minesweeper.tsx:26-39 | a board whose counts are right has no mine next to a zero square and all counts in 0..8 |
| Minesweeper.Reveal | apps/web/src/pages/Minesweeper.tsx:46-63 | reveal(r, c): terminates; a revealed square changes nothing; only revealed flags change and none is cleared; the clicked square ends revealed; boom exactly when it was hidden and mined, and then nothing else changed; the other squares it reveals are exactly those of the returned order, each reached from (r, c) along a chain of zero squares revealed before it, so only the region connected to (r, c) opens; none of them is a mine; every square this call reveals with count 0 ends with all its neighbours revealed |
| Minesweeper.RevealRow | apps/web/src/pages/Minesweeper.tsx:56-62 | one row of the flood loop: every in-bounds neighbour of the zero square in that row ends revealed; only revealed flags change and none is cleared; the squares it reveals are exactly those of the returned order, each reached from the zero square along a chain of zero squares revealed before it; every zero square it reveals has all its neighbours revealed |
| Minesweeper.ZeroNeighbour | apps/web/src/pages/Minesweeper.tsx:55-60 | on a board with correct counts, a neighbour of a zero square is never a mine, so the nested reveal never hits one |
| Minesweeper.HiddenShrinks | apps/web/src/pages/Minesweeper.tsx:48-49 | once a square has been revealed, the hidden squares are a proper subset of those before: the recursion's measure |
| Minesweeper.FloodAppend | apps/web/src/pages/Minesweeper.tsx:56-62 | the squares opened by successive neighbours of a zero square, one after another, are still each reached from it along a chain of zero squares |
| Minesweeper.FloodHead | apps/web/src/pages/Minesweeper.tsx:60 | a neighbour opened from a zero square, followed by the squares its own reveal opened, are each reached from that zero square |
| Minesweeper.FloodNest | apps/web/src/pages/Minesweeper.tsx:60 | the nested reveal of a neighbour extends the chain of squares opened from the zero square |
| Minesweeper.FloodSafe | apps/web/src/pages/Minesweeper.tsx:55-60 | on a board with correct counts, no square the flood reaches from a zero square is a mine |
| Minesweeper.Game.constructor | apps/web/src/pages/Minesweeper.tsx:44 | the page starts on a fresh board with nothing revealed |
| Minesweeper.Game.Click | apps/web/src/pages/Minesweeper.tsx:46-65 | a click on a revealed square keeps the grid; on a hidden mine a new board with nothing revealed replaces it; otherwise the copied grid with the flood fill done replaces it: same mines and counts, the square revealed, no reveal undone, the newly revealed squares besides it exactly those reached from it along chains of newly revealed zero squares, none a mine, and every newly revealed zero square with all its neighbours revealed |
| Tetris.EmptyBoard | apps/web/src/pages/Tetris.tsx:34 | the well starts 20 rows of 10 empty cells |
| Tetris.Rotate | apps/web/src/pages/Tetris.tsx:27-30 | rotate gives a rectangle with width and height exchanged, cell (i, j) of the result being cell (height - 1 - j, i) of the shape |
| Tetris.RotateTwice | apps/web/src/pages/Tetris.tsx:27-30 | two quarter turns turn the shape upside down and mirror it |
| Tetris.RotateFourTimes | apps/web/src/pages/Tetris.tsx:27-30 | four quarter turns give back the shape |
| Tetris.RotateMovesCells | apps/web/src/pages/Tetris.tsx:27-30 | a quarter turn moves cell (r, c) to (c, height - 1 - r): no filled cell is lost |
| Tetris.RowHitsExact | apps/web/src/pages/Tetris.tsx:55-57 | the inner `some` over a shape row holds exactly when some filled cell of the row is blocked |
| Tetris.ShapeHitsExact | apps/web/src/pages/Tetris.tsx:54-58 | the outer `some` over the shape rows holds exactly when some filled cell of the shape is blocked |
| Tetris.CollideMeans | apps/web/src/pages/Tetris.tsx:54-58 | collide holds exactly when a filled cell is left of column 0, right of the last column, below the last row or on a taken cell; when it is false every filled cell is on an empty cell of the well |
| Tetris.MergeFills | apps/web/src/pages/Tetris.tsx:48-52 | merging a piece that fits writes its value into exactly its filled cells, each previously empty, and leaves every other cell alone |
| Tetris.Kept | apps/web/src/pages/Tetris.tsx:61 | the filter keeps no full row, only rows of the well, and never more rows than the well has |
| Tetris.KeptAppend | apps/web/src/pages/Tetris.tsx:61 | filtering distributes over concatenation, so the kept rows stay in order |
| Tetris.KeptFacts | apps/web/src/pages/Tetris.tsx:61 | kept rows plus full rows make up the well, and every row that is not full is kept |
| Tetris.KeptNoFull | apps/web/src/pages/Tetris.tsx:61 | a well with no full row is kept whole |
| Tetris.Refill | apps/web/src/pages/Tetris.tsx:62 | the unshift loop puts empty rows on top of the kept rows until there are 20 rows |
| Tetris.ClearedFacts | apps/web/src/pages/Tetris.tsx:60-63 | clearLines keeps the well's size, leaves no full row, puts exactly as many empty rows on top as there were full rows and keeps every other row, in order, below them |
| Tetris.ClearedIdle | apps/web/src/pages/Tetris.tsx:60-63 | a well with no full row is left as it is |
| Tetris.SpawnFitsEmpty | apps/web/src/pages/Tetris.tsx:22-25 | every piece spawned at column 3, row 0 fits an empty well |
| Tetris.AfterLandingIs | apps/web/src/pages/Tetris.tsx:91-97 | the well after a landing is the merged and cleared well, or an empty one when the new piece does not fit there |
| Tetris.LandingFacts | apps/web/src/pages/Tetris.tsx:91-97 | after any landing the new piece fits and every cell holds 0..7 |
| Tetris.CellsInRange | apps/web/src/pages/Tetris.tsx:48-63 | merging a colour 1..7 and clearing keep every cell in 0..7 |
| Tetris.MergeRow | apps/web/src/pages/Tetris.tsx:49-51 | the inner forEach of merge writes v into exactly the filled cells of one shape row |
| Tetris.Game.constructor | apps/web/src/pages/Tetris.tsx:34-35 | an empty well and a random piece at the spawn point |
| Tetris.Game.MoveLeft | apps/web/src/pages/Tetris.tsx:77 | left arrow moves one column left exactly when that does not collide; the piece keeps fitting |
| Tetris.Game.MoveRight | apps/web/src/pages/Tetris.tsx:78 | right arrow moves one column right exactly when that does not collide; the piece keeps fitting |
| Tetris.Game.MoveDown | apps/web/src/pages/Tetris.tsx:79 | down arrow moves one row down exactly when that does not collide; the piece keeps fitting |
| Tetris.Game.RotatePiece | apps/web/src/pages/Tetris.tsx:80-83 | up arrow turns the piece exactly when the turned shape does not collide where it stands |
| Tetris.Game.Merge | apps/web/src/pages/Tetris.tsx:48-52 | merge writes kind + 1 into the cells the piece covers, the rest of the well unchanged |
| Tetris.Game.ClearLines | apps/web/src/pages/Tetris.tsx:60-63 | the well becomes its cleared form |
| Tetris.Game.Drop | apps/web/src/pages/Tetris.tsx:88-98 | the tick moves the piece one row down when free, and otherwise lands it; the game stays valid |
| Tetris.Game.Land | apps/web/src/pages/Tetris.tsx:91-97 | a landing merges, clears, spawns the next piece and empties the well if that piece does not fit; the game stays valid |
| Tetris.Game.Spawn | apps/web/src/pages/Tetris.tsx:94-97 | the next piece at the spawn point, and an empty well exactly when it collides |
| Tetris.ShapesFacts | apps/web/src/pages/Tetris.tsx:8-16 | the seven shapes are rectangles at most 2 rows by 4 columns |
| Tetris.EmptyRow | apps/web/src/pages/Tetris.tsx:62 | a refill row is 10 empty cells |
| Tetris.EmptyRows | apps/web/src/pages/Tetris.tsx:62 | n refill rows, each empty |
| Tetris.Merged | apps/web/src/pages/Tetris.tsx:48-52 | merging keeps the board's shape, row by row |
| Tank90.MapFacts | apps/web/src/pages/Tank90.tsx:24-38 | the map is 13 x 13 with a brick border, the base at row 11, column 6, and open cells at the player's respawn and the enemy spawn spots |
| Tank90.Set | apps/web/src/pages/Tank90.tsx:199-200 | writing one cell of the map changes that cell and no other |
| Tank90.CellAt | apps/web/src/pages/Tank90.tsx:110 | everything off the map reads as brick |
| Tank90.BlockBullet | apps/web/src/pages/Tank90.tsx:112-118 | bricks are damaged, steel and water stop bullets, everything else lets them through |
| Tank90.PassableLetsBulletsThrough | apps/web/src/pages/Tank90.tsx:111-118 | a cell tanks may enter is exactly a cell bullets pass |
| Tank90.TryMoveFacts | apps/web/src/pages/Tank90.tsx:120-126 | a tank moves one step along its direction exactly when it has a direction and that cell is on the map and passable, and stays put otherwise |
| Tank90.ShootFacts | apps/web/src/pages/Tank90.tsx:128-137 | a shot fails while cooling down, while the side has a live bullet or at the map's edge; otherwise one bullet appears on the cell ahead and the cooldown becomes 3 |
| Tank90.HitMaskFacts | apps/web/src/pages/Tank90.tsx:185-199 | a hit only clears sub-blocks, always the side facing the bullet; a second hit from the same side changes nothing; hits from both sides clear the brick |
| Tank90.KillAt | apps/web/src/pages/Tank90.tsx:208-210 | the live enemies on the cell are destroyed and every other enemy is kept |
| Tank90.KillsZero | apps/web/src/pages/Tank90.tsx:208-210 | no enemy is destroyed exactly when no live enemy stands on the cell |
| Tank90.Advance1 | apps/web/src/pages/Tank90.tsx:178-224 | one bullet's step keeps the map's shape, the number of bullets and the wave |
| Tank90.ShotOutcome | apps/web/src/pages/Tank90.tsx:207-223 | a player bullet entering a passable cell other than the base destroys the enemies there, scoring 100 each, and dies if it hit any; otherwise it moves on |
| Tank90.AdvanceUpTo | apps/web/src/pages/Tank90.tsx:178-224 | the bullet loop keeps the map's shape, the number of bullets and the wave |
| Tank90.Advance1Shape | apps/web/src/pages/Tank90.tsx:178-224 | only a brick hit changes the map, clearing the brick once no sub-block is left; the player is kept, killed or respawned; enemies are kept or lose those on the cell reached |
| Tank90.BrickHit | apps/web/src/pages/Tank90.tsx:185-201 | a brick hit only clears sub-blocks of that brick and turns it into empty ground once none is left, and bricks keep matching their masks |
| Tank90.Advance1Map | apps/web/src/pages/Tank90.tsx:178-224 | a bullet's step only removes sub-blocks and turns bricks into empty ground, and bricks keep matching their masks |
| Tank90.Advance1Bullet | apps/web/src/pages/Tank90.tsx:179-223 | a bullet leaving the map or meeting brick, steel, water or the base dies; a bullet that survives moves one cell; no other bullet changes |
| Tank90.Advance1Kills | apps/web/src/pages/Tank90.tsx:207-210 | a player bullet leaves no live enemy on its cell, scores 100 per enemy destroyed, survives only if it hit none, and touches no other tank |
| Tank90.Alive | apps/web/src/pages/Tank90.tsx:225 | the filter keeps exactly the live bullets |
| Tank90.SoloFacts | apps/web/src/pages/Tank90.tsx:233-236 | a bullet survives the meeting check exactly when it is alone on its cell |
| Tank90.CountAtPositive | apps/web/src/pages/Tank90.tsx:229-232 | a bullet's own cell holds at least that bullet in the tally |
| Tank90.MeetingBulletsVanish | apps/web/src/pages/Tank90.tsx:226-236 | bullets sharing a cell all vanish, and a bullet alone on its cell survives |
| Tank90.CoolDown | apps/web/src/pages/Tank90.tsx:239-240 | a positive cooldown drops by one, never below zero, and nothing else of the tank changes |
| Tank90.ChooseDir | apps/web/src/pages/Tank90.tsx:152-156 | the chosen direction is one of the candidates, or the old one |
| Tank90.ChooseDirFacts | apps/web/src/pages/Tank90.tsx:152-156 | the chosen direction leads onto a passable cell, and the tank keeps its old direction when no candidate does |
| Tank90.CandidatesFacts | apps/web/src/pages/Tank90.tsx:145-151 | the aim tries six headings: a step towards the base along x, one along y, each the zero vector exactly when the enemy is level with the base on that axis, then the four directions |
| Tank90.Arrange | apps/web/src/pages/Tank90.tsx:148-163 | the shuffled candidates keep their number and hold nothing but candidates |
| Tank90.LiveCountAppend | apps/web/src/pages/Tank90.tsx:246-250 | appending a tank adds one to the live count exactly when it is alive |
| Tank90.ReinforceFacts | apps/web/src/pages/Tank90.tsx:245-252 | a reinforcement never pushes the live enemies past `min(3 + wave, 6)`, and appears only on a passable spawn spot with no live enemy |
| Tank90.Battle.constructor | apps/web/src/pages/Tank90.tsx:53-80 | the first map with its brick masks whole, the player at the respawn cell facing up, the three enemies at (1, 1), (6, 1) and (11, 1) facing down, no bullets, score 0, 3 lives, wave 1 |
| Tank90.Battle.MovePlayer | apps/web/src/pages/Tank90.tsx:93-102 | an arrow key turns the live player's tank and tries to move it; nothing happens after game over or while it is dead |
| Tank90.Battle.FirePlayer | apps/web/src/pages/Tank90.tsx:103 | the fire key makes the live player's tank shoot |
| Tank90.Battle.AdvanceBullet | apps/web/src/pages/Tank90.tsx:178-224 | the state becomes the outcome of one bullet's step |
| Tank90.Battle.PassOn | apps/web/src/pages/Tank90.tsx:204-223 | a bullet entering a cell it may pass ends the game at the base, otherwise hits the tanks there or flies on |
| Tank90.Battle.PlayerShot | apps/web/src/pages/Tank90.tsx:207-223 | a player bullet destroys the enemies on its cell or flies on |
| Tank90.Battle.HitEnemies | apps/web/src/pages/Tank90.tsx:208-210 | the enemy loop destroys the live enemies on the cell and adds 100 per enemy destroyed |
| Tank90.Battle.AdvanceBullets | apps/web/src/pages/Tank90.tsx:178-224 | the state becomes the outcome of every bullet's step in order |
| Tank90.Battle.Step | apps/web/src/pages/Tank90.tsx:175-241 | a step advances every bullet, drops the dead ones, removes those sharing a cell and ticks every cooldown, keeping the wave; the invariants hold |
| Tank90.Battle.MoveEnemies | apps/web/src/pages/Tank90.tsx:140-162 | the enemies and bullets become the outcome of every enemy's turn in order; nothing else changes |
| Tank90.Battle.EnemyTurn | apps/web/src/pages/Tank90.tsx:242-258 | the AI turn keeps every tank on the map, keeps the live enemies within the cap computed from the wave the animation loop captured, and starts a new wave once every enemy is dead |
| Tank90.Survivors | apps/web/src/pages/Tank90.tsx:227-236 | the tally loop keeps exactly the bullets alone on their cell |
| Tank90.EnemyActFacts | apps/web/src/pages/Tank90.tsx:141-161 | an enemy's turn, with its candidates in any order the shuffle draws, keeps it on the map with a heading (the zero vector included), alive or dead as it was, and adds at most one enemy bullet |
| Tank90.CrewUpTo | apps/web/src/pages/Tank90.tsx:141-161 | the enemy loop keeps the number of enemies |
| Tank90.CrewKeeps | apps/web/src/pages/Tank90.tsx:141-161 | the enemy loop keeps every enemy on the map and alive or dead as it was |
| Tank90.Tally | apps/web/src/pages/Tank90.tsx:228-232 | the map built by the loop holds for every bullet's cell the number of bullets on it |
| Tank90.CountAtAbsent | apps/web/src/pages/Tank90.tsx:228-232 | a cell with no bullet has no entry to count |
| Tank90.LiveSame | apps/web/src/pages/Tank90.tsx:246 | enemies alive or dead as before give the same live count |
| Tank90.Advance1Tanks | apps/web/src/pages/Tank90.tsx:207-222 | a bullet's step keeps every tank on the map |
| Tank90.Advance1Keeps | apps/web/src/pages/Tank90.tsx:178-224 | a bullet's step keeps the map matching its masks and every tank on the map |
| Tank90.AdvanceKeepsValid | apps/web/src/pages/Tank90.tsx:178-224 | the bullet loop keeps the map matching its masks and every tank on the map |
| Tank90.AdvanceKeepsMap | apps/web/src/pages/Tank90.tsx:185-201 | the bullet loop keeps bricks matching their masks |
| Tank90.AdvanceKeepsTanks | apps/web/src/pages/Tank90.tsx:207-222 | the bullet loop keeps every tank on the map |
| Tank90.MapStep | apps/web/src/pages/Tank90.tsx:185-201 | one bullet's step keeps bricks matching their masks |
| Tank90.TanksStep | apps/web/src/pages/Tank90.tsx:207-222 | one bullet's step keeps every tank on the map |
| Tank90.StartGrid | apps/web/src/pages/Tank90.tsx:63-70 | the first map parsed cell by cell, 13 x 13 |
| Tank90.StartMask | apps/web/src/pages/Tank90.tsx:71-72 | the first map's brick masks: all four sub-blocks on every brick, none elsewhere, 13 x 13 |
| Tank90.ZeroAimAsWritten | apps/web/src/pages/Tank90.tsx:143-161 | as written, the spawn at (6, 1) with its candidates left in order aims at the zero vector, stays on its cell and fires a bullet without a direction onto that cell |
| Tank90.StillBulletAsWritten | apps/web/src/pages/Tank90.tsx:178-224 | as written, a live enemy bullet without a direction, on a cell it may stay on and away from the player, is left as it is by the bullet step, and while it lives every enemy shot is refused |
| Tank90.AimCandidates | apps/web/src/pages/Tank90.tsx:145-151 | (corrected candidates) only the four directions, ending with all four |
| Tank90.IntendedAimMoves | apps/web/src/pages/Tank90.tsx:145-156 | with the corrected candidates in any shuffled order, an enemy that re-aims keeps one of the four directions |
| Tank90.AimedBulletMoves | apps/web/src/pages/Tank90.tsx:178-224 | a live bullet moving in one of the four directions dies or moves one cell at each step |

## Left out

- The HTTP server in `server/cmd/api/main.go` serves the pages and stores nothing the games use; it is not part of this model.
- Rendering (canvas and DOM), sound, vibration, particle effects and CSS animation: they change no game state.
- Timers, `setInterval` and `requestAnimationFrame`: each tick is a call to the step method it would run. Frame-time accumulators, elapsed-time displays and the pause and start flags are not modelled.
- React's batching and the timing of state updaters: each handler is modelled as applying its updates at once, in the order written.
- Best scores kept in `localStorage`: this is I/O.
- `Math.random` and shuffles: every draw is a parameter (a roll, an index, a choice, or a shuffle given as a list of swap indices). Properties hold for every draw; the distribution of the draws is not modelled.
- The computer players' heuristics, which are scoring functions over floating-point or tuned constants. The model takes the chosen move as a parameter and proves that the move it applies is legal. This covers:
  - Gomoku `scoreCell` and `computeAiMove`; `genCandidates` takes the score function as a parameter;
  - Reversi `evaluate`, `pickMove` and `negamax`;
  - Xiangqi `pieceValue`, `evaluate`, `qsearch`, `search` and `pickAIMove`;
  - the effects that start the computer's turn in tic-tac-toe and Reversi.
- Pac-Man: the timed mode's clock, `nextLevel`, and the frightened-time display. The lives decrement is applied at once rather than after the page's delay.
- Tank 90: the lives updater's timing. The enemy AI's random choices of turning and firing are parameters, and its shuffle is given as the order it draws. `findBase` is the constant cell (6, 11): the map has one base cell and only bricks ever change. The reinforcement cap reads `wave` from the animation loop's closure, which is only renewed when the game pauses or ends; the turn takes that captured wave as a parameter.
- Poker arrange: drag-and-drop event plumbing. The deck click and double-click handlers are calls of the auto-place operation. Which card is selected, when event bubbling clears it, is not modelled.
- Bubble wrap: theme and mute settings. The combo value a handler captured from an earlier render is the `seen` parameter. The mode buttons reset under the mode from before the click, as the handlers' `resetAll` reads it.
- Pacman.Game.PacStep: states only that the walls and level stay, the score never drops, the pellets left and the lives never grow, and the invariant holds; not the whole new state.
- Pacman.Game.GhostStep: states only that the grid, pellets, level and ghost count stay, the score never drops and the lives never grow, and the invariant holds; not the whole new state (each ghost's own step is stated in full by Pacman.Game.MoveGhost).
- Tank90.Battle.EnemyTurn: bounds the live enemies and the wave count but does not state the whole new state.
- BubbleWrap.Game.Strike: states exactly which bubbles end popped, but of the score only that it does not drop, and neither the combo tally nor the challenge pattern afterwards.
- BubbleWrap.Game.OnCellClick: states exactly which bubbles end popped, but of the score only that it does not drop, and neither the combo tally nor the challenge pattern afterwards.
- BubbleWrap.Game.PowerRow: gives the new score in terms of the number of bubbles popped, which is left unspecified, and states neither the combo tally nor the challenge pattern afterwards.
- BubbleWrap.Game.PowerCol: gives the new score in terms of the number of bubbles popped, which is left unspecified, and states neither the combo tally nor the challenge pattern afterwards.
- BubbleWrap.Game.PowerBomb: gives the new score in terms of the number of bubbles popped, which is left unspecified, and states neither the combo tally nor the challenge pattern afterwards.
- Blackjack.Game.Hit: requires a card in the shoe once the round is open. On the page `s.pop()!` on an empty shoe adds `undefined` to the hand and `handValue` then fails on it; a deal leaves at least 16 cards, and the functional layer reports the dealer running out as `None`, but this crash is not modelled.
- Blackjack.Game.Stand: requires that the dealer's play does not run out of cards (`DealerPlay` is `Some`); the page's failure on an empty shoe is not modelled.
- Blackjack.Game.DoubleDown: requires `CanPlayDouble`, which includes enough cards for the player's draw and the dealer's play; the page's failure on an empty shoe is not modelled.

## Findings

| source | as written | input that shows it | evidently intended | confidence | as-written member | corrected member |
|---|---|---|---|---|---|---|
| apps/web/src/pages/TicTacToe.tsx:61-64 | `w && w !== ai` is checked before the draw test, and a draw is -1, which is truthy, so a drawn board scores `depth - 10`, like a loss | the full board X O X / X O O / O X X, with the computer playing O | a draw scores 0 | not executed | TicTacToe.DrawScoredAsLoss | TicTacToe.TerminalScore |
| apps/web/src/pages/TicTacToe.tsx:106-117 | the block is returned for every level before the easy level's 20% skip, so that skip is dead code | X X _ / _ O _ / _ _ _ with O to move on the easy level: O blocks at cell 2 whatever the rolls | on a low roll the easy level misses the block | not executed | TicTacToe.EasyAlwaysBlocksAsWritten | TicTacToe.EasyMaySkipBlock |
| apps/web/src/pages/ChineseChess.tsx:58-66 | the facing-generals test scans only the centre file | both generals on file 3 with nothing between them: the position is accepted | generals may not face each other on any file | not executed | ChineseChess.FacingMissedOffCentre | ChineseChess.GeneralFacing |
| apps/web/src/pages/Blackjack.tsx:130-145 | `settle` reads `player` from the render before the double, so the doubled hand is settled on its first two cards | 5 and 6 doubled into a 10 makes 21 against the dealer's 20, and is reported as a doubled loss | settle the three-card doubled hand | not executed | Blackjack.StaleDoubleLoses | Blackjack.DoubleOutcomeFacts |
| apps/web/src/pages/PokerArrange.tsx:146-149 | a stock card dropped on a filled cell is taken out of the stock but not placed: the cell keeps its card and the dragged card is lost | drag a stock card onto a cell that already holds a card | a filled cell refuses the card and the stock keeps it, so all 52 cards stay on the table | not executed | PokerArrange.DropOnFilledLosesCard | PokerArrange.DropFromStockConserves |
| apps/web/src/pages/Pacman.tsx:539-546 | a normal ghost scores each direction by minus its distance to Pac-Man, and the ascending sort then picks the farthest | ghost at (5,1), Pac-Man at (1,1), options left and right: the ghost goes right | normal ghosts chase and frightened ghosts flee | not executed | Pacman.NormalGhostFleesAsWritten | Pacman.GhostChases |
| apps/web/src/pages/Pacman.tsx:274-279 | the spawn positions for extra ghosts are not checked against the maze | the third ghost of level 3 starts inside a wall | every ghost starts on an open cell | not executed | Pacman.GhostInWallAsWritten | Pacman.Spawn |
| apps/web/src/pages/Snake.tsx:20-25 | the reverse guard compares the key with the last key pressed, not with the direction of the last move | moving up, press Left then Down within one tick: the head turns into the neck | the snake never reverses onto its neck | not executed | Snake.NeckBittenAsWritten | Snake.NoNeckBite |
| apps/web/src/pages/Memory.tsx:17-28 | a third click while two cards wait to close opens that card as well, and the close timer only closes the pair | click a third card during the mismatch delay: the pending close clears the whole selection, and the third card stays face up, unmatched, for the rest of the game | a third click is ignored while two cards wait, so no card is ever left open outside the selection | not executed | Memory.ThirdClickStrandsAsWritten | Memory.ClickKeeps |
| apps/web/src/pages/BubbleWrap.tsx:157-166 | the challenge pattern is drawn from all cells, popped ones included, and a popped bubble cannot be popped again | a sheet whose bubble 0 is already popped, with a pattern drawn containing 0 | the pattern holds only unpopped bubbles, so it can always be cleared | not executed | BubbleWrap.StuckPatternAsWritten | BubbleWrap.PatternClears |
| apps/web/src/pages/Tank90.tsx:145-156 | the aim's first two candidates are the zero vector when the enemy is level with the base on that axis, and the zero vector always leads onto the enemy's own cell, which is passable | the spawn at (6, 1) re-aims with the shuffle leaving the candidates in order and fires: it stops, and its bullet stays on its cell without moving, so no enemy can fire while that bullet lives | an enemy always aims in one of the four directions, so its bullets fly | not executed | Tank90.ZeroAimAsWritten | Tank90.IntendedAimMoves |

=== FILE: blackjack.dfy ===
/** Blackjack against a dealer from a six-deck shoe: building and shuffling
    the shoe, hand values with soft aces, naturals, the dealer's S17 / H17
    drawing rule, settlement, and the round's deal / hit / stand / double
    actions. Cards are drawn from the end of the shoe (`pop`). */
module Blackjack {
  import opened Common

  datatype Suit = Spades | Hearts | Diamonds | Clubs
  /** `v` is 1 (ace) .. 13 (king). */
  datatype Card = Card(v: int, s: Suit)
  datatype Rule = S17 | H17

  const DECKS: nat := 6
  const SUITS: seq<Suit> := [Spades, Hearts, Diamonds, Clubs]

  predicate ValidCard(c: Card) { 1 <= c.v <= 13 }

  // ---------------------------------------------------------------------------
  // makeShoe

  /** One deck in the order `makeShoe` pushes it: suit by suit, ace to king. */
  function Deck(): (d: seq<Card>)
    ensures |d| == 52
  {
    seq(52, k requires 0 <= k < 52 => Card(k % 13 + 1, SUITS[k / 13]))
  }

  /** `decks` decks one after another, before shuffling. */
  function Ordered(decks: nat): (d: seq<Card>)
    ensures |d| == 52 * decks
  {
    if decks == 0 then [] else Ordered(decks - 1) + Deck()
  }

  lemma DeckDistinctValid(c: Card)
    ensures multiset(Deck())[c] == (if ValidCard(c) then 1 else 0)
  {
    var d := Deck();
    assert Distinct: forall i, j :: 0 <= i < j < 52 ==> d[i] != d[j] by {
      forall i, j | 0 <= i < j < 52
        ensures d[i] != d[j]
      {
        assert i == 13 * (i / 13) + i % 13 && j == 13 * (j / 13) + j % 13;
        if i % 13 == j % 13 {
          assert i / 13 != j / 13;
          assert SUITS[i / 13] != SUITS[j / 13];
        }
      }
    }
    if ValidCard(c) {
      var si := if c.s == Spades then 0 else if c.s == Hearts then 1 else if c.s == Diamonds then 2 else 3;
      var k := si * 13 + c.v - 1;
      assert d[k] == c;
    } else {
      assert c !in d;
    }
    MultisetOfDistinct(d, c);
  }

  /** In a sequence without repeats every element occurs once. */
  lemma {:induction false} MultisetOfDistinct<T>(s: seq<T>, x: T)
    requires forall i, j :: 0 <= i < j < |s| ==> s[i] != s[j]
    ensures multiset(s)[x] == (if x in s then 1 else 0)
  {
    if s != [] {
      MultisetOfDistinct(s[1..], x);
      assert s == [s[0]] + s[1..];
      assert s[0] !in s[1..];
    }
  }

  /** Each card of a deck occurs exactly `decks` times in the unshuffled shoe,
      and nothing else occurs. */
  lemma {:induction false} OrderedCounts(decks: nat, c: Card)
    ensures multiset(Ordered(decks))[c] == (if ValidCard(c) then decks else 0)
  {
    if decks > 0 {
      OrderedCounts(decks - 1, c);
      DeckDistinctValid(c);
    }
  }

  /** A shoe as `makeShoe(DECKS)` deals it out: some order of six decks. */
  ghost predicate IsShoe(s: seq<Card>)
  {
    |s| == 52 * DECKS && forall c :: multiset(s)[c] == (if ValidCard(c) then DECKS else 0)
  }

  /** What `makeShoe(DECKS)` returns is a shoe. */
  lemma MadeShoeIsShoe(s: seq<Card>)
    requires |s| == 52 * DECKS && multiset(s) == multiset(Ordered(DECKS))
    ensures IsShoe(s)
  {
    forall c {
      OrderedCounts(DECKS, c);
    }
  }

  /** `makeShoe(decks)`: push the decks in order, then a Fisher-Yates shuffle
      whose random index for position i is `pick(i) % (i + 1)`. */
  method MakeShoe(decks: nat, pick: int -> nat) returns (shoe: seq<Card>)
    ensures |shoe| == 52 * decks
    ensures multiset(shoe) == multiset(Ordered(decks))
  {
    var d: seq<Card> := [];
    var k := 0;
    while k < decks
      invariant 0 <= k <= decks
      invariant d == Ordered(k)
    {
      d := PushDeck(d);
      k := k + 1;
    }
    shoe := Shuffle(d, pick);
  }

  /** The inner loops of `makeShoe`: one deck pushed, suit by suit. */
  method PushDeck(d0: seq<Card>) returns (d: seq<Card>)
    ensures d == d0 + Deck()
  {
    d := d0;
    var n := 0;
    while n < 52
      invariant 0 <= n <= 52
      invariant d == d0 + Deck()[..n]
    {
      assert Deck()[..n + 1] == Deck()[..n] + [Card(n % 13 + 1, SUITS[n / 13])];
      d := d + [Card(n % 13 + 1, SUITS[n / 13])];
      n := n + 1;
    }
    assert Deck()[..52] == Deck();
  }

  /** The Fisher-Yates loop of `makeShoe`, in place on an array. */
  method Shuffle(d: seq<Card>, pick: int -> nat) returns (shoe: seq<Card>)
    ensures |shoe| == |d| && multiset(shoe) == multiset(d)
  {
    var a := new Card[|d|](i requires 0 <= i < |d| => d[i]);
    assert a[..] == d;
    var i := a.Length - 1;
    while i > 0
      invariant -1 <= i < a.Length
      invariant multiset(a[..]) == multiset(d)
    {
      var j := pick(i) % (i + 1);
      a[i], a[j] := a[j], a[i];
      i := i - 1;
    }
    shoe := a[..];
  }

  // ---------------------------------------------------------------------------
  // handValue

  /** An ace counts 11 at first, a court card 10, any other card its value. */
  function Points(c: Card): int
  {
    if c.v == 1 then 11 else if c.v >= 10 then 10 else c.v
  }

  function RawSum(h: seq<Card>): int
  {
    if h == [] then 0 else RawSum(h[..|h| - 1]) + Points(h[|h| - 1])
  }

  function AceCount(h: seq<Card>): nat
  {
    if h == [] then 0 else AceCount(h[..|h| - 1]) + (if h[|h| - 1].v == 1 then 1 else 0)
  }

  /** Turn aces from 11 into 1 while over 21: the total and the aces still
      counted as 11. */
  function Reduce(sum: int, aces: nat): (int, nat)
  {
    if sum > 21 && aces > 0 then Reduce(sum - 10, aces - 1) else (sum, aces)
  }

  datatype Value = Value(total: int, soft: bool)

  /** `handValue(hand)`: soft when an ace still counts as 11. */
  function HandValue(h: seq<Card>): Value
  {
    var (t, a) := Reduce(RawSum(h), AceCount(h));
    Value(t, a > 0)
  }

  function Total(h: seq<Card>): int { HandValue(h).total }

  lemma {:induction false} ReduceFacts(sum: int, aces: nat)
    ensures Reduce(sum, aces).1 <= aces
    ensures Reduce(sum, aces).0 == sum - 10 * (aces - Reduce(sum, aces).1)
    ensures Reduce(sum, aces).1 > 0 ==> Reduce(sum, aces).0 <= 21
    ensures Reduce(sum, aces).1 < aces ==> Reduce(sum, aces).0 + 10 > 21
  {
    if sum > 21 && aces > 0 {
      ReduceFacts(sum - 10, aces - 1);
    }
  }

  /** The total counts k of the aces as 1 and the rest as 11; a soft hand is
      at most 21 and a hand over 21 is hard; an ace is turned to 1 only when
      keeping it at 11 would exceed 21, and over 21 every ace counts 1. */
  lemma HandValueFacts(h: seq<Card>)
    ensures exists k :: 0 <= k <= AceCount(h) && Total(h) == RawSum(h) - 10 * k
    ensures HandValue(h).soft ==> Total(h) <= 21
    ensures Total(h) > 21 ==> !HandValue(h).soft && Total(h) == RawSum(h) - 10 * AceCount(h)
    ensures Total(h) < RawSum(h) ==> Total(h) + 10 > 21
  {
    ReduceFacts(RawSum(h), AceCount(h));
    var k := AceCount(h) - Reduce(RawSum(h), AceCount(h)).1;
    assert 0 <= k <= AceCount(h) && Total(h) == RawSum(h) - 10 * k;
  }

  /** `handValue`, with its two loops. */
  method ComputeHandValue(h: seq<Card>) returns (v: Value)
    ensures v == HandValue(h)
  {
    var sum, aces := 0, 0;
    var i := 0;
    while i < |h|
      invariant 0 <= i <= |h|
      invariant sum == RawSum(h[..i]) && aces == AceCount(h[..i])
    {
      assert h[..i + 1][..i] == h[..i];
      var c := h[i];
      if c.v == 1 {
        aces := aces + 1;
        sum := sum + 11;
      } else if c.v >= 10 {
        sum := sum + 10;
      } else {
        sum := sum + c.v;
      }
      i := i + 1;
    }
    assert h[..|h|] == h;
    var soft := aces > 0;
    while sum > 21 && aces > 0
      invariant Reduce(sum, aces) == Reduce(RawSum(h), AceCount(h))
    {
      sum := sum - 10;
      aces := aces - 1;
    }
    if aces == 0 {
      soft := false;
    }
    v := Value(sum, soft);
  }

  /** `isBlackjack`: two cards totalling 21. */
  predicate IsBlackjack(h: seq<Card>)
  {
    |h| == 2 && Total(h) == 21
  }

  /** Two cards make a blackjack exactly when one is an ace and the other a
      ten or a court card. */
  lemma BlackjackIffAceAndTen(h: seq<Card>)
    requires |h| == 2 && ValidCard(h[0]) && ValidCard(h[1])
    ensures IsBlackjack(h) <==> (h[0].v == 1 && h[1].v >= 10) || (h[1].v == 1 && h[0].v >= 10)
  {
    assert h == [h[0], h[1]];
    TwoCards(h[0], h[1]);
    if h[0].v == 1 && h[1].v == 1 {
      assert Reduce(22, 2) == (12, 1);
    }
  }

  lemma TwoCards(x: Card, y: Card)
    ensures RawSum([x, y]) == Points(x) + Points(y)
    ensures AceCount([x, y]) == (if x.v == 1 then 1 else 0) + (if y.v == 1 then 1 else 0)
  {
    var one, two := [x], [x, y];
    assert one[..0] == [];
    assert RawSum(one) == Points(x) && AceCount(one) == (if x.v == 1 then 1 else 0);
    assert two[..1] == one;
  }

  // ---------------------------------------------------------------------------
  // playDealer and settle

  /** The dealer draws below 17, and on a soft 17 under H17. */
  predicate DealerDraws(dl: seq<Card>, rule: Rule)
  {
    var hv := HandValue(dl);
    hv.total < 17 || (hv.total == 17 && hv.soft && rule == H17)
  }

  datatype Play = Play(dealer: seq<Card>, shoe: seq<Card>)

  /** `playDealer(dl, s, rule)`: draw from the end of the shoe until the rule
      says stop or the total reaches 22. None when a draw finds the shoe
      empty, where the page would take `undefined` as a card. */
  function DealerPlay(dl: seq<Card>, s: seq<Card>, rule: Rule): Option<Play>
    decreases |s|
  {
    if !DealerDraws(dl, rule) then Some(Play(dl, s))
    else if s == [] then None
    else
      var dl2 := dl + [s[|s| - 1]];
      if Total(dl2) >= 22 then Some(Play(dl2, s[..|s| - 1]))
      else DealerPlay(dl2, s[..|s| - 1], rule)
  }

  /** The dealer stops on 17 or more, never on a soft 17 under H17. */
  lemma {:induction false} DealerPlayStops(dl: seq<Card>, s: seq<Card>, rule: Rule)
    requires DealerPlay(dl, s, rule).Some?
    ensures var p := DealerPlay(dl, s, rule).value;
            Total(p.dealer) >= 17 && !(rule == H17 && Total(p.dealer) == 17 && HandValue(p.dealer).soft)
    decreases |s|
  {
    if DealerDraws(dl, rule) {
      var dl2 := dl + [s[|s| - 1]];
      if Total(dl2) >= 22 {
        HandValueFacts(dl2);
      } else {
        DealerPlayStops(dl2, s[..|s| - 1], rule);
      }
    }
  }

  /** The dealer's new cards are the end of the shoe taken in order. */
  lemma {:induction false} DealerPlayShape(dl: seq<Card>, s: seq<Card>, rule: Rule)
    requires DealerPlay(dl, s, rule).Some?
    ensures var p := DealerPlay(dl, s, rule).value;
            |p.shoe| <= |s| && p.shoe == s[..|p.shoe|] && p.dealer == dl + Reverse(s[|p.shoe|..])
    decreases |s|
  {
    var p := DealerPlay(dl, s, rule).value;
    if !DealerDraws(dl, rule) {
      assert s[|s|..] == [];
      assert s[..|s|] == s;
    } else {
      var n := |s|;
      var dl2 := dl + [s[n - 1]];
      var s2 := s[..n - 1];
      if Total(dl2) >= 22 {
        assert s[n - 1..] == [s[n - 1]];
      } else {
        DealerPlayShape(dl2, s2, rule);
        ShapeStep(dl, s, p);
      }
    }
  }

  /** A play that took the last card of s first and then the end of the rest
      took the end of s. */
  lemma ShapeStep(dl: seq<Card>, s: seq<Card>, p: Play)
    requires s != [] && |p.shoe| <= |s| - 1
    requires p.shoe == s[..|s| - 1][..|p.shoe|]
    requires p.dealer == dl + [s[|s| - 1]] + Reverse(s[..|s| - 1][|p.shoe|..])
    ensures p.shoe == s[..|p.shoe|] && p.dealer == dl + Reverse(s[|p.shoe|..])
  {
    var n, m := |s|, |p.shoe|;
    var s2 := s[..n - 1];
    assert s[m..] == s2[m..] + [s[n - 1]];
    ReverseSnoc(s2[m..], s[n - 1]);
  }

  /** Playing out the dealer creates and loses no card. */
  lemma DealerPlayTakes(dl: seq<Card>, s: seq<Card>, rule: Rule)
    requires DealerPlay(dl, s, rule).Some?
    ensures var p := DealerPlay(dl, s, rule).value;
            multiset(p.dealer) + multiset(p.shoe) == multiset(dl) + multiset(s)
  {
    DealerPlayShape(dl, s, rule);
    var p := DealerPlay(dl, s, rule).value;
    var m := |p.shoe|;
    ReverseMultiset(s[m..]);
    assert s == p.shoe + s[m..];
  }

  /** `playDealer`, with its loop. */
  method PlayDealer(dl0: seq<Card>, s0: seq<Card>, rule: Rule) returns (r: Option<Play>)
    ensures r == DealerPlay(dl0, s0, rule)
  {
    var dl, s := dl0, s0;
    while true
      invariant DealerPlay(dl, s, rule) == DealerPlay(dl0, s0, rule)
      decreases |s|
    {
      var hv := ComputeHandValue(dl);
      if hv.total < 17 || (hv.total == 17 && hv.soft && rule == H17) {
        if s == [] {
          return None;
        }
        dl := dl + [s[|s| - 1]];
        s := s[..|s| - 1];
      } else {
        return Some(Play(dl, s));
      }
      var after := ComputeHandValue(dl);
      if after.total >= 22 {
        return Some(Play(dl, s));
      }
    }
  }

  datatype Result = DealerBust | Win | Lose | Push

  /** `settle`'s comparison of the player's total pv with the dealer's dv. */
  function Settle(pv: int, dv: int): (r: Result)
    ensures r == DealerBust <==> dv > 21
    ensures r == Win <==> dv <= 21 && pv > dv
    ensures r == Lose <==> dv <= 21 && pv < dv
    ensures r == Push <==> dv <= 21 && pv == dv
  {
    if dv > 21 then DealerBust else if pv > dv then Win else if pv < dv then Lose else Push
  }

  /** Below the dealer's bust, swapping the two totals swaps win and loss. */
  lemma SettleSwap(pv: int, dv: int)
    requires pv <= 21 && dv <= 21
    ensures Settle(pv, dv) == Win <==> Settle(dv, pv) == Lose
    ensures Settle(pv, dv) == Push <==> Settle(dv, pv) == Push
  {
  }

  // ---------------------------------------------------------------------------
  // The round

  /** The message at the end of a round. */
  datatype Outcome = BothNatural | PlayerNatural | DealerNatural | PlayerBust | Settled(r: Result, doubled: bool)

  /** The outcome of a double as the page reports it: `settle` reads the
      player's hand from before the doubling card. */
  function DoubleOutcomeAsWritten(player: seq<Card>, dealer: seq<Card>, shoe: seq<Card>, rule: Rule): Option<Outcome>
    requires shoe != []
  {
    var p := player + [shoe[|shoe| - 1]];
    if Total(p) > 21 then Some(PlayerBust)
    else match DealerPlay(dealer, shoe[..|shoe| - 1], rule)
      case None => None
      case Some(play) => Some(Settled(Settle(Total(player), Total(play.dealer)), true))
  }

  /** The outcome of a double settled on the doubled hand. */
  function DoubleOutcome(player: seq<Card>, dealer: seq<Card>, shoe: seq<Card>, rule: Rule): Option<Outcome>
    requires shoe != []
  {
    var p := player + [shoe[|shoe| - 1]];
    if Total(p) > 21 then Some(PlayerBust)
    else match DealerPlay(dealer, shoe[..|shoe| - 1], rule)
      case None => None
      case Some(play) => Some(Settled(Settle(Total(p), Total(play.dealer)), true))
  }

  /** Five and six doubled into a ten make 21 against the dealer's 20, yet
      the page reports a doubled loss, comparing the old 11. */
  lemma StaleDoubleLoses(player: seq<Card>, dealer: seq<Card>, shoe: seq<Card>)
    requires player == [Card(5, Spades), Card(6, Hearts)]
    requires dealer == [Card(10, Clubs), Card(13, Diamonds)]
    requires shoe == [Card(10, Spades)]
    ensures DoubleOutcomeAsWritten(player, dealer, shoe, S17) == Some(Settled(Lose, true))
    ensures DoubleOutcome(player, dealer, shoe, S17) == Some(Settled(Win, true))
  {
    var p := player + [shoe[0]];
    TwoCards(player[0], player[1]);
    assert p[..2] == player;
    assert Total(player) == 11 && Total(p) == 21;
    TwoCards(dealer[0], dealer[1]);
    assert Total(dealer) == 20;
    assert DealerPlay(dealer, [], S17) == Some(Play(dealer, []));
  }

  /** The double outcome, settled on the right hand, is a doubled result or a
      bust, and a bust exactly when the doubled hand exceeds 21. */
  lemma DoubleOutcomeFacts(player: seq<Card>, dealer: seq<Card>, shoe: seq<Card>, rule: Rule)
    requires shoe != [] && DoubleOutcome(player, dealer, shoe, rule).Some?
    ensures var o := DoubleOutcome(player, dealer, shoe, rule).value;
            (o == PlayerBust <==> Total(player + [shoe[|shoe| - 1]]) > 21) &&
            (o != PlayerBust ==> o.Settled? && o.doubled)
  {
  }

  /** The round on the table: the shoe, both hands, whether the round is over
      and with which message, and whether doubling is still open. */
  datatype Table = Table(shoe: seq<Card>, player: seq<Card>, dealer: seq<Card>,
                         ended: bool, outcome: Option<Outcome>, canDouble: bool)

  /** The round is over exactly when it has a message; doubling is open only
      on the first two cards; both hands hold at least the dealt cards. */
  predicate Consistent(t: Table)
  {
    (t.ended <==> t.outcome.Some?) && (t.canDouble ==> |t.player| == 2) &&
    |t.player| >= 2 && |t.dealer| >= 2
  }

  /** Every card on the table, in the shoe or in a hand. */
  function Cards(t: Table): multiset<Card>
  {
    multiset(t.shoe) + multiset(t.player) + multiset(t.dealer)
  }

  /** The natural check after a deal. */
  function NaturalOutcome(p: seq<Card>, d: seq<Card>): (o: Option<Outcome>)
    ensures o.Some? <==> IsBlackjack(p) || IsBlackjack(d)
    ensures o == Some(BothNatural) <==> IsBlackjack(p) && IsBlackjack(d)
    ensures o == Some(PlayerNatural) <==> IsBlackjack(p) && !IsBlackjack(d)
    ensures o == Some(DealerNatural) <==> !IsBlackjack(p) && IsBlackjack(d)
  {
    if IsBlackjack(p) && IsBlackjack(d) then Some(BothNatural)
    else if IsBlackjack(p) then Some(PlayerNatural)
    else if IsBlackjack(d) then Some(DealerNatural)
    else None
  }

  /** The shoe `deal` draws from: a new one when asked or when fewer than 20
      cards remain. */
  function ShoeForDeal(shoe: seq<Card>, freshRequested: bool, newShoe: seq<Card>): seq<Card>
  {
    if freshRequested || |shoe| < 20 then newShoe else shoe
  }

  /** `deal`: two cards to the player, then two to the dealer, from the end
      of the shoe; naturals end the round at once. */
  function DealTable(s: seq<Card>): Table
    requires |s| >= 4
  {
    var n := |s|;
    var p := [s[n - 1], s[n - 2]];
    var d := [s[n - 3], s[n - 4]];
    Table(s[..n - 4], p, d, IsBlackjack(p) || IsBlackjack(d), NaturalOutcome(p, d), true)
  }

  /** `hit`. */
  function HitTable(t: Table): Table
    requires t.ended || t.shoe != []
  {
    if t.ended then t
    else
      var n := |t.shoe|;
      var p := t.player + [t.shoe[n - 1]];
      Table(t.shoe[..n - 1], p, t.dealer, Total(p) > 21, if Total(p) > 21 then Some(PlayerBust) else t.outcome, false)
  }

  /** `stand`. */
  function StandTable(t: Table, rule: Rule): Table
    requires t.ended || DealerPlay(t.dealer, t.shoe, rule).Some?
  {
    if t.ended then t
    else
      var play := DealerPlay(t.dealer, t.shoe, rule).value;
      Table(play.shoe, t.player, play.dealer, true,
            Some(Settled(Settle(Total(t.player), Total(play.dealer)), false)), t.canDouble)
  }

  /** What `doubleDown` needs to draw its cards: a card for the player and,
      short of a bust, enough for the dealer. */
  predicate CanPlayDouble(t: Table, rule: Rule)
  {
    t.ended || !t.canDouble || (t.shoe != [] && DoubleOutcome(t.player, t.dealer, t.shoe, rule).Some?)
  }

  /** `doubleDown`, settled on the doubled hand. */
  function DoubleTable(t: Table, rule: Rule): Table
    requires CanPlayDouble(t, rule)
  {
    if t.ended || !t.canDouble then t
    else
      var n := |t.shoe|;
      var p := t.player + [t.shoe[n - 1]];
      var s := t.shoe[..n - 1];
      if Total(p) > 21 then Table(s, p, t.dealer, true, Some(PlayerBust), false)
      else
        var play := DealerPlay(t.dealer, s, rule).value;
        Table(play.shoe, p, play.dealer, true, Some(Settled(Settle(Total(p), Total(play.dealer)), true)), false)
  }

  /** Drawing the top card onto a hand keeps every card. */
  lemma DrawConserves(s: seq<Card>, h: seq<Card>)
    requires s != []
    ensures multiset(s[..|s| - 1]) + multiset(h + [s[|s| - 1]]) == multiset(s) + multiset(h)
  {
    assert s == s[..|s| - 1] + [s[|s| - 1]];
  }

  /** `deal`'s draws and natural checks, with `handValue`'s loops. */
  method DealOut(s: seq<Card>) returns (t: Table)
    requires |s| >= 4
    ensures t == DealTable(s)
  {
    var n := |s|;
    var p := [s[n - 1], s[n - 2]];
    var d := [s[n - 3], s[n - 4]];
    var pv := ComputeHandValue(p);
    var dv := ComputeHandValue(d);
    var pBJ := |p| == 2 && pv.total == 21;
    var dBJ := |d| == 2 && dv.total == 21;
    var o := if pBJ && dBJ then Some(BothNatural) else if pBJ then Some(PlayerNatural)
             else if dBJ then Some(DealerNatural) else None;
    t := Table(s[..n - 4], p, d, pBJ || dBJ, o, true);
  }

  /** A deal leaves a consistent table holding exactly the shoe's cards, four
      fewer in the shoe, doubling open, and ends the round exactly on a
      natural. */
  lemma DealFacts(s: seq<Card>)
    requires |s| >= 4
    ensures var t := DealTable(s);
            Consistent(t) && Cards(t) == multiset(s) && |t.shoe| == |s| - 4 && t.canDouble &&
            (t.ended <==> IsBlackjack(t.player) || IsBlackjack(t.dealer))
  {
    var n := |s|;
    assert s == s[..n - 4] + [s[n - 4], s[n - 3], s[n - 2], s[n - 1]];
  }

  /** A hit keeps the table consistent and every card, closes doubling, and
      ends the round exactly on a bust. */
  lemma HitFacts(t: Table)
    requires Consistent(t) && (t.ended || t.shoe != [])
    ensures Consistent(HitTable(t)) && Cards(HitTable(t)) == Cards(t)
    ensures !t.ended ==>
              |HitTable(t).player| == |t.player| + 1 && !HitTable(t).canDouble &&
              (HitTable(t).ended <==> Total(HitTable(t).player) > 21) &&
              (HitTable(t).ended ==> HitTable(t).outcome == Some(PlayerBust))
  {
    if !t.ended {
      DrawConserves(t.shoe, t.player);
    }
  }

  /** Standing keeps the table consistent and every card, ends the round,
      and leaves the dealer on 17 or more. */
  lemma StandFacts(t: Table, rule: Rule)
    requires Consistent(t) && (t.ended || DealerPlay(t.dealer, t.shoe, rule).Some?)
    ensures Consistent(StandTable(t, rule)) && Cards(StandTable(t, rule)) == Cards(t)
    ensures StandTable(t, rule).ended && StandTable(t, rule).player == t.player
    ensures !t.ended ==>
              Total(StandTable(t, rule).dealer) >= 17 &&
              StandTable(t, rule).outcome == Some(Settled(Settle(Total(t.player), Total(StandTable(t, rule).dealer)), false))
  {
    if !t.ended {
      DealerPlayTakes(t.dealer, t.shoe, rule);
      DealerPlayStops(t.dealer, t.shoe, rule);
      DealerPlayShape(t.dealer, t.shoe, rule);
      var play := DealerPlay(t.dealer, t.shoe, rule).value;
      Regroup(multiset(play.shoe), multiset(t.player), multiset(play.dealer), multiset(t.shoe), multiset(t.player),
              multiset(t.dealer), multiset(t.shoe));
    }
  }

  /** The dealer's play regrouped: the shoe left, the hand and the dealer's
      cards are the shoe, hand and dealer's cards before, when the play took
      from the shoe `mid` the hand left. */
  lemma Regroup<T>(shoe': multiset<T>, hand': multiset<T>, dealer': multiset<T>,
                   shoe: multiset<T>, hand: multiset<T>, dealer: multiset<T>, mid: multiset<T>)
    requires dealer' + shoe' == dealer + mid && mid + hand' == shoe + hand
    ensures shoe' + hand' + dealer' == shoe + hand + dealer
  {
    calc {
      shoe' + hand' + dealer';
      hand' + (dealer' + shoe');
      hand' + (dealer + mid);
      dealer + (mid + hand');
      dealer + (shoe + hand);
      shoe + hand + dealer;
    }
  }

  /** Doubling keeps every card. */
  lemma DoubleConserves(t: Table, rule: Rule)
    requires CanPlayDouble(t, rule)
    ensures Cards(DoubleTable(t, rule)) == Cards(t)
  {
    if !t.ended && t.canDouble {
      var n := |t.shoe|;
      var s := t.shoe[..n - 1];
      var p := t.player + [t.shoe[n - 1]];
      DrawConserves(t.shoe, t.player);
      if Total(p) <= 21 {
        DealerPlayTakes(t.dealer, s, rule);
        var play := DealerPlay(t.dealer, s, rule).value;
        Regroup(multiset(play.shoe), multiset(p), multiset(play.dealer), multiset(t.shoe), multiset(t.player),
                multiset(t.dealer), multiset(s));
        assert DoubleTable(t, rule) == Table(play.shoe, p, play.dealer, true,
          Some(Settled(Settle(Total(p), Total(play.dealer)), true)), false);
      }
    }
  }

  /** Doubling keeps the table consistent; when it happens the player takes
      exactly one card, the round ends with the doubled outcome and doubling
      closes; otherwise nothing changes. */
  lemma DoubleFacts(t: Table, rule: Rule)
    requires Consistent(t) && CanPlayDouble(t, rule)
    ensures Consistent(DoubleTable(t, rule))
    ensures t.ended || !t.canDouble ==> DoubleTable(t, rule) == t
    ensures !t.ended && t.canDouble ==>
              |DoubleTable(t, rule).player| == 3 && DoubleTable(t, rule).ended && !DoubleTable(t, rule).canDouble &&
              DoubleTable(t, rule).outcome == DoubleOutcome(t.player, t.dealer, t.shoe, rule)
  {
    if !t.ended && t.canDouble {
      var n := |t.shoe|;
      var s := t.shoe[..n - 1];
      if Total(t.player + [t.shoe[n - 1]]) <= 21 {
        DealerPlayShape(t.dealer, s, rule);
      }
    }
  }

  class Game {
    var shoe: seq<Card>
    var player: seq<Card>
    var dealer: seq<Card>
    var ended: bool
    var outcome: Option<Outcome>
    var canDouble: bool
    var rule: Rule

    function State(): Table
      reads this
    {
      Table(shoe, player, dealer, ended, outcome, canDouble)
    }

    ghost predicate Valid()
      reads this
    {
      Consistent(State())
    }

    /** The page opens with `deal(true)` under S17; `first` is the shoe
        `makeShoe` produced. */
    constructor (first: seq<Card>)
      requires IsShoe(first)
      ensures Valid() && State() == DealTable(first) && rule == S17
    {
      var t := DealTable(first);
      DealFacts(first);
      shoe, player, dealer := t.shoe, t.player, t.dealer;
      ended, outcome, canDouble := t.ended, t.outcome, t.canDouble;
      rule := S17;
    }

    /** `deal(fresh)` / `restart`, `newShoe` standing for `makeShoe`'s. */
    method Deal(freshRequested: bool, newShoe: seq<Card>)
      requires Valid() && IsShoe(newShoe)
      modifies this
      ensures Valid() && rule == old(rule)
      ensures State() == DealTable(ShoeForDeal(old(shoe), freshRequested, newShoe))
    {
      var s := if freshRequested || |shoe| < 20 then newShoe else shoe;
      assert s == ShoeForDeal(old(shoe), freshRequested, newShoe) && |s| >= 20;
      var t := DealOut(s);
      DealFacts(s);
      Put(t);
    }

    /** Lays a table out on the page's state. */
    method Put(t: Table)
      modifies this
      ensures State() == t && rule == old(rule)
    {
      shoe, player, dealer := t.shoe, t.player, t.dealer;
      ended, outcome, canDouble := t.ended, t.outcome, t.canDouble;
    }

    /** `hit`. */
    method Hit()
      requires Valid() && (ended || shoe != [])
      modifies this
      ensures Valid() && rule == old(rule)
      ensures State() == HitTable(old(State()))
    {
      HitFacts(State());
      if ended {
        return;
      }
      var n := |shoe|;
      player := player + [shoe[n - 1]];
      shoe := shoe[..n - 1];
      canDouble := false;
      var hv := ComputeHandValue(player);
      if hv.total > 21 {
        ended := true;
        outcome := Some(PlayerBust);
      }
    }

    /** `stand`. */
    method Stand()
      requires Valid() && (ended || DealerPlay(dealer, shoe, rule).Some?)
      modifies this
      ensures Valid() && rule == old(rule)
      ensures State() == StandTable(old(State()), rule)
    {
      StandFacts(State(), rule);
      if ended {
        return;
      }
      var r := PlayDealer(dealer, shoe, rule);
      dealer := r.value.dealer;
      shoe := r.value.shoe;
      var pv := ComputeHandValue(player);
      var dv := ComputeHandValue(dealer);
      ended := true;
      outcome := Some(Settled(Settle(pv.total, dv.total), false));
    }

    /** `doubleDown`, settling the doubled hand. */
    method DoubleDown()
      requires Valid() && CanPlayDouble(State(), rule)
      modifies this
      ensures Valid() && rule == old(rule)
      ensures State() == DoubleTable(old(State()), rule)
    {
      DoubleFacts(State(), rule);
      if ended || !canDouble {
        return;
      }
      var n := |shoe|;
      var s := shoe[..n - 1];
      player := player + [shoe[n - 1]];
      shoe := s;
      canDouble := false;
      var hv := ComputeHandValue(player);
      if hv.total > 21 {
        ended := true;
        outcome := Some(PlayerBust);
        return;
      }
      var r := PlayDealer(dealer, s, rule);
      dealer := r.value.dealer;
      shoe := r.value.shoe;
      var dv := ComputeHandValue(dealer);
      ended := true;
      outcome := Some(Settled(Settle(hv.total, dv.total), true));
    }

    /** The S17 / H17 switch. */
    method ToggleRule()
      requires Valid()
      modifies this
      ensures Valid() && State() == old(State())
      ensures rule == (if old(rule) == S17 then H17 else S17)
    {
      rule := if rule == S17 then H17 else S17;
    }
  }
}

=== FILE: bubble_wrap.dfy ===
/** Bubble wrap: a rows x cols sheet of bubbles, popped by clicks and by
    row, column and bomb powers, with combo scoring, a 60-second timed
    mode and a challenge pattern of bubbles to pop. */
module BubbleWrap {
  import opened Common

  const START_ROWS: nat := 10
  const START_COLS: nat := 14
  const MAX_ROWS: nat := 18
  const MAX_COLS: nat := 24
  /** Milliseconds within which a pop continues the combo. */
  const COMBO_WINDOW: int := 350
  const ROUND_SECONDS: int := 60
  const PATTERN_BONUS: nat := 50

  datatype Mode = Zen | Classic | Timed | Challenge
  datatype Power = NoPower | RowPower | ColPower | BombPower
  datatype Cell = Cell(id: nat, popped: bool)

  // ---------------------------------------------------------------
  // Flat indices: cell (r, c) of a sheet with `cols` columns is r * cols + c.

  lemma MulMono(a: nat, b: nat, c: nat)
    requires a <= b
    ensures a * c <= b * c
  {
    assert b * c == a * c + (b - a) * c;
  }

  lemma MulNeg(a: int, b: nat)
    requires a <= -1
    ensures a * b <= -(b as int)
  {
    var na: nat := -a;
    assert a * b == -(na * b);
    MulMono(1, na, b);
  }

  /** A multiple of b strictly between -b and b is zero. */
  lemma MulSmall(a: int, b: int)
    requires b > 0 && -b < a * b < b
    ensures a == 0
  {
    if a > 0 {
      MulMono(1, a, b);
      assert false;
    } else if a < 0 {
      MulNeg(a, b);
      assert false;
    }
  }

  /** Row and column of a flat index are unique. */
  lemma DivModUnique(k: int, q: int, m: int, cols: int)
    requires cols > 0 && 0 <= m < cols && k == q * cols + m
    ensures k / cols == q && k % cols == m
  {
    var r, c := k / cols, k % cols;
    assert (r - q) * cols == m - c;
    MulSmall(r - q, cols);
  }

  /** Every cell of the sheet has a row below `rows` and a column below
      `cols`. */
  lemma FlatRowCol(k: int, rows: nat, cols: nat)
    requires cols > 0 && 0 <= k < rows * cols
    ensures 0 <= k / cols < rows && 0 <= k % cols < cols && k == k / cols * cols + k % cols
  {
    if k / cols >= rows {
      MulMono(rows, k / cols, cols);
      assert false;
    }
  }

  lemma FlatBound(r: nat, c: nat, rows: nat, cols: nat)
    requires r < rows && c < cols
    ensures r * cols + c < rows * cols && r * cols + cols <= rows * cols
  {
    MulMono(r + 1, rows, cols);
  }

  // ---------------------------------------------------------------
  // The sheet and the challenge pattern.

  /** `buildGrid`: r * c unpopped cells, numbered row by row from 0. */
  method BuildGrid(r: nat, c: nat) returns (a: array<Cell>)
    ensures fresh(a) && a.Length == r * c
    ensures forall k :: 0 <= k < a.Length ==> a[k] == Cell(k, false)
  {
    a := new Cell[r * c];
    var id := 0;
    var i := 0;
    while i < r
      invariant 0 <= i <= r && id == i * c
      invariant forall k :: 0 <= k < id ==> a[k] == Cell(k, false)
    {
      MulMono(i + 1, r, c);
      var j := 0;
      while j < c
        invariant 0 <= j <= c && id == i * c + j
        invariant forall k :: 0 <= k < id ==> a[k] == Cell(k, false)
      {
        a[id] := Cell(id, false);
        id := id + 1;
        j := j + 1;
      }
      assert id == (i + 1) * c;
      i := i + 1;
    }
  }

  /** The indices of the bubbles still whole. */
  function Unpopped(cs: seq<Cell>): (s: set<nat>)
    ensures forall k: nat :: k in s <==> k < |cs| && !cs[k].popped
  {
    set k: nat | k < |cs| && !cs[k].popped
  }

  /** The indices below n. */
  function Indices(n: nat): (s: set<nat>)
    ensures forall i: nat :: i in s <==> i < n
    ensures |s| == n
  {
    if n == 0 then {} else Indices(n - 1) + {n - 1}
  }

  /** On a fresh sheet every bubble is whole. */
  lemma AllWhole(cs: seq<Cell>)
    requires forall k :: 0 <= k < |cs| ==> !cs[k].popped
    ensures |Unpopped(cs)| == |cs|
  {
    assert Unpopped(cs) == Indices(|cs|);
  }

  /** How many bubbles a pattern asks for: `18 + floor(roll * 8)`. */
  function PatternSize(roll: real): (n: nat)
    requires 0.0 <= roll < 1.0
    ensures 18 <= n <= 25
  {
    18 + (roll * 8.0).Floor
  }

  /** `regenChallenge` as written: distinct indices are drawn anywhere on
      the sheet, popped or not, until there are `PatternSize(roll)`. */
  method RegenAsWritten(total: nat, roll: real) returns (s: set<nat>)
    requires total >= 25 && 0.0 <= roll < 1.0
    ensures |s| == PatternSize(roll) && forall x :: x in s ==> x < total
  {
    var n := PatternSize(roll);
    s := {};
    while |s| < n
      invariant |s| <= n && forall x :: x in s ==> x < total
      decreases n - |s|
    {
      NotSubset(Indices(total), s);
      var x :| x in Indices(total) && x !in s;
      s := s + {x};
    }
  }

  /** `regenChallenge` as intended: the pattern is drawn from the bubbles
      still whole, as many as asked for or as there are. */
  method Regen(cs: seq<Cell>, roll: real) returns (s: set<nat>)
    requires 0.0 <= roll < 1.0
    ensures s <= Unpopped(cs) && |s| == Min(PatternSize(roll), |Unpopped(cs)|)
    ensures forall m :: m in s ==> m < |cs| && !cs[m].popped
  {
    var free := Unpopped(cs);
    var n := Min(PatternSize(roll), |free|);
    s := {};
    while |s| < n
      invariant s <= free && |s| <= n
      decreases n - |s|
    {
      NotSubset(free, s);
      var x :| x in free && x !in s;
      s := s + {x};
    }
  }

  /** The sheet and the pattern, as a value. */
  datatype Board = Board(cells: seq<Cell>, mask: set<nat>)

  /** One pop in challenge mode, before any new pattern is drawn: a whole
      bubble is popped and leaves the pattern; anything else changes
      nothing. */
  function Pop(b: Board, i: nat): Board
  {
    if i < |b.cells| && !b.cells[i].popped then Board(b.cells[i := b.cells[i].(popped := true)], b.mask - {i})
    else b
  }

  function PopAll(b: Board, order: seq<nat>): Board
    decreases |order|
  {
    if order == [] then b else PopAll(Pop(b, order[0]), order[1..])
  }

  /** A pattern of whole bubbles stays one after any pop, and popping one
      of its bubbles shrinks it by one. */
  lemma PopKeepsPattern(b: Board, i: nat)
    requires b.mask <= Unpopped(b.cells)
    ensures Pop(b, i).mask <= Unpopped(Pop(b, i).cells)
    ensures i in b.mask ==> |Pop(b, i).mask| == |b.mask| - 1
  {
  }

  /** With the intended pattern every pattern can be finished: popping its
      bubbles one by one empties it, which earns the bonus. */
  lemma {:induction false} PatternClears(b: Board) returns (order: seq<nat>)
    requires b.mask <= Unpopped(b.cells)
    ensures |order| == |b.mask| && PopAll(b, order).mask == {}
    decreases |b.mask|
  {
    if b.mask == {} {
      order := [];
    } else {
      var x :| x in b.mask;
      PopKeepsPattern(b, x);
      var rest := PatternClears(Pop(b, x));
      order := [x] + rest;
      assert order[1..] == rest;
    }
  }

  /** As written, a popped bubble drawn into the pattern stays in it
      whatever is popped next, so the pattern never empties again. */
  lemma {:induction false} StuckPatternAsWritten(b: Board, m: nat, order: seq<nat>)
    requires m in b.mask && m < |b.cells| && b.cells[m].popped
    ensures m in PopAll(b, order).mask && PopAll(b, order).mask != {}
    decreases |order|
  {
    if order != [] {
      StuckPatternAsWritten(Pop(b, order[0]), m, order[1..]);
    }
  }

  /** ... and the drawing as written may well pick a popped bubble: any
      18 indices of the sheet, popped cell 0 among them, are a possible
      pattern. */
  lemma PoppedInPatternAsWritten(cs: seq<Cell>)
    requires |cs| >= 25 && cs[0].popped
    ensures var s := Indices(18); |s| == 18 && (forall x :: x in s ==> x < |cs|) && 0 in s
    ensures StuckPatternPossible(cs)
  {
    var s := Indices(18);
    assert 0 in s;
    StuckPatternAsWritten(Board(cs, s), 0, []);
  }

  ghost predicate StuckPatternPossible(cs: seq<Cell>)
  {
    exists s: set<nat> :: |s| == 18 && (forall x :: x in s ==> x < |cs|) &&
      exists m :: m in s && m < |cs| && cs[m].popped
  }

  /** The cells a click strikes under a power: the cell itself, its row,
      its column, or the cells of the 3 x 3 block around it that lie on
      the sheet. */
  predicate Struck(p: Power, index: nat, k: nat, cols: nat)
    requires cols > 0
  {
    match p
    case NoPower => k == index
    case RowPower => k / cols == index / cols
    case ColPower => k % cols == index % cols
    case BombPower => InBlock(k, index / cols, index % cols, cols)
  }

  /** Cell k lies in the 3 x 3 block around row r, column c. */
  predicate InBlock(k: nat, r: int, c: int, cols: nat)
    requires cols > 0
  {
    -1 <= k / cols - r <= 1 && -1 <= k % cols - c <= 1
  }

  /** The combo counters: the current run, the best run, and the time of
      the last pop in milliseconds. */
  datatype Tally = Tally(combo: nat, maxCombo: nat, lastTap: int)

  /** A pop at time `now`: the run goes on when the last pop was under
      `COMBO_WINDOW` ago and starts again at 1 otherwise; the best run
      keeps up. */
  function Tap(t: Tally, now: int): (t': Tally)
    ensures t'.lastTap == now && 1 <= t'.combo && t.maxCombo <= t'.maxCombo && t'.combo <= t'.maxCombo
    ensures now - t.lastTap < COMBO_WINDOW ==> t'.combo == t.combo + 1
    ensures now - t.lastTap >= COMBO_WINDOW ==> t'.combo == 1
  {
    var c := if now - t.lastTap < COMBO_WINDOW then t.combo + 1 else 1;
    Tally(c, Max(t.maxCombo, c), now)
  }

  /** Pops at the given times, in order. */
  function Taps(t: Tally, times: seq<int>): Tally
    decreases |times|
  {
    if times == [] then t else Taps(Tap(t, times[0]), times[1..])
  }

  /** Each pop comes under `COMBO_WINDOW` after the one before. */
  predicate Quick(last: int, times: seq<int>)
    decreases |times|
  {
    times == [] || (times[0] - last < COMBO_WINDOW && Quick(times[0], times[1..]))
  }

  /** A quick run of n pops raises the combo by n, and the best run is at
      least the current one. */
  lemma {:induction false} QuickRun(t: Tally, times: seq<int>)
    requires t.combo <= t.maxCombo && Quick(t.lastTap, times)
    ensures Taps(t, times).combo == t.combo + |times| && Taps(t, times).combo <= Taps(t, times).maxCombo
    decreases |times|
  {
    if times != [] {
      QuickRun(Tap(t, times[0]), times[1..]);
    }
  }

  class Game {
    var rows: nat
    var cols: nat
    var cells: array<Cell>
    var mode: Mode
    var score: nat
    var timeLeft: int
    var tally: Tally
    var power: Power
    var mask: set<nat>

    /** The sheet is rows x cols, numbered row by row; the counters are in
        range. */
    ghost predicate Sheet()
      reads this, cells
    {
      START_ROWS <= rows <= MAX_ROWS && START_COLS <= cols <= MAX_COLS && cells.Length == rows * cols &&
      (forall k :: 0 <= k < cells.Length ==> cells[k].id == k) &&
      tally.combo <= tally.maxCombo && 0 <= timeLeft <= ROUND_SECONDS
    }

    /** In challenge mode the pattern lies on whole bubbles. */
    ghost predicate Whole()
      reads this, cells
    {
      mode == Challenge ==> forall m :: m in mask ==> m < cells.Length && !cells[m].popped
    }

    ghost predicate Valid()
      reads this, cells
    {
      Sheet() && Whole()
    }

    constructor ()
      ensures Valid() && rows == START_ROWS && cols == START_COLS && mode == Classic
      ensures score == 0 && tally == Tally(0, 0, 0) && timeLeft == ROUND_SECONDS && power == NoPower
      ensures forall k :: 0 <= k < cells.Length ==> !cells[k].popped
    {
      rows, cols, mode := START_ROWS, START_COLS, Classic;
      score, timeLeft, tally := 0, ROUND_SECONDS, Tally(0, 0, 0);
      power, mask := NoPower, {};
      var sheet := BuildGrid(START_ROWS, START_COLS);
      cells := sheet;
    }

    /** A whole bubble off the pattern bursts. */
    method Burst(i: nat)
      requires Valid() && i < cells.Length && (mode == Challenge ==> i !in mask)
      modifies cells
      ensures Valid()
      ensures forall k :: 0 <= k < cells.Length ==> cells[k].popped == (old(cells[k].popped) || k == i)
    {
      cells[i] := cells[i].(popped := true);
    }

    /** `popOne`: a whole bubble is popped for `1 + seen / 5` points, where
        `seen` is the combo the click handler saw, and the combo counters
        take the pop. In challenge mode the bubble leaves the pattern, and
        an emptied pattern earns the bonus and is drawn anew. */
    method PopOne(i: nat, now: int, seen: nat, roll: real) returns (hit: bool, bonus: bool)
      requires Valid() && 0.0 <= roll < 1.0
      modifies this, cells
      ensures Valid() && cells == old(cells) && rows == old(rows) && cols == old(cols)
      ensures mode == old(mode) && power == old(power) && timeLeft == old(timeLeft)
      ensures hit == (i < cells.Length && !old(cells[i].popped))
      ensures forall k :: 0 <= k < cells.Length ==> cells[k].popped == (old(cells[k].popped) || k == i)
      ensures tally == (if hit then Tap(old(tally), now) else old(tally))
      ensures score == old(score) + (if hit then 1 + seen / 5 else 0) + (if bonus then PATTERN_BONUS else 0)
      ensures bonus <==> hit && mode == Challenge && old(mask) - {i} == {}
      ensures !bonus ==> mask == (if hit && mode == Challenge then old(mask) - {i} else old(mask))
      ensures bonus ==> |mask| == Min(PatternSize(roll), |Unpopped(cells[..])|)
    {
      hit, bonus := false, false;
      if i >= cells.Length || cells[i].popped {
        return;
      }
      hit := true;
      if mode == Challenge {
        mask := mask - {i};
      }
      Burst(i);
      score, tally := score + 1 + seen / 5, Tap(tally, now);
      if mode == Challenge && mask == {} {
        score := score + PATTERN_BONUS;
        mask := Regen(cells[..], roll);
        bonus := true;
      }
    }

    /** The row power: every cell from `row * cols` on, `cols` of them,
        which is every cell of that row. */
    method PowerRow(row: nat, now: int, seen: nat, roll: real) returns (hits: nat, bonuses: nat)
      requires Valid() && row < rows && 0.0 <= roll < 1.0
      modifies this, cells
      ensures Valid() && cells == old(cells) && rows == old(rows) && cols == old(cols)
      ensures mode == old(mode) && power == old(power) && timeLeft == old(timeLeft)
      ensures forall k :: 0 <= k < cells.Length ==> cells[k].popped == (old(cells[k].popped) || k / cols == row)
      ensures hits <= cols && score == old(score) + hits * (1 + seen / 5) + PATTERN_BONUS * bonuses
    {
      var unit := 1 + seen / 5;
      hits, bonuses := 0, 0;
      var i := 0;
      while i < cols
        invariant 0 <= i <= cols && Valid() && cells == old(cells) && rows == old(rows) && cols == old(cols)
        invariant mode == old(mode) && power == old(power) && timeLeft == old(timeLeft)
        invariant forall k :: 0 <= k < cells.Length ==>
          cells[k].popped == (old(cells[k].popped) || (k / cols == row && k % cols < i))
        invariant hits <= i && score == old(score) + hits * unit + PATTERN_BONUS * bonuses
      {
        var h, b := PopCell(row, i, now, seen, roll);
        assert (hits + h) * unit == hits * unit + h * unit;
        hits, bonuses := hits + h, bonuses + b;
        i := i + 1;
      }
      forall k | 0 <= k < cells.Length
        ensures k % cols < cols
      {
        FlatRowCol(k, rows, cols);
      }
    }

    /** The column power: cell `r * cols + col` of every row r. */
    method PowerCol(col: nat, now: int, seen: nat, roll: real) returns (hits: nat, bonuses: nat)
      requires Valid() && col < cols && 0.0 <= roll < 1.0
      modifies this, cells
      ensures Valid() && cells == old(cells) && rows == old(rows) && cols == old(cols)
      ensures mode == old(mode) && power == old(power) && timeLeft == old(timeLeft)
      ensures forall k :: 0 <= k < cells.Length ==> cells[k].popped == (old(cells[k].popped) || k % cols == col)
      ensures hits <= rows && score == old(score) + hits * (1 + seen / 5) + PATTERN_BONUS * bonuses
    {
      var unit := 1 + seen / 5;
      hits, bonuses := 0, 0;
      var r := 0;
      while r < rows
        invariant 0 <= r <= rows && Valid() && cells == old(cells) && rows == old(rows) && cols == old(cols)
        invariant mode == old(mode) && power == old(power) && timeLeft == old(timeLeft)
        invariant forall k :: 0 <= k < cells.Length ==>
          cells[k].popped == (old(cells[k].popped) || (k % cols == col && k / cols < r))
        invariant hits <= r && score == old(score) + hits * unit + PATTERN_BONUS * bonuses
      {
        var h, b := PopCell(r, col, now, seen, roll);
        assert (hits + h) * unit == hits * unit + h * unit;
        hits, bonuses := hits + h, bonuses + b;
        r := r + 1;
      }
      forall k | 0 <= k < cells.Length
        ensures k / cols < rows
      {
        FlatRowCol(k, rows, cols);
      }
    }

    /** The pop of the bubble in row r, column c. */
    method PopCell(r: nat, c: nat, now: int, seen: nat, roll: real) returns (hits: nat, bonuses: nat)
      requires Valid() && r < rows && c < cols && 0.0 <= roll < 1.0
      modifies this, cells
      ensures Valid() && cells == old(cells) && rows == old(rows) && cols == old(cols)
      ensures mode == old(mode) && power == old(power) && timeLeft == old(timeLeft)
      ensures forall k :: 0 <= k < cells.Length ==>
        cells[k].popped == (old(cells[k].popped) || (k / cols == r && k % cols == c))
      ensures hits <= 1 && score == old(score) + hits * (1 + seen / 5) + PATTERN_BONUS * bonuses
    {
      ColumnCell(r, c);
      var h, b := PopOne(r * cols + c, now, seen, roll);
      hits, bonuses := if h then 1 else 0, if b then 1 else 0;
    }

    /** Cell `r * cols + col` is the one cell of row r in column col. */
    lemma ColumnCell(r: nat, col: nat)
      requires Sheet() && r < rows && col < cols
      ensures r * cols + col < cells.Length
      ensures forall k :: 0 <= k < cells.Length ==> (k == r * cols + col <==> k % cols == col && k / cols == r)
    {
      FlatBound(r, col, rows, cols);
      DivModUnique(r * cols + col, r, col, cols);
      forall k | 0 <= k < cells.Length
        ensures k == r * cols + col <==> k % cols == col && k / cols == r
      {
        FlatRowCol(k, rows, cols);
      }
    }

    /** The bomb: the cells (r + dr, c + dc) for dr, dc in -1..1 that lie
        on the sheet, where (r, c) is the clicked cell. */
    method PowerBomb(index: nat, now: int, seen: nat, roll: real) returns (hits: nat, bonuses: nat)
      requires Valid() && index < cells.Length && 0.0 <= roll < 1.0
      modifies this, cells
      ensures Valid() && cells == old(cells) && rows == old(rows) && cols == old(cols)
      ensures mode == old(mode) && power == old(power) && timeLeft == old(timeLeft)
      ensures forall k :: 0 <= k < cells.Length ==>
        cells[k].popped == (old(cells[k].popped) || InBlock(k, index / cols, index % cols, cols))
      ensures hits <= 9 && score == old(score) + hits * (1 + seen / 5) + PATTERN_BONUS * bonuses
    {
      var r, c := index / cols, index % cols;
      var unit := 1 + seen / 5;
      hits, bonuses := 0, 0;
      var dr := -1;
      while dr <= 1
        invariant -1 <= dr <= 2 && Valid() && cells == old(cells) && rows == old(rows) && cols == old(cols)
        invariant mode == old(mode) && power == old(power) && timeLeft == old(timeLeft)
        invariant forall k :: 0 <= k < cells.Length ==>
          cells[k].popped == (old(cells[k].popped) || (InBlock(k, r, c, cols) && k / cols - r < dr))
        invariant hits <= 3 * (dr + 1) && score == old(score) + hits * unit + PATTERN_BONUS * bonuses
      {
        var h, b := BombRow(r, c, dr, now, seen, roll);
        assert (hits + h) * unit == hits * unit + h * unit;
        hits, bonuses := hits + h, bonuses + b;
        dr := dr + 1;
      }
    }

    /** One row of the bomb: the cells (r + dr, c + dc), dc in -1..1. */
    method BombRow(r: int, c: int, dr: int, now: int, seen: nat, roll: real) returns (hits: nat, bonuses: nat)
      requires Valid() && -1 <= dr <= 1 && 0.0 <= roll < 1.0
      modifies this, cells
      ensures Valid() && cells == old(cells) && rows == old(rows) && cols == old(cols)
      ensures mode == old(mode) && power == old(power) && timeLeft == old(timeLeft)
      ensures forall k :: 0 <= k < cells.Length ==>
        cells[k].popped == (old(cells[k].popped) || (InBlock(k, r, c, cols) && k / cols - r == dr))
      ensures hits <= 3 && score == old(score) + hits * (1 + seen / 5) + PATTERN_BONUS * bonuses
    {
      var unit := 1 + seen / 5;
      hits, bonuses := 0, 0;
      var dc := -1;
      while dc <= 1
        invariant -1 <= dc <= 2 && Valid() && cells == old(cells) && rows == old(rows) && cols == old(cols)
        invariant mode == old(mode) && power == old(power) && timeLeft == old(timeLeft)
        invariant forall k :: 0 <= k < cells.Length ==>
          cells[k].popped == (old(cells[k].popped) || (k / cols - r == dr && -1 <= k % cols - c < dc))
        invariant hits <= dc + 1 && score == old(score) + hits * unit + PATTERN_BONUS * bonuses
      {
        var h, b := BombCell(r, c, dr, dc, now, seen, roll);
        assert (hits + h) * unit == hits * unit + h * unit;
        hits, bonuses := hits + h, bonuses + b;
        dc := dc + 1;
      }
    }

    /** One cell of the bomb, (r + dr, c + dc), popped when it is on the
        sheet. */
    method BombCell(r: int, c: int, dr: int, dc: int, now: int, seen: nat, roll: real) returns (hits: nat, bonuses: nat)
      requires Valid() && -1 <= dr <= 1 && -1 <= dc <= 1 && 0.0 <= roll < 1.0
      modifies this, cells
      ensures Valid() && cells == old(cells) && rows == old(rows) && cols == old(cols)
      ensures mode == old(mode) && power == old(power) && timeLeft == old(timeLeft)
      ensures forall k :: 0 <= k < cells.Length ==>
        cells[k].popped == (old(cells[k].popped) || (k / cols - r == dr && k % cols - c == dc))
      ensures hits <= 1 && score == old(score) + hits * (1 + seen / 5) + PATTERN_BONUS * bonuses
    {
      var rr, cc := r + dr, c + dc;
      BlockCell(r, c, dr, dc);
      hits, bonuses := 0, 0;
      if 0 <= rr < rows && 0 <= cc < cols {
        hits, bonuses := PopCell(rr, cc, now, seen, roll);
      }
    }

    /** The block cell at offset (dr, dc) is on the sheet exactly when its
        row and column are, and it is then cell `(r + dr) * cols + c + dc`. */
    lemma BlockCell(r: int, c: int, dr: int, dc: int)
      requires Sheet() && -1 <= dr <= 1 && -1 <= dc <= 1
      ensures forall k :: 0 <= k < cells.Length ==>
        (k / cols - r == dr && k % cols - c == dc <==>
           0 <= r + dr < rows && 0 <= c + dc < cols && k == (r + dr) * cols + c + dc)
    {
      var rr, cc := r + dr, c + dc;
      forall k | 0 <= k < cells.Length
        ensures k / cols - r == dr && k % cols - c == dc <==>
          0 <= rr < rows && 0 <= cc < cols && k == rr * cols + cc
      {
        FlatRowCol(k, rows, cols);
        if 0 <= rr < rows && 0 <= cc < cols && k == rr * cols + cc {
          DivModUnique(k, rr, cc, cols);
        }
      }
    }

    /** The pops of one click under power p: the armed power's cells, or
        the clicked cell alone. */
    method Strike(p: Power, index: nat, now: int, seen: nat, roll: real)
      requires Valid() && index < cells.Length && 0.0 <= roll < 1.0
      modifies this, cells
      ensures Valid() && cells == old(cells) && rows == old(rows) && cols == old(cols)
      ensures mode == old(mode) && power == old(power) && timeLeft == old(timeLeft) && score >= old(score)
      ensures forall k :: 0 <= k < cells.Length ==> cells[k].popped == (old(cells[k].popped) || Struck(p, index, k, cols))
    {
      FlatRowCol(index, rows, cols);
      match p
      case RowPower =>
        var h, _ := PowerRow(index / cols, now, seen, roll);
        MulMono(0, h, 1 + seen / 5);
      case ColPower =>
        var h, _ := PowerCol(index % cols, now, seen, roll);
        MulMono(0, h, 1 + seen / 5);
      case BombPower =>
        var h, _ := PowerBomb(index, now, seen, roll);
        MulMono(0, h, 1 + seen / 5);
      case NoPower =>
        var _, _ := PopOne(index, now, seen, roll);
    }

    /** `onCellClick`: ignored once a timed round is over; otherwise the
        armed power (or a single pop) strikes, scored with the combo as it
        stood before the click, and the power is disarmed. */
    method OnCellClick(index: nat, now: int, roll: real)
      requires Valid() && index < cells.Length && 0.0 <= roll < 1.0
      modifies this, cells
      ensures Valid() && cells == old(cells) && rows == old(rows) && cols == old(cols)
      ensures mode == old(mode) && timeLeft == old(timeLeft)
      ensures old(mode) == Timed && old(timeLeft) <= 0 ==>
        cells[..] == old(cells[..]) && score == old(score) && power == old(power) && mask == old(mask)
      ensures !(old(mode) == Timed && old(timeLeft) <= 0) ==>
        power == NoPower && score >= old(score) &&
        forall k :: 0 <= k < cells.Length ==> cells[k].popped == (old(cells[k].popped) || Struck(old(power), index, k, cols))
    {
      if mode == Timed && timeLeft <= 0 {
        return;
      }
      Strike(power, index, now, tally.combo, roll);
      power := NoPower;
    }

    /** The power buttons: a second press disarms. */
    method TogglePower(p: Power)
      requires Valid() && p != NoPower
      modifies this
      ensures Valid() && power == (if old(power) == p then NoPower else p)
      ensures cells == old(cells) && score == old(score) && mode == old(mode) && mask == old(mask)
      ensures tally == old(tally) && timeLeft == old(timeLeft) && rows == old(rows) && cols == old(cols)
    {
      power := if power == p then NoPower else p;
    }

    /** The timed mode's clock: one second down while time is left. */
    method Tick()
      requires Valid()
      modifies this
      ensures Valid() && timeLeft == (if mode == Timed && old(timeLeft) > 0 then old(timeLeft) - 1 else old(timeLeft))
      ensures mode == old(mode) && cells == old(cells) && score == old(score) && mask == old(mask)
      ensures power == old(power) && tally == old(tally) && rows == old(rows) && cols == old(cols)
    {
      if mode == Timed && timeLeft > 0 {
        timeLeft := timeLeft - 1;
      }
    }

    /** A sheet has at least 140 cells. */
    lemma SheetSize()
      requires Sheet()
      ensures cells.Length >= 140
    {
      MulMono(START_ROWS, rows, START_COLS);
      MulMono(START_COLS, cols, rows);
    }

    /** A new pattern on the sheet, drawn from its whole bubbles; on a fresh
        sheet it has the full size. */
    method NewPattern(roll: real)
      requires Sheet() && 0.0 <= roll < 1.0
      modifies this
      ensures Valid() && |mask| == Min(PatternSize(roll), |Unpopped(cells[..])|)
      ensures forall m :: m in mask ==> m < cells.Length && !cells[m].popped
      ensures rows == old(rows) && cols == old(cols) && cells == old(cells) && mode == old(mode) && power == old(power)
      ensures score == old(score) && tally == old(tally) && timeLeft == old(timeLeft)
      ensures (forall k :: 0 <= k < cells.Length ==> !cells[k].popped) ==> |mask| == PatternSize(roll)
    {
      mask := Regen(cells[..], roll);
      if forall k :: 0 <= k < cells.Length ==> !cells[k].popped {
        AllWhole(cells[..]);
        SheetSize();
      }
    }

    /** `resetAll`: a new sheet, score and combos cleared, the clock back at
        60, and in challenge mode a new pattern. */
    method ResetAll(roll: real)
      requires Valid() && 0.0 <= roll < 1.0
      modifies this
      ensures Valid() && fresh(cells) && rows == old(rows) && cols == old(cols) && mode == old(mode) && power == old(power)
      ensures score == 0 && tally == old(tally).(combo := 0, maxCombo := 0) && timeLeft == ROUND_SECONDS
      ensures forall k :: 0 <= k < cells.Length ==> !cells[k].popped
      ensures mode == Challenge ==> |mask| == PatternSize(roll)
      ensures mode != Challenge ==> mask == old(mask)
    {
      var sheet := BuildGrid(rows, cols);
      cells := sheet;
      score, tally, timeLeft := 0, tally.(combo := 0, maxCombo := 0), ROUND_SECONDS;
      if mode == Challenge {
        NewPattern(roll);
      }
    }

    /** The mode buttons: the mode changes, everything is reset, and the
        challenge mode draws a pattern. The reset reads the mode from before
        the click, as the handler's `resetAll` does, so leaving the
        challenge mode also draws one. */
    method SetMode(m: Mode, roll: real)
      requires Valid() && 0.0 <= roll < 1.0
      modifies this
      ensures Valid() && mode == m && fresh(cells) && rows == old(rows) && cols == old(cols)
      ensures score == 0 && tally == old(tally).(combo := 0, maxCombo := 0) && timeLeft == ROUND_SECONDS
      ensures power == old(power)
      ensures forall k :: 0 <= k < cells.Length ==> !cells[k].popped
      ensures m == Challenge ==> |mask| == PatternSize(roll)
      ensures m != Challenge && old(mode) != Challenge ==> mask == old(mask)
      ensures m != Challenge && old(mode) == Challenge ==> |mask| == PatternSize(roll)
    {
      ResetAll(roll);
      mode := m;
      if m == Challenge {
        NewPattern(roll);
      }
    }

    /** "More rows": one more row, at most 18; a new sheet is laid (the
        score stays) and, in challenge mode, a new pattern drawn. At the
        cap nothing changes. */
    method AddRow(roll: real)
      requires Valid() && 0.0 <= roll < 1.0
      modifies this
      ensures Valid() && rows == Min(MAX_ROWS, old(rows) + 1) && cols == old(cols)
      ensures score == old(score) && mode == old(mode)
      ensures power == old(power) && timeLeft == old(timeLeft) && tally == old(tally)
      ensures mode != Challenge ==> mask == old(mask)
      ensures old(rows) == MAX_ROWS ==> cells == old(cells) && mask == old(mask)
      ensures old(rows) < MAX_ROWS ==> fresh(cells) && forall k :: 0 <= k < cells.Length ==> !cells[k].popped
      ensures old(rows) < MAX_ROWS && mode == Challenge ==> |mask| == PatternSize(roll)
    {
      if rows < MAX_ROWS {
        var sheet := BuildGrid(rows + 1, cols);
        rows, cells := rows + 1, sheet;
        if mode == Challenge {
          NewPattern(roll);
        }
      }
    }

    /** "More columns": one more column, at most 24, as for rows. */
    method AddCol(roll: real)
      requires Valid() && 0.0 <= roll < 1.0
      modifies this
      ensures Valid() && cols == Min(MAX_COLS, old(cols) + 1) && rows == old(rows)
      ensures score == old(score) && mode == old(mode)
      ensures power == old(power) && timeLeft == old(timeLeft) && tally == old(tally)
      ensures mode != Challenge ==> mask == old(mask)
      ensures old(cols) == MAX_COLS ==> cells == old(cells) && mask == old(mask)
      ensures old(cols) < MAX_COLS ==> fresh(cells) && forall k :: 0 <= k < cells.Length ==> !cells[k].popped
      ensures old(cols) < MAX_COLS && mode == Challenge ==> |mask| == PatternSize(roll)
    {
      if cols < MAX_COLS {
        var sheet := BuildGrid(rows, cols + 1);
        cols, cells := cols + 1, sheet;
        if mode == Challenge {
          NewPattern(roll);
        }
      }
    }
  }
}

=== FILE: chinese_chess.dfy ===
/** Xiangqi (Chinese chess) on a 10 x 9 board, red at the bottom moving
    first: piece movement, the screens between two squares, the generals
    facing rule, legality (no self-check), move listing, and the page's
    select / move / undo / restart / computer-move state changes. */
module ChineseChess {
  import opened Common

  const ROWS: int := 10
  const COLS: int := 9

  datatype Color = Red | Black
  datatype Kind = General | Advisor | Elephant | Horse | Rook | Cannon | Soldier
  datatype Piece = Piece(color: Color, kind: Kind)
  type Cell = Option<Piece>
  type Board = seq<seq<Cell>>

  datatype Pos = Pos(r: int, c: int)
  datatype Move = Move(from: Pos, to: Pos)

  /** What `kingPos` answers when the general is missing. */
  const NOWHERE: Pos := Pos(-1, -1)

  function Other(c: Color): Color { if c == Red then Black else Red }

  predicate OnBoard(p: Pos) { 0 <= p.r < ROWS && 0 <= p.c < COLS }

  predicate WellFormed(b: Board)
  {
    |b| == ROWS && forall r :: 0 <= r < ROWS ==> |b[r]| == COLS
  }

  function At(b: Board, p: Pos): Cell
    requires WellFormed(b) && OnBoard(p)
  {
    b[p.r][p.c]
  }

  /** The square holds a piece of colour `col`. */
  predicate Owns(b: Board, p: Pos, col: Color)
    requires WellFormed(b) && OnBoard(p)
  {
    At(b, p).Some? && At(b, p).value.color == col
  }

  // ---------------------------------------------------------------------------
  // startBoard

  function BackRank(col: Color): seq<Cell>
  {
    [Some(Piece(col, Rook)), Some(Piece(col, Horse)), Some(Piece(col, Elephant)), Some(Piece(col, Advisor)),
     Some(Piece(col, General)),
     Some(Piece(col, Advisor)), Some(Piece(col, Elephant)), Some(Piece(col, Horse)), Some(Piece(col, Rook))]
  }

  function CannonRow(col: Color): seq<Cell>
  {
    [None, Some(Piece(col, Cannon)), None, None, None, None, None, Some(Piece(col, Cannon)), None]
  }

  function SoldierRow(col: Color): seq<Cell>
  {
    [Some(Piece(col, Soldier)), None, Some(Piece(col, Soldier)), None, Some(Piece(col, Soldier)), None,
     Some(Piece(col, Soldier)), None, Some(Piece(col, Soldier))]
  }

  function EmptyRow(): seq<Cell>
  {
    [None, None, None, None, None, None, None, None, None]
  }

  /** `startBoard`: black on rows 0-3, red on rows 6-9. */
  function StartBoard(): (b: Board)
    ensures WellFormed(b)
  {
    [BackRank(Black), EmptyRow(), CannonRow(Black), SoldierRow(Black), EmptyRow(),
     EmptyRow(), SoldierRow(Red), CannonRow(Red), EmptyRow(), BackRank(Red)]
  }

  /** Pieces of colour `col` in the first n cells of a row. */
  function RowCount(row: seq<Cell>, col: Color, n: nat): nat
    requires n <= |row|
  {
    if n == 0 then 0 else RowCount(row, col, n - 1) + (if row[n - 1].Some? && row[n - 1].value.color == col then 1 else 0)
  }

  /** Pieces of colour `col` on the first n rows. */
  function PieceCount(b: seq<seq<Cell>>, col: Color, n: nat): nat
    requires n <= |b|
  {
    if n == 0 then 0 else PieceCount(b, col, n - 1) + RowCount(b[n - 1], col, |b[n - 1]|)
  }

  /** 1 for a piece of colour `col`, else 0. */
  function Mine(c: Cell, col: Color): nat
  {
    if c.Some? && c.value.color == col then 1 else 0
  }

  /** A row's count, cell by cell. */
  lemma RowCountCells(row: seq<Cell>, col: Color)
    requires |row| == COLS
    ensures RowCount(row, col, COLS) ==
      Mine(row[0], col) + Mine(row[1], col) + Mine(row[2], col) + Mine(row[3], col) + Mine(row[4], col) +
      Mine(row[5], col) + Mine(row[6], col) + Mine(row[7], col) + Mine(row[8], col)
  {
    assert RowCount(row, col, 1) == Mine(row[0], col);
    assert RowCount(row, col, 2) == RowCount(row, col, 1) + Mine(row[1], col);
    assert RowCount(row, col, 3) == RowCount(row, col, 2) + Mine(row[2], col);
    assert RowCount(row, col, 4) == RowCount(row, col, 3) + Mine(row[3], col);
    assert RowCount(row, col, 5) == RowCount(row, col, 4) + Mine(row[4], col);
    assert RowCount(row, col, 6) == RowCount(row, col, 5) + Mine(row[5], col);
    assert RowCount(row, col, 7) == RowCount(row, col, 6) + Mine(row[6], col);
    assert RowCount(row, col, 8) == RowCount(row, col, 7) + Mine(row[7], col);
  }

  /** The rows of the opening position: nine pieces on a back rank, two
      cannons, five soldiers, all of the row's own side. */
  lemma StartRowCounts(side: Color, col: Color)
    ensures RowCount(BackRank(side), col, COLS) == if side == col then 9 else 0
    ensures RowCount(CannonRow(side), col, COLS) == if side == col then 2 else 0
    ensures RowCount(SoldierRow(side), col, COLS) == if side == col then 5 else 0
    ensures RowCount(EmptyRow(), col, COLS) == 0
  {
    RowCountCells(BackRank(side), col);
    RowCountCells(CannonRow(side), col);
    RowCountCells(SoldierRow(side), col);
    RowCountCells(EmptyRow(), col);
  }

  /** The opening position has 16 pieces a side, the black general on
      (0, 4) and the red general on (9, 4). */
  lemma StartBoardFacts()
    ensures WellFormed(StartBoard())
    ensures PieceCount(StartBoard(), Red, ROWS) == 16 && PieceCount(StartBoard(), Black, ROWS) == 16
    ensures At(StartBoard(), Pos(0, 4)) == Some(Piece(Black, General))
    ensures At(StartBoard(), Pos(9, 4)) == Some(Piece(Red, General))
  {
    StartCount(Red);
    StartCount(Black);
  }

  lemma StartCount(col: Color)
    ensures PieceCount(StartBoard(), col, ROWS) == 16
  {
    var b := StartBoard();
    assert b[0] == BackRank(Black) && b[1] == EmptyRow() && b[2] == CannonRow(Black) && b[3] == SoldierRow(Black);
    assert b[4] == EmptyRow() && b[5] == EmptyRow();
    assert b[6] == SoldierRow(Red) && b[7] == CannonRow(Red) && b[8] == EmptyRow() && b[9] == BackRank(Red);
    OpeningCount(b, col);
  }

  /** Any board laid out row by row like the opening position has 16 pieces
      of each side. */
  lemma OpeningCount(b: Board, col: Color)
    requires WellFormed(b)
    requires b[0] == BackRank(Black) && b[1] == EmptyRow() && b[2] == CannonRow(Black) && b[3] == SoldierRow(Black)
    requires b[4] == EmptyRow() && b[5] == EmptyRow()
    requires b[6] == SoldierRow(Red) && b[7] == CannonRow(Red) && b[8] == EmptyRow() && b[9] == BackRank(Red)
    ensures PieceCount(b, col, ROWS) == 16
  {
    PieceCountRows(b, col);
    StartRowCounts(Black, col);
    StartRowCounts(Red, col);
  }

  /** A board's count, row by row. */
  lemma PieceCountRows(b: Board, col: Color)
    requires WellFormed(b)
    ensures PieceCount(b, col, ROWS) ==
      RowCount(b[0], col, COLS) + RowCount(b[1], col, COLS) + RowCount(b[2], col, COLS) +
      RowCount(b[3], col, COLS) + RowCount(b[4], col, COLS) + RowCount(b[5], col, COLS) +
      RowCount(b[6], col, COLS) + RowCount(b[7], col, COLS) + RowCount(b[8], col, COLS) +
      RowCount(b[9], col, COLS)
  {
    assert PieceCount(b, col, 1) == RowCount(b[0], col, COLS);
    assert PieceCount(b, col, 2) == PieceCount(b, col, 1) + RowCount(b[1], col, COLS);
    assert PieceCount(b, col, 3) == PieceCount(b, col, 2) + RowCount(b[2], col, COLS);
    assert PieceCount(b, col, 4) == PieceCount(b, col, 3) + RowCount(b[3], col, COLS);
    assert PieceCount(b, col, 5) == PieceCount(b, col, 4) + RowCount(b[4], col, COLS);
    assert PieceCount(b, col, 6) == PieceCount(b, col, 5) + RowCount(b[5], col, COLS);
    assert PieceCount(b, col, 7) == PieceCount(b, col, 6) + RowCount(b[6], col, COLS);
    assert PieceCount(b, col, 8) == PieceCount(b, col, 7) + RowCount(b[7], col, COLS);
    assert PieceCount(b, col, 9) == PieceCount(b, col, 8) + RowCount(b[8], col, COLS);
  }

  // ---------------------------------------------------------------------------
  // inPalace and lineClear

  /** `inPalace`: rows 7-9 (red) or 0-2 (black), columns 3-5. */
  predicate InPalace(p: Pos, col: Color)
  {
    if col == Red then 7 <= p.r <= 9 && 3 <= p.c <= 5 else 0 <= p.r <= 2 && 3 <= p.c <= 5
  }

  /** Both squares on one rank or one file. */
  predicate SameLine(a: Pos, b: Pos) { a.r == b.r || a.c == b.c }

  function Add(p: Pos, d: Pos): Pos { Pos(p.r + d.r, p.c + d.c) }

  /** The unit step from a towards b, as `Math.sign` gives it. */
  function Toward(a: Pos, b: Pos): Pos { Pos(Sign(b.r - a.r), Sign(b.c - a.c)) }

  /** q lies strictly between a and b on their common rank or file. */
  predicate StrictlyBetween(a: Pos, b: Pos, q: Pos)
  {
    (a.r == b.r == q.r && Min(a.c, b.c) < q.c < Max(a.c, b.c)) ||
    (a.c == b.c == q.c && Min(a.r, b.r) < q.r < Max(a.r, b.r))
  }

  /** p has not passed `to` walking along d on their common line. */
  predicate Ray(p: Pos, to: Pos, d: Pos)
  {
    p == to ||
    (p.r == to.r && d == Pos(0, Sign(to.c - p.c))) ||
    (p.c == to.c && d == Pos(Sign(to.r - p.r), 0))
  }

  /** The squares from p up to (not including) `to`, walking along d. */
  function Path(p: Pos, to: Pos, d: Pos): seq<Pos>
    requires Ray(p, to, d)
    decreases Abs(to.r - p.r) + Abs(to.c - p.c)
  {
    if p == to then [] else [p] + Path(Add(p, d), to, d)
  }

  /** The squares strictly between a and b, walking from a. */
  function Between(a: Pos, b: Pos): seq<Pos>
    requires SameLine(a, b)
  {
    if a == b then [] else Path(Add(a, Toward(a, b)), b, Toward(a, b))
  }

  /** How many of the squares hold a piece. */
  function Occupants(b: Board, s: seq<Pos>): nat
    requires WellFormed(b) && forall i :: 0 <= i < |s| ==> OnBoard(s[i])
  {
    if s == [] then 0 else (if At(b, s[0]).Some? then 1 else 0) + Occupants(b, s[1..])
  }

  lemma {:induction false} PathExact(p: Pos, to: Pos, d: Pos, a: Pos)
    requires Ray(p, to, d) && SameLine(a, to) && a != to && d == Toward(a, to) && p == Add(a, d)
    ensures forall q :: q in Path(p, to, d) <==> StrictlyBetween(a, to, q)
    decreases Abs(to.r - p.r) + Abs(to.c - p.c)
  {
    if p != to {
      PathExact(Add(p, d), to, d, p);
    }
  }

  /** `Between` lists exactly the squares strictly between the two. */
  lemma BetweenExact(a: Pos, b: Pos)
    requires SameLine(a, b)
    ensures forall q :: q in Between(a, b) <==> StrictlyBetween(a, b, q)
  {
    if a != b {
      PathExact(Add(a, Toward(a, b)), b, Toward(a, b), a);
    }
  }

  lemma {:induction false} OccupantsZero(b: Board, s: seq<Pos>)
    requires WellFormed(b) && forall i :: 0 <= i < |s| ==> OnBoard(s[i])
    ensures Occupants(b, s) == 0 <==> forall i :: 0 <= i < |s| ==> At(b, s[i]).None?
  {
    if s != [] {
      OccupantsZero(b, s[1..]);
      assert forall i :: 1 <= i < |s| ==> s[i] == s[1..][i - 1];
    }
  }

  lemma BetweenOnBoard(a: Pos, b: Pos)
    requires SameLine(a, b) && OnBoard(a) && OnBoard(b)
    ensures forall i :: 0 <= i < |Between(a, b)| ==> OnBoard(Between(a, b)[i])
  {
    BetweenExact(a, b);
    forall i | 0 <= i < |Between(a, b)|
      ensures OnBoard(Between(a, b)[i])
    {
      assert Between(a, b)[i] in Between(a, b);
    }
  }

  /** `lineClear`'s count: the pieces strictly between a and b. */
  function Screens(b: Board, a: Pos, t: Pos): nat
    requires WellFormed(b) && OnBoard(a) && OnBoard(t) && SameLine(a, t)
  {
    BetweenOnBoard(a, t);
    Occupants(b, Between(a, t))
  }

  /** No screen means every square between is empty. */
  lemma ScreensZero(b: Board, a: Pos, t: Pos)
    requires WellFormed(b) && OnBoard(a) && OnBoard(t) && SameLine(a, t)
    ensures Screens(b, a, t) == 0 <==> forall q :: StrictlyBetween(a, t, q) ==> OnBoard(q) && At(b, q).None?
  {
    BetweenOnBoard(a, t);
    BetweenExact(a, t);
    OccupantsZero(b, Between(a, t));
    if Screens(b, a, t) == 0 {
      forall q | StrictlyBetween(a, t, q)
        ensures OnBoard(q) && At(b, q).None?
      {
        assert q in Between(a, t);
      }
    }
  }

  /** `lineClear(b, r, c, rr, cc)`. */
  method LineClear(b: Board, a: Pos, t: Pos) returns (cnt: int)
    requires WellFormed(b) && OnBoard(a) && OnBoard(t) && SameLine(a, t)
    ensures cnt == Screens(b, a, t)
  {
    BetweenOnBoard(a, t);
    var d := Toward(a, t);
    var p := Add(a, d);
    cnt := 0;
    if a == t {
      return;
    }
    while p != t
      invariant Ray(p, t, d)
      invariant forall i :: 0 <= i < |Path(p, t, d)| ==> OnBoard(Path(p, t, d)[i])
      invariant cnt + Occupants(b, Path(p, t, d)) == Occupants(b, Between(a, t))
      decreases Abs(t.r - p.r) + Abs(t.c - p.c)
    {
      assert Path(p, t, d)[0] == p;
      if b[p.r][p.c].Some? {
        cnt := cnt + 1;
      }
      assert Path(p, t, d)[1..] == Path(Add(p, d), t, d);
      p := Add(p, d);
    }
  }

  // ---------------------------------------------------------------------------
  // attacks

  /** The horse's leg: the square next to it in the long direction. */
  function Leg(from: Pos, to: Pos): Pos
  {
    if Abs(to.r - from.r) == 2 then Pos(from.r + Sign(to.r - from.r), from.c)
    else Pos(from.r, from.c + Sign(to.c - from.c))
  }

  /** The elephant's eye: the midpoint of its diagonal step. */
  function Eye(from: Pos, to: Pos): Pos
  {
    Pos(from.r + (to.r - from.r) / 2, from.c + (to.c - from.c) / 2)
  }

  /** A soldier has crossed the river. */
  predicate Crossed(from: Pos, col: Color)
  {
    if col == Red then from.r <= 4 else from.r >= 5
  }

  /** The target squares `attacks` is asked about: a board square, or the
      `[-1, -1]` of a missing general. */
  predicate Target(p: Pos) { OnBoard(p) || p == NOWHERE }

  /** `attacks(b, fromR, fromC, toR, toC)`: the piece on `from` may move to
      (or capture on) `to` by its own rule, ignoring whose piece is there. */
  function Attacks(b: Board, from: Pos, to: Pos): bool
    requires WellFormed(b) && OnBoard(from) && Target(to)
  {
    match At(b, from)
    case None => false
    case Some(p) =>
      var dr := to.r - from.r;
      var dc := to.c - from.c;
      match p.kind
      case General => InPalace(to, p.color) && Abs(dr) + Abs(dc) == 1
      case Advisor => InPalace(to, p.color) && Abs(dr) == 1 && Abs(dc) == 1
      case Elephant =>
        if p.color == Red && to.r < 5 then false
        else if p.color == Black && to.r > 4 then false
        else if !(Abs(dr) == 2 && Abs(dc) == 2) then false
        else At(b, Eye(from, to)).None?
      case Horse =>
        if !((Abs(dr) == 2 && Abs(dc) == 1) || (Abs(dr) == 1 && Abs(dc) == 2)) then false
        else At(b, Leg(from, to)).None?
      case Rook =>
        if !(dr == 0 || dc == 0) then false else Screens(b, from, to) == 0
      case Cannon =>
        if !(dr == 0 || dc == 0) then false
        else if At(b, to).Some? then Screens(b, from, to) == 1
        else Screens(b, from, to) == 0
      case Soldier =>
        var forward := if p.color == Red then -1 else 1;
        (dc == 0 && dr == forward) || (Crossed(from, p.color) && dr == 0 && Abs(dc) == 1)
  }

  /** General and advisor targets lie in their own palace. */
  lemma PalaceBound(b: Board, from: Pos, to: Pos)
    requires WellFormed(b) && OnBoard(from) && Target(to) && Attacks(b, from, to)
    requires At(b, from).value.kind == General || At(b, from).value.kind == Advisor
    ensures InPalace(to, At(b, from).value.color) && OnBoard(to)
  {
  }

  /** An elephant steps two squares diagonally over an empty eye and stays
      on its own side of the river. */
  lemma ElephantRule(b: Board, from: Pos, to: Pos)
    requires WellFormed(b) && OnBoard(from) && Target(to) && Attacks(b, from, to)
    requires At(b, from).value.kind == Elephant
    ensures Abs(to.r - from.r) == 2 && Abs(to.c - from.c) == 2
    ensures OnBoard(Eye(from, to)) && At(b, Eye(from, to)).None?
    ensures At(b, from).value.color == Red ==> 5 <= to.r
    ensures At(b, from).value.color == Black ==> to.r <= 4
  {
  }

  /** A horse moves two-by-one and is blocked by its leg. */
  lemma HorseRule(b: Board, from: Pos, to: Pos)
    requires WellFormed(b) && OnBoard(from) && Target(to) && At(b, from).Some? && At(b, from).value.kind == Horse
    ensures Attacks(b, from, to) <==>
              ((Abs(to.r - from.r) == 2 && Abs(to.c - from.c) == 1) ||
               (Abs(to.r - from.r) == 1 && Abs(to.c - from.c) == 2)) &&
              OnBoard(Leg(from, to)) && At(b, Leg(from, to)).None?
  {
  }

  /** A rook moves along a rank or file with every square between empty. */
  lemma RookRule(b: Board, from: Pos, to: Pos)
    requires WellFormed(b) && OnBoard(from) && OnBoard(to) && At(b, from).Some? && At(b, from).value.kind == Rook
    ensures Attacks(b, from, to) <==>
              SameLine(from, to) && forall q :: StrictlyBetween(from, to, q) ==> OnBoard(q) && At(b, q).None?
  {
    if SameLine(from, to) {
      ScreensZero(b, from, to);
    }
  }

  /** A cannon moves quietly over an empty line and captures over exactly one
      screen. */
  lemma CannonRule(b: Board, from: Pos, to: Pos)
    requires WellFormed(b) && OnBoard(from) && OnBoard(to) && At(b, from).Some? && At(b, from).value.kind == Cannon
    ensures At(b, to).None? ==>
              (Attacks(b, from, to) <==>
                 SameLine(from, to) && forall q :: StrictlyBetween(from, to, q) ==> OnBoard(q) && At(b, q).None?)
    ensures At(b, to).Some? && Attacks(b, from, to) ==>
              SameLine(from, to) && exists q :: StrictlyBetween(from, to, q) && OnBoard(q) && At(b, q).Some?
  {
    if SameLine(from, to) {
      ScreensZero(b, from, to);
    }
  }

  /** A soldier steps one square forward, or sideways once across the river,
      and never backward. */
  lemma SoldierRule(b: Board, from: Pos, to: Pos)
    requires WellFormed(b) && OnBoard(from) && Target(to) && Attacks(b, from, to)
    requires At(b, from).value.kind == Soldier
    ensures var forward := if At(b, from).value.color == Red then -1 else 1;
            (to.c == from.c && to.r == from.r + forward) ||
            (Crossed(from, At(b, from).value.color) && to.r == from.r && Abs(to.c - from.c) == 1)
  {
  }

  // ---------------------------------------------------------------------------
  // applyMove, kingPos, generalFacing

  /** `applyMove`: a copy with the source piece on the target and the source
      emptied. */
  function Moved(b: Board, from: Pos, to: Pos): (nb: Board)
    requires WellFormed(b) && OnBoard(from) && OnBoard(to)
    ensures WellFormed(nb)
  {
    var b1 := b[to.r := b[to.r][to.c := At(b, from)]];
    b1[from.r := b1[from.r][from.c := None]]
  }

  /** The moved piece stands on the target, the source is empty, and every
      other square is as it was. */
  lemma MovedFacts(b: Board, from: Pos, to: Pos, q: Pos)
    requires WellFormed(b) && OnBoard(from) && OnBoard(to) && OnBoard(q)
    ensures At(Moved(b, from, to), from).None?
    ensures from != to ==> At(Moved(b, from, to), to) == At(b, from)
    ensures q != from && q != to ==> At(Moved(b, from, to), q) == At(b, q)
  {
  }

  /** Row-major index k as a square. */
  function Square(k: int): Pos
  {
    Pos(k / COLS, k % COLS)
  }

  /** The first square from index k on, in row-major order, holding the
      general of `col`. (The board is named in the decreases clause only so
      that a call with a literal start is not unfolded all the way down
      wherever it appears; the same holds for `FacingScan`.) */
  function KingFrom(b: Board, col: Color, k: nat): (p: Pos)
    requires WellFormed(b) && k <= ROWS * COLS
    ensures Target(p)
    decreases ROWS * COLS - k, b
  {
    if k == ROWS * COLS then NOWHERE
    else if At(b, Square(k)) == Some(Piece(col, General)) then Square(k)
    else KingFrom(b, col, k + 1)
  }

  function KingAt(b: Board, col: Color): Pos
    requires WellFormed(b)
  {
    KingFrom(b, col, 0)
  }

  /** `kingPos` finds the general, or answers `[-1, -1]` exactly when there
      is none. */
  lemma {:induction false} KingFromFacts(b: Board, col: Color, k: nat)
    requires WellFormed(b) && k <= ROWS * COLS
    ensures KingFrom(b, col, k) != NOWHERE ==> At(b, KingFrom(b, col, k)) == Some(Piece(col, General))
    ensures KingFrom(b, col, k) == NOWHERE <==>
              forall j :: k <= j < ROWS * COLS ==> At(b, Square(j)) != Some(Piece(col, General))
    decreases ROWS * COLS - k, b
  {
    if k < ROWS * COLS {
      KingFromFacts(b, col, k + 1);
    }
  }

  /** `kingPos(b, col)`. */
  method KingPos(b: Board, col: Color) returns (p: Pos)
    requires WellFormed(b)
    ensures p == KingAt(b, col)
  {
    var r := 0;
    while r < ROWS
      invariant 0 <= r <= ROWS
      invariant KingFrom(b, col, r * COLS) == KingAt(b, col)
    {
      var c := RowKing(b, col, r);
      if c < COLS {
        return Pos(r, c);
      }
      r := r + 1;
    }
    return NOWHERE;
  }

  /** The inner loop of `kingPos`: the column of the general of `col` in row
      r, or COLS when the row has none. */
  method RowKing(b: Board, col: Color, r: int) returns (c: int)
    requires WellFormed(b) && 0 <= r < ROWS
    ensures 0 <= c <= COLS
    ensures c < COLS ==> KingFrom(b, col, r * COLS) == Pos(r, c)
    ensures c == COLS ==> KingFrom(b, col, r * COLS) == KingFrom(b, col, (r + 1) * COLS)
  {
    c := 0;
    while c < COLS
      invariant 0 <= c <= COLS
      invariant KingFrom(b, col, r * COLS + c) == KingFrom(b, col, r * COLS)
    {
      KingFromStep(b, col, r, c);
      if b[r][c] == Some(Piece(col, General)) {
        return;
      }
      c := c + 1;
    }
  }

  /** One square of the scan: (r, c) is index r * COLS + c. */
  lemma KingFromStep(b: Board, col: Color, r: int, c: int)
    requires WellFormed(b) && 0 <= r < ROWS && 0 <= c < COLS
    ensures KingFrom(b, col, r * COLS + c) ==
      if b[r][c] == Some(Piece(col, General)) then Pos(r, c) else KingFrom(b, col, r * COLS + c + 1)
  {
    SquareOf(r, c);
  }

  lemma SquareOf(r: int, c: int)
    requires 0 <= c < COLS
    ensures Square(r * COLS + c) == Pos(r, c)
  {
  }

  /** Scanning rows from r down file `file`: the last rows seen holding the
      red and the black general (-1 if none), then whether both were found
      with nothing between them. */
  function FacingScan(b: Board, file: int, r: int, rRed: int, rBlk: int): bool
    requires WellFormed(b) && 0 <= file < COLS && 0 <= r <= ROWS
    requires -1 <= rRed < ROWS && -1 <= rBlk < ROWS
    decreases ROWS - r, b
  {
    if r < ROWS then
      var cell := b[r][file];
      if cell.Some? && cell.value.kind == General then
        if cell.value.color == Red then FacingScan(b, file, r + 1, r, rBlk)
        else FacingScan(b, file, r + 1, rRed, r)
      else FacingScan(b, file, r + 1, rRed, rBlk)
    else if rRed < 0 || rBlk < 0 then false
    else Screens(b, Pos(Min(rRed, rBlk), file), Pos(Max(rRed, rBlk), file)) == 0
  }

  /** The two generals stand on file `file` with nothing between them. */
  function FacingOnFile(b: Board, file: int): bool
    requires WellFormed(b) && 0 <= file < COLS
  {
    FacingScan(b, file, 0, -1, -1)
  }

  /** `generalFacing` as written: only file 4 is looked at. */
  function FacingAsWritten(b: Board): bool
    requires WellFormed(b)
  {
    FacingOnFile(b, 4)
  }

  /** The generals face each other on some file (both palaces span files
      3-5, so file 4 alone misses files 3 and 5). */
  function Facing(b: Board): bool
    requires WellFormed(b)
  {
    exists file :: 0 <= file < COLS && FacingOnFile(b, file)
  }

  /** The corrected rule catches everything the written one does. */
  lemma FacingAsWrittenImpliesFacing(b: Board)
    requires WellFormed(b)
    ensures FacingAsWritten(b) ==> Facing(b)
  {
  }

  /** Facing generals: a red general and a black general on one file with
      no piece between. */
  lemma {:induction false} FacingScanFacts(b: Board, file: int, r: int, rRed: int, rBlk: int)
    requires WellFormed(b) && 0 <= file < COLS && 0 <= r <= ROWS
    requires -1 <= rRed < ROWS && -1 <= rBlk < ROWS
    requires rRed >= 0 ==> b[rRed][file] == Some(Piece(Red, General))
    requires rBlk >= 0 ==> b[rBlk][file] == Some(Piece(Black, General))
    ensures FacingScan(b, file, r, rRed, rBlk) ==>
              exists x, y :: 0 <= x < ROWS && 0 <= y < ROWS &&
                b[x][file] == Some(Piece(Red, General)) && b[y][file] == Some(Piece(Black, General)) &&
                Screens(b, Pos(Min(x, y), file), Pos(Max(x, y), file)) == 0
    decreases ROWS - r, b
  {
    if r < ROWS {
      var cell := b[r][file];
      if cell.Some? && cell.value.kind == General {
        if cell.value.color == Red {
          FacingScanFacts(b, file, r + 1, r, rBlk);
        } else {
          FacingScanFacts(b, file, r + 1, rRed, r);
        }
      } else {
        FacingScanFacts(b, file, r + 1, rRed, rBlk);
      }
    }
  }

  /** The scan of one file, as the `generalFacing` loops do it. */
  method FileFacing(b: Board, file: int) returns (res: bool)
    requires WellFormed(b) && 0 <= file < COLS
    ensures res == FacingOnFile(b, file)
  {
    var rRed, rBlk := -1, -1;
    var r := 0;
    while r < ROWS
      invariant 0 <= r <= ROWS && -1 <= rRed < ROWS && -1 <= rBlk < ROWS
      invariant FacingScan(b, file, r, rRed, rBlk) == FacingOnFile(b, file)
    {
      var cell := b[r][file];
      if cell.Some? && cell.value.kind == General {
        if cell.value.color == Red {
          rRed := r;
        } else {
          rBlk := r;
        }
      }
      r := r + 1;
    }
    if rRed < 0 || rBlk < 0 {
      return false;
    }
    var lo, hi := Min(rRed, rBlk), Max(rRed, rBlk);
    var cnt := LineClear(b, Pos(lo, file), Pos(hi, file));
    res := cnt == 0;
  }

  /** `generalFacing`, corrected to look at every file. */
  method GeneralFacing(b: Board) returns (res: bool)
    requires WellFormed(b)
    ensures res == Facing(b)
  {
    var file := 0;
    while file < COLS
      invariant 0 <= file <= COLS
      invariant forall f :: 0 <= f < file ==> !FacingOnFile(b, f)
    {
      res := FileFacing(b, file);
      if res {
        return;
      }
      file := file + 1;
    }
    res := false;
  }

  /** Rows lo .. hi-1 of the file are empty: the scan passes them by. */
  lemma {:induction false} ScanSkipsEmpty(b: Board, file: int, lo: int, hi: int, rRed: int, rBlk: int)
    requires WellFormed(b) && 0 <= file < COLS && 0 <= lo <= hi <= ROWS
    requires -1 <= rRed < ROWS && -1 <= rBlk < ROWS
    requires forall r :: lo <= r < hi ==> b[r][file].None?
    ensures FacingScan(b, file, lo, rRed, rBlk) == FacingScan(b, file, hi, rRed, rBlk)
    decreases hi - lo
  {
    if lo < hi {
      ScanSkipsEmpty(b, file, lo + 1, hi, rRed, rBlk);
    }
  }

  /** Only the two generals are on the board, both on file 3. */
  predicate FileThreeBoard(b: Board)
  {
    WellFormed(b) &&
    b[0][3] == Some(Piece(Black, General)) && b[ROWS - 1][3] == Some(Piece(Red, General)) &&
    forall r, c :: 0 <= r < ROWS && 0 <= c < COLS && !((r == 0 || r == ROWS - 1) && c == 3) ==> b[r][c].None?
  }

  /** The written check misses generals facing on file 3; the corrected one
      reports them. */
  lemma FacingMissedOffCentre(b: Board)
    requires FileThreeBoard(b)
    ensures !FacingAsWritten(b) && Facing(b)
  {
    ScanSkipsEmpty(b, 4, 0, ROWS, -1, -1);
    ScanSkipsEmpty(b, 3, 1, ROWS - 1, -1, 0);
    assert FacingScan(b, 3, 0, -1, -1) == FacingScan(b, 3, 1, -1, 0);
    assert FacingScan(b, 3, ROWS - 1, -1, 0) == FacingScan(b, 3, ROWS, ROWS - 1, 0);
    ScreensZero(b, Pos(0, 3), Pos(ROWS - 1, 3));
    assert FacingOnFile(b, 3);
  }

  // ---------------------------------------------------------------------------
  // isLegalMove, hasAnyLegal, listMoves

  /** The piece on q belongs to the other side and attacks k. */
  predicate Threat(b: Board, q: Pos, k: Pos, col: Color)
    requires WellFormed(b) && OnBoard(q) && Target(k)
  {
    Owns(b, q, Other(col)) && Attacks(b, q, k)
  }

  /** Some piece of the other colour attacks the general of `col` (its
      `[-1, -1]` when it is missing). */
  predicate InCheck(b: Board, col: Color)
    requires WellFormed(b)
  {
    exists r, c :: 0 <= r < ROWS && 0 <= c < COLS && Threat(b, Pos(r, c), KingAt(b, col), col)
  }

  /** `isLegalMove(b, from, to, col)`, with the corrected facing check. */
  predicate Legal(b: Board, from: Pos, to: Pos, col: Color)
    requires WellFormed(b) && OnBoard(from)
  {
    OnBoard(to) && Owns(b, from, col) && !Owns(b, to, col) && Attacks(b, from, to) &&
    !Facing(Moved(b, from, to)) && !InCheck(Moved(b, from, to), col)
  }

  /** The check loop of `isLegalMove` (and of the game-over test). */
  method KingAttacked(b: Board, col: Color) returns (res: bool)
    requires WellFormed(b)
    ensures res == InCheck(b, col)
  {
    KingFromFacts(b, col, 0);
    var k := KingPos(b, col);
    var r := 0;
    while r < ROWS
      invariant 0 <= r <= ROWS
      invariant NoThreatAbove(b, k, col, r)
    {
      res := RowThreat(b, r, k, col);
      if res {
        ThreatFound(b, k, col, r);
        return;
      }
      NoThreatStep(b, k, col, r);
      r := r + 1;
    }
    NoThreatAnywhere(b, col);
    return false;
  }

  /** No piece on the first r rows threatens k. */
  ghost predicate NoThreatAbove(b: Board, k: Pos, col: Color, r: int)
    requires WellFormed(b) && Target(k) && 0 <= r <= ROWS
  {
    forall x, y :: 0 <= x < r && 0 <= y < COLS ==> !Threat(b, Pos(x, y), k, col)
  }

  lemma NoThreatStep(b: Board, k: Pos, col: Color, r: int)
    requires WellFormed(b) && Target(k) && 0 <= r < ROWS
    requires NoThreatAbove(b, k, col, r) && !exists y :: 0 <= y < COLS && Threat(b, Pos(r, y), k, col)
    ensures NoThreatAbove(b, k, col, r + 1)
  {
  }

  lemma ThreatFound(b: Board, k: Pos, col: Color, r: int)
    requires WellFormed(b) && 0 <= r < ROWS && k == KingAt(b, col)
    requires Target(k) && exists y :: 0 <= y < COLS && Threat(b, Pos(r, y), k, col)
    ensures InCheck(b, col)
  {
  }

  lemma NoThreatAnywhere(b: Board, col: Color)
    requires WellFormed(b) && Target(KingAt(b, col)) && NoThreatAbove(b, KingAt(b, col), col, ROWS)
    ensures !InCheck(b, col)
  {
  }

  /** One row of the check loop. */
  method RowThreat(b: Board, r: int, k: Pos, col: Color) returns (res: bool)
    requires WellFormed(b) && 0 <= r < ROWS && Target(k)
    ensures res <==> exists y :: 0 <= y < COLS && Threat(b, Pos(r, y), k, col)
  {
    var c := 0;
    while c < COLS
      invariant 0 <= c <= COLS
      invariant forall y :: 0 <= y < c ==> !Threat(b, Pos(r, y), k, col)
    {
      if Threat(b, Pos(r, c), k, col) {
        return true;
      }
      c := c + 1;
    }
    return false;
  }

  /** `isLegalMove`. */
  method IsLegalMove(b: Board, from: Pos, to: Pos, col: Color) returns (ok: bool)
    requires WellFormed(b) && OnBoard(from)
    ensures ok == Legal(b, from, to, col)
  {
    if !OnBoard(to) {
      return false;
    }
    var p := b[from.r][from.c];
    if p.None? || p.value.color != col {
      return false;
    }
    var dst := b[to.r][to.c];
    if dst.Some? && dst.value.color == col {
      return false;
    }
    if !Attacks(b, from, to) {
      return false;
    }
    var nb := Moved(b, from, to);
    var facing := GeneralFacing(nb);
    if facing {
      return false;
    }
    var check := KingAttacked(nb, col);
    ok := !check;
  }

  /** A legal move takes a piece of the mover to a board square not held by
      the mover, by the piece's rule, and leaves neither facing generals nor
      the mover's general attacked. */
  lemma LegalMeans(b: Board, from: Pos, to: Pos, col: Color)
    requires WellFormed(b) && OnBoard(from) && Legal(b, from, to, col)
    ensures OnBoard(to) && from != to
    ensures At(b, from).Some? && At(b, from).value.color == col
    ensures At(b, to).None? || At(b, to).value.color == Other(col)
    ensures Attacks(b, from, to)
    ensures !Facing(Moved(b, from, to)) && !InCheck(Moved(b, from, to), col)
  {
  }

  /** The moves from `from` to those of the first c squares of row r that
      pass `ok`, in column order. */
  function RowPicks(ok: Pos -> bool, from: Pos, r: int, c: nat): seq<Move>
    decreases c, from
  {
    if c == 0 then []
    else RowPicks(ok, from, r, c - 1) + (if ok(Pos(r, c - 1)) then [Move(from, Pos(r, c - 1))] else [])
  }

  lemma {:induction false} RowPicksHas(ok: Pos -> bool, from: Pos, r: int, c: nat, m: Move)
    ensures m in RowPicks(ok, from, r, c) <==> m.from == from && m.to.r == r && 0 <= m.to.c < c && ok(m.to)
    decreases c
  {
    if c > 0 {
      RowPicksHas(ok, from, r, c - 1, m);
    }
  }

  /** Every pick is a move from `from`, whatever the test. */
  lemma {:induction false} RowPicksFrom(ok: Pos -> bool, from: Pos, r: int, c: nat, m: Move)
    ensures m in RowPicks(ok, from, r, c) ==> m.from == from
    decreases c
  {
    if c > 0 {
      RowPicksFrom(ok, from, r, c - 1, m);
    }
  }

  /** The moves from `from` to the squares of the first r rows that pass
      `ok`, row-major. */
  function Picks(ok: Pos -> bool, from: Pos, r: nat): seq<Move>
    decreases r, from
  {
    if r == 0 then [] else Picks(ok, from, r - 1) + RowPicks(ok, from, r - 1, COLS)
  }

  lemma {:induction false} PicksHas(ok: Pos -> bool, from: Pos, r: nat, m: Move)
    ensures m in Picks(ok, from, r) <==> m.from == from && 0 <= m.to.r < r && 0 <= m.to.c < COLS && ok(m.to)
    decreases r
  {
    if r > 0 {
      PicksHas(ok, from, r - 1, m);
      RowPicksHas(ok, from, r - 1, COLS, m);
    }
  }

  /** Every pick is a move from `from`, whatever the test. */
  lemma {:induction false} PicksFrom(ok: Pos -> bool, from: Pos, r: nat, m: Move)
    ensures m in Picks(ok, from, r) ==> m.from == from
    decreases r
  {
    if r > 0 {
      PicksFrom(ok, from, r - 1, m);
      RowPicksFrom(ok, from, r - 1, COLS, m);
    }
  }

  /** The legality test for the piece on `from`. */
  function LegalFrom(b: Board, from: Pos, col: Color): (Pos -> bool)
    requires WellFormed(b) && OnBoard(from)
  {
    to => Legal(b, from, to, col)
  }

  /** The legal targets of `from` among the first c squares of row r. */
  function TargetsInRow(b: Board, from: Pos, col: Color, r: int, c: int): seq<Move>
    requires WellFormed(b) && OnBoard(from) && 0 <= r < ROWS && 0 <= c <= COLS
  {
    RowPicks(LegalFrom(b, from, col), from, r, c)
  }

  /** The legal moves of `from` onto the first r rows, row-major. */
  function TargetsUpTo(b: Board, from: Pos, col: Color, r: int): seq<Move>
    requires WellFormed(b) && OnBoard(from) && 0 <= r <= ROWS
  {
    Picks(LegalFrom(b, from, col), from, r)
  }

  /** The legal moves of the pieces on the first c squares of row r. */
  function MovesInRow(b: Board, col: Color, r: int, c: int): seq<Move>
    requires WellFormed(b) && 0 <= r < ROWS && 0 <= c <= COLS
    decreases c, b
  {
    if c == 0 then []
    else MovesInRow(b, col, r, c - 1) +
         (if Owns(b, Pos(r, c - 1), col) then TargetsUpTo(b, Pos(r, c - 1), col, ROWS) else [])
  }

  /** The legal moves of the pieces on the first r rows. */
  function MovesUpTo(b: Board, col: Color, r: int): seq<Move>
    requires WellFormed(b) && 0 <= r <= ROWS
    decreases r, b
  {
    if r == 0 then [] else MovesUpTo(b, col, r - 1) + MovesInRow(b, col, r - 1, COLS)
  }

  /** `listMoves(b, col)`: every legal move, sources and targets row-major. */
  function AllMoves(b: Board, col: Color): seq<Move>
    requires WellFormed(b)
  {
    MovesUpTo(b, col, ROWS)
  }

  lemma TargetsUpToHas(b: Board, from: Pos, col: Color, r: int, m: Move)
    requires WellFormed(b) && OnBoard(from) && 0 <= r <= ROWS
    ensures m in TargetsUpTo(b, from, col, r) <==>
              m.from == from && 0 <= m.to.r < r && Legal(b, from, m.to, col)
  {
    PicksHas(LegalFrom(b, from, col), from, r, m);
  }

  lemma {:induction false} MovesInRowHas(b: Board, col: Color, r: int, c: int, m: Move)
    requires WellFormed(b) && 0 <= r < ROWS && 0 <= c <= COLS
    ensures m in MovesInRow(b, col, r, c) <==>
              m.from.r == r && 0 <= m.from.c < c && Owns(b, m.from, col) && m in TargetsUpTo(b, m.from, col, ROWS)
    decreases c
  {
    if c > 0 {
      var from := Pos(r, c - 1);
      var last := if Owns(b, from, col) then TargetsUpTo(b, from, col, ROWS) else [];
      assert MovesInRow(b, col, r, c) == MovesInRow(b, col, r, c - 1) + last;
      MovesInRowHas(b, col, r, c - 1, m);
      TargetsFrom(b, from, col, ROWS, m);
    }
  }

  /** Every target move of `from` starts on `from`. */
  lemma TargetsFrom(b: Board, from: Pos, col: Color, r: int, m: Move)
    requires WellFormed(b) && OnBoard(from) && 0 <= r <= ROWS
    ensures m in TargetsUpTo(b, from, col, r) ==> m.from == from
  {
    PicksFrom(LegalFrom(b, from, col), from, r, m);
  }

  /** Only the mover's own pieces have legal moves. */
  lemma LegalOwns(b: Board, m: Move, col: Color)
    requires WellFormed(b)
    ensures OnBoard(m.from) && Legal(b, m.from, m.to, col) ==> Owns(b, m.from, col) && OnBoard(m.to)
  {
  }

  lemma {:induction false} MovesUpToHas(b: Board, col: Color, r: int, m: Move)
    requires WellFormed(b) && 0 <= r <= ROWS
    ensures m in MovesUpTo(b, col, r) <==>
              0 <= m.from.r < r && 0 <= m.from.c < COLS && Owns(b, m.from, col) && m in TargetsUpTo(b, m.from, col, ROWS)
    decreases r
  {
    if r > 0 {
      assert MovesUpTo(b, col, r) == MovesUpTo(b, col, r - 1) + MovesInRow(b, col, r - 1, COLS);
      MovesUpToHas(b, col, r - 1, m);
      MovesInRowHas(b, col, r - 1, COLS, m);
    }
  }

  /** The legal moves of one piece, target squares row-major. */
  method TargetsOf(b: Board, from: Pos, col: Color) returns (ms: seq<Move>)
    requires WellFormed(b) && OnBoard(from)
    ensures ms == TargetsUpTo(b, from, col, ROWS)
  {
    ms := [];
    var rr := 0;
    while rr < ROWS
      invariant 0 <= rr <= ROWS
      invariant ms == TargetsUpTo(b, from, col, rr)
    {
      var row := TargetsRow(b, from, col, rr);
      ms := ms + row;
      rr := rr + 1;
    }
  }

  /** The legal moves of one piece onto row rr. */
  method TargetsRow(b: Board, from: Pos, col: Color, rr: int) returns (ms: seq<Move>)
    requires WellFormed(b) && OnBoard(from) && 0 <= rr < ROWS
    ensures ms == TargetsInRow(b, from, col, rr, COLS)
  {
    ms := [];
    var cc := 0;
    while cc < COLS
      invariant 0 <= cc <= COLS
      invariant ms == TargetsInRow(b, from, col, rr, cc)
    {
      var ok := IsLegalMove(b, from, Pos(rr, cc), col);
      if ok {
        ms := ms + [Move(from, Pos(rr, cc))];
      }
      cc := cc + 1;
    }
  }

  /** `listMoves(b, col)`. */
  method ListMoves(b: Board, col: Color) returns (ms: seq<Move>)
    requires WellFormed(b)
    ensures ms == AllMoves(b, col)
  {
    ms := [];
    var r := 0;
    while r < ROWS
      invariant 0 <= r <= ROWS
      invariant ms == MovesUpTo(b, col, r)
    {
      var row := RowMoveList(b, col, r);
      ms := ms + row;
      r := r + 1;
    }
  }

  /** The moves of the pieces on row r, in column order. */
  method RowMoveList(b: Board, col: Color, r: int) returns (ms: seq<Move>)
    requires WellFormed(b) && 0 <= r < ROWS
    ensures ms == MovesInRow(b, col, r, COLS)
  {
    ms := [];
    var c := 0;
    while c < COLS
      invariant 0 <= c <= COLS
      invariant ms == MovesInRow(b, col, r, c)
    {
      if b[r][c].Some? && b[r][c].value.color == col {
        var t := TargetsOf(b, Pos(r, c), col);
        ms := ms + t;
      }
      c := c + 1;
    }
  }

  /** `hasAnyLegal(b, col)`: some legal move exists. */
  predicate HasAnyLegalSpec(b: Board, col: Color)
    requires WellFormed(b)
  {
    exists r, c, rr, cc :: 0 <= r < ROWS && 0 <= c < COLS && 0 <= rr < ROWS && 0 <= cc < COLS &&
      Legal(b, Pos(r, c), Pos(rr, cc), col)
  }

  /** There is a legal move exactly when the move list is non-empty. */
  lemma HasAnyLegalIffMoves(b: Board, col: Color)
    requires WellFormed(b)
    ensures HasAnyLegalSpec(b, col) <==> AllMoves(b, col) != []
  {
    if HasAnyLegalSpec(b, col) {
      LegalListed(b, col);
    }
    if AllMoves(b, col) != [] {
      ListedLegal(b, col);
    }
  }

  lemma LegalListed(b: Board, col: Color)
    requires WellFormed(b) && HasAnyLegalSpec(b, col)
    ensures AllMoves(b, col) != []
  {
    var r, c, rr, cc :| 0 <= r < ROWS && 0 <= c < COLS && 0 <= rr < ROWS && 0 <= cc < COLS &&
      Legal(b, Pos(r, c), Pos(rr, cc), col);
    MoveListed(b, col, Move(Pos(r, c), Pos(rr, cc)));
  }

  lemma ListedLegal(b: Board, col: Color)
    requires WellFormed(b) && AllMoves(b, col) != []
    ensures HasAnyLegalSpec(b, col)
  {
    var m := AllMoves(b, col)[0];
    MoveListed(b, col, m);
    assert m.from == Pos(m.from.r, m.from.c) && m.to == Pos(m.to.r, m.to.c);
    assert Legal(b, Pos(m.from.r, m.from.c), Pos(m.to.r, m.to.c), col);
  }

  /** One move is listed exactly when it is legal. */
  lemma MoveListed(b: Board, col: Color, m: Move)
    requires WellFormed(b)
    ensures m in AllMoves(b, col) <==> OnBoard(m.from) && Legal(b, m.from, m.to, col)
  {
    MovesUpToHas(b, col, ROWS, m);
    if OnBoard(m.from) {
      TargetsUpToHas(b, m.from, col, ROWS, m);
      LegalOwns(b, m, col);
    }
  }

  /** `hasAnyLegal(b, col)`, stopping at the first legal move. */
  method HasAnyLegal(b: Board, col: Color) returns (res: bool)
    requires WellFormed(b)
    ensures res == HasAnyLegalSpec(b, col)
  {
    var r := 0;
    while r < ROWS
      invariant 0 <= r <= ROWS
      invariant MovesUpTo(b, col, r) == []
    {
      res := RowHasMove(b, col, r);
      if res {
        MovesTail(b, col, r, COLS);
        HasAnyLegalIffMoves(b, col);
        return;
      }
      r := r + 1;
    }
    HasAnyLegalIffMoves(b, col);
    return false;
  }

  /** One row of `hasAnyLegal`'s scan over the sources. */
  method RowHasMove(b: Board, col: Color, r: int) returns (res: bool)
    requires WellFormed(b) && 0 <= r < ROWS
    ensures res <==> MovesInRow(b, col, r, COLS) != []
  {
    var c := 0;
    while c < COLS
      invariant 0 <= c <= COLS
      invariant MovesInRow(b, col, r, c) == []
    {
      if b[r][c].Some? && b[r][c].value.color == col {
        var t := TargetsOf(b, Pos(r, c), col);
        if t != [] {
          MovesRowTail(b, col, r, c + 1);
          return true;
        }
      }
      c := c + 1;
    }
    return false;
  }

  /** A move found among the first c sources of a row stays in the row's list. */
  lemma {:induction false} MovesRowTail(b: Board, col: Color, r: int, c: int)
    requires WellFormed(b) && 0 <= r < ROWS && 0 <= c <= COLS
    requires MovesInRow(b, col, r, c) != []
    ensures MovesInRow(b, col, r, COLS) != []
    decreases COLS - c
  {
    if c < COLS {
      MovesRowTail(b, col, r, c + 1);
    }
  }

  /** Once some prefix of the scan has produced a move, the whole list is
      non-empty. */
  lemma MovesTail(b: Board, col: Color, r: int, c: int)
    requires WellFormed(b) && 0 <= r < ROWS && 0 <= c <= COLS
    requires MovesInRow(b, col, r, c) != []
    ensures AllMoves(b, col) != []
  {
    var m := MovesInRow(b, col, r, c)[0];
    assert m in MovesInRow(b, col, r, c);
    MovesInRowHas(b, col, r, c, m);
    MovesUpToHas(b, col, ROWS, m);
  }

  // ---------------------------------------------------------------------------
  // The page

  /** One undo entry: the board and side to move before a move. */
  datatype Snapshot = Snapshot(board: Board, turn: Color)

  /** The `overInfo` memo: when the side to move has no legal move, the
      other side wins, noting whether the loser's general was attacked. */
  datatype Over = Over(winner: Color, check: bool)

  function OverInfo(b: Board, turn: Color): Option<Over>
    requires WellFormed(b)
  {
    if HasAnyLegalSpec(b, turn) then None else Some(Over(Other(turn), InCheck(b, turn)))
  }

  method ComputeOverInfo(b: Board, turn: Color) returns (o: Option<Over>)
    requires WellFormed(b)
    ensures o == OverInfo(b, turn)
    ensures o.Some? <==> AllMoves(b, turn) == []
  {
    HasAnyLegalIffMoves(b, turn);
    var any := HasAnyLegal(b, turn);
    if any {
      return None;
    }
    var check := KingAttacked(b, turn);
    return Some(Over(Other(turn), check));
  }

  class Game {
    var board: Board
    var turn: Color
    var sel: Option<Pos>
    var history: seq<Snapshot>
    var aiOn: bool
    var aiColor: Color

    ghost predicate Valid()
      reads this
    {
      WellFormed(board) && (sel.Some? ==> OnBoard(sel.value)) &&
      forall i :: 0 <= i < |history| ==> WellFormed(history[i].board)
    }

    /** A new game: red to move from the opening position. */
    constructor ()
      ensures Valid()
      ensures board == StartBoard() && turn == Red && sel == None && history == []
      ensures !aiOn && aiColor == Black
    {
      board := StartBoard();
      turn := Red;
      sel := None;
      history := [];
      aiOn := false;
      aiColor := Black;
    }

    /** `restart`. */
    method Restart()
      requires Valid()
      modifies this
      ensures Valid()
      ensures board == StartBoard() && turn == Red && sel == None && history == []
      ensures aiOn == old(aiOn) && aiColor == old(aiColor)
    {
      board := StartBoard();
      turn := Red;
      sel := None;
      history := [];
    }

    /** `selectOrMove(r, c)`: with a selected piece and a legal target, move
        it (saving the position for undo) and pass the turn; otherwise select
        an own piece or clear the selection. Ignored while the computer is to
        move. */
    method SelectOrMove(p: Pos)
      requires Valid() && OnBoard(p)
      modifies this
      ensures Valid()
      ensures aiOn == old(aiOn) && aiColor == old(aiColor)
      ensures old(aiOn) && old(turn) == old(aiColor) ==>
                board == old(board) && turn == old(turn) && sel == old(sel) && history == old(history)
      ensures !(old(aiOn) && old(turn) == old(aiColor)) ==>
                if old(sel).Some? && Legal(old(board), old(sel).value, p, old(turn)) then
                  board == Moved(old(board), old(sel).value, p) && turn == Other(old(turn)) &&
                  sel == None && history == old(history) + [Snapshot(old(board), old(turn))]
                else
                  board == old(board) && turn == old(turn) && history == old(history) &&
                  sel == (if Owns(old(board), p, old(turn)) then Some(p) else None)
    {
      if aiOn && turn == aiColor {
        return;
      }
      if sel.Some? {
        var ok := IsLegalMove(board, sel.value, p, turn);
        if ok {
          history := history + [Snapshot(board, turn)];
          board := Moved(board, sel.value, p);
          turn := Other(turn);
          sel := None;
          return;
        }
      }
      if board[p.r][p.c].Some? && board[p.r][p.c].value.color == turn {
        sel := Some(p);
      } else {
        sel := None;
      }
    }

    /** The computer's move effect: when it is on, to move and the game is not
        over, the selection is cleared and its chosen move (one of the listed
        legal moves, or none) is played. */
    method ComputerMove(mv: Option<Move>)
      requires Valid()
      requires mv.Some? ==> OnBoard(mv.value.from) && Legal(board, mv.value.from, mv.value.to, aiColor)
      modifies this
      ensures Valid()
      ensures aiOn == old(aiOn) && aiColor == old(aiColor)
      ensures !old(aiOn) || old(turn) != old(aiColor) || OverInfo(old(board), old(turn)).Some? ==>
                board == old(board) && turn == old(turn) && sel == old(sel) && history == old(history)
      ensures old(aiOn) && old(turn) == old(aiColor) && OverInfo(old(board), old(turn)).None? ==>
                sel == None &&
                if mv.Some? then
                  board == Moved(old(board), mv.value.from, mv.value.to) && turn == Other(old(turn)) &&
                  history == old(history) + [Snapshot(old(board), old(turn))]
                else
                  board == old(board) && turn == old(turn) && history == old(history)
    {
      if !aiOn || turn != aiColor {
        return;
      }
      var over := ComputeOverInfo(board, turn);
      if over.Some? {
        return;
      }
      sel := None;
      if mv.Some? {
        history := history + [Snapshot(board, turn)];
        board := Moved(board, mv.value.from, mv.value.to);
        turn := Other(turn);
      }
    }

    /** `undo`: restore the position before the last move. */
    method Undo()
      requires Valid()
      modifies this
      ensures Valid()
      ensures aiOn == old(aiOn) && aiColor == old(aiColor)
      ensures old(history) == [] ==> board == old(board) && turn == old(turn) && sel == old(sel) && history == []
      ensures old(history) != [] ==>
                board == old(history)[|old(history)| - 1].board && turn == old(history)[|old(history)| - 1].turn &&
                sel == None && history == old(history)[..|old(history)| - 1]
    {
      if history == [] {
        return;
      }
      var last := history[|history| - 1];
      board := last.board;
      turn := last.turn;
      sel := None;
      history := history[..|history| - 1];
    }
  }

  /** A move followed by undo gives back the position and the side to move. */
  method MoveThenUndo(g: Game, p: Pos)
    requires g.Valid() && OnBoard(p) && !g.aiOn
    requires g.sel.Some? && Legal(g.board, g.sel.value, p, g.turn)
    modifies g
    ensures g.Valid()
    ensures g.board == old(g.board) && g.turn == old(g.turn) && g.history == old(g.history)
  {
    g.SelectOrMove(p);
    g.Undo();
  }
}

=== FILE: common.dfy ===
/** Small definitions shared by the game models. */
module Common {

  /** The source's `null`/`undefined` results. */
  datatype Option<T> = None | Some(value: T)

  /** The integers 0 .. n-1 as a set. */
  function Range(n: nat): (s: set<int>)
    ensures forall i :: i in s <==> 0 <= i < n
    ensures |s| == n
  {
    if n == 0 then {} else Range(n - 1) + {n - 1}
  }

  /** A set with fewer than n elements misses some index in [0, n): the reason
      every "draw random indices until enough are distinct" loop can go on. */
  lemma MissingIndex(s: set<int>, n: nat)
    requires |s| < n
    ensures exists i :: 0 <= i < n && i !in s
  {
    if forall i :: 0 <= i < n ==> i in s {
      SubsetSize(Range(n), s);
      assert false;
    }
  }

  lemma SubsetSize<T>(a: set<T>, b: set<T>)
    requires a <= b
    ensures |a| <= |b|
  {
    assert b == a + (b - a);
  }

  /** A set larger than another has an element outside it. */
  lemma NotSubset<T>(a: set<T>, b: set<T>)
    requires |b| < |a|
    ensures exists x :: x in a && x !in b
  {
    if a <= b {
      SubsetSize(a, b);
      assert false;
    }
  }

  /** Sum of a sequence of integers. */
  function Sum(s: seq<int>): int
  {
    if s == [] then 0 else s[0] + Sum(s[1..])
  }

  lemma {:induction false} SumAppend(a: seq<int>, b: seq<int>)
    ensures Sum(a + b) == Sum(a) + Sum(b)
  {
    if a == [] {
      assert a + b == b;
    } else {
      assert (a + b)[1..] == a[1..] + b;
      SumAppend(a[1..], b);
    }
  }

  /** Number of occurrences of x in s. */
  function Count<T(==)>(s: seq<T>, x: T): nat
  {
    if s == [] then 0 else (if s[0] == x then 1 else 0) + Count(s[1..], x)
  }

  lemma {:induction false} CountAppend<T>(a: seq<T>, b: seq<T>, x: T)
    ensures Count(a + b, x) == Count(a, x) + Count(b, x)
  {
    if a == [] {
      assert a + b == b;
    } else {
      assert (a + b)[1..] == a[1..] + b;
      CountAppend(a[1..], b, x);
    }
  }

  /** Overwriting one occurrence of x with another value removes exactly one x. */
  lemma {:induction false} CountUpdate<T>(s: seq<T>, i: nat, x: T, v: T)
    requires i < |s| && s[i] == x && v != x
    ensures Count(s[i := v], x) == Count(s, x) - 1
  {
    if i == 0 {
      assert s[i := v][1..] == s[1..];
    } else {
      assert s[i := v][1..] == s[1..][i - 1 := v];
      CountUpdate(s[1..], i - 1, x, v);
    }
  }

  /** x occurs in s exactly when it is counted. */
  lemma {:induction false} CountPositive<T>(s: seq<T>, x: T)
    ensures Count(s, x) > 0 <==> x in s
  {
    if s != [] {
      CountPositive(s[1..], x);
      assert s == [s[0]] + s[1..];
    }
  }

  /** The sequence in reverse order (`[...row].reverse()`). */
  function Reverse<T>(s: seq<T>): (r: seq<T>)
    ensures |r| == |s|
    ensures forall i :: 0 <= i < |s| ==> r[i] == s[|s| - 1 - i]
  {
    if s == [] then [] else Reverse(s[1..]) + [s[0]]
  }

  lemma {:induction false} ReverseSnoc<T>(s: seq<T>, x: T)
    ensures Reverse(s + [x]) == [x] + Reverse(s)
  {
    if s == [] {
      assert s + [x] == [x];
    } else {
      assert (s + [x])[1..] == s[1..] + [x];
      ReverseSnoc(s[1..], x);
    }
  }

  lemma {:induction false} ReverseMultiset<T>(s: seq<T>)
    ensures multiset(Reverse(s)) == multiset(s)
  {
    if s != [] {
      ReverseMultiset(s[1..]);
      assert s == [s[0]] + s[1..];
    }
  }

  lemma ReverseReverse<T>(s: seq<T>)
    ensures Reverse(Reverse(s)) == s
  {
  }

  function Max(a: int, b: int): int { if a >= b then a else b }
  function Min(a: int, b: int): int { if a <= b then a else b }
  function Abs(a: int): int { if a >= 0 then a else -a }
  function Sign(a: int): int { if a > 0 then 1 else if a < 0 then -1 else 0 }

  /** `Math.max(lo, Math.min(hi, v))`. */
  function Clamp(v: int, lo: int, hi: int): (r: int)
    requires lo <= hi
    ensures lo <= r <= hi
    ensures lo <= v <= hi ==> r == v
  {
    Max(lo, Min(hi, v))
  }
}

=== FILE: game2048.dfy ===
/** 2048: sliding and merging tiles on an n-by-n board (Game2048.tsx). */
module Game2048 {
  import opened Common

  type Board = seq<seq<int>>

  datatype Mode = Classic | Timed | Hard | Size5 | Step
  datatype Key = ArrowLeft | ArrowRight | ArrowUp | ArrowDown | OtherKey

  const STEP_LIMIT: int := 100
  const TIMED_SECONDS: int := 150

  function BoardSize(m: Mode): nat { if m == Size5 then 5 else 4 }

  predicate IsSquare(b: Board, n: nat)
  {
    |b| == n && forall r :: 0 <= r < n ==> |b[r]| == n
  }

  function EmptyBoard(n: nat): (b: Board)
    ensures IsSquare(b, n)
    ensures forall r, c :: 0 <= r < n && 0 <= c < n ==> b[r][c] == 0
  {
    seq(n, _ => seq(n, _ => 0))
  }

  // ---------------------------------------------------------------------------
  // One row: `slide`
  // ---------------------------------------------------------------------------

  /** `row.filter(v => v)`: the non-zero tiles in order. */
  function NonZero(row: seq<int>): (v: seq<int>)
    ensures |v| <= |row|
    ensures forall i :: 0 <= i < |v| ==> v[i] != 0
  {
    if row == [] then [] else (if row[0] != 0 then [row[0]] else []) + NonZero(row[1..])
  }

  /** The tiles the loop of `slide` emits: equal neighbours merge, left to right,
      and the partner of a merge is skipped. */
  function Merge(vals: seq<int>): seq<int>
  {
    if vals == [] then []
    else if |vals| >= 2 && vals[0] == vals[1] then [2 * vals[0]] + Merge(vals[2..])
    else [vals[0]] + Merge(vals[1..])
  }

  /** The points the loop of `slide` adds up: the value of every merged tile. */
  function Gain(vals: seq<int>): int
  {
    if vals == [] then 0
    else if |vals| >= 2 && vals[0] == vals[1] then 2 * vals[0] + Gain(vals[2..])
    else Gain(vals[1..])
  }

  /** `while (res.length < n) res.push(0)`. */
  function Pad(s: seq<int>, n: nat): seq<int>
  {
    if |s| >= n then s else s + seq(n - |s|, _ => 0)
  }

  /** The row `slide` returns. */
  function SlideRow(row: seq<int>): (r: seq<int>)
    ensures |r| == |row|
  {
    MergeLength(NonZero(row));
    Pad(Merge(NonZero(row)), |row|)
  }

  lemma {:induction false} MergeLength(vals: seq<int>)
    ensures |Merge(vals)| <= |vals|
    ensures 2 * |Merge(vals)| >= |vals|
    ensures (forall i :: 0 <= i < |vals| ==> vals[i] != 0) ==>
              forall i :: 0 <= i < |Merge(vals)| ==> Merge(vals)[i] != 0
  {
    if vals == [] {
    } else if |vals| >= 2 && vals[0] == vals[1] {
      MergeLength(vals[2..]);
    } else {
      MergeLength(vals[1..]);
    }
  }

  /** A row without zeros and without equal neighbours merges into itself. */
  lemma {:induction false} MergeIdentity(vals: seq<int>)
    requires forall i :: 0 <= i < |vals| - 1 ==> vals[i] != vals[i + 1]
    ensures Merge(vals) == vals && Gain(vals) == 0
  {
    if vals != [] {
      MergeIdentity(vals[1..]);
    }
  }

  /** `gained` is zero exactly when no merge happened (tiles are positive). */
  lemma {:induction false} GainIffMerged(vals: seq<int>)
    requires forall i :: 0 <= i < |vals| ==> vals[i] > 0
    ensures Gain(vals) >= 0
    ensures Gain(vals) == 0 <==> |Merge(vals)| == |vals|
  {
    if vals == [] {
    } else if |vals| >= 2 && vals[0] == vals[1] {
      GainIffMerged(vals[2..]);
      MergeLength(vals[2..]);
    } else {
      GainIffMerged(vals[1..]);
    }
  }

  lemma {:induction false} MergeSum(vals: seq<int>)
    ensures Sum(Merge(vals)) == Sum(vals)
  {
    if vals == [] {
    } else if |vals| >= 2 && vals[0] == vals[1] {
      MergeSum(vals[2..]);
      assert vals == [vals[0]] + ([vals[1]] + vals[2..]);
      SumAppend([vals[0]], [vals[1]] + vals[2..]);
      SumAppend([vals[1]], vals[2..]);
      SumAppend([2 * vals[0]], Merge(vals[2..]));
    } else {
      MergeSum(vals[1..]);
      SumAppend([vals[0]], Merge(vals[1..]));
    }
  }

  lemma {:induction false} NonZeroSum(row: seq<int>)
    ensures Sum(NonZero(row)) == Sum(row)
  {
    if row != [] {
      NonZeroSum(row[1..]);
      SumAppend(if row[0] != 0 then [row[0]] else [], NonZero(row[1..]));
    }
  }

  lemma {:induction false} NonZeroAppend(a: seq<int>, b: seq<int>)
    ensures NonZero(a + b) == NonZero(a) + NonZero(b)
  {
    if a == [] {
      assert a + b == b;
    } else {
      assert (a + b)[1..] == a[1..] + b;
      NonZeroAppend(a[1..], b);
    }
  }

  lemma {:induction false} NonZeroOfZeros(k: nat)
    ensures NonZero(seq(k, _ => 0)) == []
    ensures Sum(seq(k, _ => 0)) == 0
  {
    if k > 0 {
      assert seq(k, _ => 0)[1..] == seq(k - 1, _ => 0);
      NonZeroOfZeros(k - 1);
    }
  }

  lemma {:induction false} NonZeroOfNonZero(v: seq<int>)
    requires forall i :: 0 <= i < |v| ==> v[i] != 0
    ensures NonZero(v) == v
  {
    if v != [] {
      NonZeroOfNonZero(v[1..]);
    }
  }

  /** Padding a zero-free row adds only zeros: its tiles and its sum are kept. */
  lemma PadFacts(m: seq<int>, n: nat)
    requires forall i :: 0 <= i < |m| ==> m[i] != 0
    ensures NonZero(Pad(m, n)) == m
    ensures Sum(Pad(m, n)) == Sum(m)
  {
    NonZeroOfNonZero(m);
    if |m| < n {
      NonZeroAppend(m, seq(n - |m|, _ => 0));
      NonZeroOfZeros(n - |m|);
      SumAppend(m, seq(n - |m|, _ => 0));
    }
  }

  /** `slide` keeps the length of the row, packs the non-zero tiles to the left
      with only zeros to their right, and those tiles are the merged ones. */
  lemma SlideShape(row: seq<int>)
    ensures |SlideRow(row)| == |row|
    ensures forall i, j :: 0 <= i < j < |row| && SlideRow(row)[i] == 0 ==> SlideRow(row)[j] == 0
    ensures NonZero(SlideRow(row)) == Merge(NonZero(row))
  {
    var vals := NonZero(row);
    MergeLength(vals);
    PadFacts(Merge(vals), |row|);
  }

  /** `slide` conserves the sum of the row. */
  lemma SlideSum(row: seq<int>)
    ensures Sum(SlideRow(row)) == Sum(row)
  {
    var vals := NonZero(row);
    MergeLength(vals);
    PadFacts(Merge(vals), |row|);
    MergeSum(vals);
    NonZeroSum(row);
  }

  /** A tile merges at most once per slide. */
  lemma MergeOnceExample()
    ensures SlideRow([2, 2, 2, 2]) == [4, 4, 0, 0]
    ensures SlideRow([2, 2, 4, 0]) == [4, 4, 0, 0]
  {
    assert NonZero([2, 2, 2, 2]) == [2, 2, 2, 2];
    assert [2, 2, 2, 2][2..] == [2, 2];
    assert Merge([2, 2]) == [4] + Merge([]);
    assert NonZero([2, 2, 4, 0]) == [2, 2, 4];
    assert [2, 2, 4][2..] == [4];
  }

  /** A merge always changes the row, which is why `slide` may set `moved`
      at a merge without comparing. */
  lemma MergedMeansChanged(row: seq<int>)
    requires |Merge(NonZero(row))| < |NonZero(row)|
    ensures SlideRow(row) != row
  {
    var vals := NonZero(row);
    MergeLength(vals);
    PadFacts(Merge(vals), |row|);
  }

  /** `slide(row, n)` on a row of length n. */
  method Slide(row: seq<int>, n: nat) returns (res: seq<int>, moved: bool, gained: int)
    requires |row| == n
    ensures res == SlideRow(row)
    ensures gained == Gain(NonZero(row))
    ensures moved <==> res != row
  {
    var vals := NonZero(row);
    var merged;
    merged, moved, gained := MergeTiles(vals);
    MergeLength(vals);
    res := PadZeros(merged, n);
    if moved {
      MergedMeansChanged(row);
    } else {
      moved := res != row;
    }
  }

  /** The merging loop of `slide`: equal neighbours merge once, left to right;
      `moved` says whether any merge happened. */
  method MergeTiles(vals: seq<int>) returns (res: seq<int>, moved: bool, gained: int)
    ensures res == Merge(vals) && gained == Gain(vals)
    ensures moved <==> |res| < |vals|
  {
    res, moved, gained := [], false, 0;
    ghost var total := Merge(vals);
    var i := 0;
    assert vals[0..] == vals;
    while i < |vals|
      invariant 0 <= i <= |vals|
      invariant res + Merge(vals[i..]) == total
      invariant gained + Gain(vals[i..]) == Gain(vals)
      invariant |res| <= i
      invariant moved <==> |res| < i
    {
      if i + 1 < |vals| && vals[i] == vals[i + 1] {
        var merged := vals[i] * 2;
        MergeAdvance(vals, i, 2, res, [merged], total);
        GainAdvance(vals, i, 2, gained, merged);
        res := res + [merged];
        gained := gained + merged;
        moved := true;
        i := i + 2;
      } else {
        MergeAdvance(vals, i, 1, res, [vals[i]], total);
        GainAdvance(vals, i, 1, gained, 0);
        res := res + [vals[i]];
        i := i + 1;
      }
    }
    assert vals[i..] == [];
  }

  /** The merged prefix of the loop survives one step of width w: a merged
      pair (w = 2) or a single tile (w = 1); `total` is the whole row merged. */
  lemma MergeAdvance(vals: seq<int>, i: nat, w: nat, res: seq<int>, out: seq<int>, total: seq<int>)
    requires i < |vals| && res + Merge(vals[i..]) == total
    requires w == 2 <==> i + 1 < |vals| && vals[i] == vals[i + 1]
    requires w == 1 || w == 2
    requires out == (if w == 2 then [2 * vals[i]] else [vals[i]])
    ensures i + w <= |vals|
    ensures (res + out) + Merge(vals[i + w..]) == total
  {
    MergeStep(vals, i);
    AppendAssoc(res, out, Merge(vals[i + w..]));
  }

  lemma AppendAssoc(a: seq<int>, b: seq<int>, c: seq<int>)
    ensures a + (b + c) == (a + b) + c
  {
  }

  /** The points so far survive one step of width w. */
  lemma GainAdvance(vals: seq<int>, i: nat, w: nat, gained: int, g: int)
    requires i < |vals| && gained + Gain(vals[i..]) == Gain(vals)
    requires w == 2 <==> i + 1 < |vals| && vals[i] == vals[i + 1]
    requires w == 1 || w == 2
    requires g == (if w == 2 then 2 * vals[i] else 0)
    ensures i + w <= |vals|
    ensures (gained + g) + Gain(vals[i + w..]) == Gain(vals)
  {
    MergeStep(vals, i);
  }

  /** One step of the merging loop, from position i. */
  lemma MergeStep(vals: seq<int>, i: nat)
    requires i < |vals|
    ensures i + 1 < |vals| && vals[i] == vals[i + 1] ==>
      Merge(vals[i..]) == [2 * vals[i]] + Merge(vals[i + 2..]) &&
      Gain(vals[i..]) == 2 * vals[i] + Gain(vals[i + 2..])
    ensures !(i + 1 < |vals| && vals[i] == vals[i + 1]) ==>
      Merge(vals[i..]) == [vals[i]] + Merge(vals[i + 1..]) &&
      Gain(vals[i..]) == Gain(vals[i + 1..])
  {
    if i + 1 < |vals| {
      assert vals[i..][2..] == vals[i + 2..];
    }
    assert vals[i..][1..] == vals[i + 1..];
  }

  /** The padding loop of `slide`: zeros appended up to length n. */
  method PadZeros(merged: seq<int>, n: nat) returns (res: seq<int>)
    requires |merged| <= n
    ensures res == Pad(merged, n)
  {
    res := merged;
    while |res| < n
      invariant |merged| <= |res| <= n
      invariant res == merged + seq(|res| - |merged|, _ => 0)
    {
      res := res + [0];
    }
  }

  // ---------------------------------------------------------------------------
  // Whole board: moves and transpose
  // ---------------------------------------------------------------------------

  function SlideRows(b: Board): (r: Board)
    ensures |r| == |b|
    ensures forall i :: 0 <= i < |b| ==> |r[i]| == |b[i]|
  {
    seq(|b|, i requires 0 <= i < |b| => SlideRow(b[i]))
  }

  function RowsGain(b: Board): int
  {
    if b == [] then 0 else Gain(NonZero(b[0])) + RowsGain(b[1..])
  }

  function ReverseRows(b: Board): (r: Board)
    ensures |r| == |b|
    ensures forall i :: 0 <= i < |b| ==> |r[i]| == |b[i]|
  {
    seq(|b|, i requires 0 <= i < |b| => Reverse(b[i]))
  }

  /** `transpose(b)`: `b[0].map((_, c) => b.map(row => row[c]))`. */
  function Transpose(b: Board): (t: Board)
    requires |b| > 0 && forall r :: 0 <= r < |b| ==> |b[r]| == |b[0]|
    ensures |t| == |b[0]|
    ensures forall c :: 0 <= c < |t| ==> |t[c]| == |b|
    ensures forall c, r :: 0 <= c < |t| && 0 <= r < |b| ==> t[c][r] == b[r][c]
  {
    seq(|b[0]|, c requires 0 <= c < |b[0]| => seq(|b|, r requires 0 <= r < |b| => b[r][c]))
  }

  lemma TransposeInvolution(b: Board, n: nat)
    requires n > 0 && IsSquare(b, n)
    ensures IsSquare(Transpose(b), n)
    ensures Transpose(Transpose(b)) == b
  {
    var t := Transpose(b);
    var tt := Transpose(t);
    assert |tt| == n;
    forall r | 0 <= r < n ensures tt[r] == b[r] {
      assert |tt[r]| == n;
    }
  }

  /** The board each arrow key produces, before a tile is added. */
  function Moved(key: Key, b: Board): Board
    requires |b| > 0 && IsSquare(b, |b|)
  {
    match key
    case ArrowLeft => SlideRows(b)
    case ArrowRight => ReverseRows(SlideRows(ReverseRows(b)))
    case ArrowUp => Transpose(SlideRows(Transpose(b)))
    case ArrowDown => Transpose(ReverseRows(SlideRows(ReverseRows(Transpose(b)))))
    case OtherKey => b
  }

  /** The points each arrow key earns. */
  function MoveGain(key: Key, b: Board): int
    requires |b| > 0 && IsSquare(b, |b|)
  {
    match key
    case ArrowLeft => RowsGain(b)
    case ArrowRight => RowsGain(ReverseRows(b))
    case ArrowUp => RowsGain(Transpose(b))
    case ArrowDown => RowsGain(ReverseRows(Transpose(b)))
    case OtherKey => 0
  }

  lemma SlideRowsSquare(b: Board, n: nat)
    requires IsSquare(b, n)
    ensures IsSquare(SlideRows(b), n)
  {
    forall r | 0 <= r < n ensures |SlideRows(b)[r]| == n {
      SlideShape(b[r]);
    }
  }

  lemma ReverseRowsInvolution(b: Board, n: nat)
    requires IsSquare(b, n)
    ensures IsSquare(ReverseRows(b), n)
    ensures ReverseRows(ReverseRows(b)) == b
  {
    forall r | 0 <= r < n ensures ReverseRows(ReverseRows(b))[r] == b[r] {
      ReverseReverse(b[r]);
    }
  }

  /** `moveLeft`: every row slid to the left. */
  method MoveLeft(board: Board) returns (nb: Board, moved: bool, gained: int)
    requires IsSquare(board, |board|)
    ensures nb == SlideRows(board)
    ensures moved <==> nb != board
    ensures gained == RowsGain(board)
  {
    var n := |board|;
    nb, moved, gained := [], false, 0;
    var i := 0;
    while i < n
      invariant 0 <= i <= n
      invariant nb == SlideRows(board)[..i]
      invariant moved <==> nb != board[..i]
      invariant gained + RowsGain(board[i..]) == RowsGain(board)
    {
      var r, m, g := Slide(board[i], n);
      SlideRowsStep(board, i, nb);
      moved := moved || m;
      gained := gained + g;
      nb := nb + [r];
      i := i + 1;
    }
    assert board[n..] == [];
    assert board[..n] == board;
  }

  /** One row more of `moveLeft`: the prefix of slid rows grows by the slid
      row, it differs from the board's prefix when it did before or the new
      row changed, and the row's points come off the rest. */
  lemma SlideRowsStep(board: Board, i: nat, nb: Board)
    requires i < |board| && nb == SlideRows(board)[..i]
    ensures nb + [SlideRow(board[i])] == SlideRows(board)[..i + 1]
    ensures nb + [SlideRow(board[i])] != board[..i + 1] <==> nb != board[..i] || SlideRow(board[i]) != board[i]
    ensures RowsGain(board[i..]) == Gain(NonZero(board[i])) + RowsGain(board[i + 1..])
  {
    var r := SlideRow(board[i]);
    assert board[i..][1..] == board[i + 1..];
    assert board[..i + 1] == board[..i] + [board[i]];
    if nb != board[..i] {
      var k :| 0 <= k < i && nb[k] != board[..i][k];
      assert (nb + [r])[k] != board[..i + 1][k];
    } else if r != board[i] {
      assert (nb + [r])[i] != board[..i + 1][i];
    }
  }

  /** `moveRight`: every row reversed, slid left, and reversed back. */
  method MoveRight(board: Board) returns (nb: Board, moved: bool, gained: int)
    requires IsSquare(board, |board|)
    ensures nb == ReverseRows(SlideRows(ReverseRows(board)))
    ensures moved <==> nb != board
    ensures gained == RowsGain(ReverseRows(board))
  {
    var n := |board|;
    ReverseRowsInvolution(board, n);
    var slid;
    slid, moved, gained := MoveLeft(ReverseRows(board));
    SlideRowsSquare(ReverseRows(board), n);
    ReverseRowsInvolution(slid, n);
    nb := ReverseRows(slid);
  }

  /** `moveUp`: `moveLeft` conjugated by `transpose`. */
  method MoveUp(board: Board) returns (nb: Board, moved: bool, gained: int)
    requires |board| > 0 && IsSquare(board, |board|)
    ensures nb == Moved(ArrowUp, board)
    ensures moved <==> nb != board
    ensures gained == MoveGain(ArrowUp, board)
  {
    var n := |board|;
    TransposeInvolution(board, n);
    var slid;
    slid, moved, gained := MoveLeft(Transpose(board));
    SlideRowsSquare(Transpose(board), n);
    TransposeInvolution(slid, n);
    nb := Transpose(slid);
  }

  /** `moveDown`: `moveRight` conjugated by `transpose`. */
  method MoveDown(board: Board) returns (nb: Board, moved: bool, gained: int)
    requires |board| > 0 && IsSquare(board, |board|)
    ensures nb == Moved(ArrowDown, board)
    ensures moved <==> nb != board
    ensures gained == MoveGain(ArrowDown, board)
  {
    var n := |board|;
    TransposeInvolution(board, n);
    var slid;
    slid, moved, gained := MoveRight(Transpose(board));
    ReverseRowsInvolution(Transpose(board), n);
    SlideRowsSquare(ReverseRows(Transpose(board)), n);
    ReverseRowsInvolution(SlideRows(ReverseRows(Transpose(board))), n);
    TransposeInvolution(slid, n);
    nb := Transpose(slid);
  }

  /** Every move keeps the board n-by-n. */
  /** The arrow keys' dispatch to `moveLeft`, `moveRight`, `moveUp` and
      `moveDown`. */
  method ArrowMove(key: Key, board: Board, n: nat) returns (nb: Board, moved: bool, gained: int)
    requires key != OtherKey && n > 0 && IsSquare(board, n)
    ensures nb == Moved(key, board) && IsSquare(nb, n)
    ensures moved <==> nb != board
    ensures gained == MoveGain(key, board)
  {
    match key {
      case ArrowLeft => nb, moved, gained := MoveLeft(board);
      case ArrowRight => nb, moved, gained := MoveRight(board);
      case ArrowUp => nb, moved, gained := MoveUp(board);
      case ArrowDown => nb, moved, gained := MoveDown(board);
    }
    MovedSquare(key, board, n);
  }

  lemma MovedSquare(key: Key, b: Board, n: nat)
    requires n > 0 && IsSquare(b, n)
    ensures IsSquare(Moved(key, b), n)
  {
    match key
    case ArrowLeft => SlideRowsSquare(b, n);
    case ArrowRight =>
      ReverseRowsInvolution(b, n);
      SlideRowsSquare(ReverseRows(b), n);
      ReverseRowsInvolution(SlideRows(ReverseRows(b)), n);
    case ArrowUp =>
      TransposeInvolution(b, n);
      SlideRowsSquare(Transpose(b), n);
      TransposeInvolution(SlideRows(Transpose(b)), n);
    case ArrowDown =>
      TransposeInvolution(b, n);
      var t := Transpose(b);
      ReverseRowsInvolution(t, n);
      SlideRowsSquare(ReverseRows(t), n);
      ReverseRowsInvolution(SlideRows(ReverseRows(t)), n);
      TransposeInvolution(ReverseRows(SlideRows(ReverseRows(t))), n);
    case OtherKey =>
  }

  function Column(b: Board, c: nat): seq<int>
    requires forall r :: 0 <= r < |b| ==> c < |b[r]|
  {
    seq(|b|, r requires 0 <= r < |b| => b[r][c])
  }

  /** Moving up slides every column on its own, so each column keeps its sum;
      moving left slides every row, so each row keeps its sum. */
  lemma MoveUpSlidesColumns(b: Board, n: nat, c: nat)
    requires n > 0 && IsSquare(b, n) && c < n
    ensures IsSquare(Moved(ArrowUp, b), n)
    ensures Column(Moved(ArrowUp, b), c) == SlideRow(Column(b, c))
    ensures Sum(Column(Moved(ArrowUp, b), c)) == Sum(Column(b, c))
  {
    MovedSquare(ArrowUp, b, n);
    TransposeInvolution(b, n);
    SlideRowsSquare(Transpose(b), n);
    var s := SlideRows(Transpose(b));
    assert Transpose(b)[c] == Column(b, c);
    assert s[c] == SlideRow(Column(b, c));
    var col := Column(Moved(ArrowUp, b), c);
    assert |col| == n;
    forall r | 0 <= r < n ensures col[r] == s[c][r] {
      assert col[r] == Transpose(s)[r][c];
    }
    SlideSum(Column(b, c));
  }

  lemma MoveLeftSlidesRows(b: Board, n: nat, r: nat)
    requires n > 0 && IsSquare(b, n) && r < n
    ensures Sum(Moved(ArrowLeft, b)[r]) == Sum(b[r])
  {
    SlideSum(b[r]);
  }

  // ---------------------------------------------------------------------------
  // Game over: `hasMoves`
  // ---------------------------------------------------------------------------

  ghost predicate CanMove(b: Board, n: nat)
    requires IsSquare(b, n)
  {
    exists r, c :: 0 <= r < n && 0 <= c < n &&
      (b[r][c] == 0 || (c < n - 1 && b[r][c] == b[r][c + 1]) || (r < n - 1 && b[r][c] == b[r + 1][c]))
  }

  /** `hasMoves(b)`: false exactly when no cell is zero and no two horizontally
      or vertically adjacent cells are equal. */
  method HasMoves(b: Board) returns (res: bool)
    requires IsSquare(b, |b|)
    ensures res <==> CanMove(b, |b|)
  {
    var n := |b|;
    var r := 0;
    while r < n
      invariant 0 <= r <= n
      invariant forall i, j :: 0 <= i < r && 0 <= j < n ==>
        b[i][j] != 0 && (j < n - 1 ==> b[i][j] != b[i][j + 1]) && (i < n - 1 ==> b[i][j] != b[i + 1][j])
    {
      var c := 0;
      while c < n
        invariant 0 <= c <= n
        invariant forall i, j :: 0 <= i < r && 0 <= j < n ==>
          b[i][j] != 0 && (j < n - 1 ==> b[i][j] != b[i][j + 1]) && (i < n - 1 ==> b[i][j] != b[i + 1][j])
        invariant forall j :: 0 <= j < c ==>
          b[r][j] != 0 && (j < n - 1 ==> b[r][j] != b[r][j + 1]) && (r < n - 1 ==> b[r][j] != b[r + 1][j])
      {
        if b[r][c] == 0 { return true; }
        if c < n - 1 && b[r][c] == b[r][c + 1] { return true; }
        if r < n - 1 && b[r][c] == b[r + 1][c] { return true; }
        c := c + 1;
      }
      r := r + 1;
    }
    return false;
  }

  /** A row with no zero and no equal neighbours does not slide. */
  lemma StuckRow(row: seq<int>)
    requires forall i :: 0 <= i < |row| ==> row[i] != 0
    requires forall i :: 0 <= i < |row| - 1 ==> row[i] != row[i + 1]
    ensures SlideRow(row) == row
  {
    NonZeroOfNonZero(row);
    MergeIdentity(row);
  }

  lemma StuckRows(b: Board, n: nat)
    requires IsSquare(b, n)
    requires forall r, c :: 0 <= r < n && 0 <= c < n ==> b[r][c] != 0
    requires forall r, c :: 0 <= r < n && 0 <= c < n - 1 ==> b[r][c] != b[r][c + 1]
    ensures SlideRows(b) == b
    ensures ReverseRows(SlideRows(ReverseRows(b))) == b
  {
    forall r | 0 <= r < n ensures SlideRows(b)[r] == b[r] {
      StuckRow(b[r]);
    }
    ReverseRowsInvolution(b, n);
    forall r | 0 <= r < n ensures SlideRows(ReverseRows(b))[r] == ReverseRows(b)[r] {
      StuckRow(ReverseRows(b)[r]);
    }
  }

  lemma StuckColumns(b: Board, n: nat)
    requires n > 0 && IsSquare(b, n) && !CanMove(b, n)
    ensures Transpose(SlideRows(Transpose(b))) == b
    ensures Transpose(ReverseRows(SlideRows(ReverseRows(Transpose(b))))) == b
  {
    TransposeInvolution(b, n);
    var t := Transpose(b);
    forall r, c | 0 <= r < n && 0 <= c < n ensures t[r][c] != 0 {
      assert t[r][c] == b[c][r];
    }
    forall r, c | 0 <= r < n && 0 <= c < n - 1 ensures t[r][c] != t[r][c + 1] {
      assert t[r][c] == b[c][r] && t[r][c + 1] == b[c + 1][r];
    }
    StuckRows(t, n);
  }

  /** When `hasMoves` is false, no arrow key changes the board: the game is over. */
  lemma NoMovesIsStuck(b: Board, n: nat, key: Key)
    requires n > 0 && IsSquare(b, n) && !CanMove(b, n)
    ensures Moved(key, b) == b
  {
    match key
    case ArrowLeft => StuckRows(b, n);
    case ArrowRight => StuckRows(b, n);
    case ArrowUp =>
      StuckColumns(b, n);
    case ArrowDown =>
      StuckColumns(b, n);
    case OtherKey =>
  }

  // ---------------------------------------------------------------------------
  // New tiles: `addRandomTile`
  // ---------------------------------------------------------------------------

  /** Empty cells of row r among its first k columns, in column order. */
  function RowEmpties(b: Board, r: nat, k: nat): seq<(nat, nat)>
    requires r < |b| && k <= |b[r]|
  {
    if k == 0 then [] else RowEmpties(b, r, k - 1) + (if b[r][k - 1] == 0 then [(r, k - 1)] else [])
  }

  /** Empty cells of the first k rows, in row-major order (the `empties` list). */
  function Empties(b: Board, k: nat): seq<(nat, nat)>
    requires k <= |b|
  {
    if k == 0 then [] else Empties(b, k - 1) + RowEmpties(b, k - 1, |b[k - 1]|)
  }

  lemma {:induction false} RowEmptiesExact(b: Board, r: nat, k: nat)
    requires r < |b| && k <= |b[r]|
    ensures forall e :: e in RowEmpties(b, r, k) <==> e.0 == r && e.1 < k && b[r][e.1] == 0
  {
    if k > 0 {
      RowEmptiesExact(b, r, k - 1);
    }
  }

  /** `empties` lists exactly the zero cells. */
  lemma {:induction false} EmptiesExact(b: Board, k: nat)
    requires k <= |b|
    ensures forall e :: e in Empties(b, k) <==> e.0 < k && e.1 < |b[e.0]| && b[e.0][e.1] == 0
  {
    if k > 0 {
      EmptiesExact(b, k - 1);
      RowEmptiesExact(b, k - 1, |b[k - 1]|);
    }
  }

  /** The value of a new tile. The roll is `Math.random()` in tenths, which is
      exact because every threshold of the source is a multiple of 0.1. */
  function TileValue(hard: bool, tenths: int): (v: int)
    requires 0 <= tenths < 10
    ensures hard ==> v in {2, 4, 8}
    ensures !hard ==> v in {2, 4}
  {
    if hard then (if tenths < 5 then 4 else if tenths < 6 then 8 else 2)
    else (if tenths < 9 then 2 else 4)
  }

  function AddTile(b: Board, hard: bool, pick: nat, tenths: int): Board
    requires 0 <= tenths < 10
  {
    var es := Empties(b, |b|);
    if es == [] then b
    else
      EmptiesExact(b, |b|);
      var e := es[pick % |es|];
      b[e.0 := b[e.0][e.1 := TileValue(hard, tenths)]]
  }

  /** `addRandomTile`: no empty cell leaves the board as it is; otherwise exactly
      one empty cell receives a 2 or a 4 (2, 4 or 8 in hard mode). */
  lemma AddTileFillsOneEmpty(b: Board, hard: bool, pick: nat, tenths: int)
    requires 0 <= tenths < 10
    ensures (forall r, c :: 0 <= r < |b| && 0 <= c < |b[r]| ==> b[r][c] != 0) ==> AddTile(b, hard, pick, tenths) == b
    ensures (exists r, c :: 0 <= r < |b| && 0 <= c < |b[r]| && b[r][c] == 0) ==>
      exists r, c :: 0 <= r < |b| && 0 <= c < |b[r]| && b[r][c] == 0 &&
        AddTile(b, hard, pick, tenths) == b[r := b[r][c := TileValue(hard, tenths)]]
  {
    EmptiesExact(b, |b|);
    var es := Empties(b, |b|);
    if exists r, c :: 0 <= r < |b| && 0 <= c < |b[r]| && b[r][c] == 0 {
      var r, c :| 0 <= r < |b| && 0 <= c < |b[r]| && b[r][c] == 0;
      assert (r, c) in es;
      var e := es[pick % |es|];
      assert e in es;
    }
  }

  /** `addRandomTile(board, hard)` with the two random draws as parameters. */
  method AddRandomTile(board: Board, hard: bool, pick: nat, tenths: int) returns (nb: Board)
    requires 0 <= tenths < 10
    ensures nb == AddTile(board, hard, pick, tenths)
  {
    var empties: seq<(nat, nat)> := [];
    var r := 0;
    while r < |board|
      invariant 0 <= r <= |board|
      invariant empties == Empties(board, r)
    {
      var c := 0;
      while c < |board[r]|
        invariant 0 <= c <= |board[r]|
        invariant empties == Empties(board, r) + RowEmpties(board, r, c)
      {
        if board[r][c] == 0 { empties := empties + [(r, c)]; }
        c := c + 1;
      }
      r := r + 1;
    }
    if |empties| == 0 { return board; }
    EmptiesExact(board, |board|);
    var e := empties[pick % |empties|];
    nb := board[e.0 := board[e.0][e.1 := TileValue(hard, tenths)]];
  }

  // ---------------------------------------------------------------------------
  // The page state and its key handler
  // ---------------------------------------------------------------------------

  /** Whether the key handler ignores an arrow key. */
  predicate KeysLocked(mode: Mode, timeLeft: int, steps: int)
  {
    (mode == Timed && timeLeft <= 0) || (mode == Step && steps >= STEP_LIMIT)
  }

  class Game {
    var mode: Mode
    var board: Board
    var score: int
    var steps: int
    var timeLeft: int

    ghost predicate Valid()
      reads this
    {
      IsSquare(board, BoardSize(mode))
    }

    /** `initBoard` plus the resets of the mode-change effect and `resetGame`. */
    constructor (m: Mode, pick1: nat, tenths1: int, pick2: nat, tenths2: int)
      requires 0 <= tenths1 < 10 && 0 <= tenths2 < 10
      ensures Valid()
      ensures mode == m && score == 0 && steps == 0
      ensures timeLeft == if m == Timed then TIMED_SECONDS else 0
      ensures board == AddTile(AddTile(EmptyBoard(BoardSize(m)), m == Hard, pick1, tenths1), m == Hard, pick2, tenths2)
    {
      var n := BoardSize(m);
      var b := AddRandomTile(EmptyBoard(n), m == Hard, pick1, tenths1);
      AddTileKeepsSquare(EmptyBoard(n), n, m == Hard, pick1, tenths1);
      b := AddRandomTile(b, m == Hard, pick2, tenths2);
      AddTileKeepsSquare(AddTile(EmptyBoard(n), m == Hard, pick1, tenths1), n, m == Hard, pick2, tenths2);
      mode, board, score, steps := m, b, 0, 0;
      timeLeft := if m == Timed then TIMED_SECONDS else 0;
    }

    /** The keyboard handler: a locked or non-arrow key changes nothing; an arrow
        that moves adds `gained` to the score, one step, and one random tile. */
    method KeyPress(key: Key, pick: nat, tenths: int)
      requires Valid() && 0 <= tenths < 10
      modifies this
      ensures Valid()
      ensures mode == old(mode) && timeLeft == old(timeLeft)
      ensures key == OtherKey || KeysLocked(mode, timeLeft, old(steps)) ==>
        board == old(board) && score == old(score) && steps == old(steps)
      ensures key != OtherKey && !KeysLocked(mode, timeLeft, old(steps)) ==>
        var nb := Moved(key, old(board));
        if nb != old(board) then
          board == AddTile(nb, mode == Hard, pick, tenths) &&
          score == old(score) + MoveGain(key, old(board)) && steps == old(steps) + 1
        else
          board == old(board) && score == old(score) && steps == old(steps)
    {
      if key == OtherKey { return; }
      if mode == Timed && timeLeft <= 0 { return; }
      if mode == Step && steps >= STEP_LIMIT { return; }
      var n := BoardSize(mode);
      var nb, moved, gained := ArrowMove(key, board, n);
      if moved {
        score := score + gained;
        steps := steps + 1;
        AddTileKeepsSquare(nb, n, mode == Hard, pick, tenths);
        nb := AddRandomTile(nb, mode == Hard, pick, tenths);
      }
      board := nb;
    }

    /** The one-second timer of timed mode. */
    method Tick()
      requires Valid()
      modifies this`timeLeft
      ensures mode == Timed && old(timeLeft) > 0 ==> timeLeft == old(timeLeft) - 1
      ensures !(mode == Timed && old(timeLeft) > 0) ==> timeLeft == old(timeLeft)
    {
      if mode == Timed && timeLeft > 0 {
        timeLeft := timeLeft - 1;
      }
    }
  }

  lemma AddTileKeepsSquare(b: Board, n: nat, hard: bool, pick: nat, tenths: int)
    requires IsSquare(b, n) && 0 <= tenths < 10
    ensures IsSquare(AddTile(b, hard, pick, tenths), n)
  {
    EmptiesExact(b, |b|);
  }
}

=== FILE: gomoku.dfy ===
/** Gomoku (five in a row) on a 15 x 15 board: win detection, the line
    counters the computer player scores with, candidate generation, and the
    page's place / undo / restart / computer-opening state changes. */
module Gomoku {
  import opened Common

  const SIZE: int := 15
  /** `Math.floor((SIZE - 1) / 2)`: the point the computer opens on. */
  const CENTRE: int := 7

  datatype Pos = Pos(r: int, c: int)

  /** 0 empty, 1 black (moves first), 2 white. */
  type Board = seq<seq<int>>

  /** The four line directions, in the order they are tried. */
  const DIRS4: seq<Pos> := [Pos(1, 0), Pos(0, 1), Pos(1, 1), Pos(1, -1)]

  predicate InBounds(p: Pos) { 0 <= p.r < SIZE && 0 <= p.c < SIZE }

  predicate IsPlayer(p: int) { p == 1 || p == 2 }

  function Other(p: int): int { if p == 1 then 2 else 1 }

  predicate WellFormed(b: Board)
  {
    |b| == SIZE && (forall r :: 0 <= r < SIZE ==> |b[r]| == SIZE) &&
    forall r, c :: 0 <= r < SIZE && 0 <= c < SIZE ==> 0 <= b[r][c] <= 2
  }

  function At(b: Board, p: Pos): int
    requires WellFormed(b) && InBounds(p)
  {
    b[p.r][p.c]
  }

  function Add(p: Pos, d: Pos): Pos { Pos(p.r + d.r, p.c + d.c) }
  function Neg(d: Pos): Pos { Pos(-d.r, -d.c) }

  predicate IsDir(d: Pos) { -1 <= d.r <= 1 && -1 <= d.c <= 1 && d != Pos(0, 0) }

  lemma Dirs4AreDirs()
    ensures |DIRS4| == 4
    ensures forall k :: 0 <= k < 4 ==> IsDir(DIRS4[k]) && IsDir(Neg(DIRS4[k]))
  {
  }

  /** The empty board of `restart`. */
  function EmptyBoard(): (b: Board)
    ensures WellFormed(b)
    ensures forall r, c :: 0 <= r < SIZE && 0 <= c < SIZE ==> b[r][c] == 0
  {
    seq(SIZE, _ => seq(SIZE, _ => 0))
  }

  /** The board with one point set to v; every other point is unchanged. */
  function Put(b: Board, p: Pos, v: int): (nb: Board)
    requires WellFormed(b) && InBounds(p) && 0 <= v <= 2
    ensures WellFormed(nb)
    ensures nb[p.r][p.c] == v
  {
    b[p.r := b[p.r][p.c := v]]
  }

  // ---------------------------------------------------------------------------
  // findWin

  /** How many consecutive `who` stones lie on the points p, p+d, p+2d, ...,
      looking at no more than `left` points. (The board is named in the
      decreases clause only so that a call with a literal bound is not
      unfolded all the way down wherever it appears.) */
  function Streak(b: Board, p: Pos, d: Pos, who: int, left: nat): (n: nat)
    requires WellFormed(b)
    ensures n <= left
    decreases left, b
  {
    if left == 0 then 0
    else if InBounds(p) && At(b, p) == who then 1 + Streak(b, Add(p, d), d, who, left - 1)
    else 0
  }

  /** The point n steps from p along d. */
  function Walk(p: Pos, d: Pos, n: nat): Pos
    decreases n
  {
    if n == 0 then p else Walk(Add(p, d), d, n - 1)
  }

  lemma {:induction false} WalkStep(p: Pos, d: Pos, n: nat)
    ensures Walk(p, d, n + 1) == Add(Walk(p, d, n), d)
    decreases n
  {
    if n > 0 {
      WalkStep(Add(p, d), d, n - 1);
    }
  }

  /** The points 1 .. n steps from p along d, nearest first (what the
      forward loop pushes). */
  function Ahead(p: Pos, d: Pos, n: nat): (s: seq<Pos>)
    ensures |s| == n
    ensures forall i :: 0 <= i < n ==> s[i] == Walk(p, d, i + 1)
  {
    if n == 0 then [] else Ahead(p, d, n - 1) + [Walk(p, d, n)]
  }

  /** The points n .. 1 steps from p against d, farthest first (what the
      backward loop unshifts). */
  function Behind(p: Pos, d: Pos, n: nat): (s: seq<Pos>)
    ensures |s| == n
    ensures forall i :: 0 <= i < n ==> s[i] == Walk(p, Neg(d), n - i)
  {
    if n == 0 then [] else [Walk(p, Neg(d), n)] + Behind(p, d, n - 1)
  }

  /** The points a streak counts hold `who` stones. */
  lemma {:induction false} StreakStones(b: Board, p: Pos, d: Pos, who: int, left: nat, n: nat)
    requires WellFormed(b) && n <= Streak(b, Add(p, d), d, who, left)
    ensures forall i :: 1 <= i <= n ==> InBounds(Walk(p, d, i)) && At(b, Walk(p, d, i)) == who
    decreases n
  {
    if n > 0 {
      StreakStones(b, Add(p, d), d, who, left - 1, n - 1);
      forall i | 1 <= i <= n
        ensures InBounds(Walk(p, d, i)) && At(b, Walk(p, d, i)) == who
      {
        assert Walk(p, d, i) == Walk(Add(p, d), d, i - 1);
      }
    }
  }

  /** The line `findWin` assembles through p along d: the backward streak,
      p, then the forward streak, each looking at most four points past p
      (k = 1 .. 4). */
  function Line(b: Board, p: Pos, d: Pos, who: int): seq<Pos>
    requires WellFormed(b)
  {
    Behind(p, d, Streak(b, Add(p, Neg(d)), Neg(d), who, 4))
      + ([p] + Ahead(p, d, Streak(b, Add(p, d), d, who, 4)))
  }

  /** Every point after the first is one step along d from the one before. */
  ghost predicate Contiguous(s: seq<Pos>, d: Pos)
  {
    forall i, j :: 0 <= i < |s| && 0 <= j < |s| && j == i + 1 ==> s[j] == Add(s[i], d)
  }

  /** The first direction, from index k on, whose line reaches five. */
  function WinFrom(b: Board, p: Pos, who: int, k: nat): Option<seq<Pos>>
    requires WellFormed(b) && k <= 4
    decreases 4 - k, b
  {
    if k == 4 then None
    else
      var line := Line(b, p, DIRS4[k], who);
      if |line| >= 5 then Some(line[..5]) else WinFrom(b, p, who, k + 1)
  }

  /** `findWin`: the first five points of a line through p, or none. */
  function FindWinSpec(b: Board, p: Pos, who: int): Option<seq<Pos>>
    requires WellFormed(b)
  {
    if who == 0 then None else WinFrom(b, p, who, 0)
  }

  /** Points walked back from p, then p, then points walked forward form a
      contiguous run along d. */
  lemma JoinContiguous(back: seq<Pos>, p: Pos, fwd: seq<Pos>, d: Pos)
    requires forall i :: 0 <= i < |back| ==> back[i] == Walk(p, Neg(d), |back| - i)
    requires forall i :: 0 <= i < |fwd| ==> fwd[i] == Walk(p, d, i + 1)
    ensures Contiguous(back + ([p] + fwd), d)
  {
    var g := |back|;
    var line := back + ([p] + fwd);
    forall i, j | 0 <= i < |line| && 0 <= j < |line| && j == i + 1
      ensures line[j] == Add(line[i], d)
    {
      if i < g {
        assert line[i] == Walk(p, Neg(d), g - i);
        WalkStep(p, Neg(d), g - i - 1);
        assert line[j] == Walk(p, Neg(d), g - i - 1);
      } else {
        assert line[j] == fwd[i - g];
        WalkStep(p, d, i - g);
        assert line[i] == Walk(p, d, i - g);
      }
    }
  }

  /** The line through p along d is contiguous along d. */
  lemma LineContiguous(b: Board, p: Pos, d: Pos, who: int)
    requires WellFormed(b)
    ensures Contiguous(Line(b, p, d, who), d)
  {
    var g := Streak(b, Add(p, Neg(d)), Neg(d), who, 4);
    var f := Streak(b, Add(p, d), d, who, 4);
    JoinContiguous(Behind(p, d, g), p, Ahead(p, d, f), d);
  }

  /** Stones walked back from p and forward from p, with p between them. */
  lemma JoinStones(b: Board, back: seq<Pos>, p: Pos, fwd: seq<Pos>, d: Pos, who: int)
    requires WellFormed(b)
    requires forall i :: 0 <= i < |back| ==> back[i] == Walk(p, Neg(d), |back| - i)
    requires forall i :: 0 <= i < |fwd| ==> fwd[i] == Walk(p, d, i + 1)
    requires forall i :: 1 <= i <= |back| ==> InBounds(Walk(p, Neg(d), i)) && At(b, Walk(p, Neg(d), i)) == who
    requires forall i :: 1 <= i <= |fwd| ==> InBounds(Walk(p, d, i)) && At(b, Walk(p, d, i)) == who
    ensures var line := back + ([p] + fwd);
            |line| == |back| + 1 + |fwd| && line[|back|] == p &&
            forall i :: 0 <= i < |line| && i != |back| ==> InBounds(line[i]) && At(b, line[i]) == who
  {
    var g := |back|;
    var line := back + ([p] + fwd);
    forall i | 0 <= i < |line| && i != g
      ensures InBounds(line[i]) && At(b, line[i]) == who
    {
      if i < g {
        assert line[i] == Walk(p, Neg(d), g - i);
      } else {
        assert line[i] == Walk(p, d, i - g);
      }
    }
  }

  /** The line through p along d has p at the index of the backward streak's
      length, and every other point is a `who` stone. */
  lemma LineFacts(b: Board, p: Pos, d: Pos, who: int)
    requires WellFormed(b)
    ensures var g := Streak(b, Add(p, Neg(d)), Neg(d), who, 4);
            var f := Streak(b, Add(p, d), d, who, 4);
            var line := Line(b, p, d, who);
            |line| == g + 1 + f && g <= 4 && line[g] == p &&
            forall i :: 0 <= i < |line| && i != g ==> InBounds(line[i]) && At(b, line[i]) == who
  {
    var g := Streak(b, Add(p, Neg(d)), Neg(d), who, 4);
    var f := Streak(b, Add(p, d), d, who, 4);
    StreakStones(b, p, Neg(d), who, 4, g);
    StreakStones(b, p, d, who, 4, f);
    JoinStones(b, Behind(p, d, g), p, Ahead(p, d, f), d, who);
  }

  /** The first five points of such a line keep its properties. */
  lemma FirstFive(b: Board, line: seq<Pos>, p: Pos, d: Pos, g: nat, who: int)
    requires WellFormed(b) && |line| >= 5 && g <= 4 && line[g] == p && Contiguous(line, d)
    requires forall i :: 0 <= i < |line| && i != g ==> InBounds(line[i]) && At(b, line[i]) == who
    ensures var five := line[..5];
            |five| == 5 && p in five && Contiguous(five, d) &&
            forall q :: q in five && q != p ==> InBounds(q) && At(b, q) == who
  {
    var five := line[..5];
    assert five[g] == p;
    forall q | q in five && q != p
      ensures InBounds(q) && At(b, q) == who
    {
      var i :| 0 <= i < 5 && five[i] == q;
      assert line[i] == q;
    }
  }

  /** A line `findWin` reports is five contiguous points along one of the four
      directions, passes through p, and every point other than p holds a
      `who` stone. */
  lemma {:induction false} WinFromSome(b: Board, p: Pos, who: int, k: nat)
    requires WellFormed(b) && k <= 4
    ensures WinFrom(b, p, who, k).Some? ==>
              var line := WinFrom(b, p, who, k).value;
              |line| == 5 && p in line &&
              (exists j :: k <= j < 4 && Contiguous(line, DIRS4[j])) &&
              forall q :: q in line && q != p ==> InBounds(q) && At(b, q) == who
    decreases 4 - k
  {
    if k < 4 {
      var line := Line(b, p, DIRS4[k], who);
      if |line| >= 5 {
        LineFacts(b, p, DIRS4[k], who);
        LineContiguous(b, p, DIRS4[k], who);
        var g := Streak(b, Add(p, Neg(DIRS4[k])), Neg(DIRS4[k]), who, 4);
        FirstFive(b, line, p, DIRS4[k], g, who);
      } else {
        WinFromSome(b, p, who, k + 1);
      }
    }
  }

  /** None is reported exactly when no direction reaches five. */
  lemma {:induction false} WinFromNone(b: Board, p: Pos, who: int, k: nat)
    requires WellFormed(b) && k <= 4
    ensures WinFrom(b, p, who, k).None? <==> forall j :: k <= j < 4 ==> |Line(b, p, DIRS4[j], who)| < 5
    decreases 4 - k
  {
    if k < 4 {
      WinFromNone(b, p, who, k + 1);
      var line := Line(b, p, DIRS4[k], who);
      if |line| < 5 {
        assert WinFrom(b, p, who, k) == WinFrom(b, p, who, k + 1);
        forall j | k <= j < 4 && (forall i :: k + 1 <= i < 4 ==> |Line(b, p, DIRS4[i], who)| < 5)
          ensures |Line(b, p, DIRS4[j], who)| < 5
        {
          if j == k {
            assert |line| < 5;
          }
        }
      } else {
        assert WinFrom(b, p, who, k) == Some(line[..5]);
      }
    }
  }

  lemma WinFacts(b: Board, p: Pos, who: int)
    requires WellFormed(b)
    ensures FindWinSpec(b, p, who).Some? ==>
              var line := FindWinSpec(b, p, who).value;
              who != 0 && |line| == 5 && p in line &&
              (exists j :: 0 <= j < 4 && Contiguous(line, DIRS4[j])) &&
              forall q :: q in line && q != p ==> InBounds(q) && At(b, q) == who
    ensures FindWinSpec(b, p, who).None? <==>
              who == 0 || forall j :: 0 <= j < 4 ==> |Line(b, p, DIRS4[j], who)| < 5
  {
    WinFromSome(b, p, who, 0);
    WinFromNone(b, p, who, 0);
  }

  /** The forward loop of `findWin`: the `who` stones after p along d,
      at most four, nearest first. */
  method RunAhead(b: Board, p: Pos, d: Pos, who: int) returns (ahead: seq<Pos>)
    requires WellFormed(b)
    ensures ahead == Ahead(p, d, Streak(b, Add(p, d), d, who, 4))
  {
    ghost var f := Streak(b, Add(p, d), d, who, 4);
    ahead := [];
    var k := 1;
    var q := Add(p, d);
    while k < 5
      invariant 1 <= k <= 5
      invariant q == Walk(p, d, k)
      invariant ahead == Ahead(p, d, k - 1)
      invariant (k - 1) + Streak(b, q, d, who, 5 - k) == f
    {
      if !InBounds(q) || b[q.r][q.c] != who {
        break;
      }
      WalkStep(p, d, k);
      ahead := ahead + [q];
      q := Add(q, d);
      k := k + 1;
    }
  }

  /** The backward loop of `findWin`: the `who` stones before p along d,
      at most four, farthest first. */
  method RunBehind(b: Board, p: Pos, d: Pos, who: int) returns (behind: seq<Pos>)
    requires WellFormed(b)
    ensures behind == Behind(p, d, Streak(b, Add(p, Neg(d)), Neg(d), who, 4))
  {
    ghost var g := Streak(b, Add(p, Neg(d)), Neg(d), who, 4);
    behind := [];
    var k := 1;
    var q := Add(p, Neg(d));
    while k < 5
      invariant 1 <= k <= 5
      invariant q == Walk(p, Neg(d), k)
      invariant behind == Behind(p, d, k - 1)
      invariant (k - 1) + Streak(b, q, Neg(d), who, 5 - k) == g
    {
      if !InBounds(q) || b[q.r][q.c] != who {
        break;
      }
      WalkStep(p, Neg(d), k);
      behind := [q] + behind;
      q := Add(q, Neg(d));
      k := k + 1;
    }
  }

  /** One direction of `findWin`: the forward loop pushes, the backward loop
      unshifts. */
  method RunLine(b: Board, p: Pos, d: Pos, who: int) returns (line: seq<Pos>)
    requires WellFormed(b)
    ensures line == Line(b, p, d, who)
  {
    var ahead := RunAhead(b, p, d, who);
    var behind := RunBehind(b, p, d, who);
    line := behind + ([p] + ahead);
  }

  /** `findWin(board, r, c, who)`. */
  method FindWin(b: Board, p: Pos, who: int) returns (res: Option<seq<Pos>>)
    requires WellFormed(b)
    ensures res == FindWinSpec(b, p, who)
  {
    if who == 0 {
      return None;
    }
    var k := 0;
    while k < 4
      invariant 0 <= k <= 4
      invariant WinFrom(b, p, who, k) == WinFrom(b, p, who, 0)
    {
      var line := RunLine(b, p, DIRS4[k], who);
      if |line| >= 5 {
        return Some(line[..5]);
      }
      k := k + 1;
    }
    return None;
  }

  /** `canWinAt`: placing a `who` stone on the empty point p makes five. The
      board given is left as it was (the source copies it). */
  function CanWinAt(b: Board, p: Pos, who: int): (res: bool)
    requires WellFormed(b) && InBounds(p) && 0 <= who <= 2
    ensures res ==> At(b, p) == 0 && who != 0
  {
    if At(b, p) != 0 then false else FindWinSpec(Put(b, p, who), p, who).Some?
  }

  /** A winning point completes five contiguous points through it, all of the
      others already holding `who` stones. */
  lemma CanWinAtMeansFour(b: Board, p: Pos, who: int)
    requires WellFormed(b) && InBounds(p) && 0 <= who <= 2
    requires CanWinAt(b, p, who)
    ensures exists line: seq<Pos>, j :: 0 <= j < 4 && |line| == 5 && p in line && Contiguous(line, DIRS4[j]) &&
              forall q :: q in line && q != p ==> InBounds(q) && At(b, q) == who
  {
    var nb := Put(b, p, who);
    WinFacts(nb, p, who);
    var line := FindWinSpec(nb, p, who).value;
    var j :| 0 <= j < 4 && Contiguous(line, DIRS4[j]);
    assert forall q :: q in line && q != p ==> InBounds(q) && At(b, q) == who;
  }

  // ---------------------------------------------------------------------------
  // countLine

  function Dist(p: Pos, d: Pos): int
  {
    if d.r == 1 then SIZE - p.r
    else if d.r == -1 then p.r + 1
    else if d.c == 1 then SIZE - p.c
    else p.c + 1
  }

  /** Length of the run of `who` stones starting at p along d (unbounded). */
  function RunLen(b: Board, p: Pos, d: Pos, who: int): nat
    requires WellFormed(b) && IsDir(d)
    decreases if InBounds(p) then Dist(p, d) else 0
  {
    if InBounds(p) && At(b, p) == who then 1 + RunLen(b, Add(p, d), d, who) else 0
  }

  /** The first point after that run. */
  function RunEnd(b: Board, p: Pos, d: Pos, who: int): Pos
    requires WellFormed(b) && IsDir(d)
    decreases if InBounds(p) then Dist(p, d) else 0
  {
    if InBounds(p) && At(b, p) == who then RunEnd(b, Add(p, d), d, who) else p
  }

  /** 1 when the run's end is an empty point on the board. */
  function OpenEnd(b: Board, p: Pos, d: Pos, who: int): (o: int)
    requires WellFormed(b) && IsDir(d)
    ensures 0 <= o <= 1
  {
    var e := RunEnd(b, p, d, who);
    if InBounds(e) && At(b, e) == 0 then 1 else 0
  }

  /** The streak `findWin` looks at is the run capped at the points it looks at. */
  lemma {:induction false} StreakIsCappedRun(b: Board, p: Pos, d: Pos, who: int, left: nat)
    requires WellFormed(b) && IsDir(d)
    ensures Streak(b, p, d, who, left) == Min(left, RunLen(b, p, d, who))
    decreases left
  {
    if left > 0 && InBounds(p) && At(b, p) == who {
      StreakIsCappedRun(b, Add(p, d), d, who, left - 1);
    }
  }

  /** `findWin` reports a line exactly when, in some direction, the stones of
      `who` on both sides of p together with p number at least five (longer
      rows count too). */
  lemma WinIffLongRun(b: Board, p: Pos, who: int)
    requires WellFormed(b) && IsPlayer(who)
    ensures FindWinSpec(b, p, who).Some? <==>
              exists j :: 0 <= j < 4 &&
                1 + RunLen(b, Add(p, DIRS4[j]), DIRS4[j], who) + RunLen(b, Add(p, Neg(DIRS4[j])), Neg(DIRS4[j]), who) >= 5
  {
    WinFacts(b, p, who);
    Dirs4AreDirs();
    forall j | 0 <= j < 4
      ensures |Line(b, p, DIRS4[j], who)| >= 5 <==>
                1 + RunLen(b, Add(p, DIRS4[j]), DIRS4[j], who) + RunLen(b, Add(p, Neg(DIRS4[j])), Neg(DIRS4[j]), who) >= 5
    {
      LineFacts(b, p, DIRS4[j], who);
      StreakIsCappedRun(b, Add(p, DIRS4[j]), DIRS4[j], who, 4);
      StreakIsCappedRun(b, Add(p, Neg(DIRS4[j])), Neg(DIRS4[j]), who, 4);
    }
  }

  /** One side of `countLine`: walk while the point holds `who`. */
  method CountSide(b: Board, p: Pos, d: Pos, who: int) returns (cnt: int, open: int)
    requires WellFormed(b) && IsDir(d)
    ensures cnt == RunLen(b, p, d, who) && open == OpenEnd(b, p, d, who)
  {
    cnt := 0;
    var q := p;
    while InBounds(q) && b[q.r][q.c] == who
      invariant cnt + RunLen(b, q, d, who) == RunLen(b, p, d, who)
      invariant RunEnd(b, q, d, who) == RunEnd(b, p, d, who)
      decreases if InBounds(q) then Dist(q, d) else 0
    {
      cnt := cnt + 1;
      q := Add(q, d);
    }
    open := if InBounds(q) && b[q.r][q.c] == 0 then 1 else 0;
  }

  /** `countLine`: the length of the row of `who` stones through p along d
      (p counted as one of them) and how many of its two ends are open. */
  method CountLine(b: Board, p: Pos, d: Pos, who: int) returns (total: int, open: int)
    requires WellFormed(b) && IsDir(d)
    ensures total == 1 + RunLen(b, Add(p, d), d, who) + RunLen(b, Add(p, Neg(d)), Neg(d), who)
    ensures open == OpenEnd(b, Add(p, d), d, who) + OpenEnd(b, Add(p, Neg(d)), Neg(d), who)
    ensures total >= 1 && 0 <= open <= 2
  {
    var cntPos, openPos := CountSide(b, Add(p, d), d, who);
    var cntNeg, openNeg := CountSide(b, Add(p, Neg(d)), Neg(d), who);
    total := 1 + cntPos + cntNeg;
    open := openPos + openNeg;
  }

  /** The points a run covers hold `who` stones, and its end does not. */
  lemma {:induction false} RunFacts(b: Board, p: Pos, d: Pos, who: int)
    requires WellFormed(b) && IsDir(d)
    ensures Streak(b, p, d, who, RunLen(b, p, d, who)) == RunLen(b, p, d, who)
    ensures var e := RunEnd(b, p, d, who); !(InBounds(e) && At(b, e) == who)
    decreases if InBounds(p) then Dist(p, d) else 0
  {
    if InBounds(p) && At(b, p) == who {
      RunFacts(b, Add(p, d), d, who);
    }
  }

  // ---------------------------------------------------------------------------
  // hasNeighbor and genCandidates

  /** The point offset (dr, dc) from p is on the board and holds a stone. */
  predicate StoneAtOffset(b: Board, p: Pos, dr: int, dc: int)
    requires WellFormed(b)
  {
    var q := Pos(p.r + dr, p.c + dc);
    InBounds(q) && At(b, q) != 0
  }

  /** Some other point within Chebyshev distance `dist` of p holds a stone. */
  predicate Neighbour(b: Board, p: Pos, dist: int)
    requires WellFormed(b)
  {
    exists dr, dc :: -dist <= dr <= dist && -dist <= dc <= dist && (dr != 0 || dc != 0) &&
      StoneAtOffset(b, p, dr, dc)
  }

  /** `hasNeighbor(b, r, c, dist)`. */
  method HasNeighbour(b: Board, p: Pos, dist: int) returns (res: bool)
    requires WellFormed(b)
    ensures res == Neighbour(b, p, dist)
  {
    var dr := -dist;
    while dr <= dist
      invariant -dist <= dr <= dist + 1 || (dist < 0 && dr == -dist)
      invariant forall x, y :: -dist <= x < dr && -dist <= y <= dist && (x != 0 || y != 0) ==>
                  !StoneAtOffset(b, p, x, y)
    {
      var dc := -dist;
      while dc <= dist
        invariant -dist <= dc <= dist + 1
        invariant forall x, y :: -dist <= x < dr && -dist <= y <= dist && (x != 0 || y != 0) ==>
                    !StoneAtOffset(b, p, x, y)
        invariant forall y :: -dist <= y < dc && (dr != 0 || y != 0) ==> !StoneAtOffset(b, p, dr, y)
      {
        if !(dr == 0 && dc == 0) {
          var q := Pos(p.r + dr, p.c + dc);
          if InBounds(q) && b[q.r][q.c] != 0 {
            assert StoneAtOffset(b, p, dr, dc);
            return true;
          }
        }
        dc := dc + 1;
      }
      dr := dr + 1;
    }
    return false;
  }

  /** Some point holds a stone. */
  predicate AnyStone(b: Board)
    requires WellFormed(b)
  {
    exists r, c :: 0 <= r < SIZE && 0 <= c < SIZE && b[r][c] != 0
  }

  /** The scan `genCandidates` opens with. */
  method HasAnyStone(b: Board) returns (res: bool)
    requires WellFormed(b)
    ensures res == AnyStone(b)
  {
    var r := 0;
    while r < SIZE
      invariant 0 <= r <= SIZE
      invariant forall x, y :: 0 <= x < r && 0 <= y < SIZE ==> b[x][y] == 0
    {
      var c := 0;
      while c < SIZE
        invariant 0 <= c <= SIZE
        invariant forall y :: 0 <= y < c ==> b[r][y] == 0
      {
        if b[r][c] != 0 {
          return true;
        }
        c := c + 1;
      }
      r := r + 1;
    }
    return false;
  }

  /** An empty point with a stone within two points. */
  predicate IsCandidate(b: Board, p: Pos)
    requires WellFormed(b) && InBounds(p)
  {
    At(b, p) == 0 && Neighbour(b, p, 2)
  }

  /** The candidates among the first c points of row r, in column order. */
  function CandidatesInRow(b: Board, r: int, c: int): seq<Pos>
    requires WellFormed(b) && 0 <= r < SIZE && 0 <= c <= SIZE
  {
    if c == 0 then []
    else CandidatesInRow(b, r, c - 1) + (if IsCandidate(b, Pos(r, c - 1)) then [Pos(r, c - 1)] else [])
  }

  /** The candidates in the first r rows, in row-major order. */
  function CandidatesUpTo(b: Board, r: int): seq<Pos>
    requires WellFormed(b) && 0 <= r <= SIZE
  {
    if r == 0 then [] else CandidatesUpTo(b, r - 1) + CandidatesInRow(b, r - 1, SIZE)
  }

  function Candidates(b: Board): seq<Pos>
    requires WellFormed(b)
  {
    CandidatesUpTo(b, SIZE)
  }

  lemma {:induction false} CandidatesInRowExact(b: Board, r: int, c: int)
    requires WellFormed(b) && 0 <= r < SIZE && 0 <= c <= SIZE
    ensures forall q :: q in CandidatesInRow(b, r, c) <==> q.r == r && 0 <= q.c < c && IsCandidate(b, q)
  {
    if c > 0 {
      CandidatesInRowExact(b, r, c - 1);
    }
  }

  lemma {:induction false} CandidatesUpToExact(b: Board, r: int)
    requires WellFormed(b) && 0 <= r <= SIZE
    ensures forall q :: q in CandidatesUpTo(b, r) <==> 0 <= q.r < r && 0 <= q.c < SIZE && IsCandidate(b, q)
  {
    if r > 0 {
      CandidatesUpToExact(b, r - 1);
      CandidatesInRowExact(b, r - 1, SIZE);
    }
  }

  /** The candidates are exactly the empty points with a stone within two. */
  lemma CandidatesExact(b: Board)
    requires WellFormed(b)
    ensures forall q :: q in Candidates(b) <==> InBounds(q) && IsCandidate(b, q)
  {
    CandidatesUpToExact(b, SIZE);
  }

  /** Scores never increase along s. */
  predicate SortedDesc(s: seq<Pos>, score: Pos -> int)
  {
    forall i, j :: 0 <= i < j < |s| ==> score(s[i]) >= score(s[j])
  }

  /** Insert x after every element scoring at least as much (so ties keep
      their order). */
  function InsertDesc(s: seq<Pos>, x: Pos, score: Pos -> int): seq<Pos>
  {
    if s == [] then [x]
    else if score(s[0]) >= score(x) then [s[0]] + InsertDesc(s[1..], x, score)
    else [x] + s
  }

  /** `list.sort((a, b) => b.score - a.score)`: a stable sort by descending
      score, written as an insertion sort. */
  function SortDesc(s: seq<Pos>, score: Pos -> int): seq<Pos>
  {
    if s == [] then [] else InsertDesc(SortDesc(s[..|s| - 1], score), s[|s| - 1], score)
  }

  /** Inserting adds x and nothing else. */
  lemma {:induction false} InsertDescPerm(s: seq<Pos>, x: Pos, score: Pos -> int)
    ensures multiset(InsertDesc(s, x, score)) == multiset(s) + multiset{x}
  {
    if s != [] && score(s[0]) >= score(x) {
      InsertDescPerm(s[1..], x, score);
      assert s == [s[0]] + s[1..];
    }
  }

  lemma {:induction false} InsertDescFacts(s: seq<Pos>, x: Pos, score: Pos -> int)
    requires SortedDesc(s, score)
    ensures SortedDesc(InsertDesc(s, x, score), score)
    ensures multiset(InsertDesc(s, x, score)) == multiset(s) + multiset{x}
  {
    InsertDescPerm(s, x, score);
    if s != [] && score(s[0]) >= score(x) {
      InsertDescFacts(s[1..], x, score);
      var t := InsertDesc(s[1..], x, score);
      InsertDescPerm(s[1..], x, score);
      var u := [s[0]] + t;
      forall i, j | 0 <= i < j < |u|
        ensures score(u[i]) >= score(u[j])
      {
        if i == 0 {
          assert u[j] == t[j - 1];
          assert t[j - 1] in multiset(s[1..]) + multiset{x};
          if t[j - 1] != x {
            var m :| 0 <= m < |s[1..]| && s[1..][m] == t[j - 1];
            assert s[m + 1] == t[j - 1];
          }
        } else {
          assert u[i] == t[i - 1] && u[j] == t[j - 1];
        }
      }
    }
  }

  /** The sort orders by descending score and only reorders. */
  lemma {:induction false} SortDescFacts(s: seq<Pos>, score: Pos -> int)
    ensures SortedDesc(SortDesc(s, score), score)
    ensures multiset(SortDesc(s, score)) == multiset(s)
  {
    if s != [] {
      SortDescFacts(s[..|s| - 1], score);
      InsertDescFacts(SortDesc(s[..|s| - 1], score), s[|s| - 1], score);
      assert s == s[..|s| - 1] + [s[|s| - 1]];
    }
  }

  /** `genCandidates`: on an empty board the centre alone; otherwise the
      candidate points sorted by descending score. `score` stands for
      `scoreCell`, whose value is only ever compared here; it never returns
      `-Infinity` for an empty point, so that filter drops nothing. */
  function GenCandidatesSpec(b: Board, score: Pos -> int): seq<Pos>
    requires WellFormed(b)
  {
    if !AnyStone(b) then [Pos(CENTRE, CENTRE)] else SortDesc(Candidates(b), score)
  }

  /** What the computer chooses from: only empty points, each (unless the
      board is empty) next to a stone, best first, and every such point. */
  lemma GenCandidatesFacts(b: Board, score: Pos -> int)
    requires WellFormed(b)
    ensures forall q :: q in GenCandidatesSpec(b, score) ==> InBounds(q) && At(b, q) == 0
    ensures AnyStone(b) ==> SortedDesc(GenCandidatesSpec(b, score), score)
    ensures AnyStone(b) ==> forall q :: InBounds(q) && IsCandidate(b, q) <==> q in GenCandidatesSpec(b, score)
    ensures !AnyStone(b) ==> GenCandidatesSpec(b, score) == [Pos(CENTRE, CENTRE)]
  {
    CandidatesExact(b);
    SortDescFacts(Candidates(b), score);
    if AnyStone(b) {
      forall q
        ensures q in GenCandidatesSpec(b, score) <==> q in Candidates(b)
      {
        assert q in GenCandidatesSpec(b, score) <==> q in multiset(GenCandidatesSpec(b, score));
        assert q in Candidates(b) <==> q in multiset(Candidates(b));
      }
    }
  }

  /** `genCandidates(b, me)` with `scoreCell` passed as `score`. */
  method GenCandidates(b: Board, score: Pos -> int) returns (list: seq<Pos>)
    requires WellFormed(b)
    ensures list == GenCandidatesSpec(b, score)
  {
    var any := HasAnyStone(b);
    if !any {
      return [Pos(CENTRE, CENTRE)];
    }
    list := [];
    var r := 0;
    while r < SIZE
      invariant 0 <= r <= SIZE
      invariant list == CandidatesUpTo(b, r)
    {
      var c := 0;
      while c < SIZE
        invariant 0 <= c <= SIZE
        invariant list == CandidatesUpTo(b, r) + CandidatesInRow(b, r, c)
      {
        if b[r][c] == 0 {
          var near := HasNeighbour(b, Pos(r, c), 2);
          if near {
            list := list + [Pos(r, c)];
          }
        }
        c := c + 1;
      }
      r := r + 1;
    }
    list := SortDesc(list, score);
  }

  // ---------------------------------------------------------------------------
  // The page

  /** The stones on the board are exactly the points of the move history,
      which has no repeats. */
  ghost predicate History(b: Board, moves: seq<Pos>)
    requires WellFormed(b)
  {
    (forall i :: 0 <= i < |moves| ==> InBounds(moves[i])) &&
    (forall i, j :: 0 <= i < j < |moves| ==> moves[i] != moves[j]) &&
    (forall q {:trigger Occupied(b, q)} {:trigger q in moves} :: InBounds(q) ==> (Occupied(b, q) <==> q in moves))
  }

  predicate Occupied(b: Board, q: Pos)
    requires WellFormed(b) && InBounds(q)
  {
    At(b, q) != 0
  }

  /** Placing a stone on an empty point and recording it keeps the history. */
  lemma HistoryPut(b: Board, moves: seq<Pos>, p: Pos, v: int)
    requires WellFormed(b) && History(b, moves) && InBounds(p) && At(b, p) == 0 && IsPlayer(v)
    ensures History(Put(b, p, v), moves + [p])
  {
    assert !Occupied(b, p);
    var nb := Put(b, p, v);
    forall q | InBounds(q)
      ensures Occupied(nb, q) <==> q in moves + [p]
    {
      if q != p {
        assert Occupied(b, q) <==> q in moves;
      }
    }
  }

  /** Clearing the last recorded stone and dropping it keeps the history. */
  lemma HistoryPop(b: Board, moves: seq<Pos>)
    requires WellFormed(b) && History(b, moves) && moves != []
    ensures History(Put(b, moves[|moves| - 1], 0), moves[..|moves| - 1])
  {
    var last := moves[|moves| - 1];
    var rest := moves[..|moves| - 1];
    assert moves == rest + [last];
    assert last !in rest;
    var nb := Put(b, last, 0);
    forall q | InBounds(q)
      ensures Occupied(nb, q) <==> q in rest
    {
      if q != last {
        assert Occupied(b, q) <==> q in moves;
      }
    }
  }

  /** A reported line has five points. */
  lemma WinLength(b: Board, p: Pos, who: int)
    requires WellFormed(b)
    ensures FindWinSpec(b, p, who).Some? ==> |FindWinSpec(b, p, who).value| == 5
  {
    WinFacts(b, p, who);
  }

  /** What `place` leaves behind: board, history, side to move, winner and
      winning line. */
  datatype Outcome = Outcome(board: Board, moves: seq<Pos>, turn: int, winner: int, winLine: Option<seq<Pos>>)

  /** `place` on an empty point of an undecided game: the stone goes down; a
      five ends the game; otherwise, when the computer is to answer and has a
      point, its stone goes down too (and may win), and the move returns to
      the player; otherwise the other side is to move. */
  function PlaceResult(b: Board, moves: seq<Pos>, turn: int, p: Pos, ai: Option<Pos>, vsAI: bool, aiColor: int): Outcome
    requires WellFormed(b) && InBounds(p) && At(b, p) == 0 && IsPlayer(turn) && IsPlayer(aiColor)
    requires ai.Some? ==> InBounds(ai.value) && ai.value != p && At(b, ai.value) == 0
  {
    var nb := Put(b, p, turn);
    var line := FindWinSpec(nb, p, turn);
    if line.Some? then Outcome(nb, moves + [p], turn, turn, line)
    else if vsAI && Other(turn) == aiColor && ai.Some? then
      var nb2 := Put(nb, ai.value, aiColor);
      var line2 := FindWinSpec(nb2, ai.value, aiColor);
      Outcome(nb2, moves + [p] + [ai.value], turn, if line2.Some? then aiColor else 0, line2)
    else Outcome(nb, moves + [p], Other(turn), 0, None)
  }

  /** A reported line is five points through p, all holding `who` stones once
      p holds one. */
  lemma WinIsFiveStones(b: Board, p: Pos, who: int)
    requires WellFormed(b) && InBounds(p) && At(b, p) == who
    requires FindWinSpec(b, p, who).Some?
    ensures var line := FindWinSpec(b, p, who).value;
            |line| == 5 && p in line && forall q :: q in line ==> InBounds(q) && At(b, q) == who
  {
    WinFacts(b, p, who);
  }

  /** `place` keeps the history exact, extending it by the stones placed,
      and a winner is declared exactly when there is a line. */
  lemma PlaceResultSound(b: Board, moves: seq<Pos>, turn: int, p: Pos, ai: Option<Pos>, vsAI: bool, aiColor: int)
    requires WellFormed(b) && InBounds(p) && At(b, p) == 0 && IsPlayer(turn) && IsPlayer(aiColor)
    requires ai.Some? ==> InBounds(ai.value) && ai.value != p && At(b, ai.value) == 0
    requires History(b, moves)
    ensures var o := PlaceResult(b, moves, turn, p, ai, vsAI, aiColor);
            WellFormed(o.board) && History(o.board, o.moves) && IsPlayer(o.turn) && 0 <= o.winner <= 2 &&
            |o.moves| > |moves| && o.moves[..|moves|] == moves &&
            (o.winner == 0 <==> o.winLine.None?) && (o.winLine.Some? ==> |o.winLine.value| == 5)
  {
    var nb := Put(b, p, turn);
    HistoryPut(b, moves, p, turn);
    WinLength(nb, p, turn);
    assert (moves + [p])[..|moves|] == moves;
    if FindWinSpec(nb, p, turn).None? && vsAI && Other(turn) == aiColor && ai.Some? {
      HistoryPut(nb, moves + [p], ai.value, aiColor);
      WinLength(Put(nb, ai.value, aiColor), ai.value, aiColor);
      assert (moves + [p] + [ai.value])[..|moves|] == moves;
    }
  }

  /** A declared winner owns the five points of the winning line, which
      include the last stone placed. */
  lemma PlaceResultWinner(b: Board, moves: seq<Pos>, turn: int, p: Pos, ai: Option<Pos>, vsAI: bool, aiColor: int)
    requires WellFormed(b) && InBounds(p) && At(b, p) == 0 && IsPlayer(turn) && IsPlayer(aiColor)
    requires ai.Some? ==> InBounds(ai.value) && ai.value != p && At(b, ai.value) == 0
    ensures var o := PlaceResult(b, moves, turn, p, ai, vsAI, aiColor);
            o.winner != 0 ==>
              o.winLine.Some? && |o.winLine.value| == 5 && o.moves[|o.moves| - 1] in o.winLine.value &&
              forall q :: q in o.winLine.value ==> InBounds(q) && At(o.board, q) == o.winner
  {
    var nb := Put(b, p, turn);
    if FindWinSpec(nb, p, turn).Some? {
      WinIsFiveStones(nb, p, turn);
    } else if vsAI && Other(turn) == aiColor && ai.Some? {
      var nb2 := Put(nb, ai.value, aiColor);
      if FindWinSpec(nb2, ai.value, aiColor).Some? {
        WinIsFiveStones(nb2, ai.value, aiColor);
      }
    }
  }

  /** A consistent position: the stones are the history, and a winner comes
      with its five-point line. */
  ghost predicate Sound(o: Outcome)
  {
    WellFormed(o.board) && IsPlayer(o.turn) && 0 <= o.winner <= 2 && History(o.board, o.moves) &&
    (o.winner == 0 <==> o.winLine.None?) && (o.winLine.Some? ==> |o.winLine.value| == 5)
  }

  /** The computation of `place` once its guard has passed. */
  method PlaceOn(b: Board, moves: seq<Pos>, turn: int, p: Pos, ai: Option<Pos>, vsAI: bool, aiColor: int)
    returns (o: Outcome)
    requires WellFormed(b) && InBounds(p) && At(b, p) == 0 && IsPlayer(turn) && IsPlayer(aiColor)
    requires ai.Some? ==> InBounds(ai.value) && ai.value != p && At(b, ai.value) == 0
    requires History(b, moves)
    ensures o == PlaceResult(b, moves, turn, p, ai, vsAI, aiColor)
    ensures Sound(o)
  {
    PlaceResultSound(b, moves, turn, p, ai, vsAI, aiColor);
    var nb := Put(b, p, turn);
    var mv := moves + [p];
    var line := FindWin(nb, p, turn);
    if line.Some? {
      return Outcome(nb, mv, turn, turn, line);
    }
    var nextTurn := Other(turn);
    if vsAI && nextTurn == aiColor && ai.Some? {
      var a := ai.value;
      nb := Put(nb, a, aiColor);
      mv := mv + [a];
      var line2 := FindWin(nb, a, aiColor);
      return Outcome(nb, mv, turn, if line2.Some? then aiColor else 0, line2);
    }
    return Outcome(nb, mv, nextTurn, 0, None);
  }

  class Game {
    var board: Board
    var turn: int
    var winner: int
    var moves: seq<Pos>
    var winLine: Option<seq<Pos>>
    var vsAI: bool
    var aiColor: int

    /** The stones on the board are exactly the points in the move history,
        which has no repeats; a winner comes with its five-point line. */
    ghost predicate Valid()
      reads this
    {
      Sound(Outcome(board, moves, turn, winner, winLine)) && IsPlayer(aiColor)
    }

    /** A fresh game: `restart` with the chosen mode and computer colour. */
    constructor (ai: bool, color: int)
      requires IsPlayer(color)
      ensures Valid()
      ensures board == EmptyBoard() && turn == 1 && winner == 0 && moves == [] && winLine == None
      ensures vsAI == ai && aiColor == color
    {
      board := EmptyBoard();
      turn := 1;
      winner := 0;
      moves := [];
      winLine := None;
      vsAI := ai;
      aiColor := color;
    }

    /** `restart`. */
    method Restart()
      requires Valid()
      modifies this
      ensures Valid()
      ensures board == EmptyBoard() && turn == 1 && winner == 0 && moves == [] && winLine == None
      ensures vsAI == old(vsAI) && aiColor == old(aiColor)
    {
      board := EmptyBoard();
      turn := 1;
      winner := 0;
      moves := [];
      winLine := None;
    }

    /** `place(r, c)`. `ai` is the computer's answer (its `-1` point as
        `None`); the computer only ever picks an empty point. */
    method Place(p: Pos, ai: Option<Pos>)
      requires Valid() && InBounds(p)
      requires ai.Some? ==> InBounds(ai.value) && ai.value != p && At(board, ai.value) == 0
      modifies this
      ensures Valid()
      ensures vsAI == old(vsAI) && aiColor == old(aiColor)
      ensures old(winner) != 0 || old(At(board, p)) != 0 ==>
                board == old(board) && turn == old(turn) && winner == old(winner) &&
                moves == old(moves) && winLine == old(winLine)
      ensures old(winner) == 0 && old(At(board, p)) == 0 ==>
                Outcome(board, moves, turn, winner, winLine) ==
                PlaceResult(old(board), old(moves), old(turn), p, ai, vsAI, aiColor)
    {
      if winner != 0 || board[p.r][p.c] != 0 {
        return;
      }
      PlaceFresh(p, ai);
    }

    /** The body of `place` once its guard has passed. */
    method PlaceFresh(p: Pos, ai: Option<Pos>)
      requires Valid() && InBounds(p) && winner == 0 && At(board, p) == 0
      requires ai.Some? ==> InBounds(ai.value) && ai.value != p && At(board, ai.value) == 0
      modifies this
      ensures Valid()
      ensures vsAI == old(vsAI) && aiColor == old(aiColor)
      ensures Outcome(board, moves, turn, winner, winLine) ==
              PlaceResult(old(board), old(moves), old(turn), p, ai, vsAI, aiColor)
    {
      var o := PlaceOn(board, moves, turn, p, ai, vsAI, aiColor);
      Adopt(o);
    }

    /** Takes on a sound outcome as the new game state. */
    method Adopt(o: Outcome)
      requires Sound(o) && IsPlayer(aiColor)
      modifies this
      ensures Valid()
      ensures vsAI == old(vsAI) && aiColor == old(aiColor)
      ensures Outcome(board, moves, turn, winner, winLine) == o
    {
      board, moves, turn, winner, winLine := o.board, o.moves, o.turn, o.winner, o.winLine;
    }

    /** `undo`: take back the last stone (one stone, even against the
        computer) and hand the move back. */
    method Undo()
      requires Valid()
      modifies this
      ensures Valid()
      ensures vsAI == old(vsAI) && aiColor == old(aiColor) && winner == old(winner)
      ensures old(moves) == [] || old(winner) != 0 ==>
                board == old(board) && turn == old(turn) && moves == old(moves) && winLine == old(winLine)
      ensures old(moves) != [] && old(winner) == 0 ==>
                board == Put(old(board), old(moves)[|old(moves)| - 1], 0) &&
                moves == old(moves)[..|old(moves)| - 1] && turn == Other(old(turn)) && winLine == None
    {
      if moves == [] || winner != 0 {
        return;
      }
      var last := moves[|moves| - 1];
      var rest := moves[..|moves| - 1];
      HistoryPop(board, moves);
      board := Put(board, last, 0);
      moves := rest;
      turn := Other(turn);
      winLine := None;
    }

    /** The opening effect: with the computer playing black on an untouched
        board, it places its first stone and white is to move. */
    method ComputerOpens(ai: Option<Pos>)
      requires Valid()
      requires ai.Some? ==> InBounds(ai.value)
      modifies this
      ensures Valid()
      ensures vsAI == old(vsAI) && aiColor == old(aiColor) && winner == old(winner) && winLine == old(winLine)
      ensures old(vsAI) && old(winner) == 0 && old(moves) == [] && aiColor == 1 && ai.Some? ==>
                board == Put(old(board), ai.value, 1) && moves == [ai.value] && turn == 2
      ensures !(old(vsAI) && old(winner) == 0 && old(moves) == [] && aiColor == 1 && ai.Some?) ==>
                board == old(board) && moves == old(moves) && turn == old(turn)
    {
      if !vsAI || winner != 0 {
        return;
      }
      if moves == [] && aiColor == 1 && ai.Some? {
        board := Put(board, ai.value, 1);
        moves := [ai.value];
        turn := 2;
      }
    }
  }

  /** In a two-player game without a win, undo takes a placement back
      exactly. */
  method PlaceThenUndo(g: Game, p: Pos)
    requires g.Valid() && InBounds(p) && !g.vsAI
    requires g.winner == 0 && At(g.board, p) == 0
    requires FindWinSpec(Put(g.board, p, g.turn), p, g.turn).None?
    modifies g
    ensures g.Valid()
    ensures g.board == old(g.board) && g.moves == old(g.moves) && g.turn == old(g.turn)
  {
    ghost var b0 := g.board;
    g.Place(p, None);
    assert g.moves[|g.moves| - 1] == p;
    g.Undo();
    assert g.board == b0 by {
      forall r | 0 <= r < SIZE
        ensures g.board[r] == b0[r]
      {
      }
    }
  }
}

=== FILE: memory.dfy ===
/** Memory: sixteen face-down cards, eight icons twice each; two cards
    turned up are either matched (done) or turned back. */
module Memory {
  /** Icons are named by their index in the eight-icon list. */
  const ICON_COUNT: nat := 8
  const DECK_SIZE: nat := 16

  datatype Card = Card(id: nat, v: nat, open: bool, done: bool)

  /** The deck before shuffling: the icon list twice, ids 0..15. */
  function Unshuffled(): (d: seq<Card>)
    ensures |d| == DECK_SIZE
    ensures forall k :: 0 <= k < 16 ==> d[k] == Card(k, k % 8, false, false)
  {
    seq(16, k requires 0 <= k < 16 => Card(k, k % 8, false, false))
  }

  function Icons(cs: seq<Card>): (vs: seq<nat>)
    ensures |vs| == |cs| && forall k :: 0 <= k < |cs| ==> vs[k] == cs[k].v
  {
    seq(|cs|, k requires 0 <= k < |cs| => cs[k].v)
  }

  /** Some other card shows the icon of card k. */
  ghost predicate HasTwin(vs: seq<nat>, k: nat)
    requires k < |vs|
  {
    exists m :: 0 <= m < |vs| && m != k && vs[m] == vs[k]
  }

  /** Every icon has a second card. */
  ghost predicate Paired(vs: seq<nat>)
  {
    forall k :: 0 <= k < |vs| ==> HasTwin(vs, k)
  }

  /** No icon is on three cards. */
  ghost predicate NoTriple(vs: seq<nat>)
  {
    forall a, b, c :: 0 <= a < b < c < |vs| ==> !(vs[a] == vs[b] && vs[b] == vs[c])
  }

  /** The icons of a full deck: sixteen cards, each of the eight icons on
      exactly two of them. */
  ghost predicate Deck(vs: seq<nat>)
  {
    |vs| == DECK_SIZE && (forall k :: 0 <= k < |vs| ==> vs[k] < ICON_COUNT) && Paired(vs) && NoTriple(vs)
  }

  /** A deck as dealt: all cards closed, each icon exactly twice. */
  ghost predicate Dealt(cs: seq<Card>)
  {
    (forall k :: 0 <= k < |cs| ==> !cs[k].open && !cs[k].done) && Deck(Icons(cs))
  }

  lemma UnshuffledDeck()
    ensures Deck(Icons(Unshuffled()))
  {
    var vs := Icons(Unshuffled());
    assert forall k :: 0 <= k < 16 ==> vs[k] == k % 8;
    forall k | 0 <= k < |vs|
      ensures HasTwin(vs, k)
    {
      var m := if k < 8 then k + 8 else k - 8;
      assert vs[m] == vs[k];
    }
    forall a, b, c | 0 <= a < b < c < |vs|
      ensures !(vs[a] == vs[b] && vs[b] == vs[c])
    {
      assert a % 8 == (if a < 8 then a else a - 8);
      assert b % 8 == (if b < 8 then b else b - 8);
      assert c % 8 == (if c < 8 then c else c - 8);
    }
  }

  function Swap(k: nat, i: nat, j: nat): nat
  {
    if k == i then j else if k == j then i else k
  }

  /** Exchanging two cards keeps every icon on exactly two cards. */
  lemma SwapDeck(vs: seq<nat>, i: nat, j: nat)
    requires Deck(vs) && i < |vs| && j < |vs|
    ensures Deck(vs[i := vs[j]][j := vs[i]])
  {
    SwapPaired(vs, i, j);
    SwapNoTriple(vs, i, j);
  }

  lemma SwapPaired(vs: seq<nat>, i: nat, j: nat)
    requires Paired(vs) && i < |vs| && j < |vs|
    ensures Paired(vs[i := vs[j]][j := vs[i]])
  {
    var vs' := vs[i := vs[j]][j := vs[i]];
    // position k of the new deck holds the card from Swap(k) of the old one
    assert forall k :: 0 <= k < |vs| ==> vs'[k] == vs[Swap(k, i, j)];
    forall k | 0 <= k < |vs'|
      ensures HasTwin(vs', k)
    {
      assert HasTwin(vs, Swap(k, i, j));
      var m0 :| 0 <= m0 < |vs| && m0 != Swap(k, i, j) && vs[m0] == vs[Swap(k, i, j)];
      assert vs'[Swap(m0, i, j)] == vs'[k];
    }
  }

  lemma SwapNoTriple(vs: seq<nat>, i: nat, j: nat)
    requires NoTriple(vs) && i < |vs| && j < |vs|
    ensures NoTriple(vs[i := vs[j]][j := vs[i]])
  {
    var vs' := vs[i := vs[j]][j := vs[i]];
    assert forall k :: 0 <= k < |vs| ==> vs'[k] == vs[Swap(k, i, j)];
    forall a, b, c | 0 <= a < b < c < |vs'|
      ensures !(vs'[a] == vs'[b] && vs'[b] == vs'[c])
    {
      Distinct3(vs, Swap(a, i, j), Swap(b, i, j), Swap(c, i, j));
    }
  }

  lemma Distinct3(vs: seq<nat>, a: nat, b: nat, c: nat)
    requires NoTriple(vs) && a < |vs| && b < |vs| && c < |vs|
    ensures a != b && b != c && a != c ==> !(vs[a] == vs[b] && vs[b] == vs[c])
  {
    if a == b || b == c || a == c { }
    else if a < b < c { } else if a < c < b { assert !(vs[a] == vs[c] && vs[c] == vs[b]); }
    else if b < a < c { assert !(vs[b] == vs[a] && vs[a] == vs[c]); }
    else if b < c < a { assert !(vs[b] == vs[c] && vs[c] == vs[a]); }
    else if c < a < b { assert !(vs[c] == vs[a] && vs[a] == vs[b]); }
    else { assert !(vs[c] == vs[b] && vs[b] == vs[a]); }
  }

  /** The deck: the icon list twice, then a Fisher-Yates shuffle in place,
      where `js[i]` (at most i) is the partner drawn for position i. */
  method Deal(js: seq<nat>) returns (a: array<Card>)
    requires |js| == DECK_SIZE && forall i :: 0 < i < 16 ==> js[i] <= i
    ensures fresh(a) && Dealt(a[..]) && multiset(a[..]) == multiset(Unshuffled())
  {
    a := new Card[16](k requires 0 <= k < 16 => Card(k, k % 8, false, false));
    assert a[..] == Unshuffled();
    UnshuffledDeck();
    var i := 15;
    while i > 0
      invariant 0 <= i <= 15
      invariant a.Length == DECK_SIZE && Dealt(a[..]) && multiset(a[..]) == multiset(Unshuffled())
    {
      var j := js[i];
      ghost var before := a[..];
      a[i], a[j] := a[j], a[i];
      assert a[..] == before[i := before[j]][j := before[i]];
      SwapDealt(before, i, j);
      i := i - 1;
    }
  }

  /** One exchange of the shuffle keeps a dealt deck dealt, with the same
      cards. */
  lemma SwapDealt(cs: seq<Card>, i: nat, j: nat)
    requires Dealt(cs) && i < |cs| && j < |cs|
    ensures Dealt(cs[i := cs[j]][j := cs[i]])
    ensures multiset(cs[i := cs[j]][j := cs[i]]) == multiset(cs)
  {
    var cs' := cs[i := cs[j]][j := cs[i]];
    var vs := Icons(cs);
    SwapDeck(vs, i, j);
    assert Icons(cs') == vs[i := vs[j]][j := vs[i]];
  }

  /** The table: the cards, the selected (turned-up, unmatched) cards in
      click order, and the step counter. */
  datatype Table = Table(cards: seq<Card>, sel: seq<nat>, steps: nat)

  /** `click` as written: open or done cards are ignored; otherwise the
      card opens and joins the selection; the second selection counts a
      step and schedules `Settle`. */
  function ClickedAsWritten(t: Table, i: nat): (t': Table)
    requires i < |t.cards|
    ensures t.cards[i].open || t.cards[i].done ==> t' == t
    ensures !t.cards[i].open && !t.cards[i].done ==> (
      |t'.cards| == |t.cards| && t'.cards[i] == t.cards[i].(open := true) &&
      (forall k :: 0 <= k < |t.cards| && k != i ==> t'.cards[k] == t.cards[k]) &&
      t'.sel == t.sel + [i] && t'.steps == (if |t.sel| == 1 then t.steps + 1 else t.steps))
  {
    if t.cards[i].open || t.cards[i].done then t
    else
      var s := t.sel + [i];
      Table(t.cards[i := t.cards[i].(open := true)], s, if |s| == 2 then t.steps + 1 else t.steps)
  }

  /** `click` as intended: while two cards wait to be settled, further
      clicks are ignored too. */
  function Clicked(t: Table, i: nat): (t': Table)
    requires i < |t.cards|
    ensures |t.sel| >= 2 ==> t' == t
    ensures |t.sel| < 2 ==> t' == ClickedAsWritten(t, i)
  {
    if |t.sel| >= 2 then t else ClickedAsWritten(t, i)
  }

  /** The delayed follow-up of a second selection: the first two selected
      cards become done when their icons agree and are closed otherwise;
      the selection is cleared. */
  function Settled(t: Table): (t': Table)
    requires |t.sel| >= 2 && t.sel[0] < |t.cards| && t.sel[1] < |t.cards|
    ensures |t'.cards| == |t.cards| && t'.sel == [] && t'.steps == t.steps
    ensures forall k :: 0 <= k < |t.cards| && k != t.sel[0] && k != t.sel[1] ==> t'.cards[k] == t.cards[k]
    ensures var same := t.cards[t.sel[0]].v == t.cards[t.sel[1]].v;
      forall k :: k == t.sel[0] || k == t.sel[1] ==>
        t'.cards[k].id == t.cards[k].id && t'.cards[k].v == t.cards[k].v &&
        t'.cards[k].done == (t.cards[k].done || same) && t'.cards[k].open == (t.cards[k].open && same)
  {
    var a, b := t.sel[0], t.sel[1];
    var same := t.cards[a].v == t.cards[b].v;
    Table(seq(|t.cards|, k requires 0 <= k < |t.cards| =>
      if k != a && k != b then t.cards[k]
      else if same then t.cards[k].(done := true) else t.cards[k].(open := false)), [], t.steps)
  }

  /** `done`: every card is done. */
  predicate AllDone(cs: seq<Card>)
  {
    forall k :: 0 <= k < |cs| ==> cs[k].done
  }

  /** A card left open, not done and not selected: nothing turns it back. */
  predicate Stranded(t: Table, c: nat)
  {
    c < |t.cards| && t.cards[c].open && !t.cards[c].done && c !in t.sel
  }

  /** As written, a stranded card stays stranded whatever is clicked or
      settled, so the game is never complete. */
  lemma StrandedForeverAsWritten(t: Table, c: nat, i: nat)
    requires Stranded(t, c) && i < |t.cards|
    ensures Stranded(ClickedAsWritten(t, i), c)
    ensures |t.sel| >= 2 && t.sel[0] < |t.cards| && t.sel[1] < |t.cards| ==> Stranded(Settled(t), c)
    ensures !AllDone(t.cards)
  {
    if !t.cards[i].open && !t.cards[i].done {
      assert i != c;
    }
  }

  /** As written, a third click while two cards wait strands it: the
      pending settle clears the whole selection. */
  lemma ThirdClickStrandsAsWritten(t: Table, a: nat, b: nat, c: nat)
    requires t.sel == [] && a < |t.cards| && b < |t.cards| && c < |t.cards| && a != b && b != c && a != c
    requires !t.cards[a].open && !t.cards[a].done && !t.cards[b].open && !t.cards[b].done
    requires !t.cards[c].open && !t.cards[c].done
    ensures var t3 := ClickedAsWritten(ClickedAsWritten(ClickedAsWritten(t, a), b), c);
      t3.sel == [a, b, c] && Stranded(Settled(t3), c)
  {
  }

  /** At most two selected cards, distinct and on the table. */
  predicate SelOk(t: Table)
  {
    |t.sel| <= 2 && (forall n :: 0 <= n < |t.sel| ==> t.sel[n] < |t.cards|) && (|t.sel| == 2 ==> t.sel[0] != t.sel[1])
  }

  /** Every card open but not done is selected, and only those are. */
  predicate Shown(t: Table)
  {
    forall k :: 0 <= k < |t.cards| ==> (t.cards[k].open && !t.cards[k].done <==> k in t.sel)
  }

  /** Cards with the same icon are done together. */
  predicate Matched(cs: seq<Card>)
  {
    forall a, b :: 0 <= a < |cs| && 0 <= b < |cs| && cs[a].v == cs[b].v ==> cs[a].done == cs[b].done
  }

  /** The table invariant of the intended game. */
  ghost predicate Inv(t: Table)
  {
    Deck(Icons(t.cards)) && SelOk(t) && Shown(t) && Matched(t.cards)
  }

  lemma DealtInv(cs: seq<Card>)
    requires Dealt(cs)
    ensures Inv(Table(cs, [], 0))
  {
  }

  /** Under the invariant nothing is ever stranded. */
  lemma InvNoStranded(t: Table, c: nat)
    requires Inv(t)
    ensures !Stranded(t, c)
  {
  }

  lemma ClickKeeps(t: Table, i: nat)
    requires Inv(t) && i < DECK_SIZE
    ensures Inv(Clicked(t, i))
  {
    var t' := Clicked(t, i);
    assert Icons(t'.cards) == Icons(t.cards);
  }

  lemma SettleKeeps(t: Table)
    requires Inv(t) && |t.sel| == 2
    ensures Inv(Settled(t))
  {
    var t' := Settled(t);
    var a, b := t.sel[0], t.sel[1];
    assert Icons(t'.cards) == Icons(t.cards);
    if t.cards[a].v == t.cards[b].v {
      forall x: nat, y: nat | x < DECK_SIZE && y < DECK_SIZE && t'.cards[x].v == t'.cards[y].v
        ensures t'.cards[x].done == t'.cards[y].done
      {
        Distinct3(Icons(t.cards), a, b, x);
        Distinct3(Icons(t.cards), a, b, y);
      }
    }
  }

  /** A complete game has nothing left waiting to be settled. */
  lemma CompleteSettled(t: Table)
    requires Inv(t) && AllDone(t.cards)
    ensures t.sel == []
  {
    if t.sel != [] {
      HeadSelected(t.sel);
      assert false;
    }
  }

  lemma HeadSelected(s: seq<nat>)
    requires s != []
    ensures s[0] in s
  {
  }

  /** In the intended game a pair can always be finished: from a settled
      table, clicking an unfinished card and then its partner matches
      both, and no other card changes. */
  lemma PairCompletes(t: Table, k: nat) returns (m: nat)
    requires Inv(t) && t.sel == [] && k < DECK_SIZE && !t.cards[k].done
    ensures m < DECK_SIZE && m != k && t.cards[m].v == t.cards[k].v
    ensures var t2 := Clicked(Clicked(t, k), m);
      |t2.sel| == 2 && t2.steps == t.steps + 1 &&
      var t3 := Settled(t2);
      Inv(t3) && t3.cards[k].done && t3.cards[m].done &&
      forall n :: 0 <= n < DECK_SIZE && n != k && n != m ==> t3.cards[n] == t.cards[n]
  {
    var vs := Icons(t.cards);
    assert HasTwin(vs, k);
    m :| 0 <= m < |vs| && m != k && vs[m] == vs[k];
    ClickKeeps(t, k);
    ClickKeeps(Clicked(t, k), m);
    SettleKeeps(Clicked(Clicked(t, k), m));
  }

  /** The board as React state. */
  class Game {
    var cards: seq<Card>
    var sel: seq<nat>
    var steps: nat

    function State(): Table
      reads this
    {
      Table(cards, sel, steps)
    }

    constructor (js: seq<nat>)
      requires |js| == DECK_SIZE && forall i :: 0 < i < 16 ==> js[i] <= i
      ensures Inv(State()) && Dealt(cards) && multiset(cards) == multiset(Unshuffled())
      ensures sel == [] && steps == 0 && !Done()
    {
      var a := Deal(js);
      cards, sel, steps := a[..], [], 0;
      new;
      DealtInv(cards);
      assert !cards[0].done;
    }

    /** A click on card i, ignored while two cards wait. */
    method Click(i: nat)
      requires Inv(State()) && i < DECK_SIZE
      modifies this
      ensures State() == Clicked(old(State()), i) && Inv(State())
    {
      ClickKeeps(State(), i);
      if |sel| < 2 && !cards[i].open && !cards[i].done {
        cards := cards[i := cards[i].(open := true)];
        sel := sel + [i];
        if |sel| == 2 {
          steps := steps + 1;
        }
      }
    }

    /** The timeout after a second selection. */
    method Settle()
      requires Inv(State()) && |sel| == 2
      modifies this
      ensures State() == Settled(old(State())) && Inv(State())
    {
      SettleKeeps(State());
      var t := Settled(State());
      cards, sel := t.cards, t.sel;
    }

    /** The game is complete. */
    predicate Done()
      reads this
    {
      AllDone(cards)
    }
  }
}

=== FILE: minesweeper.dfy ===
/** Minesweeper on a 10 x 10 grid with 15 mines: board creation (mine
    placement and neighbour counts) and the recursive flood reveal, which
    works on a copy of the grid that then replaces the page's grid. */
module Minesweeper {
  import opened Common

  const SIZE: int := 10
  const MINES: int := 15

  datatype Cell = Cell(mine: bool, revealed: bool, count: int)

  const CELLS: int := 100

  predicate InBounds(i: int, j: int) { 0 <= i < SIZE && 0 <= j < SIZE }

  /** Row-major index of square (i, j); row and column of index k. */
  function Index(i: int, j: int): int { i * 10 + j }
  function Row(k: int): int { k / 10 }
  function Col(k: int): int { k % 10 }

  lemma IndexFacts()
    ensures forall i, j {:trigger Index(i, j)} :: InBounds(i, j) ==>
              0 <= Index(i, j) < CELLS && Row(Index(i, j)) == i && Col(Index(i, j)) == j
    ensures forall k {:trigger Row(k)} :: 0 <= k < CELLS ==> InBounds(Row(k), Col(k)) && Index(Row(k), Col(k)) == k
  {
  }

  lemma IndexOf(i: int, j: int)
    requires InBounds(i, j)
    ensures 0 <= Index(i, j) < CELLS && Row(Index(i, j)) == i && Col(Index(i, j)) == j
  {
  }

  lemma SquareOf(k: int)
    requires 0 <= k < CELLS
    ensures InBounds(Row(k), Col(k)) && Index(Row(k), Col(k)) == k
  {
  }

  /** (i, j) is one of the eight squares around (r, c), or (r, c) itself. */
  predicate Near(i: int, j: int, r: int, c: int) { Abs(i - r) <= 1 && Abs(j - c) <= 1 }

  predicate Dims(b: array2<Cell>) { b.Length0 == SIZE && b.Length1 == SIZE }

  /** The squares holding a mine, by row-major index Index(r, c). */
  ghost function MineSet(b: array2<Cell>): set<int>
    requires Dims(b)
    reads b
  {
    set k | 0 <= k < CELLS && b[Row(k), Col(k)].mine
  }

  /** Neighbour k (0 .. 8, row-major over the 3 x 3 block, 4 being the square
      itself) of (r, c) holds a mine of `mines`. */
  function Contribution(mines: set<int>, r: int, c: int, k: int): nat
  {
    var dr := if k < 3 then -1 else if k < 6 then 0 else 1;
    var i, j := r + dr, c + k - 3 * dr - 4;
    if k == 4 || !InBounds(i, j) then 0 else if Index(i, j) in mines then 1 else 0
  }

  /** Mines among the first k squares of the 3 x 3 block around (r, c). */
  function AroundUpTo(mines: set<int>, r: int, c: int, k: nat): nat
    requires k <= 9
  {
    if k == 0 then 0 else AroundUpTo(mines, r, c, k - 1) + Contribution(mines, r, c, k - 1)
  }

  /** Mines among the in-bounds eight neighbours of (r, c). */
  function Around(mines: set<int>, r: int, c: int): nat
  {
    AroundUpTo(mines, r, c, 9)
  }

  lemma {:induction false} AroundUpToBound(mines: set<int>, r: int, c: int, k: nat)
    requires k <= 9
    ensures AroundUpTo(mines, r, c, k) <= (if k <= 4 then k else k - 1)
    ensures AroundUpTo(mines, r, c, k) == 0 ==>
              forall k' :: 0 <= k' < k ==> Contribution(mines, r, c, k') == 0
  {
    if k > 0 {
      AroundUpToBound(mines, r, c, k - 1);
    }
  }

  /** A count lies in 0 .. 8, and a count of 0 means no neighbour is a mine. */
  lemma AroundFacts(mines: set<int>, r: int, c: int)
    ensures Around(mines, r, c) <= 8
    ensures Around(mines, r, c) == 0 ==>
              forall i, j :: InBounds(i, j) && Near(i, j, r, c) && (i != r || j != c) ==> Index(i, j) !in mines
  {
    AroundUpToBound(mines, r, c, 9);
    if Around(mines, r, c) == 0 {
      forall i, j | InBounds(i, j) && Near(i, j, r, c) && (i != r || j != c)
        ensures Index(i, j) !in mines
      {
        var k := (i - r + 1) * 3 + (j - c + 1);
        assert Contribution(mines, r, c, k) == 0;
      }
    }
  }

  /** Every square that is not a mine carries the number of mines around it. */
  ghost predicate CountsRight(b: array2<Cell>)
    requires Dims(b)
    reads b
  {
    forall i, j :: InBounds(i, j) && !b[i, j].mine ==> b[i, j].count == Around(MineSet(b), i, j)
  }

  /** No mine stands next to a square counted 0: the fact the flood fill
      relies on. */
  ghost predicate ZeroSafe(b: array2<Cell>)
    requires Dims(b)
    reads b
  {
    forall i, j, i2, j2 ::
      (InBounds(i, j) && !b[i, j].mine && b[i, j].count == 0 &&
       InBounds(i2, j2) && Near(i2, j2, i, j) && (i2 != i || j2 != j)) ==> !b[i2, j2].mine
  }

  lemma CountsMakeZeroSafe(b: array2<Cell>)
    requires Dims(b) && CountsRight(b)
    ensures ZeroSafe(b)
    ensures forall i, j :: InBounds(i, j) && !b[i, j].mine ==> 0 <= b[i, j].count <= 8
  {
    forall i, j, i2, j2 | InBounds(i, j) && !b[i, j].mine && b[i, j].count == 0 &&
      InBounds(i2, j2) && Near(i2, j2, i, j) && (i2 != i || j2 != j)
      ensures !b[i2, j2].mine
    {
      AroundFacts(MineSet(b), i, j);
      assert Index(i2, j2) !in MineSet(b);
      assert Row(Index(i2, j2)) == i2 && Col(Index(i2, j2)) == j2;
    }
    forall i, j | InBounds(i, j) && !b[i, j].mine
      ensures 0 <= b[i, j].count <= 8
    {
      AroundFacts(MineSet(b), i, j);
    }
  }

  /** `createBoard`: fifteen mines on distinct squares, then each other
      square's neighbour count. */
  method CreateBoard() returns (b: array2<Cell>)
    ensures fresh(b) && Dims(b)
    ensures |MineSet(b)| == MINES
    ensures CountsRight(b) && ZeroSafe(b)
    ensures forall i, j :: InBounds(i, j) ==> !b[i, j].revealed
  {
    ghost var placed;
    b, placed := PlaceMines();
    var r := 0;
    while r < SIZE
      invariant 0 <= r <= SIZE
      invariant forall i, j :: InBounds(i, j) ==> b[i, j].mine == (Index(i, j) in placed) && !b[i, j].revealed
      invariant forall i, j :: InBounds(i, j) && (i >= r || b[i, j].mine) ==> b[i, j].count == 0
      invariant forall i, j :: InBounds(i, j) && i < r && !b[i, j].mine ==> b[i, j].count == Around(placed, i, j)
    {
      CountRow(b, r, placed);
      r := r + 1;
    }
    IndexFacts();
    assert MineSet(b) == placed;
    CountsMakeZeroSafe(b);
  }

  /** The mine loop of `createBoard`: while mines remain, a square without
      one receives a mine (the page's random draws that land on a mine
      change nothing, so each effective draw is a square without one).
      `placed` is the set of mined squares. */
  method PlaceMines() returns (b: array2<Cell>, ghost placed: set<int>)
    ensures fresh(b) && Dims(b)
    ensures |placed| == MINES && forall k :: k in placed ==> 0 <= k < CELLS
    ensures forall i, j :: InBounds(i, j) ==> b[i, j] == Cell(Index(i, j) in placed, false, 0)
  {
    IndexFacts();
    b := new Cell[SIZE, SIZE]((i, j) => Cell(false, false, 0));
    placed := {};
    var m := MINES;
    while m > 0
      invariant 0 <= m <= MINES && |placed| == MINES - m
      invariant forall k :: k in placed ==> 0 <= k < CELLS
      invariant forall i, j :: InBounds(i, j) ==> b[i, j] == Cell(Index(i, j) in placed, false, 0)
    {
      ghost var k := Plant(b, placed);
      placed := placed + {k};
      m := m - 1;
    }
  }

  /** One effective draw of the mine loop: a square without a mine
      receives one. */
  method Plant(b: array2<Cell>, ghost placed: set<int>) returns (ghost k: int)
    requires Dims(b) && |placed| < CELLS && forall k :: k in placed ==> 0 <= k < CELLS
    requires forall i, j :: InBounds(i, j) ==> b[i, j] == Cell(Index(i, j) in placed, false, 0)
    modifies b
    ensures 0 <= k < CELLS && k !in placed
    ensures forall i, j :: InBounds(i, j) ==> b[i, j] == Cell(Index(i, j) in placed + {k}, false, 0)
  {
    MissingIndex(placed, CELLS);
    ghost var free :| 0 <= free < CELLS && free !in placed;
    SquareOf(free);
    var x :| 0 <= x < CELLS && !b[Row(x), Col(x)].mine;
    SquareOf(x);
    var r, c := Row(x), Col(x);
    if !b[r, c].mine {
      b[r, c] := b[r, c].(mine := true);
    }
    k := x;
    forall i, j | InBounds(i, j)
      ensures b[i, j] == Cell(Index(i, j) in placed + {k}, false, 0)
    {
      IndexOf(i, j);
    }
  }

  /** The counting loop of `createBoard` over row r: each square without a
      mine receives its neighbour count. */
  method CountRow(b: array2<Cell>, r: int, ghost placed: set<int>)
    requires Dims(b) && 0 <= r < SIZE
    requires forall i, j :: InBounds(i, j) ==> b[i, j].mine == (Index(i, j) in placed)
    modifies b
    ensures forall i, j :: InBounds(i, j) ==>
              b[i, j].mine == old(b[i, j].mine) && b[i, j].revealed == old(b[i, j].revealed)
    ensures forall i, j :: InBounds(i, j) && (i != r || b[i, j].mine) ==> b[i, j].count == old(b[i, j].count)
    ensures forall j :: 0 <= j < SIZE && !b[r, j].mine ==> b[r, j].count == Around(placed, r, j)
  {
    var c := 0;
    while c < SIZE
      invariant 0 <= c <= SIZE
      invariant forall i, j :: InBounds(i, j) ==>
                  b[i, j].mine == old(b[i, j].mine) && b[i, j].revealed == old(b[i, j].revealed)
      invariant forall i, j :: InBounds(i, j) && (i != r || j >= c || b[i, j].mine) ==> b[i, j].count == old(b[i, j].count)
      invariant forall j :: 0 <= j < c && !b[r, j].mine ==> b[r, j].count == Around(placed, r, j)
    {
      if !b[r, c].mine {
        var count := CountAround(b, r, c, placed);
        b[r, c] := b[r, c].(count := count);
      }
      c := c + 1;
    }
  }

  /** One step of the neighbour scan: offset (dr, dc) is square k of the
      3 x 3 block. */
  lemma AroundStep(mines: set<int>, r: int, c: int, k: nat, dr: int, dc: int)
    requires -1 <= dr <= 1 && -1 <= dc <= 1 && k == (dr + 1) * 3 + dc + 1
    ensures AroundUpTo(mines, r, c, k + 1) ==
              AroundUpTo(mines, r, c, k) +
              (if (dr == 0 && dc == 0) || !InBounds(r + dr, c + dc) then 0
               else if Index(r + dr, c + dc) in mines then 1 else 0)
  {
  }

  /** The neighbour-count loops of `createBoard` for one square. */
  method CountAround(b: array2<Cell>, r: int, c: int, ghost placed: set<int>) returns (count: int)
    requires Dims(b) && InBounds(r, c)
    requires forall i, j :: InBounds(i, j) ==> b[i, j].mine == (Index(i, j) in placed)
    ensures count == Around(placed, r, c)
  {
    count := 0;
    ghost var k: nat := 0;
    var dr := -1;
    while dr <= 1
      invariant -1 <= dr <= 2 && k == (dr + 1) * 3
      invariant count == AroundUpTo(placed, r, c, k)
    {
      var dc := -1;
      while dc <= 1
        invariant -1 <= dc <= 2 && k == (dr + 1) * 3 + dc + 1
        invariant count == AroundUpTo(placed, r, c, k)
      {
        AroundStep(placed, r, c, k, dr, dc);
        if !(dr == 0 && dc == 0) {
          var nr, nc := r + dr, c + dc;
          if 0 <= nr < SIZE && 0 <= nc < SIZE && b[nr, nc].mine {
            count := count + 1;
          }
        }
        dc := dc + 1;
        k := k + 1;
      }
      dr := dr + 1;
    }
  }

  /** The squares not yet revealed: what every nested reveal shrinks. */
  ghost function Hidden(b: array2<Cell>): set<int>
    requires Dims(b)
    reads b
  {
    set k | 0 <= k < CELLS && !b[Row(k), Col(k)].revealed
  }

  /** The squares without a mine counted 0: those the flood fill opens
      onwards from. */
  ghost function Zeros(b: array2<Cell>): set<(int, int)>
    requires Dims(b)
    reads b
  {
    set i, j | 0 <= i < SIZE && 0 <= j < SIZE && !b[i, j].mine && b[i, j].count == 0 :: (i, j)
  }

  /** `zero` holds exactly the squares of b without a mine counted 0. */
  ghost predicate ZerosOf(b: array2<Cell>, zero: set<(int, int)>)
    requires Dims(b)
    reads b
  {
    forall p :: p in zero <==> InBounds(p.0, p.1) && !b[p.0, p.1].mine && b[p.0, p.1].count == 0
  }

  lemma ZerosMeans(b: array2<Cell>, zero: set<(int, int)>)
    requires Dims(b)
    ensures ZerosOf(b, Zeros(b))
    ensures ZerosOf(b, zero) ==> zero == Zeros(b)
  {
  }

  /** p is a zero square next to q, not q itself: the flood may open q
      from p. */
  predicate Link(zero: set<(int, int)>, q: (int, int), p: (int, int))
  {
    p in zero && Near(q.0, q.1, p.0, p.1) && p != q
  }

  /** The squares of `order`, in the order the flood opened them, each lie
      on the board next to `root` or to an earlier square of `order`, that
      neighbour being a zero square: every one is reached from `root` along
      a chain of zero squares. */
  ghost predicate Flood(zero: set<(int, int)>, root: (int, int), order: seq<(int, int)>)
  {
    forall k :: 0 <= k < |order| ==>
      InBounds(order[k].0, order[k].1) &&
      (Link(zero, order[k], root) || exists m :: 0 <= m < k && Link(zero, order[k], order[m]))
  }

  /** Two floods from the same root, one after the other, form one. */
  lemma FloodAppend(zero: set<(int, int)>, root: (int, int), a: seq<(int, int)>, b: seq<(int, int)>)
    requires Flood(zero, root, a) && Flood(zero, root, b)
    ensures Flood(zero, root, a + b)
  {
    var s := a + b;
    forall k | 0 <= k < |s|
      ensures InBounds(s[k].0, s[k].1) &&
              (Link(zero, s[k], root) || exists m :: 0 <= m < k && Link(zero, s[k], s[m]))
    {
      if k < |a| {
        assert s[k] == a[k];
        if !Link(zero, a[k], root) {
          var m :| 0 <= m < k && Link(zero, a[k], a[m]);
          assert s[m] == a[m];
        }
      } else {
        assert s[k] == b[k - |a|];
        if !Link(zero, b[k - |a|], root) {
          var m :| 0 <= m < k - |a| && Link(zero, b[k - |a|], b[m]);
          assert s[|a| + m] == b[m];
        }
      }
    }
  }

  /** A square q opened from root, followed by the flood from q, is a flood
      from root. */
  lemma FloodHead(zero: set<(int, int)>, root: (int, int), q: (int, int), sub: seq<(int, int)>)
    requires InBounds(q.0, q.1) && Link(zero, q, root) && Flood(zero, q, sub)
    ensures Flood(zero, root, [q] + sub)
  {
    var s := [q] + sub;
    forall k | 1 <= k < |s| && !Link(zero, s[k], root)
      ensures exists m :: 0 <= m < k && Link(zero, s[k], s[m])
    {
      assert s[k] == sub[k - 1];
      if Link(zero, sub[k - 1], q) {
        assert s[0] == q;
      } else {
        var m :| 0 <= m < k - 1 && Link(zero, sub[k - 1], sub[m]);
        assert s[m + 1] == sub[m];
      }
    }
  }

  /** ... and so it extends a flood from root. */
  lemma FloodNest(zero: set<(int, int)>, root: (int, int), a: seq<(int, int)>, q: (int, int), sub: seq<(int, int)>)
    requires Flood(zero, root, a) && InBounds(q.0, q.1) && Link(zero, q, root) && Flood(zero, q, sub)
    ensures Flood(zero, root, a + [q] + sub)
  {
    FloodHead(zero, root, q, sub);
    FloodAppend(zero, root, a, [q] + sub);
    assert a + [q] + sub == a + ([q] + sub);
  }

  /** In a flood from a zero square no square is a mine: each lies next to a
      zero square. */
  lemma FloodSafe(b: array2<Cell>, zero: set<(int, int)>, root: (int, int), order: seq<(int, int)>)
    requires Dims(b) && ZeroSafe(b) && ZerosOf(b, zero) && Flood(zero, root, order)
    ensures forall k :: 0 <= k < |order| ==> !b[order[k].0, order[k].1].mine
  {
    forall k | 0 <= k < |order|
      ensures !b[order[k].0, order[k].1].mine
    {
      var q := order[k];
      if Link(zero, q, root) {
        ZeroNeighbour(b, root.0, root.1, q.0, q.1);
      } else {
        var m :| 0 <= m < k && Link(zero, q, order[m]);
        ZeroNeighbour(b, order[m].0, order[m].1, q.0, q.1);
      }
    }
  }

  /** `reveal(r, c, b)` on the copied grid b. A revealed square is left
      alone; otherwise it is revealed, a mine is reported (`boom`, upon which
      the page starts a new board), and a square counted 0 reveals each
      unrevealed neighbour in turn. Only `revealed` flags change, none is
      cleared, and the only mine revealed is the clicked one. The other
      squares it reveals are exactly those of `order`, the order in which
      the recursion opened them: each reached from (r, c) along a chain of
      zero squares it revealed, and every zero square it revealed ends with
      all its neighbours revealed. */
  method Reveal(b: array2<Cell>, r: int, c: int, ghost zero: set<(int, int)>) returns (boom: bool, ghost order: seq<(int, int)>)
    requires Dims(b) && InBounds(r, c) && ZeroSafe(b) && ZerosOf(b, zero)
    modifies b
    ensures ZeroSafe(b) && ZerosOf(b, zero) && Hidden(b) <= old(Hidden(b))
    ensures forall i, j :: InBounds(i, j) ==>
              b[i, j].mine == old(b[i, j].mine) && b[i, j].count == old(b[i, j].count)
    ensures forall i, j :: InBounds(i, j) && old(b[i, j].revealed) ==> b[i, j].revealed
    ensures b[r, c].revealed
    ensures old(b[r, c].revealed) ==> order == [] && forall i, j :: InBounds(i, j) ==> b[i, j] == old(b[i, j])
    ensures boom <==> !old(b[r, c].revealed) && b[r, c].mine
    ensures boom ==> order == [] && forall i, j :: InBounds(i, j) && (i != r || j != c) ==> b[i, j] == old(b[i, j])
    ensures forall i, j :: InBounds(i, j) && (i != r || j != c) ==>
              (!old(b[i, j].revealed) && b[i, j].revealed <==> (i, j) in order)
    ensures Flood(zero, (r, c), order)
    ensures forall k :: 0 <= k < |order| ==> !b[order[k].0, order[k].1].mine
    ensures forall i, j, i2, j2 ::
              (InBounds(i, j) && !old(b[i, j].revealed) && b[i, j].revealed &&
               !b[i, j].mine && b[i, j].count == 0 && InBounds(i2, j2) && Near(i2, j2, i, j)) ==> b[i2, j2].revealed
    decreases Hidden(b), 1
  {
    order := [];
    if b[r, c].revealed {
      return false, order;
    }
    b[r, c] := b[r, c].(revealed := true);
    if b[r, c].mine {
      return true, order;
    }
    boom := false;
    if b[r, c].count == 0 {
      var dr := -1;
      while dr <= 1
        invariant -1 <= dr <= 2
        invariant ZeroSafe(b) && ZerosOf(b, zero) && b[r, c].revealed && !b[r, c].mine && b[r, c].count == 0
        invariant Hidden(b) <= old(Hidden(b))
        invariant forall i, j :: InBounds(i, j) ==>
                    b[i, j].mine == old(b[i, j].mine) && b[i, j].count == old(b[i, j].count)
        invariant forall i, j :: InBounds(i, j) && old(b[i, j].revealed) ==> b[i, j].revealed
        invariant forall i, j, i2, j2 ::
                    (InBounds(i, j) && !old(b[i, j].revealed) && b[i, j].revealed &&
                     !b[i, j].mine && b[i, j].count == 0 && (i != r || j != c) &&
                     InBounds(i2, j2) && Near(i2, j2, i, j)) ==> b[i2, j2].revealed
        invariant forall i, j :: InBounds(i, j) && Near(i, j, r, c) && i < r + dr ==> b[i, j].revealed
        invariant forall i, j :: InBounds(i, j) && (i != r || j != c) ==>
                    (!old(b[i, j].revealed) && b[i, j].revealed <==> (i, j) in order)
        invariant Flood(zero, (r, c), order)
      {
        HiddenShrinks(b, old(Hidden(b)), r, c);
        var row := RevealRow(b, r, c, dr, Hidden(b), zero);
        FloodAppend(zero, (r, c), order, row);
        order := order + row;
        dr := dr + 1;
      }
    }
    FloodSafe(b, zero, (r, c), order);
  }

  /** The inner loop of the flood fill: the neighbours of the zero square
      (r, c) in row r + dr, each unrevealed one revealed in turn. The squares
      it reveals are exactly those of `order`, each reached from (r, c)
      along a chain of zero squares it revealed. */
  method RevealRow(b: array2<Cell>, r: int, c: int, dr: int, ghost bound: set<int>, ghost zero: set<(int, int)>)
    returns (ghost order: seq<(int, int)>)
    requires Dims(b) && InBounds(r, c) && ZeroSafe(b) && ZerosOf(b, zero) && -1 <= dr <= 1
    requires b[r, c].revealed && !b[r, c].mine && b[r, c].count == 0
    requires Hidden(b) <= bound
    modifies b
    ensures ZeroSafe(b) && ZerosOf(b, zero) && Hidden(b) <= old(Hidden(b))
    ensures forall i, j :: InBounds(i, j) ==>
              b[i, j].mine == old(b[i, j].mine) && b[i, j].count == old(b[i, j].count)
    ensures forall i, j :: InBounds(i, j) && old(b[i, j].revealed) ==> b[i, j].revealed
    ensures forall i, j, i2, j2 ::
              (InBounds(i, j) && !old(b[i, j].revealed) && b[i, j].revealed &&
               !b[i, j].mine && b[i, j].count == 0 && InBounds(i2, j2) && Near(i2, j2, i, j)) ==> b[i2, j2].revealed
    ensures forall i, j :: InBounds(i, j) && i == r + dr && Abs(j - c) <= 1 ==> b[i, j].revealed
    ensures forall i, j :: InBounds(i, j) ==> (!old(b[i, j].revealed) && b[i, j].revealed <==> (i, j) in order)
    ensures Flood(zero, (r, c), order)
    decreases bound, 2
  {
    order := [];
    var dc := -1;
    while dc <= 1
      invariant -1 <= dc <= 2
      invariant ZeroSafe(b) && ZerosOf(b, zero) && b[r, c].revealed && !b[r, c].mine && b[r, c].count == 0
      invariant Hidden(b) <= old(Hidden(b))
      invariant forall i, j :: InBounds(i, j) ==>
                  b[i, j].mine == old(b[i, j].mine) && b[i, j].count == old(b[i, j].count)
      invariant forall i, j :: InBounds(i, j) && old(b[i, j].revealed) ==> b[i, j].revealed
      invariant forall i, j, i2, j2 ::
                  (InBounds(i, j) && !old(b[i, j].revealed) && b[i, j].revealed &&
                   !b[i, j].mine && b[i, j].count == 0 && InBounds(i2, j2) && Near(i2, j2, i, j)) ==> b[i2, j2].revealed
      invariant forall i, j :: InBounds(i, j) && i == r + dr && Abs(j - c) <= 1 && j < c + dc ==> b[i, j].revealed
      invariant forall i, j :: InBounds(i, j) ==> (!old(b[i, j].revealed) && b[i, j].revealed <==> (i, j) in order)
      invariant Flood(zero, (r, c), order)
    {
      if !(dr == 0 && dc == 0) {
        var nr, nc := r + dr, c + dc;
        if 0 <= nr < SIZE && 0 <= nc < SIZE && !b[nr, nc].revealed {
          ZeroNeighbour(b, r, c, nr, nc);
          assert Link(zero, (nr, nc), (r, c));
          var _, sub := Reveal(b, nr, nc, zero);
          FloodNest(zero, (r, c), order, (nr, nc), sub);
          order := order + [(nr, nc)] + sub;
        }
      }
      dc := dc + 1;
    }
  }

  lemma ZeroNeighbour(b: array2<Cell>, r: int, c: int, nr: int, nc: int)
    requires Dims(b) && ZeroSafe(b) && InBounds(r, c) && InBounds(nr, nc)
    requires !b[r, c].mine && b[r, c].count == 0 && Near(nr, nc, r, c) && (nr != r || nc != c)
    ensures !b[nr, nc].mine
  {
  }

  /** Inside a reveal of (r, c): the hidden squares now are a proper subset of
      those at the start, since (r, c) has been revealed. */
  lemma HiddenShrinks(b: array2<Cell>, before: set<int>, r: int, c: int)
    requires Dims(b) && InBounds(r, c)
    requires b[r, c].revealed && Index(r, c) in before && Hidden(b) <= before
    ensures Hidden(b) < before
  {
    IndexFacts();
  }

  class Game {
    var board: array2<Cell>

    ghost predicate Valid()
      reads this, board
    {
      Dims(board) && |MineSet(board)| == MINES && CountsRight(board) && ZeroSafe(board)
    }

    constructor ()
      ensures Valid()
      ensures forall i, j :: InBounds(i, j) ==> !board[i, j].revealed
    {
      var b := CreateBoard();
      board := b;
    }

    /** A click on (r, c): `reveal` on a copy of the grid. A revealed square
        changes nothing; a mine brings a new board; otherwise the copy, with
        the flood fill done, becomes the grid. The squares newly revealed
        besides (r, c) are exactly those of `order`, each reached from (r, c)
        along a chain of newly revealed squares counted 0, none of them a
        mine, and every newly revealed square counted 0 has all its
        neighbours revealed. */
    method Click(r: int, c: int) returns (ghost order: seq<(int, int)>)
      requires Valid() && InBounds(r, c)
      modifies this
      ensures Valid()
      ensures old(board[r, c].revealed) ==> board == old(board)
      ensures !old(board[r, c].revealed) && old(board[r, c].mine) ==>
                fresh(board) && forall i, j :: InBounds(i, j) ==> !board[i, j].revealed
      ensures !old(board[r, c].revealed) && !old(board[r, c].mine) ==>
                fresh(board) && board[r, c].revealed &&
                (forall i, j :: InBounds(i, j) ==>
                   board[i, j].mine == old(board[i, j].mine) && board[i, j].count == old(board[i, j].count) &&
                   (old(board[i, j].revealed) ==> board[i, j].revealed)) &&
                (forall i, j :: InBounds(i, j) && (i != r || j != c) ==>
                   (!old(board[i, j].revealed) && board[i, j].revealed <==> (i, j) in order)) &&
                Flood(Zeros(board), (r, c), order) &&
                (forall k :: 0 <= k < |order| ==> !board[order[k].0, order[k].1].mine) &&
                (forall i, j, i2, j2 ::
                   (InBounds(i, j) && !old(board[i, j].revealed) && board[i, j].revealed &&
                    board[i, j].count == 0 && InBounds(i2, j2) && Near(i2, j2, i, j)) ==> board[i2, j2].revealed)
    {
      order := [];
      if board[r, c].revealed {
        return;
      }
      var old_board := board;
      var copy := new Cell[SIZE, SIZE]((i, j) reads old_board requires InBounds(i, j) => old_board[i, j]);
      assert MineSet(copy) == MineSet(old_board);
      ghost var zero := Zeros(copy);
      ZerosMeans(copy, zero);
      var boom;
      boom, order := Reveal(copy, r, c, zero);
      if boom {
        board := CreateBoard();
      } else {
        assert MineSet(copy) == MineSet(old_board);
        ZerosMeans(copy, zero);
        board := copy;
      }
    }
  }
}

=== FILE: mole.dfy ===
/** Whack-a-mole: nine holes, a 30-second round, moles popping up in
    rounds of three to five distinct holes. */
module Mole {
  import opened Common

  const HOLES: nat := 9
  const ROUND_SECONDS: int := 30

  /** How many moles a round shows: `floor(3 + roll * 3)` for a roll in
      [0, 1). */
  function MoleCount(roll: real): (n: nat)
    requires 0.0 <= roll < 1.0
    ensures 3 <= n <= 5
  {
    (3.0 + roll * 3.0).Floor
  }

  predicate Distinct(s: seq<nat>)
  {
    forall a, b :: 0 <= a < b < |s| ==> s[a] != s[b]
  }

  /** A round of holes: draws are repeated until `MoleCount(roll)`
      distinct holes are chosen; a draw of a hole already chosen changes
      nothing, so the loop picks an unchosen hole. */
  method PopUp(roll: real) returns (holes: seq<nat>)
    requires 0.0 <= roll < 1.0
    ensures |holes| == MoleCount(roll) && 3 <= |holes| <= 5
    ensures Distinct(holes) && forall x :: x in holes ==> x < HOLES
  {
    var count := MoleCount(roll);
    holes := [];
    ghost var chosen: set<int> := {};
    while |holes| < count
      invariant |holes| <= count && Distinct(holes) && (forall x :: x in holes ==> x < HOLES)
      invariant (forall x :: x in chosen <==> x >= 0 && x as nat in holes) && |chosen| == |holes|
      decreases count - |holes|
    {
      MissingIndex(chosen, HOLES);
      ghost var free :| 0 <= free < HOLES && free !in chosen;
      assert free as nat !in holes;
      var id: nat :| id < HOLES && id !in holes;
      holes := holes + [id];
      chosen := chosen + {id};
    }
  }

  /** `filter(x => x !== i)`. */
  function Remove(s: seq<nat>, i: nat): (r: seq<nat>)
    ensures forall x :: x in r <==> x in s && x != i
    ensures |r| <= |s| && (i !in s ==> r == s)
  {
    if s == [] then []
    else if s[0] == i then Remove(s[1..], i)
    else [s[0]] + Remove(s[1..], i)
  }

  /** On distinct holes, removing one present hole shortens the list by
      exactly one and keeps it distinct. */
  lemma {:induction false} RemoveDistinct(s: seq<nat>, i: nat)
    requires Distinct(s)
    ensures Distinct(Remove(s, i)) && (i in s ==> |Remove(s, i)| == |s| - 1)
  {
    if s != [] {
      assert Distinct(s[1..]) by {
        forall a, b | 0 <= a < b < |s[1..]| ensures s[1..][a] != s[1..][b] {
          assert s[1..][a] == s[a + 1] && s[1..][b] == s[b + 1];
        }
      }
      RemoveDistinct(s[1..], i);
      if s[0] != i {
        assert s[0] !in s[1..];
        var r := Remove(s, i);
        forall a, b | 0 <= a < b < |r| ensures r[a] != r[b] {
          if a == 0 {
            assert r[b] == Remove(s[1..], i)[b - 1];
          }
        }
      } else {
        assert i !in s[1..];
      }
    }
  }

  /** The timer's tick: down by one, never below zero. */
  function Countdown(t: int): (t': int)
    ensures t' == if t > 0 then t - 1 else 0
  {
    Max(0, t - 1)
  }

  function Ticks(t: int, n: nat): int
  {
    if n == 0 then t else Countdown(Ticks(t, n - 1))
  }

  /** n ticks take the timer to `max(0, t - n)`: a round ends after 30. */
  lemma {:induction false} TicksFacts(t: int, n: nat)
    requires t >= 0
    ensures Ticks(t, n) == Max(0, t - n)
  {
    if n > 0 {
      TicksFacts(t, n - 1);
    }
  }

  class Game {
    var score: nat
    var time: int
    var holes: seq<nat>

    ghost predicate Valid()
      reads this
    {
      0 <= time <= ROUND_SECONDS && Distinct(holes) && forall x :: x in holes ==> x < HOLES
    }

    constructor ()
      ensures Valid() && score == 0 && time == ROUND_SECONDS && holes == []
    {
      score, time, holes := 0, ROUND_SECONDS, [];
    }

    /** Every 800 ms a new round of moles replaces the old. */
    method Spawn(roll: real)
      requires Valid() && 0.0 <= roll < 1.0
      modifies this
      ensures Valid() && |holes| == MoleCount(roll) && 3 <= |holes| <= 5 && score == old(score) && time == old(time)
    {
      holes := PopUp(roll);
    }

    /** Every second the clock runs down, stopping at zero. */
    method Tick()
      requires Valid()
      modifies this
      ensures Valid() && time == Countdown(old(time)) && score == old(score) && holes == old(holes)
    {
      time := Max(0, time - 1);
    }

    /** A click on hole i scores only when a mole is there and time is
        left; the mole then goes down. */
    method Hit(i: nat)
      requires Valid()
      modifies this
      ensures Valid() && time == old(time)
      ensures i !in old(holes) || old(time) <= 0 ==> score == old(score) && holes == old(holes)
      ensures i in old(holes) && old(time) > 0 ==>
        score == old(score) + 1 && holes == Remove(old(holes), i) && |holes| == |old(holes)| - 1
    {
      if i !in holes || time <= 0 {
        return;
      }
      score := score + 1;
      RemoveDistinct(holes, i);
      holes := Remove(holes, i);
    }

    /** Restart: score and clock only; the moles on show stay. */
    method Reset()
      requires Valid()
      modifies this
      ensures Valid() && score == 0 && time == ROUND_SECONDS && holes == old(holes)
    {
      score, time := 0, ROUND_SECONDS;
    }
  }
}

=== FILE: pacman.dfy ===
/** Pac-Man on a 17 x 9 maze: walking, pellet bookkeeping, meeting ghosts,
    the ghost step and the level-derived settings. */
module Pacman {
  import opened Common

  const ROWS: int := 9
  const COLS: int := 17
  /** Ghost steps a power pellet lasts. */
  const FRIGHT_STEPS: int := 40

  datatype Vec = Vec(x: int, y: int)
  datatype Pac = Pac(x: int, y: int, dir: Vec)
  datatype Ghost = Ghost(x: int, y: int, dir: Vec, fright: int)
  datatype Mode = Classic | Timed | Challenge

  /** Rows of characters: '#' wall, '.' dot, 'o' power pellet, ' ' empty. */
  type Grid = seq<string>

  const START: Pac := Pac(1, 1, Vec(0, 0))
  /** Where ghosts appear and where an eaten ghost goes back to. */
  const HOME: Ghost := Ghost(COLS - 2, ROWS - 2, Vec(0, 0), 0)
  const GHOST_DIRS: seq<Vec> := [Vec(1, 0), Vec(-1, 0), Vec(0, 1), Vec(0, -1)]

  const MAPS: seq<Grid> := [
    [ "#################",
      "#........#......#",
      "#.###.##.#.##.###",
      "#o....#.....#...#",
      "###.#.###.###.#.#",
      "#...#.....o..#..#",
      "#.#####.#.#####.#",
      "#.......#.......#",
      "#################" ],
    [ "#################",
      "#..#....#...o...#",
      "#.##.#.##.#.##.##",
      "#.....#....#....#",
      "###.#.####.#.####",
      "#o..#...........#",
      "##.####.#.####.##",
      "#.......#.......#",
      "#################" ],
    [ "#################",
      "#....o..#.......#",
      "#.###.###..##.#.#",
      "#..#.....#...#..#",
      "##.#.###.###.#.##",
      "#..#...#.....#..#",
      "#.#.##.#..####.##",
      "#.......#..o....#",
      "#################" ],
    [ "#################",
      "#..#..o.#.......#",
      "#.##.#.##.###.###",
      "#....#.....#....#",
      "###.#.###.#.###.#",
      "#....#..o..#....#",
      "###.###.#.##.####",
      "#.......#.......#",
      "#################" ],
    [ "#################",
      "#o......#.......#",
      "##.###.#.#.###.##",
      "#.....#...#.....#",
      "###.#.#####.#.###",
      "#...#...o...#...#",
      "##.###.#.#.###.##",
      "#.......#.......#",
      "#################" ],
    [ "#################",
      "#.......#..o....#",
      "#.#####.#.###.###",
      "#...#...#...#...#",
      "###.#.###.###.#.#",
      "#...#.....o..#..#",
      "###.###.#.###.###",
      "#.......#.......#",
      "#################" ]
  ]

  predicate Shaped(g: Grid)
  {
    |g| == ROWS && forall r :: 0 <= r < |g| ==> |g[r]| == COLS
  }

  /** `idxOk`. */
  predicate InBounds(x: int, y: int) { 0 <= x < COLS && 0 <= y < ROWS }

  /** `canWalk`: on the maze and not a wall. */
  predicate CanWalk(g: Grid, x: int, y: int)
    requires Shaped(g)
  {
    InBounds(x, y) && g[y][x] != '#'
  }

  /** Every maze is 17 x 9 and open at Pac-Man's start and at the ghosts'
      home. */
  lemma MapsFacts(m: int)
    requires 0 <= m < |MAPS|
    ensures Shaped(MAPS[m]) && CanWalk(MAPS[m], START.x, START.y) && CanWalk(MAPS[m], HOME.x, HOME.y)
  {
  }

  // ------------------------------------------------------------ pellets

  function RowPellets(row: string): nat
  {
    Count(row, '.') + Count(row, 'o')
  }

  /** Dots and power pellets in the first n rows. */
  function PelletsUpTo(g: Grid, n: nat): nat
    requires n <= |g|
  {
    if n == 0 then 0 else PelletsUpTo(g, n - 1) + RowPellets(g[n - 1])
  }

  /** `grid.flat().filter(c => c === '.' || c === 'o').length`. */
  function Pellets(g: Grid): nat
  {
    PelletsUpTo(g, |g|)
  }

  lemma {:induction false} CountUpdateOther<T>(s: seq<T>, i: nat, x: T, v: T)
    requires i < |s| && s[i] != x && v != x
    ensures Count(s[i := v], x) == Count(s, x)
  {
    if i == 0 {
      assert s[i := v][1..] == s[1..];
    } else {
      assert s[i := v][1..] == s[1..][i - 1 := v];
      CountUpdateOther(s[1..], i - 1, x, v);
    }
  }

  /** Blanking a dot or a power pellet removes exactly one pellet from its row. */
  lemma RowEat(row: string, x: nat)
    requires x < |row| && (row[x] == '.' || row[x] == 'o')
    ensures RowPellets(row[x := ' ']) == RowPellets(row) - 1
  {
    if row[x] == '.' {
      CountUpdate(row, x, '.', ' ');
      CountUpdateOther(row, x, 'o', ' ');
    } else {
      CountUpdate(row, x, 'o', ' ');
      CountUpdateOther(row, x, '.', ' ');
    }
  }

  lemma {:induction false} PelletsRow(g: Grid, y: nat, r: string, n: nat)
    requires y < |g| && n <= |g|
    ensures PelletsUpTo(g[y := r], n) + (if y < n then RowPellets(g[y]) else 0)
         == PelletsUpTo(g, n) + (if y < n then RowPellets(r) else 0)
  {
    if n > 0 {
      PelletsRow(g, y, r, n - 1);
    }
  }

  /** Eating a dot or a power pellet removes exactly one pellet from the
      maze, so the `remaining` counter keeps matching it. */
  lemma Eat(g: Grid, x: int, y: int)
    requires Shaped(g) && InBounds(x, y) && (g[y][x] == '.' || g[y][x] == 'o')
    ensures Pellets(g[y := g[y][x := ' ']]) == Pellets(g) - 1
  {
    RowEat(g[y], x);
    PelletsRow(g, y, g[y][x := ' '], |g|);
  }

  /** Same walls in the same places. */
  ghost predicate SameWalls(g: Grid, g': Grid)
    requires Shaped(g) && Shaped(g')
  {
    forall r, c :: InBounds(c, r) ==> (g[r][c] == '#' <==> g'[r][c] == '#')
  }

  // ------------------------------------------------------------ meeting ghosts

  /** A ghost meeting Pac-Man on p: a frightened one is eaten and goes home. */
  function AfterMeet(g: Ghost, p: Vec): Ghost
  {
    if g.x == p.x && g.y == p.y && g.fright > 0 then HOME else g
  }

  function ResolvedGhosts(gs: seq<Ghost>, p: Vec): (gs': seq<Ghost>)
    ensures |gs'| == |gs| && forall k :: 0 <= k < |gs| ==> gs'[k] == AfterMeet(gs[k], p)
  {
    seq(|gs|, k requires 0 <= k < |gs| => AfterMeet(gs[k], p))
  }

  /** Frightened ghosts on p among the first n. */
  function Eaten(gs: seq<Ghost>, p: Vec, n: nat): nat
    requires n <= |gs|
  {
    if n == 0 then 0
    else Eaten(gs, p, n - 1) + (if gs[n - 1].x == p.x && gs[n - 1].y == p.y && gs[n - 1].fright > 0 then 1 else 0)
  }

  /** Normal ghosts on p among the first n. */
  function Caught(gs: seq<Ghost>, p: Vec, n: nat): nat
    requires n <= |gs|
  {
    if n == 0 then 0
    else Caught(gs, p, n - 1) + (if gs[n - 1].x == p.x && gs[n - 1].y == p.y && gs[n - 1].fright <= 0 then 1 else 0)
  }

  /** After the meeting no frightened ghost is left on p, ghosts elsewhere
      are untouched, and the eaten and the catching ghosts are exactly the
      ghosts that stood on p. */
  lemma {:induction false} MeetFacts(gs: seq<Ghost>, p: Vec, n: nat)
    requires n <= |gs|
    ensures forall k :: 0 <= k < |gs| ==>
      var g' := ResolvedGhosts(gs, p)[k];
      !(g'.x == p.x && g'.y == p.y && g'.fright > 0) &&
      ((gs[k].x != p.x || gs[k].y != p.y) ==> g' == gs[k])
    ensures Eaten(gs, p, n) + Caught(gs, p, n) == |set k | 0 <= k < n && gs[k].x == p.x && gs[k].y == p.y|
  {
    if n > 0 {
      MeetFacts(gs, p, n - 1);
      var before := set k | 0 <= k < n - 1 && gs[k].x == p.x && gs[k].y == p.y;
      var after := set k | 0 <= k < n && gs[k].x == p.x && gs[k].y == p.y;
      if gs[n - 1].x == p.x && gs[n - 1].y == p.y {
        assert after == before + {n - 1};
      } else {
        assert after == before;
      }
    }
  }

  /** The meeting loop: each ghost on p in turn is eaten (200 points, back
      home) when frightened, and otherwise costs a life and sends Pac-Man
      back to the start; the game is over once lives run out. */
  method MeetGhosts(gs: seq<Ghost>, p: Vec, score: int, lives: int, pac: Pac, over: bool)
    returns (gs': seq<Ghost>, sc: int, lv: int, pc: Pac, ov: bool)
    ensures var caught := Caught(gs, p, |gs|);
      gs' == ResolvedGhosts(gs, p) && sc == score + 200 * Eaten(gs, p, |gs|) &&
      lv == lives - caught && pc == (if caught > 0 then START else pac) &&
      ov == (over || (caught > 0 && lv <= 0))
  {
    gs', sc, lv, pc, ov := gs, score, lives, pac, over;
    var i := 0;
    while i < |gs|
      invariant 0 <= i <= |gs| == |gs'|
      invariant forall k :: 0 <= k < |gs| ==> gs'[k] == if k < i then AfterMeet(gs[k], p) else gs[k]
      invariant sc == score + 200 * Eaten(gs, p, i) && lv == lives - Caught(gs, p, i)
      invariant pc == if Caught(gs, p, i) > 0 then START else pac
      invariant ov == (over || (Caught(gs, p, i) > 0 && lv <= 0))
    {
      var g := gs'[i];
      if g.x == p.x && g.y == p.y {
        if g.fright > 0 {
          sc := sc + 200;
          gs' := gs'[i := HOME];
        } else {
          lv := lv - 1;
          if lv <= 0 {
            ov := true;
          }
          pc := START;
        }
      }
      i := i + 1;
    }
  }

  // ------------------------------------------------------------ the ghost step

  /** The ghost's current reversal. */
  function Reverse(g: Ghost): Vec { Vec(-g.dir.x, -g.dir.y) }

  function Dist(g: Ghost, d: Vec, p: Vec): nat
  {
    Abs(g.x + d.x - p.x) + Abs(g.y + d.y - p.y)
  }

  /** A candidate's score in tenths: the distance to Pac-Man after the move
      (negated when the ghost runs away), a tenth off for keeping the
      direction, two tenths on for reversing. */
  function Score(g: Ghost, d: Vec, p: Vec, flee: bool): int
  {
    (if flee then -10 * Dist(g, d, p) else 10 * Dist(g, d, p))
    + (if d == g.dir then -1 else 0) + (if d == Reverse(g) then 2 else 0)
  }

  /** The first lowest-scoring option: a stable ascending sort, then the head. */
  function Best(opts: seq<Vec>, g: Ghost, p: Vec, flee: bool): (d: Vec)
    requires |opts| > 0
    ensures d in opts
    ensures forall k :: 0 <= k < |opts| ==> Score(g, d, p, flee) <= Score(g, opts[k], p, flee)
  {
    if |opts| == 1 then opts[0]
    else
      var b := Best(opts[1..], g, p, flee);
      if Score(g, opts[0], p, flee) <= Score(g, b, p, flee) then opts[0] else b
  }

  /** The best option by score is also best by distance: nearest when
      chasing, farthest when fleeing (the tie-breaks are worth less than a
      step). */
  lemma BestByDistance(opts: seq<Vec>, g: Ghost, p: Vec, flee: bool)
    requires |opts| > 0
    ensures var d := Best(opts, g, p, flee);
      forall k :: 0 <= k < |opts| ==>
        if flee then Dist(g, d, p) >= Dist(g, opts[k], p) else Dist(g, d, p) <= Dist(g, opts[k], p)
  {
    var d := Best(opts, g, p, flee);
    forall k | 0 <= k < |opts|
      ensures if flee then Dist(g, d, p) >= Dist(g, opts[k], p) else Dist(g, d, p) <= Dist(g, opts[k], p)
    {
      assert Score(g, d, p, flee) <= Score(g, opts[k], p, flee);
    }
  }

  /** The directions that lead from (x, y) onto a walkable cell, in order.
      (The grid is named in the decreases clause only so that the call on
      the literal GHOST_DIRS is not unfolded all the way down wherever it
      appears.) */
  function WalkableDirs(x: int, y: int, grid: Grid, ds: seq<Vec>): seq<Vec>
    requires Shaped(grid)
    decreases ds, grid
  {
    if ds == [] then []
    else (if CanWalk(grid, x + ds[0].x, y + ds[0].y) then [ds[0]] else []) + WalkableDirs(x, y, grid, ds[1..])
  }

  /** The filter keeps exactly the walkable candidates. */
  lemma {:induction false} WalkableDirsFacts(x: int, y: int, grid: Grid, ds: seq<Vec>)
    requires Shaped(grid)
    ensures forall d :: d in WalkableDirs(x, y, grid, ds) <==> d in ds && CanWalk(grid, x + d.x, y + d.y)
    decreases ds
  {
    if ds != [] {
      WalkableDirsFacts(x, y, grid, ds[1..]);
      assert ds == [ds[0]] + ds[1..];
    }
  }

  predicate Distinct(ds: seq<Vec>)
  {
    forall i, j :: 0 <= i < j < |ds| ==> ds[i] != ds[j]
  }

  /** A list of candidates without repeats gives walkable directions without
      repeats. */
  lemma {:induction false} WalkableDirsDistinct(x: int, y: int, grid: Grid, ds: seq<Vec>)
    requires Shaped(grid)
    requires Distinct(ds)
    ensures Distinct(WalkableDirs(x, y, grid, ds))
    decreases ds
  {
    if ds != [] {
      assert Distinct(ds[1..]) by {
        forall i, j | 0 <= i < j < |ds[1..]|
          ensures ds[1..][i] != ds[1..][j]
        {
          assert ds[1..][i] == ds[i + 1] && ds[1..][j] == ds[j + 1];
        }
      }
      WalkableDirsDistinct(x, y, grid, ds[1..]);
      WalkableDirsFacts(x, y, grid, ds[1..]);
      var rest := WalkableDirs(x, y, grid, ds[1..]);
      var head: seq<Vec> := if CanWalk(grid, x + ds[0].x, y + ds[0].y) then [ds[0]] else [];
      var r := WalkableDirs(x, y, grid, ds);
      assert r == head + rest;
      assert ds[0] !in ds[1..];
      assert ds[0] !in rest;
      forall i, j | 0 <= i < j < |r|
        ensures r[i] != r[j]
      {
        if i < |head| {
          assert r[i] == ds[0];
          assert r[j] == rest[j - |head|];
          assert r[j] in rest;
        } else {
          assert r[i] == rest[i - |head|] && r[j] == rest[j - |head|];
          assert 0 <= i - |head| < j - |head| < |rest|;
        }
      }
    }
  }

  function Without(ds: seq<Vec>, v: Vec): seq<Vec>
  {
    if ds == [] then [] else (if ds[0] == v then [] else [ds[0]]) + Without(ds[1..], v)
  }

  /** Dropping v keeps every other element and only those. */
  lemma {:induction false} WithoutFacts(ds: seq<Vec>, v: Vec)
    ensures forall d :: d in Without(ds, v) <==> d in ds && d != v
  {
    if ds != [] {
      WithoutFacts(ds[1..], v);
      assert ds == [ds[0]] + ds[1..];
    }
  }

  /** Walkable directions, without the reversal when there is a choice and
      the ghost is moving. */
  function Options(x: int, y: int, dir: Vec, grid: Grid): seq<Vec>
    requires Shaped(grid)
  {
    Unreversed(WalkableDirs(x, y, grid, GHOST_DIRS), dir)
  }

  /** The choice among walkable directions `all`: the reversal of `dir` is
      dropped when there is more than one and the ghost is moving. */
  function Unreversed(all: seq<Vec>, dir: Vec): seq<Vec>
  {
    if |all| > 1 && dir != Vec(0, 0) then Without(all, Vec(-dir.x, -dir.y)) else all
  }

  /** Dropping the reversal loses no direction but that one, leaves at least
      one when there were two distinct ones, and keeps the reversal only when
      it is the one direction there is. */
  lemma UnreversedFacts(all: seq<Vec>, dir: Vec)
    requires |all| > 1 ==> all[0] != all[1]
    ensures var opts := Unreversed(all, dir);
      (forall d :: d in opts ==> d in all) &&
      (|opts| == 0 ==> |all| == 0) &&
      (dir != Vec(0, 0) && Vec(-dir.x, -dir.y) in opts ==> |all| == 1)
  {
    if |all| > 1 && dir != Vec(0, 0) {
      WithoutFacts(all, Vec(-dir.x, -dir.y));
      WithoutOneOfTwo(all, Vec(-dir.x, -dir.y));
    }
  }

  lemma DirsDistinct()
    ensures Distinct(GHOST_DIRS)
  {
  }

  /** Every option is a walkable neighbour; there is none only when no
      neighbour is walkable; the reversal is an option of a moving ghost
      only when it is the one walkable neighbour. */
  lemma OptionsFacts(x: int, y: int, dir: Vec, grid: Grid)
    requires Shaped(grid)
    ensures forall d :: d in Options(x, y, dir, grid) ==> d in GHOST_DIRS && CanWalk(grid, x + d.x, y + d.y)
    ensures |Options(x, y, dir, grid)| == 0 ==> |WalkableDirs(x, y, grid, GHOST_DIRS)| == 0
    ensures dir != Vec(0, 0) && Vec(-dir.x, -dir.y) in Options(x, y, dir, grid) ==>
      |WalkableDirs(x, y, grid, GHOST_DIRS)| == 1
  {
    WalkableDistinct(x, y, grid);
    UnreversedFacts(WalkableDirs(x, y, grid, GHOST_DIRS), dir);
    AllWalkable(x, y, grid);
  }

  /** Dropping one direction from a list whose first two differ leaves
      something, and never the dropped direction. */
  lemma WithoutOneOfTwo(all: seq<Vec>, v: Vec)
    requires |all| > 1 && all[0] != all[1]
    ensures |Without(all, v)| > 0 && v !in Without(all, v)
  {
    WithoutFacts(all, v);
    if all[0] == v {
      assert all[1] in Without(all, v);
    } else {
      assert all[0] in Without(all, v);
    }
  }

  /** The first two walkable directions differ. */
  lemma WalkableDistinct(x: int, y: int, grid: Grid)
    requires Shaped(grid)
    ensures var all := WalkableDirs(x, y, grid, GHOST_DIRS);
      |all| > 1 ==> all[0] != all[1]
  {
    DirsDistinct();
    WalkableDirsDistinct(x, y, grid, GHOST_DIRS);
  }

  /** Every walkable direction is one of the four and leads onto the maze. */
  lemma AllWalkable(x: int, y: int, grid: Grid)
    requires Shaped(grid)
    ensures forall d :: d in WalkableDirs(x, y, grid, GHOST_DIRS) ==> d in GHOST_DIRS && CanWalk(grid, x + d.x, y + d.y)
  {
    WalkableDirsFacts(x, y, grid, GHOST_DIRS);
  }

  /** One ghost's step: fright ticks down, then the best option is taken
      (or the ghost stays and stops when it has none). As written the
      normal ghosts run away; as intended the frightened ones do. */
  function Turn(g: Ghost, grid: Grid, p: Vec, asWritten: bool): Ghost
    requires Shaped(grid)
  {
    var g1 := if g.fright > 0 then g.(fright := g.fright - 1) else g;
    var flee := if asWritten then !(g1.fright > 0) else g1.fright > 0;
    var d := Pick(Options(g.x, g.y, g.dir, grid), g1, p, flee);
    g1.(x := g1.x + d.x, y := g1.y + d.y, dir := d)
  }

  /** `scored[0]?.d || options[0] || {x:0,y:0}`: the best option, or
      standing still when there is none. */
  function Pick(opts: seq<Vec>, g: Ghost, p: Vec, flee: bool): (d: Vec)
    ensures |opts| > 0 ==> d in opts && d == Best(opts, g, p, flee)
    ensures |opts| == 0 ==> d == Vec(0, 0)
  {
    if |opts| > 0 then Best(opts, g, p, flee) else Vec(0, 0)
  }

  predicate GhostOk(g: Ghost, grid: Grid)
    requires Shaped(grid)
  {
    g.fright >= 0 && CanWalk(grid, g.x, g.y)
  }

  /** A ghost on a walkable cell with no negative fright stays so. */
  lemma TurnKeeps(g: Ghost, grid: Grid, p: Vec, asWritten: bool)
    requires Shaped(grid) && GhostOk(g, grid)
    ensures GhostOk(Turn(g, grid, p, asWritten), grid)
  {
    TurnFacts(g, grid, p, asWritten);
  }

  /** The ghost step as the source scores it: a normal ghost ranks by
      negated distance, so the lowest score is the farthest cell. */
  function TurnAsWritten(g: Ghost, grid: Grid, p: Vec): Ghost
    requires Shaped(grid)
  {
    Turn(g, grid, p, true)
  }

  /** The ghost step as intended: normal ghosts chase, frightened ghosts flee. */
  function GhostTurn(g: Ghost, grid: Grid, p: Vec): Ghost
    requires Shaped(grid)
  {
    Turn(g, grid, p, false)
  }

  /** A ghost step never enters a wall: the ghost lands on a walkable cell
      next to it, or stays put and stops when no neighbour is walkable; it
      reverses only when reversing is its one way out; fright drops by one
      while positive and never goes negative. */
  lemma TurnFacts(g: Ghost, grid: Grid, p: Vec, asWritten: bool)
    requires Shaped(grid)
    ensures var g' := Turn(g, grid, p, asWritten);
      g'.x == g.x + g'.dir.x && g'.y == g.y + g'.dir.y &&
      ((CanWalk(grid, g'.x, g'.y) && g'.dir in GHOST_DIRS) ||
       (g'.dir == Vec(0, 0) && |WalkableDirs(g.x, g.y, grid, GHOST_DIRS)| == 0))
    ensures var g' := Turn(g, grid, p, asWritten);
      g'.fright == (if g.fright > 0 then g.fright - 1 else g.fright)
    ensures var g' := Turn(g, grid, p, asWritten);
      g.dir != Vec(0, 0) && g'.dir == Reverse(g) ==> |WalkableDirs(g.x, g.y, grid, GHOST_DIRS)| == 1
  {
    var g1 := if g.fright > 0 then g.(fright := g.fright - 1) else g;
    var flee := if asWritten then !(g1.fright > 0) else g1.fright > 0;
    var d := Pick(Options(g.x, g.y, g.dir, grid), g1, p, flee);
    var g' := Turn(g, grid, p, asWritten);
    assert g'.dir == d && g'.x == g.x + d.x && g'.y == g.y + d.y;
    StepFacts(g, grid, d);
  }

  /** Moving by an option, or standing still when there is none, lands on a
      walkable neighbour, and reverses only when reversing is the one way out. */
  lemma StepFacts(g: Ghost, grid: Grid, d: Vec)
    requires Shaped(grid)
    requires var opts := Options(g.x, g.y, g.dir, grid);
      (|opts| > 0 ==> d in opts) && (|opts| == 0 ==> d == Vec(0, 0))
    ensures (CanWalk(grid, g.x + d.x, g.y + d.y) && d in GHOST_DIRS) ||
      (d == Vec(0, 0) && |WalkableDirs(g.x, g.y, grid, GHOST_DIRS)| == 0)
    ensures g.dir != Vec(0, 0) && d == Reverse(g) ==> |WalkableDirs(g.x, g.y, grid, GHOST_DIRS)| == 1
  {
    var opts := Options(g.x, g.y, g.dir, grid);
    OptionsFacts(g.x, g.y, g.dir, grid);
    if |opts| > 0 {
      assert d in opts;
      assert CanWalk(grid, g.x + d.x, g.y + d.y) && d in GHOST_DIRS;
    } else {
      assert |WalkableDirs(g.x, g.y, grid, GHOST_DIRS)| == 0;
    }
  }

  /** As intended: a normal ghost takes an option nearest to Pac-Man and a
      frightened one an option farthest from him. */
  lemma GhostChases(g: Ghost, grid: Grid, p: Vec)
    requires Shaped(grid)
    ensures var g1 := if g.fright > 0 then g.(fright := g.fright - 1) else g;
      var opts, g' := Options(g.x, g.y, g.dir, grid), GhostTurn(g, grid, p);
      |opts| > 0 ==>
        forall k :: 0 <= k < |opts| ==>
          if g1.fright > 0 then Dist(g1, g'.dir, p) >= Dist(g1, opts[k], p)
          else Dist(g1, g'.dir, p) <= Dist(g1, opts[k], p)
  {
    var g1 := if g.fright > 0 then g.(fright := g.fright - 1) else g;
    var opts := Options(g.x, g.y, g.dir, grid);
    if |opts| > 0 {
      BestByDistance(opts, g1, p, g1.fright > 0);
    }
  }

  /** As written: a normal ghost takes an option farthest from Pac-Man. */
  lemma NormalGhostFleesAsWritten(g: Ghost, grid: Grid, p: Vec)
    requires Shaped(grid) && g.fright <= 1
    ensures var g1 := if g.fright > 0 then g.(fright := g.fright - 1) else g;
      var opts, g' := Options(g.x, g.y, g.dir, grid), TurnAsWritten(g, grid, p);
      |opts| > 0 ==> forall k :: 0 <= k < |opts| ==> Dist(g1, g'.dir, p) >= Dist(g1, opts[k], p)
  {
    var g1 := if g.fright > 0 then g.(fright := g.fright - 1) else g;
    var opts := Options(g.x, g.y, g.dir, grid);
    if |opts| > 0 {
      BestByDistance(opts, g1, p, true);
    }
  }

  /** A normal ghost at (5, 1) with Pac-Man at (1, 1) and the corridor open
      both ways: as written it steps right, away from him; as intended it
      steps left, towards him. */
  lemma FleeingExample(opts: seq<Vec>, g: Ghost, p: Vec)
    requires opts == [Vec(1, 0), Vec(-1, 0)] && g == Ghost(5, 1, Vec(0, 0), 0) && p == Vec(1, 1)
    ensures Best(opts, g, p, true) == Vec(1, 0)
    ensures Best(opts, g, p, false) == Vec(-1, 0)
  {
    assert Dist(g, opts[0], p) == 5 && Dist(g, opts[1], p) == 3;
    assert opts[1..] == [opts[1]];
  }

  // ------------------------------------------------------------ levels

  /** `Math.min(1 + (level - 1), 4)` ghosts. */
  function GhostCount(level: int): (n: int)
    requires level >= 1
    ensures 1 <= n <= 4 && (level <= 4 ==> n == level)
  {
    Min(1 + (level - 1), 4)
  }

  /** Milliseconds per ghost step: 240 (140 in challenge mode), 10 less per
      level, never below 90. */
  function GhostInterval(mode: Mode, level: int): (ms: int)
    ensures ms >= 90
  {
    Max(90, (if mode == Challenge then 140 else 240) - (level - 1) * 10)
  }

  /** Ghosts never get slower as levels go up. */
  lemma IntervalMonotone(mode: Mode, l1: int, l2: int)
    requires l1 <= l2
    ensures GhostInterval(mode, l2) <= GhostInterval(mode, l1)
  {
  }

  /** The maze of a level: the six mazes in turn. */
  function MapIndex(level: int): (m: int)
    requires level >= 1
    ensures 0 <= m < |MAPS|
  {
    (level - 1) % |MAPS|
  }

  /** The mazes come round again every six levels. */
  lemma MapCycle(level: int)
    requires level >= 1
    ensures MapIndex(level + |MAPS|) == MapIndex(level)
  {
  }

  /** Ghost i's starting cell as written: two columns, filled from the
      bottom right corner upwards. */
  function SpawnAsWritten(n: nat): (gs: seq<Ghost>)
    ensures |gs| == n
  {
    seq(n, i requires 0 <= i < n => Ghost(COLS - 2 - i % 2, ROWS - 2 - i / 2, Vec(0, 0), 0))
  }

  /** As written, the third ghost of level 3 starts inside a wall. */
  lemma GhostInWallAsWritten()
    ensures MapIndex(3) == 2 && GhostCount(3) == 3
    ensures var g := SpawnAsWritten(GhostCount(3))[2]; InBounds(g.x, g.y) && MAPS[MapIndex(3)][g.y][g.x] == '#'
  {
  }

  /** The spawn, with every ghost whose cell is a wall sent home instead. */
  function Spawn(grid: Grid, n: nat): (gs: seq<Ghost>)
    requires Shaped(grid) && CanWalk(grid, HOME.x, HOME.y)
    ensures |gs| == n
    ensures forall k :: 0 <= k < n ==> CanWalk(grid, gs[k].x, gs[k].y) && gs[k].fright == 0
    ensures forall k :: 0 <= k < n ==> gs[k] == SpawnAsWritten(n)[k] || gs[k] == HOME
  {
    var w := SpawnAsWritten(n);
    seq(n, i requires 0 <= i < n => if CanWalk(grid, w[i].x, w[i].y) then w[i] else HOME)
  }

  // ------------------------------------------------------------ the game

  class Game {
    var level: int
    var grid: Grid
    var remaining: int
    var pac: Pac
    var ghosts: seq<Ghost>
    var score: int
    var lives: int
    var over: bool
    var levelComplete: bool
    var paused: bool

    /** The counter matches the pellets left, Pac-Man and every ghost stand
        on walkable cells, fright is never negative, and the start and home
        cells stay open. */
    ghost predicate Valid()
      reads this
    {
      level >= 1 && Shaped(grid) && remaining == Pellets(grid) &&
      CanWalk(grid, pac.x, pac.y) && CanWalk(grid, START.x, START.y) && CanWalk(grid, HOME.x, HOME.y) &&
      forall k :: 0 <= k < |ghosts| ==> GhostOk(ghosts[k], grid)
    }

    /** `reset` for a level. */
    constructor (lv: int)
      requires lv >= 1
      ensures Valid() && level == lv && grid == MAPS[MapIndex(lv)] && remaining == Pellets(grid)
      ensures |ghosts| == GhostCount(lv) && pac == START && score == 0 && lives == 3
      ensures !over && !levelComplete && !paused
    {
      level := lv;
      MapsFacts(MapIndex(lv));
      var g := MAPS[MapIndex(lv)];
      grid := g;
      remaining := Pellets(g);
      pac := START;
      ghosts := Spawn(g, GhostCount(lv));
      score, lives, over, levelComplete, paused := 0, 3, false, false, false;
    }

    /** An arrow key. */
    method Steer(d: Vec)
      modifies this
      ensures pac == old(pac).(dir := d)
      ensures grid == old(grid) && remaining == old(remaining) && ghosts == old(ghosts) && score == old(score)
      ensures lives == old(lives) && over == old(over) && level == old(level)
      ensures levelComplete == old(levelComplete) && paused == old(paused)
    {
      pac := pac.(dir := d);
    }

    /** Pac-Man's move: onto the next cell if walkable, otherwise stay. */
    method Walk()
      requires Valid()
      modifies this
      ensures Valid()
      ensures var nx, ny := old(pac.x) + old(pac.dir.x), old(pac.y) + old(pac.dir.y);
        pac == if CanWalk(grid, nx, ny) then old(pac).(x := nx, y := ny) else old(pac)
      ensures grid == old(grid) && remaining == old(remaining) && ghosts == old(ghosts) && score == old(score)
      ensures lives == old(lives) && over == old(over) && level == old(level)
      ensures levelComplete == old(levelComplete) && paused == old(paused)
    {
      var nx, ny := pac.x + pac.dir.x, pac.y + pac.dir.y;
      if CanWalk(grid, nx, ny) {
        pac := pac.(x := nx, y := ny);
      }
    }

    /** Eat what lies on Pac-Man's cell: a dot is worth 10 points; a power
        pellet 50 points and frightens every ghost; either is blanked and
        counted off. The level is complete once no pellet remains. */
    method EatHere()
      requires Valid()
      modifies this
      ensures Valid() && SameWalls(old(grid), grid) && pac == old(pac) && |ghosts| == |old(ghosts)|
      ensures var c := old(grid)[pac.y][pac.x];
        (c == '.' || c == 'o' ==> grid == old(grid)[pac.y := old(grid)[pac.y][pac.x := ' ']] && remaining == old(remaining) - 1) &&
        (c != '.' && c != 'o' ==> grid == old(grid) && remaining == old(remaining)) &&
        score == old(score) + (if c == '.' then 10 else if c == 'o' then 50 else 0) &&
        forall k :: 0 <= k < |ghosts| ==> ghosts[k] == if c == 'o' then old(ghosts)[k].(fright := FRIGHT_STEPS) else old(ghosts)[k]
      ensures levelComplete == (old(levelComplete) || remaining <= 0) && paused == (old(paused) || remaining <= 0)
      ensures lives == old(lives) && over == old(over) && level == old(level)
    {
      var c := grid[pac.y][pac.x];
      if c == '.' || c == 'o' {
        EatPellet();
      }
      if c == 'o' {
        Frighten();
      }
      if remaining <= 0 {
        levelComplete, paused := true, true;
      }
    }

    /** Blank the pellet under Pac-Man and count it off. */
    method EatPellet()
      requires Valid() && (grid[pac.y][pac.x] == '.' || grid[pac.y][pac.x] == 'o')
      modifies this
      ensures Valid() && SameWalls(old(grid), grid)
      ensures grid == old(grid)[pac.y := old(grid)[pac.y][pac.x := ' ']] && remaining == old(remaining) - 1
      ensures score == old(score) + (if old(grid)[pac.y][pac.x] == '.' then 10 else 50)
      ensures pac == old(pac) && ghosts == old(ghosts) && lives == old(lives) && over == old(over) && level == old(level)
      ensures levelComplete == old(levelComplete) && paused == old(paused)
    {
      Eat(grid, pac.x, pac.y);
      score := score + (if grid[pac.y][pac.x] == '.' then 10 else 50);
      grid := grid[pac.y := grid[pac.y][pac.x := ' ']];
      remaining := remaining - 1;
    }

    /** Every ghost is frightened for the full time. */
    method Frighten()
      requires Valid()
      modifies this
      ensures Valid() && |ghosts| == |old(ghosts)|
      ensures forall k :: 0 <= k < |ghosts| ==> ghosts[k] == old(ghosts)[k].(fright := FRIGHT_STEPS)
      ensures grid == old(grid) && remaining == old(remaining) && score == old(score) && pac == old(pac)
      ensures lives == old(lives) && over == old(over) && level == old(level)
      ensures levelComplete == old(levelComplete) && paused == old(paused)
    {
      var gs := ghosts;
      ghosts := seq(|gs|, k requires 0 <= k < |gs| => gs[k].(fright := FRIGHT_STEPS));
    }

    /** `resolveCollision` against Pac-Man's cell as it was when the check
        began: each frightened ghost there is eaten (200 points, sent home),
        each normal ghost there costs a life and sends Pac-Man back to the
        start; the game is over once lives reach zero. */
    method Resolve()
      requires Valid()
      modifies this
      ensures Valid()
      ensures var p, gs := Vec(old(pac.x), old(pac.y)), old(ghosts);
        var caught := Caught(gs, p, |gs|);
        ghosts == ResolvedGhosts(gs, p) && score == old(score) + 200 * Eaten(gs, p, |gs|) &&
        lives == old(lives) - caught && pac == (if caught > 0 then START else old(pac)) &&
        over == (old(over) || (caught > 0 && lives <= 0))
      ensures grid == old(grid) && remaining == old(remaining) && level == old(level)
      ensures levelComplete == old(levelComplete) && paused == old(paused)
    {
      var gs', sc, lv, pc, ov := MeetGhosts(ghosts, Vec(pac.x, pac.y), score, lives, pac, over);
      ghosts, score, lives, pac, over := gs', sc, lv, pc, ov;
    }

    /** Pac-Man's grid step: move and eat, then meet the ghosts. */
    method PacStep()
      requires Valid()
      modifies this
      ensures Valid() && SameWalls(old(grid), grid) && remaining <= old(remaining) && score >= old(score)
      ensures lives <= old(lives) && level == old(level)
    {
      Walk();
      EatHere();
      Resolve();
    }

    /** One ghost's step towards (or away from) p. */
    method MoveGhost(i: int, p: Vec)
      requires Valid() && 0 <= i < |ghosts|
      modifies this
      ensures Valid() && ghosts == old(ghosts)[i := GhostTurn(old(ghosts)[i], grid, p)]
      ensures grid == old(grid) && remaining == old(remaining) && pac == old(pac) && score == old(score)
      ensures lives == old(lives) && over == old(over) && level == old(level)
      ensures levelComplete == old(levelComplete) && paused == old(paused)
    {
      TurnKeeps(ghosts[i], grid, p, false);
      ghosts := ghosts[i := GhostTurn(ghosts[i], grid, p)];
    }

    /** The ghosts' grid step: each ghost in turn takes its step towards
        (or, frightened, away from) Pac-Man's cell at the start of the
        step, then the meeting check runs. */
    method GhostStep()
      requires Valid()
      modifies this
      ensures Valid() && grid == old(grid) && remaining == old(remaining) && level == old(level)
      ensures score >= old(score) && lives <= old(lives) && |ghosts| == |old(ghosts)|
    {
      var p := Vec(pac.x, pac.y);
      var i := 0;
      while i < |ghosts|
        invariant 0 <= i <= |ghosts| == |old(ghosts)|
        invariant Valid() && grid == old(grid) && remaining == old(remaining) && level == old(level)
        invariant score >= old(score) && lives <= old(lives)
      {
        MoveGhost(i, p);
        Resolve();
        i := i + 1;
      }
    }
  }
}

=== FILE: poker_arrange.dfy ===
/** Arrange Poker: the 52 cards start in a shuffled stock and must be laid
    out on a 4 x 13 grid, one suit per row (spades, hearts, clubs,
    diamonds) and ranks ace to king along each row. */
module PokerArrange {
  import opened Common

  const ROWS: int := 4
  const COLS: int := 13

  datatype Suit = S | H | C | D
  /** A card; its id is its suit and rank, so cards with equal ids are equal. */
  datatype Card = Card(s: Suit, r: int)
  datatype Pos = Pos(row: int, col: int)

  type Cell = Option<Card>
  type Grid = seq<seq<Cell>>

  const SUIT_ORDER: seq<Suit> := [S, H, C, D]

  predicate ValidCard(c: Card) { 1 <= c.r <= 13 }

  /** `suitOrder.indexOf`: the row of a suit. */
  function SuitRow(s: Suit): (row: int)
    ensures 0 <= row < ROWS && SUIT_ORDER[row] == s
  {
    match s
    case S => 0
    case H => 1
    case C => 2
    case D => 3
  }

  lemma SuitRowUnique(s: Suit, row: int)
    requires 0 <= row < ROWS && SUIT_ORDER[row] == s
    ensures SuitRow(s) == row
  {
  }

  /** The place a card belongs: the row of its suit, the column of its rank. */
  function Target(c: Card): Pos
  {
    Pos(SuitRow(c.s), c.r - 1)
  }

  predicate Shaped(g: Grid)
  {
    |g| == ROWS && forall r :: 0 <= r < |g| ==> |g[r]| == COLS
  }

  predicate InGrid(p: Pos) { 0 <= p.row < ROWS && 0 <= p.col < COLS }

  function EmptyGrid(): (g: Grid)
    ensures Shaped(g) && forall r, c :: 0 <= r < ROWS && 0 <= c < COLS ==> g[r][c] == None
  {
    seq(ROWS, r => seq(COLS, c => None))
  }

  function Put(g: Grid, p: Pos, x: Cell): (g': Grid)
    requires Shaped(g) && InGrid(p)
    ensures Shaped(g')
  {
    g[p.row := g[p.row][p.col := x]]
  }

  function At(g: Grid, p: Pos): Cell
    requires Shaped(g) && InGrid(p)
  {
    g[p.row][p.col]
  }

  // ------------------------------------------------------------------ deck

  /** Card i of the built deck: suits in order, ranks 1 .. 13 within each. */
  function Deck(): (d: seq<Card>)
    ensures |d| == 52
  {
    seq(52, i requires 0 <= i < 52 => Card(SUIT_ORDER[i / 13], i % 13 + 1))
  }

  /** `buildDeck`: for each suit, for each rank, push the card. */
  method BuildDeck() returns (deck: seq<Card>)
    ensures deck == Deck()
  {
    deck := [];
    var si := 0;
    while si < 4
      invariant 0 <= si <= 4 && |deck| == si * 13
      invariant forall i :: 0 <= i < |deck| ==> deck[i] == Deck()[i]
    {
      var r := 1;
      while r <= 13
        invariant 1 <= r <= 14 && |deck| == si * 13 + r - 1
        invariant forall i :: 0 <= i < |deck| ==> deck[i] == Deck()[i]
      {
        deck := deck + [Card(SUIT_ORDER[si], r)];
        r := r + 1;
      }
      si := si + 1;
    }
  }

  /** The deck holds 52 valid cards with distinct ids, one per suit and rank. */
  lemma DeckFacts()
    ensures forall i :: 0 <= i < 52 ==> ValidCard(Deck()[i])
    ensures forall i, j :: 0 <= i < j < 52 ==> Deck()[i] != Deck()[j]
    ensures forall c :: ValidCard(c) ==> c in Deck()
  {
    var d := Deck();
    forall i, j | 0 <= i < j < 52 ensures d[i] != d[j] {
      if i / 13 == j / 13 {
        assert i % 13 != j % 13;
      } else {
        assert SUIT_ORDER[i / 13] != SUIT_ORDER[j / 13];
      }
    }
    forall c | ValidCard(c) ensures c in d {
      var i := SuitRow(c.s) * 13 + c.r - 1;
      assert d[i] == c;
    }
  }

  // ------------------------------------------------------------------- win

  /** Every cell holds the card of its row's suit and its column's rank. */
  predicate Won(g: Grid)
    requires Shaped(g)
  {
    forall r, c :: 0 <= r < ROWS && 0 <= c < COLS ==> g[r][c] == Some(Card(SUIT_ORDER[r], c + 1))
  }

  /** `isWin`: the row-by-row scan that stops at the first empty or wrong
      cell. */
  method IsWin(g: Grid) returns (win: bool)
    requires Shaped(g)
    ensures win == Won(g)
  {
    var r := 0;
    while r < 4
      invariant 0 <= r <= 4
      invariant forall i, c :: 0 <= i < r && 0 <= c < COLS ==> g[i][c] == Some(Card(SUIT_ORDER[i], c + 1))
    {
      var suit := SUIT_ORDER[r];
      var c := 0;
      while c < 13
        invariant 0 <= c <= 13
        invariant forall j :: 0 <= j < c ==> g[r][j] == Some(Card(suit, j + 1))
      {
        var card := g[r][c];
        if card.None? {
          return false;
        }
        if card.value.s != suit || card.value.r != c + 1 {
          return false;
        }
        c := c + 1;
      }
      r := r + 1;
    }
    return true;
  }

  /** In a won grid every card sits on its target. */
  lemma WonTargets(g: Grid, p: Pos, card: Card)
    requires Shaped(g) && Won(g) && InGrid(p) && At(g, p) == Some(card)
    ensures p == Target(card)
  {
    SuitRowUnique(card.s, p.row);
  }

  // -------------------------------------------------------------- locating

  /** The first cell at or after row-major index k holding the card. */
  function LocateFrom(g: Grid, card: Card, k: nat): (res: Option<Pos>)
    requires Shaped(g) && k <= 52
    ensures res.Some? ==> InGrid(res.value) && At(g, res.value) == Some(card)
    ensures res.None? ==> forall i :: k <= i < 52 ==> g[i / 13][i % 13] != Some(card)
    decreases 52 - k
  {
    if k == 52 then None
    else if g[k / 13][k % 13] == Some(card) then Some(Pos(k / 13, k % 13))
    else LocateFrom(g, card, k + 1)
  }

  /** Where the card is on the grid, if it is. */
  function Locate(g: Grid, card: Card): (res: Option<Pos>)
    requires Shaped(g)
    ensures res.Some? ==> InGrid(res.value) && At(g, res.value) == Some(card)
    ensures res.None? ==> forall p :: InGrid(p) ==> At(g, p) != Some(card)
  {
    var res := LocateFrom(g, card, 0);
    if res.None? then
      assert forall p :: InGrid(p) ==> At(g, p) == g[(p.row * 13 + p.col) / 13][(p.row * 13 + p.col) % 13];
      res
    else res
  }

  /** `findCardPosition`: the row-major scan returning the first cell with
      the card's id, or nothing. */
  method FindCardPosition(card: Card, g: Grid) returns (res: Option<Pos>)
    requires Shaped(g)
    ensures res == Locate(g, card)
  {
    var r := 0;
    while r < 4
      invariant 0 <= r <= 4
      invariant LocateFrom(g, card, 0) == LocateFrom(g, card, r * 13)
    {
      var c := 0;
      while c < 13
        invariant 0 <= c <= 13
        invariant LocateFrom(g, card, 0) == LocateFrom(g, card, r * 13 + c)
      {
        assert (r * 13 + c) / 13 == r && (r * 13 + c) % 13 == c;
        var cell := g[r][c];
        if cell.Some? && cell.value == card {
          return Some(Pos(r, c));
        }
        c := c + 1;
      }
      r := r + 1;
    }
    return None;
  }

  // ---------------------------------------------------------- card counts

  /** Row-major index of a grid position. */
  function Idx(p: Pos): int { p.row * 13 + p.col }

  /** The grid's 52 cells in row-major order. */
  function Flat(g: Grid): (f: seq<Cell>)
    requires Shaped(g)
    ensures |f| == 52 && forall p :: InGrid(p) ==> f[Idx(p)] == At(g, p)
  {
    var f := seq(52, i requires 0 <= i < 52 => g[i / 13][i % 13]);
    assert forall p :: InGrid(p) ==> Idx(p) / 13 == p.row && Idx(p) % 13 == p.col;
    f
  }

  /** How many cells hold the card. */
  function OnGrid(g: Grid, c: Card): nat
    requires Shaped(g)
  {
    multiset(Flat(g))[Some(c)]
  }

  lemma FlatPut(g: Grid, p: Pos, x: Cell)
    requires Shaped(g) && InGrid(p)
    ensures Flat(Put(g, p, x)) == Flat(g)[Idx(p) := x]
  {
    var f, f' := Flat(g), Flat(Put(g, p, x));
    forall i | 0 <= i < 52 ensures f'[i] == f[Idx(p) := x][i] {
      var q := Pos(i / 13, i % 13);
      assert Idx(q) == i;
    }
  }

  /** Writing x into a cell trades the cell's old card for x. */
  lemma PutCount(g: Grid, p: Pos, x: Cell)
    requires Shaped(g) && InGrid(p)
    ensures forall c :: OnGrid(Put(g, p, x), c) + (if At(g, p) == Some(c) then 1 else 0) ==
                        OnGrid(g, c) + (if x == Some(c) then 1 else 0)
  {
    FlatPut(g, p, x);
  }

  /** A card that `Locate` does not find is on no cell. */
  lemma NotOnGrid(g: Grid, card: Card)
    requires Shaped(g) && Locate(g, card) == None
    ensures OnGrid(g, card) == 0
  {
    var f := Flat(g);
    forall i | 0 <= i < 52 ensures f[i] != Some(card) {
      var q := Pos(i / 13, i % 13);
      assert Idx(q) == i;
    }
  }

  /** A card on some cell is counted there. */
  lemma OnGridAt(g: Grid, p: Pos, card: Card)
    requires Shaped(g) && InGrid(p) && At(g, p) == Some(card)
    ensures OnGrid(g, card) >= 1
  {
    assert Flat(g)[Idx(p)] == Some(card);
  }

  /** `filter(c => c.id !== card.id)`. */
  function Without(s: seq<Card>, card: Card): (t: seq<Card>)
    ensures multiset(t) == multiset(s)[card := 0]
  {
    if s == [] then []
    else
      assert s == [s[0]] + s[1..];
      if s[0] == card then Without(s[1..], card) else [s[0]] + Without(s[1..], card)
  }

  // ---------------------------------------------------------------- table

  datatype Snapshot = Snapshot(grid: Grid, stock: seq<Card>)

  /** The page's state: grid, stock (index 0 is the top), the selected card
      and the undo history. */
  datatype Table = Table(grid: Grid, stock: seq<Card>, selected: Option<Card>, moves: seq<Snapshot>)

  /** How many times the card lies on the table, grid and stock together. */
  function Count(t: Table, c: Card): nat
    requires Shaped(t.grid)
  {
    OnGrid(t.grid, c) + multiset(t.stock)[c]
  }

  /** No card lies on the table twice. */
  ghost predicate NoDuplicates(t: Table)
    requires Shaped(t.grid)
  {
    forall c :: Count(t, c) <= 1
  }

  /** Every card keeps its count from t to t'. */
  ghost predicate SameCards(t: Table, t': Table)
    requires Shaped(t.grid) && Shaped(t'.grid)
  {
    forall c :: Count(t', c) == Count(t, c)
  }

  function Saved(t: Table): seq<Snapshot>
  {
    t.moves + [Snapshot(t.grid, t.stock)]
  }

  /** `autoPlaceCard`: the card goes to its target. A card already on the
      grid moves there (swapping with the target's card, if another); a
      card from the stock goes there and the target's former card, if any,
      goes on top of the stock. */
  function AutoPlace(t: Table, card: Card): (t': Table)
    requires Shaped(t.grid) && ValidCard(card)
    ensures Shaped(t'.grid) && t'.selected == None && t'.moves == Saved(t)
    ensures At(t'.grid, Target(card)) == Some(card)
  {
    var g, tp := t.grid, Target(card);
    var target := At(g, tp);
    var moves := Saved(t);
    match Locate(g, card)
    case Some(p) =>
      if target == None then Table(Put(Put(g, tp, Some(card)), p, None), t.stock, None, moves)
      else if target != Some(card) then Table(Put(Put(g, tp, Some(card)), p, target), t.stock, None, moves)
      else Table(g, t.stock, None, moves)
    case None =>
      if target == None then Table(Put(g, tp, Some(card)), Without(t.stock, card), None, moves)
      else Table(Put(g, tp, Some(card)), [target.value] + Without(t.stock, card), None, moves)
  }

  /** Auto-placing a card of the table keeps every card: a displaced grid
      card goes to the placed card's old cell, or to the top of the stock
      when the placed card came from the stock. */
  lemma AutoPlaceConserves(t: Table, card: Card)
    requires Shaped(t.grid) && ValidCard(card) && NoDuplicates(t) && Count(t, card) >= 1
    ensures SameCards(t, AutoPlace(t, card))
  {
    match Locate(t.grid, card)
    case Some(p) => AutoPlaceFromGrid(t, card, p);
    case None => AutoPlaceFromStock(t, card);
  }

  lemma AutoPlaceFromGrid(t: Table, card: Card, p: Pos)
    requires Shaped(t.grid) && ValidCard(card) && Locate(t.grid, card) == Some(p)
    ensures SameCards(t, AutoPlace(t, card))
  {
    var g, tp := t.grid, Target(card);
    if At(g, tp) != Some(card) {
      MoveWithin(g, p, tp);
    }
  }

  /** Writing the card of p at q and q's former contents at p keeps every
      card of the grid. */
  lemma MoveWithin(g: Grid, p: Pos, q: Pos)
    requires Shaped(g) && InGrid(p) && InGrid(q) && p != q
    ensures forall c :: OnGrid(Put(Put(g, q, At(g, p)), p, At(g, q)), c) == OnGrid(g, c)
  {
    var g1 := Put(g, q, At(g, p));
    PutCount(g, q, At(g, p));
    PutCount(g1, p, At(g, q));
    assert At(g1, p) == At(g, p);
  }

  lemma AutoPlaceFromStock(t: Table, card: Card)
    requires Shaped(t.grid) && ValidCard(card) && Locate(t.grid, card) == None
    requires NoDuplicates(t) && Count(t, card) >= 1
    ensures SameCards(t, AutoPlace(t, card))
  {
    NotOnGrid(t.grid, card);
    PutCount(t.grid, Target(card), Some(card));
  }

  /** Once the grid is won, auto-placing any card moves nothing. */
  lemma WonIsFixed(t: Table, card: Card)
    requires Shaped(t.grid) && Won(t.grid) && ValidCard(card)
    ensures AutoPlace(t, card).grid == t.grid && AutoPlace(t, card).stock == t.stock
  {
    var tp := Target(card);
    assert At(t.grid, tp) == Some(card) by {
      assert t.grid[tp.row][tp.col] == Some(Card(SUIT_ORDER[tp.row], tp.col + 1));
    }
    match Locate(t.grid, card)
    case Some(p) =>
      WonTargets(t.grid, p, card);
    case None =>
  }

  /** `onCellClick`: a filled cell goes back on top of the stock; an empty
      cell takes the selected card (removed from the stock), or else the
      stock's top card; with nothing to place nothing happens. */
  function CellClick(t: Table, p: Pos): (t': Table)
    requires Shaped(t.grid) && InGrid(p)
    ensures Shaped(t'.grid)
  {
    match At(t.grid, p)
    case Some(card) => Table(Put(t.grid, p, None), [card] + t.stock, t.selected, Saved(t))
    case None =>
      if t.selected.Some? then
        Table(Put(t.grid, p, t.selected), Without(t.stock, t.selected.value), None, Saved(t))
      else if t.stock == [] then t
      else Table(Put(t.grid, p, Some(t.stock[0])), t.stock[1..], t.selected, Saved(t))
  }

  /** A click keeps every card when the selected card, if any, is a stock
      card, and it does what it says: a filled cell ends empty with its card
      on top of the stock; an empty cell ends holding the placed card. */
  lemma CellClickFacts(t: Table, p: Pos)
    requires Shaped(t.grid) && InGrid(p) && NoDuplicates(t)
    requires t.selected.Some? ==> t.selected.value in t.stock
    ensures SameCards(t, CellClick(t, p))
    ensures At(t.grid, p).Some? ==>
              At(CellClick(t, p).grid, p) == None && CellClick(t, p).stock == [At(t.grid, p).value] + t.stock
    ensures At(t.grid, p).None? && t.selected.Some? ==>
              At(CellClick(t, p).grid, p) == t.selected && t.selected.value !in CellClick(t, p).stock
    ensures At(t.grid, p).None? && t.selected.None? && t.stock != [] ==>
              At(CellClick(t, p).grid, p) == Some(t.stock[0]) && CellClick(t, p).stock == t.stock[1..]
  {
    if At(t.grid, p).Some? {
      ClickFilled(t, p);
    } else if t.selected.Some? {
      ClickSelected(t, p);
    } else {
      ClickTop(t, p);
    }
  }

  lemma ClickFilled(t: Table, p: Pos)
    requires Shaped(t.grid) && InGrid(p) && At(t.grid, p).Some?
    ensures SameCards(t, CellClick(t, p))
    ensures At(CellClick(t, p).grid, p) == None && CellClick(t, p).stock == [At(t.grid, p).value] + t.stock
  {
    PutCount(t.grid, p, None);
  }

  lemma ClickSelected(t: Table, p: Pos)
    requires Shaped(t.grid) && InGrid(p) && NoDuplicates(t) && At(t.grid, p).None?
    requires t.selected.Some? && t.selected.value in t.stock
    ensures SameCards(t, CellClick(t, p))
    ensures At(CellClick(t, p).grid, p) == t.selected && t.selected.value !in CellClick(t, p).stock
  {
    PutCount(t.grid, p, t.selected);
    assert Count(t, t.selected.value) <= 1;
  }

  lemma ClickTop(t: Table, p: Pos)
    requires Shaped(t.grid) && InGrid(p) && At(t.grid, p).None? && t.selected.None?
    ensures SameCards(t, CellClick(t, p))
    ensures t.stock != [] ==> At(CellClick(t, p).grid, p) == Some(t.stock[0]) && CellClick(t, p).stock == t.stock[1..]
  {
    if t.stock != [] {
      PutCount(t.grid, p, Some(t.stock[0]));
      assert t.stock == [t.stock[0]] + t.stock[1..];
    }
  }

  /** `onDropCell` for a card dragged from the stock, as written: the card
      is written only into an empty cell, but it leaves the stock either
      way. */
  function DropFromStockAsWritten(t: Table, card: Card, p: Pos): (t': Table)
    requires Shaped(t.grid) && InGrid(p)
    ensures Shaped(t'.grid)
  {
    var g := if At(t.grid, p) == None then Put(t.grid, p, Some(card)) else t.grid;
    Table(g, Without(t.stock, card), t.selected, Saved(t))
  }

  /** The dragged card vanishes when dropped on a filled cell: the cell
      keeps its card and every copy of the dragged card leaves the stock, so
      the table holds fewer of it. */
  lemma DropOnFilledLosesCard(t: Table, card: Card, p: Pos)
    requires Shaped(t.grid) && InGrid(p) && At(t.grid, p).Some? && card in t.stock
    ensures DropFromStockAsWritten(t, card, p).grid == t.grid
    ensures Count(DropFromStockAsWritten(t, card, p), card) == OnGrid(t.grid, card) < Count(t, card)
  {
  }

  /** The drop from the stock as evidently intended: only onto an empty
      cell; a filled cell refuses the card and the stock keeps it. */
  function DropFromStock(t: Table, card: Card, p: Pos): (t': Table)
    requires Shaped(t.grid) && InGrid(p)
    ensures Shaped(t'.grid)
  {
    if At(t.grid, p) == None then Table(Put(t.grid, p, Some(card)), Without(t.stock, card), t.selected, Saved(t))
    else Table(t.grid, t.stock, t.selected, Saved(t))
  }

  /** The corrected drop keeps every card, and places the card exactly when
      the cell is empty. */
  lemma DropFromStockConserves(t: Table, card: Card, p: Pos)
    requires Shaped(t.grid) && InGrid(p) && NoDuplicates(t) && card in t.stock
    ensures SameCards(t, DropFromStock(t, card, p))
    ensures At(DropFromStock(t, card, p).grid, p) == (if At(t.grid, p) == None then Some(card) else At(t.grid, p))
  {
    if At(t.grid, p) == None {
      assert Count(t, card) <= 1;
      PutCount(t.grid, p, Some(card));
    }
  }

  /** `onDropCell` for a card dragged from grid cell `from`: the two cells
      trade contents (a move when the target is empty). */
  function DropFromGrid(t: Table, from: Pos, p: Pos): (t': Table)
    requires Shaped(t.grid) && InGrid(from) && InGrid(p)
    ensures Shaped(t'.grid)
  {
    var src, dst := At(t.grid, from), At(t.grid, p);
    Table(Put(Put(t.grid, p, src), from, dst), t.stock, t.selected, Saved(t))
  }

  /** A grid-to-grid drop swaps the two cells and keeps every card. */
  lemma DropFromGridSwaps(t: Table, from: Pos, p: Pos)
    requires Shaped(t.grid) && InGrid(from) && InGrid(p)
    ensures At(DropFromGrid(t, from, p).grid, p) == At(t.grid, from)
    ensures At(DropFromGrid(t, from, p).grid, from) == At(t.grid, p)
    ensures SameCards(t, DropFromGrid(t, from, p))
  {
    var g := t.grid;
    var src, dst := At(g, from), At(g, p);
    var g1 := Put(g, p, src);
    PutCount(g, p, src);
    PutCount(g1, from, dst);
    assert At(g1, from) == src;
  }

  /** `undo`: the last saved grid and stock come back and the selection is
      cleared; with no history nothing changes. */
  function Undo(t: Table): (t': Table)
    ensures t.moves == [] ==> t' == t
    ensures t.moves != [] ==> t'.moves == t.moves[..|t.moves| - 1] && t'.selected == None
  {
    if t.moves == [] then t
    else
      var last := t.moves[|t.moves| - 1];
      Table(last.grid, last.stock, None, t.moves[..|t.moves| - 1])
  }

  /** Every move followed by `undo` gives back the grid, the stock and the
      history it started from. */
  lemma UndoReverts(t: Table, card: Card, p: Pos, from: Pos)
    requires Shaped(t.grid) && ValidCard(card) && InGrid(p) && InGrid(from)
    ensures var u := Undo(AutoPlace(t, card)); u.grid == t.grid && u.stock == t.stock && u.moves == t.moves
    ensures var u := Undo(DropFromStock(t, card, p)); u.grid == t.grid && u.stock == t.stock && u.moves == t.moves
    ensures var u := Undo(DropFromGrid(t, from, p)); u.grid == t.grid && u.stock == t.stock && u.moves == t.moves
    ensures CellClick(t, p) != t ==>
              var u := Undo(CellClick(t, p)); u.grid == t.grid && u.stock == t.stock && u.moves == t.moves
  {
    assert Saved(t)[..|Saved(t)| - 1] == t.moves;
  }

  class Game {
    var grid: Grid
    var stock: seq<Card>
    var selected: Option<Card>
    var moves: seq<Snapshot>

    function State(): Table
      reads this
    {
      Table(grid, stock, selected, moves)
    }

    /** The grid and every saved grid are 4 x 13. */
    ghost predicate Valid()
      reads this
    {
      Shaped(grid) && forall i :: 0 <= i < |moves| ==> Shaped(moves[i].grid)
    }

    /** An empty grid, the shuffled deck as stock, no history. */
    constructor (shuffled: seq<Card>)
      requires multiset(shuffled) == multiset(Deck())
      ensures Valid() && State() == Table(EmptyGrid(), shuffled, None, [])
    {
      grid, stock, selected, moves := EmptyGrid(), shuffled, None, [];
    }

    /** `reset` with a freshly shuffled deck. */
    method Reset(shuffled: seq<Card>)
      requires multiset(shuffled) == multiset(Deck())
      modifies this
      ensures Valid() && State() == Table(EmptyGrid(), shuffled, None, [])
    {
      grid, stock, selected, moves := EmptyGrid(), shuffled, None, [];
    }

    /** Clicking the stock's top card selects it. */
    method SelectTop()
      requires Valid() && stock != []
      modifies this
      ensures Valid() && State() == old(State()).(selected := Some(old(stock[0])))
    {
      selected := Some(stock[0]);
    }

    /** `autoPlaceCard` for a stock card or a grid card (double click, or the
        deck click on the top card). */
    method AutoPlaceCard(card: Card)
      requires Valid() && ValidCard(card)
      modifies this
      ensures Valid() && State() == AutoPlace(old(State()), card)
    {
      var tp := Target(card);
      var pos := FindCardPosition(card, grid);
      var ng := grid;
      var target: Cell := ng[tp.row][tp.col];
      moves := moves + [Snapshot(grid, stock)];
      if pos.Some? {
        var p := pos.value;
        if target.None? {
          ng := Put(ng, tp, Some(card));
          ng := Put(ng, p, None);
        } else if target != Some(card) {
          ng := Put(ng, tp, Some(card));
          ng := Put(ng, p, target);
        }
      } else {
        ng := Put(ng, tp, Some(card));
        if target.None? {
          stock := Without(stock, card);
        } else {
          stock := [target.value] + Without(stock, card);
        }
      }
      grid := ng;
      selected := None;
    }

    /** `onCellClick` on cell p. */
    method OnCellClick(p: Pos)
      requires Valid() && InGrid(p)
      modifies this
      ensures Valid() && State() == CellClick(old(State()), p)
    {
      var cell := grid[p.row][p.col];
      if cell.Some? {
        moves := moves + [Snapshot(grid, stock)];
        stock := [cell.value] + stock;
        grid := Put(grid, p, None);
        return;
      }
      if selected.Some? {
        moves := moves + [Snapshot(grid, stock)];
        grid := Put(grid, p, selected);
        stock := Without(stock, selected.value);
        selected := None;
        return;
      }
      if stock == [] {
        return;
      }
      var card := stock[0];
      moves := moves + [Snapshot(grid, stock)];
      stock := stock[1..];
      grid := Put(grid, p, Some(card));
    }

    /** `onDropCell` of the stock's top card on cell p (corrected: a filled
        cell refuses it). */
    method OnDropFromStock(p: Pos)
      requires Valid() && InGrid(p) && stock != []
      modifies this
      ensures Valid() && State() == DropFromStock(old(State()), old(stock[0]), p)
    {
      var card := stock[0];
      moves := moves + [Snapshot(grid, stock)];
      if grid[p.row][p.col].None? {
        grid := Put(grid, p, Some(card));
        stock := Without(stock, card);
      }
    }

    /** `onDropCell` of the card at grid cell `from` on cell p. */
    method OnDropFromGrid(from: Pos, p: Pos)
      requires Valid() && InGrid(from) && InGrid(p)
      modifies this
      ensures Valid() && State() == DropFromGrid(old(State()), from, p)
    {
      var src, dst := grid[from.row][from.col], grid[p.row][p.col];
      moves := moves + [Snapshot(grid, stock)];
      grid := Put(Put(grid, p, src), from, dst);
    }

    /** `undo`. */
    method UndoMove()
      requires Valid()
      modifies this
      ensures State() == Undo(old(State()))
      ensures Valid()
    {
      if moves == [] {
        return;
      }
      var last := moves[|moves| - 1];
      grid, stock, selected, moves := last.grid, last.stock, None, moves[..|moves| - 1];
    }
  }
}

=== FILE: reversi.dfy ===
/** Reversi (Othello) on an 8-by-8 board (Reversi.tsx). Cells hold 0 (empty),
    1 (black) or 2 (white). */
module Reversi {
  import opened Common

  const SIZE: int := 8

  datatype Pos = Pos(r: int, c: int)
  /** A legal move: the square played and the discs it flips. */
  datatype Move = Move(r: int, c: int, flips: seq<Pos>)
  type Board = seq<seq<int>>

  const DIRS: seq<Pos> :=
    [Pos(-1, 0), Pos(1, 0), Pos(0, -1), Pos(0, 1), Pos(-1, -1), Pos(-1, 1), Pos(1, -1), Pos(1, 1)]

  predicate InBounds(r: int, c: int) { 0 <= r < SIZE && 0 <= c < SIZE }

  predicate IsPlayer(p: int) { p == 1 || p == 2 }

  predicate WellFormed(b: Board)
  {
    |b| == SIZE && (forall r :: 0 <= r < SIZE ==> |b[r]| == SIZE) &&
    forall r, c :: 0 <= r < SIZE && 0 <= c < SIZE ==> 0 <= b[r][c] <= 2
  }

  /** The set of squares holding a disc of colour p. */
  ghost function Stones(b: Board, p: int): set<Pos>
    requires WellFormed(b)
  {
    set r, c | 0 <= r < SIZE && 0 <= c < SIZE && b[r][c] == p :: Pos(r, c)
  }

  function Opponent(p: int): (q: int)
    ensures IsPlayer(q)
    ensures IsPlayer(p) ==> q != p
  {
    if p == 1 then 2 else 1
  }

  /** `opponent` is an involution on the two colours. */
  lemma OpponentInvolution(p: int)
    requires IsPlayer(p)
    ensures Opponent(Opponent(p)) == p
  {
  }

  /** `makeBoard`: the four centre discs, two of each colour, on the diagonals. */
  function MakeBoard(): (b: Board)
    ensures WellFormed(b)
    ensures Stones(b, 1) == {Pos(3, 4), Pos(4, 3)} && Stones(b, 2) == {Pos(3, 3), Pos(4, 4)}
    ensures |Stones(b, 1)| == 2 && |Stones(b, 2)| == 2
    ensures forall r, c :: InBounds(r, c) && !(3 <= r <= 4 && 3 <= c <= 4) ==> b[r][c] == 0
  {
    var e := seq(SIZE, _ => seq(SIZE, _ => 0));
    var b := e[3 := e[3][3 := 2][4 := 1]][4 := e[4][3 := 1][4 := 2]];
    assert Stones(b, 1) == {Pos(3, 4), Pos(4, 3)} by {
      forall q | q in Stones(b, 1) ensures q in {Pos(3, 4), Pos(4, 3)} { }
    }
    assert Stones(b, 2) == {Pos(3, 3), Pos(4, 4)} by {
      forall q | q in Stones(b, 2) ensures q in {Pos(3, 3), Pos(4, 4)} { }
    }
    b
  }

  // ---------------------------------------------------------------------------
  // Flips: `collectFlips`
  // ---------------------------------------------------------------------------

  predicate IsDir(d: Pos) { -1 <= d.r <= 1 && -1 <= d.c <= 1 && d != Pos(0, 0) }

  lemma DirsAreDirs()
    ensures |DIRS| == 8
    ensures forall i :: 0 <= i < |DIRS| ==> IsDir(DIRS[i])
  {
  }

  function Add(p: Pos, d: Pos): Pos { Pos(p.r + d.r, p.c + d.c) }

  /** How many more steps along d stay on the board; it bounds every walk. */
  function Dist(p: Pos, d: Pos): int
  {
    if d.r == 1 then SIZE - p.r
    else if d.r == -1 then p.r + 1
    else if d.c == 1 then SIZE - p.c
    else p.c + 1
  }

  /** The run of `opp` discs that starts at p and goes on along d. */
  function Run(b: Board, p: Pos, d: Pos, opp: int): seq<Pos>
    requires WellFormed(b) && IsDir(d)
    decreases if InBounds(p.r, p.c) then Dist(p, d) else 0
  {
    if InBounds(p.r, p.c) && b[p.r][p.c] == opp then [p] + Run(b, Add(p, d), d, opp) else []
  }

  /** The first square after that run. */
  function RunEnd(b: Board, p: Pos, d: Pos, opp: int): Pos
    requires WellFormed(b) && IsDir(d)
    decreases if InBounds(p.r, p.c) then Dist(p, d) else 0
  {
    if InBounds(p.r, p.c) && b[p.r][p.c] == opp then RunEnd(b, Add(p, d), d, opp) else p
  }

  /** The discs flipped along one direction: the run next to (r, c), kept only
      when it is non-empty and closed by a disc of the mover. */
  function DirFlips(b: Board, r: int, c: int, d: Pos, who: int): seq<Pos>
    requires WellFormed(b) && IsDir(d)
  {
    var start := Add(Pos(r, c), d);
    var line := Run(b, start, d, Opponent(who));
    var e := RunEnd(b, start, d, Opponent(who));
    if |line| > 0 && InBounds(e.r, e.c) && b[e.r][e.c] == who then line else []
  }

  /** The flips along the first k directions, in the order of DIRS. (The
      board is named in the decreases clause of this and the other bounded
      recursions only so that a call with a literal bound is not unfolded
      all the way down wherever it appears.) */
  function FlipsUpTo(b: Board, r: int, c: int, who: int, k: nat): seq<Pos>
    requires WellFormed(b) && k <= |DIRS|
    decreases k, b
  {
    if k == 0 then [] else FlipsUpTo(b, r, c, who, k - 1) + DirFlips(b, r, c, DIRS[k - 1], who)
  }

  /** The list `collectFlips` returns. */
  function Flips(b: Board, r: int, c: int, who: int): seq<Pos>
    requires WellFormed(b) && InBounds(r, c)
  {
    if b[r][c] != 0 then [] else FlipsUpTo(b, r, c, who, |DIRS|)
  }

  /** The inner `while` of `collectFlips`: walks from `start` along d over the
      run of `opp` discs and stops on the first square after it. */
  method WalkRun(b: Board, start: Pos, d: Pos, opp: int) returns (line: seq<Pos>, rr: int, cc: int)
    requires WellFormed(b) && IsDir(d)
    ensures line == Run(b, start, d, opp)
    ensures Pos(rr, cc) == RunEnd(b, start, d, opp)
  {
    var p := start;
    line := [];
    while InBounds(p.r, p.c) && b[p.r][p.c] == opp
      invariant line + Run(b, p, d, opp) == Run(b, start, d, opp)
      invariant RunEnd(b, p, d, opp) == RunEnd(b, start, d, opp)
      decreases |Run(b, p, d, opp)|
    {
      RunStep(b, p, d, opp);
      ghost var rest := Run(b, Add(p, d), d, opp);
      assert (line + [p]) + rest == line + ([p] + rest);
      line := line + [p];
      p := Add(p, d);
    }
    assert line + Run(b, p, d, opp) == line;
    rr, cc := p.r, p.c;
  }

  /** One step along a run: the run and its end are those of the next
      square, and fewer steps remain. */
  lemma RunStep(b: Board, p: Pos, d: Pos, opp: int)
    requires WellFormed(b) && IsDir(d) && InBounds(p.r, p.c) && b[p.r][p.c] == opp
    ensures Run(b, p, d, opp) == [p] + Run(b, Add(p, d), d, opp)
    ensures RunEnd(b, p, d, opp) == RunEnd(b, Add(p, d), d, opp)
  {
  }

  /** `collectFlips(b, r, c, who)`: nothing for an occupied square. */
  method CollectFlips(b: Board, r: int, c: int, who: int) returns (flips: seq<Pos>)
    requires WellFormed(b) && InBounds(r, c)
    ensures flips == Flips(b, r, c, who)
  {
    if b[r][c] != 0 { return []; }
    flips := [];
    var i := 0;
    while i < |DIRS|
      invariant 0 <= i <= |DIRS|
      invariant flips == FlipsUpTo(b, r, c, who, i)
    {
      var found := FlipsAlong(b, r, c, who, i);
      FlipsUpToNext(b, r, c, who, i);
      flips := flips + found;
      i := i + 1;
    }
  }

  /** One step of the direction loop, as the definition gives it. */
  lemma FlipsUpToNext(b: Board, r: int, c: int, who: int, i: nat)
    requires WellFormed(b) && i < |DIRS|
    ensures FlipsUpTo(b, r, c, who, i + 1) == FlipsUpTo(b, r, c, who, i) + DirFlips(b, r, c, DIRS[i], who)
  {
    DirsAreDirs();
  }

  /** One pass of the direction loop of `collectFlips`: walk the run next to
      (r, c) along DIRS[i] and keep it when a disc of the mover closes it. */
  method FlipsAlong(b: Board, r: int, c: int, who: int, i: int) returns (found: seq<Pos>)
    requires WellFormed(b) && 0 <= i < |DIRS|
    ensures found == DirFlips(b, r, c, DIRS[i], who)
  {
    DirsAreDirs();
    var d := DIRS[i];
    var line, rr, cc := WalkRun(b, Add(Pos(r, c), d), d, Opponent(who));
    DirFlipsOf(b, r, c, d, who, line, Pos(rr, cc));
    if |line| > 0 && InBounds(rr, cc) && b[rr][cc] == who {
      found := line;
    } else {
      found := [];
    }
  }

  /** The flips along d, given the run `WalkRun` found and the square it
      stopped on. */
  lemma DirFlipsOf(b: Board, r: int, c: int, d: Pos, who: int, line: seq<Pos>, e: Pos)
    requires WellFormed(b) && IsDir(d)
    requires line == Run(b, Add(Pos(r, c), d), d, Opponent(who))
    requires e == RunEnd(b, Add(Pos(r, c), d), d, Opponent(who))
    ensures DirFlips(b, r, c, d, who) == if |line| > 0 && InBounds(e.r, e.c) && b[e.r][e.c] == who then line else []
  {
  }

  /** q lies on the run of opponent discs next to (r, c) along DIRS[i], and
      that run is closed by a disc of the mover. */
  ghost predicate Flanked(b: Board, r: int, c: int, who: int, i: int, q: Pos)
    requires WellFormed(b) && 0 <= i < |DIRS|
  {
    DirsAreDirs();
    var start := Add(Pos(r, c), DIRS[i]);
    var e := RunEnd(b, start, DIRS[i], Opponent(who));
    q in Run(b, start, DIRS[i], Opponent(who)) && InBounds(e.r, e.c) && b[e.r][e.c] == who
  }

  lemma {:induction false} RunIsOpponent(b: Board, p: Pos, d: Pos, opp: int)
    requires WellFormed(b) && IsDir(d)
    ensures forall q :: q in Run(b, p, d, opp) ==> InBounds(q.r, q.c) && b[q.r][q.c] == opp
    decreases if InBounds(p.r, p.c) then Dist(p, d) else 0
  {
    if InBounds(p.r, p.c) && b[p.r][p.c] == opp {
      RunIsOpponent(b, Add(p, d), d, opp);
    }
  }

  /** Every flipped disc is an in-bounds disc of the opponent, and lies on a run
      that starts next to (r, c) and is closed by a disc of the mover. */
  lemma {:induction false} FlipsUpToFacts(b: Board, r: int, c: int, who: int, k: nat)
    requires WellFormed(b) && k <= |DIRS|
    ensures forall q :: q in FlipsUpTo(b, r, c, who, k) ==>
      InBounds(q.r, q.c) && b[q.r][q.c] == Opponent(who)
    ensures forall q :: q in FlipsUpTo(b, r, c, who, k) ==>
      exists i :: 0 <= i < k && Flanked(b, r, c, who, i, q)
  {
    if k > 0 {
      FlipsUpToFacts(b, r, c, who, k - 1);
      DirFlipsFlanked(b, r, c, who, k - 1);
      var head := FlipsUpTo(b, r, c, who, k - 1);
      var tail := DirFlips(b, r, c, DIRS[k - 1], who);
      assert FlipsUpTo(b, r, c, who, k) == head + tail;
      forall q: Pos | q in head + tail
        ensures InBounds(q.r, q.c) && b[q.r][q.c] == Opponent(who)
        ensures exists i :: 0 <= i < k && Flanked(b, r, c, who, i, q)
      {
        if q in head {
          var i :| 0 <= i < k - 1 && Flanked(b, r, c, who, i, q);
          assert 0 <= i < k;
        } else {
          assert Flanked(b, r, c, who, k - 1, q);
        }
      }
    }
  }

  /** The flips along one direction are opponent discs flanked along it. */
  lemma DirFlipsFlanked(b: Board, r: int, c: int, who: int, i: int)
    requires WellFormed(b) && 0 <= i < |DIRS|
    ensures forall q :: q in DirFlips(b, r, c, DIRS[i], who) ==>
      InBounds(q.r, q.c) && b[q.r][q.c] == Opponent(who) && Flanked(b, r, c, who, i, q)
  {
    DirsAreDirs();
    RunIsOpponent(b, Add(Pos(r, c), DIRS[i]), DIRS[i], Opponent(who));
  }

  lemma FlipsFacts(b: Board, r: int, c: int, who: int)
    requires WellFormed(b) && InBounds(r, c)
    ensures b[r][c] != 0 ==> Flips(b, r, c, who) == []
    ensures forall q :: q in Flips(b, r, c, who) ==>
      InBounds(q.r, q.c) && b[q.r][q.c] == Opponent(who)
    ensures forall q :: q in Flips(b, r, c, who) ==>
      exists i :: 0 <= i < |DIRS| && Flanked(b, r, c, who, i, q)
  {
    FlipsUpToFacts(b, r, c, who, |DIRS|);
  }

  // ---------------------------------------------------------------------------
  // Legal moves and the end of the game
  // ---------------------------------------------------------------------------

  /** A table of flip lists, one per square, row by row. */
  predicate IsGrid(g: seq<seq<seq<Pos>>>)
  {
    |g| == SIZE && forall r :: 0 <= r < SIZE ==> |g[r]| == SIZE
  }

  /** The flip list of every square: what `collectFlips` returns for it. */
  function FlipGrid(b: Board, who: int): (g: seq<seq<seq<Pos>>>)
    requires WellFormed(b)
    ensures IsGrid(g)
  {
    seq(SIZE, r requires 0 <= r < SIZE => seq(SIZE, c requires 0 <= c < SIZE => Flips(b, r, c, who)))
  }

  lemma FlipGridAt(b: Board, who: int, r: int, c: int)
    requires WellFormed(b) && InBounds(r, c)
    ensures FlipGrid(b, who)[r][c] == Flips(b, r, c, who)
  {
  }

  /** What square (r, c) adds to the list: its move when it flips something. */
  function CellMoves(g: seq<seq<seq<Pos>>>, r: int, c: int): seq<Move>
    requires IsGrid(g) && InBounds(r, c)
  {
    if |g[r][c]| > 0 then [Move(r, c, g[r][c])] else []
  }

  /** Moves found in row r among its first k columns, in column order. (The
      table is named in the decreases clause of this and the other bounded
      recursions only so that a call with a literal bound is not unfolded
      all the way down wherever it appears.) */
  function LegalInRow(g: seq<seq<seq<Pos>>>, r: int, k: nat): seq<Move>
    requires IsGrid(g) && 0 <= r < SIZE && k <= SIZE
    decreases k, g
  {
    if k == 0 then [] else LegalInRow(g, r, k - 1) + CellMoves(g, r, k - 1)
  }

  /** Moves found in the first k rows. */
  function LegalUpTo(g: seq<seq<seq<Pos>>>, k: nat): seq<Move>
    requires IsGrid(g) && k <= SIZE
    decreases k, g
  {
    if k == 0 then [] else LegalUpTo(g, k - 1) + LegalInRow(g, k - 1, SIZE)
  }

  /** The list `legalMoves` returns: rows top to bottom, columns left to right. */
  function Legal(b: Board, who: int): seq<Move>
    requires WellFormed(b)
  {
    LegalUpTo(FlipGrid(b, who), SIZE)
  }

  /** `legalMoves`. */
  method LegalMoves(b: Board, who: int) returns (ms: seq<Move>)
    requires WellFormed(b)
    ensures ms == Legal(b, who)
  {
    ghost var g := FlipGrid(b, who);
    ms := [];
    var r := 0;
    while r < SIZE
      invariant 0 <= r <= SIZE
      invariant ms == LegalUpTo(g, r)
    {
      var row := RowMoves(b, who, r);
      LegalUpToNext(g, r);
      ms := ms + row;
      r := r + 1;
    }
  }

  /** One step of each of the two scanning loops, as the definitions give it. */
  lemma LegalUpToNext(g: seq<seq<seq<Pos>>>, r: nat)
    requires IsGrid(g) && r < SIZE
    ensures LegalUpTo(g, r + 1) == LegalUpTo(g, r) + LegalInRow(g, r, SIZE)
  {
  }

  lemma LegalInRowNext(g: seq<seq<seq<Pos>>>, r: int, c: nat)
    requires IsGrid(g) && 0 <= r < SIZE && c < SIZE
    ensures LegalInRow(g, r, c + 1) == LegalInRow(g, r, c) + CellMoves(g, r, c)
  {
  }

  /** The body of the inner loop of `legalMoves`: the move at (r, c), if it
      flips anything. */
  method CellMove(b: Board, who: int, r: int, c: int) returns (cell: seq<Move>)
    requires WellFormed(b) && InBounds(r, c)
    ensures cell == CellMoves(FlipGrid(b, who), r, c)
  {
    var flips := CollectFlips(b, r, c, who);
    FlipGridAt(b, who, r, c);
    if |flips| > 0 { cell := [Move(r, c, flips)]; } else { cell := []; }
  }

  /** The inner loop of `legalMoves`: the moves of row r. */
  method RowMoves(b: Board, who: int, r: int) returns (row: seq<Move>)
    requires WellFormed(b) && 0 <= r < SIZE
    ensures row == LegalInRow(FlipGrid(b, who), r, SIZE)
  {
    ghost var g := FlipGrid(b, who);
    row := [];
    var c := 0;
    while c < SIZE
      invariant 0 <= c <= SIZE
      invariant row == LegalInRow(g, r, c)
    {
      var cell := CellMove(b, who, r, c);
      LegalInRowNext(g, r, c);
      row := row + cell;
      c := c + 1;
    }
  }

  /** Row r lists, among its first k columns, exactly the squares whose flip
      list is non-empty, each with that list. */
  lemma {:induction false} LegalInRowExact(g: seq<seq<seq<Pos>>>, r: int, k: nat)
    requires IsGrid(g) && 0 <= r < SIZE && k <= SIZE
    ensures forall m {:trigger m in LegalInRow(g, r, k)} :: m in LegalInRow(g, r, k) <==>
      m.r == r && 0 <= m.c < k && m.flips == g[r][m.c] && m.flips != []
  {
    if k > 0 {
      LegalInRowExact(g, r, k - 1);
      var head, last := LegalInRow(g, r, k - 1), CellMoves(g, r, k - 1);
      LegalInRowNext(g, r, k - 1);
      forall m: Move
        ensures m in head + last <==> m.r == r && 0 <= m.c < k && m.flips == g[r][m.c] && m.flips != []
      {
        if m.c == k - 1 {
          assert m !in head;
          assert m in head + last <==> m in last;
        } else {
          assert m !in last;
          assert m in head + last <==> m in head;
        }
      }
    }
  }

  /** The first k rows list exactly their squares with a non-empty flip
      list. */
  lemma {:induction false} LegalUpToExact(g: seq<seq<seq<Pos>>>, k: nat)
    requires IsGrid(g) && k <= SIZE
    ensures forall m {:trigger m in LegalUpTo(g, k)} :: m in LegalUpTo(g, k) <==>
      0 <= m.r < k && 0 <= m.c < SIZE && m.flips == g[m.r][m.c] && m.flips != []
  {
    if k > 0 {
      LegalUpToExact(g, k - 1);
      LegalInRowExact(g, k - 1, SIZE);
      var head, row := LegalUpTo(g, k - 1), LegalInRow(g, k - 1, SIZE);
      LegalUpToNext(g, k - 1);
      forall m: Move
        ensures m in head + row <==> 0 <= m.r < k && 0 <= m.c < SIZE && m.flips == g[m.r][m.c] && m.flips != []
      {
        if m.r == k - 1 {
          assert m !in head;
          assert m in head + row <==> m in row;
        } else {
          assert m !in row;
          assert m in head + row <==> m in head;
        }
      }
    }
  }

  /** `legalMoves` lists exactly the squares with a non-empty flip list, each
      with that list. */
  lemma LegalExact(b: Board, who: int)
    requires WellFormed(b)
    ensures forall m {:trigger m in Legal(b, who)} :: m in Legal(b, who) <==>
      InBounds(m.r, m.c) && m.flips == Flips(b, m.r, m.c, who) && m.flips != []
  {
    LegalUpToExact(FlipGrid(b, who), SIZE);
    forall m: Move | InBounds(m.r, m.c) {
      FlipGridAt(b, who, m.r, m.c);
    }
  }

  lemma LegalSound(b: Board, who: int, m: Move)
    requires WellFormed(b) && m in Legal(b, who)
    ensures InBounds(m.r, m.c) && m.flips == Flips(b, m.r, m.c, who) && m.flips != []
  {
    LegalExact(b, who);
  }

  lemma LegalComplete(b: Board, who: int, r: int, c: int)
    requires WellFormed(b) && InBounds(r, c) && Flips(b, r, c, who) != []
    ensures Move(r, c, Flips(b, r, c, who)) in Legal(b, who)
  {
    LegalExact(b, who);
  }

  /** Every listed move is on an empty square. */
  lemma LegalOnEmpty(b: Board, who: int)
    requires WellFormed(b)
    ensures forall m :: m in Legal(b, who) ==> InBounds(m.r, m.c) && b[m.r][m.c] == 0
  {
    forall m | m in Legal(b, who) ensures InBounds(m.r, m.c) && b[m.r][m.c] == 0 {
      LegalExact(b, who);
      FlipsOnlyOnEmpty(b, m.r, m.c, who);
    }
  }

  lemma FlipsOnlyOnEmpty(b: Board, r: int, c: int, who: int)
    requires WellFormed(b) && InBounds(r, c) && Flips(b, r, c, who) != []
    ensures b[r][c] == 0
  {
  }

  ghost predicate HasMove(b: Board, who: int)
    requires WellFormed(b)
  {
    exists r, c :: InBounds(r, c) && Flips(b, r, c, who) != []
  }

  lemma LegalNonEmpty(b: Board, who: int)
    requires WellFormed(b)
    ensures Legal(b, who) != [] <==> HasMove(b, who)
  {
    if HasMove(b, who) {
      var r, c :| InBounds(r, c) && Flips(b, r, c, who) != [];
      LegalComplete(b, who, r, c);
    }
    if Legal(b, who) != [] {
      LegalSound(b, who, Legal(b, who)[0]);
    }
  }

  /** `gameOver`. */
  function GameOver(b: Board): bool
    requires WellFormed(b)
  {
    Legal(b, 1) == [] && Legal(b, 2) == []
  }

  /** The game is over exactly when neither colour has a square that flips. */
  lemma GameOverIff(b: Board)
    requires WellFormed(b)
    ensures GameOver(b) <==> !HasMove(b, 1) && !HasMove(b, 2)
  {
    LegalNonEmpty(b, 1);
    LegalNonEmpty(b, 2);
  }

  // ---------------------------------------------------------------------------
  // Applying a move and counting discs
  // ---------------------------------------------------------------------------

  /** The board after `applyMove`: the played square and the flips become `who`. */
  function Applied(b: Board, m: Move, who: int): Board
    requires WellFormed(b)
  {
    seq(SIZE, i requires 0 <= i < SIZE =>
      seq(SIZE, j requires 0 <= j < SIZE =>
        if (i == m.r && j == m.c) || Pos(i, j) in m.flips then who else b[i][j]))
  }

  /** `applyMove(b, m, who)` on a copy of b; b itself is a value and stays as it was. */
  method ApplyMove(b: Board, m: Move, who: int) returns (nb: Board)
    requires WellFormed(b) && InBounds(m.r, m.c) && IsPlayer(who)
    requires forall q :: q in m.flips ==> InBounds(q.r, q.c)
    ensures nb == Applied(b, m, who)
    ensures WellFormed(nb)
  {
    nb := b[m.r := b[m.r][m.c := who]];
    var i := 0;
    while i < |m.flips|
      invariant 0 <= i <= |m.flips|
      invariant |nb| == SIZE && forall k :: 0 <= k < SIZE ==> |nb[k]| == SIZE
      invariant forall k, j :: InBounds(k, j) ==>
        nb[k][j] == if (k == m.r && j == m.c) || Pos(k, j) in m.flips[..i] then who else b[k][j]
    {
      var f := m.flips[i];
      assert m.flips[..i + 1] == m.flips[..i] + [f];
      nb := nb[f.r := nb[f.r][f.c := who]];
      i := i + 1;
    }
    assert m.flips[..i] == m.flips;
    forall k | 0 <= k < SIZE ensures nb[k] == Applied(b, m, who)[k] {
    }
  }

  /** Applying a move whose square is empty and whose flips are opponent discs
      adds the square and the flips to the mover's discs and takes the flips
      from the opponent's. */
  lemma AppliedStones(b: Board, m: Move, who: int)
    requires WellFormed(b) && InBounds(m.r, m.c) && IsPlayer(who) && b[m.r][m.c] == 0
    requires forall q :: q in m.flips ==> InBounds(q.r, q.c) && b[q.r][q.c] == Opponent(who)
    ensures WellFormed(Applied(b, m, who))
    ensures Stones(Applied(b, m, who), who) == Stones(b, who) + {Pos(m.r, m.c)} + set q | q in m.flips
    ensures Stones(Applied(b, m, who), Opponent(who)) == Stones(b, Opponent(who)) - set q | q in m.flips
  {
    var nb := Applied(b, m, who);
    var opp := Opponent(who);
    var fset := set q | q in m.flips;
    assert WellFormed(nb);
    forall q | q in Stones(nb, who) ensures q in Stones(b, who) + {Pos(m.r, m.c)} + fset {
      assert InBounds(q.r, q.c) && nb[q.r][q.c] == who;
    }
    forall q | q in Stones(b, who) + {Pos(m.r, m.c)} + fset ensures q in Stones(nb, who) {
      assert InBounds(q.r, q.c) && nb[q.r][q.c] == who;
    }
    forall q | q in Stones(nb, opp) ensures q in Stones(b, opp) - fset {
      assert InBounds(q.r, q.c) && nb[q.r][q.c] == opp;
    }
    forall q | q in Stones(b, opp) - fset ensures q in Stones(nb, opp) {
      assert InBounds(q.r, q.c) && nb[q.r][q.c] == opp;
    }
  }

  /** The disc counts after such a move: the mover gains the played square and
      every flipped square, the opponent loses every flipped square. */
  lemma AppliedCounts(b: Board, m: Move, who: int)
    requires WellFormed(b) && InBounds(m.r, m.c) && IsPlayer(who) && b[m.r][m.c] == 0
    requires forall q :: q in m.flips ==> InBounds(q.r, q.c) && b[q.r][q.c] == Opponent(who)
    ensures WellFormed(Applied(b, m, who))
    ensures |Stones(Applied(b, m, who), who)| == |Stones(b, who)| + |set q | q in m.flips| + 1
    ensures |Stones(Applied(b, m, who), Opponent(who))| == |Stones(b, Opponent(who))| - |set q | q in m.flips|
  {
    AppliedStones(b, m, who);
    var opp := Opponent(who);
    var fset := set q | q in m.flips;
    var mine, theirs := Stones(b, who), Stones(b, opp);
    forall q | q in fset ensures q in theirs && q !in mine {
      assert InBounds(q.r, q.c) && b[q.r][q.c] == opp;
    }
    assert Pos(m.r, m.c) !in mine && Pos(m.r, m.c) !in fset;
    GainLose(mine, theirs, fset, Pos(m.r, m.c));
  }

  lemma GainLose<T>(mine: set<T>, theirs: set<T>, f: set<T>, x: T)
    requires f <= theirs && mine * f == {} && x !in mine && x !in f
    ensures |mine + {x} + f| == |mine| + |f| + 1
    ensures |theirs - f| == |theirs| - |f|
  {
    assert theirs == (theirs - f) + f;
    assert (theirs - f) * f == {};
  }

  /** A legal move adds |flips| + 1 discs to the mover (each flipped square
      counted once) and takes the flipped ones from the opponent. */
  lemma ApplyCounts(b: Board, r: int, c: int, who: int)
    requires WellFormed(b) && InBounds(r, c) && IsPlayer(who)
    requires Flips(b, r, c, who) != []
    ensures var m := Move(r, c, Flips(b, r, c, who));
      WellFormed(Applied(b, m, who)) &&
      |Stones(Applied(b, m, who), who)| == |Stones(b, who)| + |set q | q in m.flips| + 1 &&
      |Stones(Applied(b, m, who), Opponent(who))| == |Stones(b, Opponent(who))| - |set q | q in m.flips|
  {
    FlipsFacts(b, r, c, who);
    FlipsOnlyOnEmpty(b, r, c, who);
    AppliedCounts(b, Move(r, c, Flips(b, r, c, who)), who);
  }

  ghost function StonesBefore(b: Board, p: int, r: int, c: int): set<Pos>
    requires WellFormed(b)
  {
    set i, j | 0 <= i < SIZE && 0 <= j < SIZE && (i < r || (i == r && j < c)) && b[i][j] == p :: Pos(i, j)
  }

  lemma StonesBeforeStep(b: Board, p: int, r: int, c: int)
    requires WellFormed(b) && InBounds(r, c)
    ensures StonesBefore(b, p, r, c + 1) ==
      StonesBefore(b, p, r, c) + (if b[r][c] == p then {Pos(r, c)} else {})
    ensures Pos(r, c) !in StonesBefore(b, p, r, c)
  {
  }

  /** Finishing row r is starting row r + 1. */
  lemma StonesBeforeNextRow(b: Board, p: int, r: int)
    requires WellFormed(b) && 0 <= r < SIZE
    ensures StonesBefore(b, p, r, SIZE) == StonesBefore(b, p, r + 1, 0)
  {
  }

  /** Before the first row nothing is counted; after the last, everything. */
  lemma StonesBeforeEnds(b: Board, p: int)
    requires WellFormed(b)
    ensures StonesBefore(b, p, 0, 0) == {}
    ensures StonesBefore(b, p, SIZE, 0) == Stones(b, p)
  {
  }

  /** `scoreOf`: the two disc counts; together never more than the 64 squares. */
  method ScoreOf(b: Board) returns (black: int, white: int)
    requires WellFormed(b)
    ensures black == |Stones(b, 1)| && white == |Stones(b, 2)|
    ensures black + white <= SIZE * SIZE
  {
    StonesBeforeEnds(b, 1);
    StonesBeforeEnds(b, 2);
    black, white := 0, 0;
    var r := 0;
    while r < SIZE
      invariant 0 <= r <= SIZE
      invariant black == |StonesBefore(b, 1, r, 0)| && white == |StonesBefore(b, 2, r, 0)|
      invariant black + white <= r * SIZE
    {
      black, white := CountRow(b, r, black, white);
      r := r + 1;
    }
  }

  /** The inner loop of `scoreOf`: row r adds its discs of each colour, at
      most SIZE in all. */
  method CountRow(b: Board, r: int, black0: int, white0: int) returns (black: int, white: int)
    requires WellFormed(b) && 0 <= r < SIZE
    requires black0 == |StonesBefore(b, 1, r, 0)| && white0 == |StonesBefore(b, 2, r, 0)|
    ensures black == |StonesBefore(b, 1, r + 1, 0)| && white == |StonesBefore(b, 2, r + 1, 0)|
    ensures black + white <= black0 + white0 + SIZE
  {
    black, white := black0, white0;
    var c := 0;
    while c < SIZE
      invariant 0 <= c <= SIZE
      invariant black == |StonesBefore(b, 1, r, c)| && white == |StonesBefore(b, 2, r, c)|
      invariant black + white <= black0 + white0 + c
    {
      StonesBeforeStep(b, 1, r, c);
      StonesBeforeStep(b, 2, r, c);
      if b[r][c] == 1 { black := black + 1; } else if b[r][c] == 2 { white := white + 1; }
      c := c + 1;
    }
    StonesBeforeNextRow(b, 1, r);
    StonesBeforeNextRow(b, 2, r);
  }

  // ---------------------------------------------------------------------------
  // The page state: `place`, `undo`, `restart`
  // ---------------------------------------------------------------------------

  /** `gameOver(board)`, as the page computes it. */
  method IsOver(b: Board) returns (over: bool)
    requires WellFormed(b)
    ensures over == GameOver(b)
  {
    var black := LegalMoves(b, 1);
    var white := LegalMoves(b, 2);
    over := |black| == 0 && |white| == 0;
  }

  /** The `valid` lookup of `place`: the listed move at (r, c), if any. */
  method LookupMove(b: Board, who: int, r: int, c: int) returns (found: Option<Move>)
    requires WellFormed(b)
    ensures found.None? <==> !(InBounds(r, c) && Flips(b, r, c, who) != [])
    ensures found.Some? ==> InBounds(r, c) && found.value == Move(r, c, Flips(b, r, c, who))
  {
    var valid := LegalMoves(b, who);
    var i := FindSquare(valid, r, c);
    if i == |valid| {
      if InBounds(r, c) && Flips(b, r, c, who) != [] {
        LegalComplete(b, who, r, c);
        assert false;
      }
      return None;
    }
    LegalSound(b, who, valid[i]);
    found := Some(valid[i]);
  }

  /** `valid.get(key)` on the map keyed by square, as a search of the move
      list: the index of a move at (r, c), or |ms| when there is none. Every
      listed move at (r, c) carries the same flips, so the move found is the
      one the map keeps. */
  method FindSquare(ms: seq<Move>, r: int, c: int) returns (i: nat)
    ensures i <= |ms|
    ensures i < |ms| ==> ms[i].r == r && ms[i].c == c
    ensures i == |ms| ==> forall m :: m in ms ==> !(m.r == r && m.c == c)
  {
    i := 0;
    while i < |ms| && !(ms[i].r == r && ms[i].c == c)
      invariant i <= |ms|
      invariant forall j :: 0 <= j < i ==> !(ms[j].r == r && ms[j].c == c)
    {
      i := i + 1;
    }
  }

  /** The pass rule of `place`: the opponent moves next unless only the mover can. */
  method TurnAfter(nb: Board, who: int) returns (next: int)
    requires WellFormed(nb) && IsPlayer(who)
    ensures next == NextTurn(nb, who)
    ensures IsPlayer(next)
  {
    var nextTurn := Opponent(who);
    var theirMoves := LegalMoves(nb, nextTurn);
    var ownMoves := LegalMoves(nb, who);
    LegalNonEmpty(nb, nextTurn);
    LegalNonEmpty(nb, who);
    if |theirMoves| == 0 && |ownMoves| == 0 {
      next := nextTurn;
    } else if |theirMoves| == 0 {
      next := who;
    } else {
      next := nextTurn;
    }
  }

  /** A history entry: the board and turn before a move, and the square played. */
  datatype Snapshot = Snapshot(board: Board, turn: int, last: Pos)

  /** Whose turn follows a move by `who` that produced `nb`: the turn passes
      unless the opponent has no move while the mover still has one. */
  ghost function NextTurn(nb: Board, who: int): int
    requires WellFormed(nb)
  {
    if !HasMove(nb, Opponent(who)) && HasMove(nb, who) then who else Opponent(who)
  }

  /** Every saved position is a well-formed board with a player to move. */
  ghost predicate Recorded(h: seq<Snapshot>)
  {
    forall i :: 0 <= i < |h| ==> WellFormed(h[i].board) && IsPlayer(h[i].turn)
  }

  /** Saving one more such position keeps the history so. */
  lemma RecordedPush(h: seq<Snapshot>, s: Snapshot)
    requires Recorded(h) && WellFormed(s.board) && IsPlayer(s.turn)
    ensures Recorded(h + [s]) && Recorded((h + [s])[..|h|])
  {
    assert (h + [s])[..|h|] == h;
  }

  class Game {
    var board: Board
    var turn: int
    var history: seq<Snapshot>
    var last: Option<Pos>

    ghost predicate Valid()
      reads this
    {
      WellFormed(board) && IsPlayer(turn) && Recorded(history)
    }

    /** `restart` (and the initial state). */
    constructor ()
      ensures Valid()
      ensures board == MakeBoard() && turn == 1 && history == [] && last == None
    {
      board, turn, history, last := MakeBoard(), 1, [], None;
    }

    /** `place(r, c)`: ignored once the game is over or when (r, c) flips nothing;
        otherwise the move is applied, the old position is pushed on the history
        and the turn passes, except that it stays when only the mover can go on. */
    method Place(r: int, c: int)
      requires Valid()
      modifies this
      ensures Valid()
      ensures GameOver(old(board)) || !InBounds(r, c) || Flips(old(board), r, c, old(turn)) == [] ==>
        board == old(board) && turn == old(turn) && history == old(history) && last == old(last)
      ensures !GameOver(old(board)) && InBounds(r, c) && Flips(old(board), r, c, old(turn)) != [] ==>
        board == Applied(old(board), Move(r, c, Flips(old(board), r, c, old(turn))), old(turn)) &&
        history == old(history) + [Snapshot(old(board), old(turn), Pos(r, c))] &&
        last == Some(Pos(r, c)) &&
        turn == NextTurn(board, old(turn))
    {
      var over := IsOver(board);
      if over { return; }
      var found := LookupMove(board, turn, r, c);
      if found.None? { return; }
      FlipsFacts(board, r, c, turn);
      RecordedPush(history, Snapshot(board, turn, Pos(r, c)));
      history := history + [Snapshot(board, turn, Pos(r, c))];
      var nb := ApplyMove(board, found.value, turn);
      var next := TurnAfter(nb, turn);
      board, last, turn := nb, Some(Pos(r, c)), next;
    }

    /** `undo`: restores the board and turn saved by the last move; `last` becomes
        the square of the move taken back. */
    method Undo()
      requires Valid()
      modifies this
      ensures Valid()
      ensures old(history) == [] ==>
        board == old(board) && turn == old(turn) && history == old(history) && last == old(last)
      ensures old(history) != [] ==>
        var prev := old(history)[|old(history)| - 1];
        board == prev.board && turn == prev.turn && last == Some(prev.last) &&
        history == old(history)[..|old(history)| - 1]
    {
      if |history| == 0 { return; }
      var prev := history[|history| - 1];
      board, turn, last := prev.board, prev.turn, Some(prev.last);
      history := history[..|history| - 1];
    }
  }

  /** A move followed by `undo` gives back the board, the turn and the history. */
  method PlaceThenUndo(g: Game, r: int, c: int)
    requires g.Valid()
    requires !GameOver(g.board) && InBounds(r, c) && Flips(g.board, r, c, g.turn) != []
    modifies g
    ensures g.Valid()
    ensures g.board == old(g.board) && g.turn == old(g.turn) && g.history == old(g.history)
    ensures g.last == Some(Pos(r, c))
  {
    g.Place(r, c);
    g.Undo();
  }
}

=== FILE: snake.dfy ===
/** Snake on a 20 x 20 board: the turning guard and the tick. */
module Snake {
  const SIZE: int := 20

  datatype Point = Point(x: int, y: int)
  datatype Key = Up | Down | Left | Right

  const START: Point := Point(10, 10)

  predicate InBounds(p: Point) { 0 <= p.x < SIZE && 0 <= p.y < SIZE }

  function Add(p: Point, d: Point): Point { Point(p.x + d.x, p.y + d.y) }
  function Neg(d: Point): Point { Point(-d.x, -d.y) }

  /** The four unit directions. */
  predicate Unit(d: Point)
  {
    d == Point(0, -1) || d == Point(0, 1) || d == Point(-1, 0) || d == Point(1, 0)
  }

  /** `randomFood`: `Math.floor(Math.random() * SIZE)` on each axis, for
      rolls in [0, 1). */
  function RandomFood(rx: real, ry: real): (p: Point)
    requires 0.0 <= rx < 1.0 && 0.0 <= ry < 1.0
    ensures InBounds(p)
  {
    Point((rx * SIZE as real).Floor, (ry * SIZE as real).Floor)
  }

  /** The key handler as written: a key is refused only when it reverses
      the direction the last key set. */
  function KeyAsWritten(dir: Point, k: Key): Point
  {
    match k
    case Up => if dir.y != 1 then Point(0, -1) else dir
    case Down => if dir.y != -1 then Point(0, 1) else dir
    case Left => if dir.x != 1 then Point(-1, 0) else dir
    case Right => if dir.x != -1 then Point(1, 0) else dir
  }

  /** The direction an arrow key asks for. */
  function Arrow(k: Key): Point
  {
    match k
    case Up => Point(0, -1)
    case Down => Point(0, 1)
    case Left => Point(-1, 0)
    case Right => Point(1, 0)
  }

  /** The guard as intended: a key is refused when it reverses the
      direction the snake last moved in, and taken otherwise. */
  function Steer(dir: Point, heading: Point, k: Key): (d: Point)
    ensures Arrow(k) != Neg(heading) ==> d == Arrow(k)
    ensures Arrow(k) == Neg(heading) ==> d == dir
    ensures Unit(dir) ==> Unit(d)
  {
    var want := Arrow(k);
    if want == Neg(heading) then dir else want
  }

  /** Between two moves, before any other key, the intended guard and the
      written one agree: the last key set the direction the snake moved in. */
  lemma SteerAgreesAsWritten(dir: Point, k: Key)
    requires Unit(dir)
    ensures Steer(dir, dir, k) == KeyAsWritten(dir, k)
  {
  }

  /** As written, two keys pressed within one tick turn a snake heading up
      straight back down, onto its own neck. */
  lemma TwoKeysReverseAsWritten()
    ensures KeyAsWritten(KeyAsWritten(Point(0, -1), Left), Down) == Neg(Point(0, -1))
  {
  }

  lemma UnitNotReverse(d: Point)
    requires Unit(d)
    ensures d != Neg(d)
  {
  }

  /** The neck: the second segment lies one step behind the head. */
  ghost predicate NeckBehind(body: seq<Point>, heading: Point)
  {
    |body| >= 2 ==> body[1] == Add(body[0], Neg(heading))
  }

  /** With the intended guard the snake never turns onto its neck: the
      next head is never the second segment. */
  lemma NoNeckBite(body: seq<Point>, heading: Point, dir: Point)
    requires |body| >= 2 && NeckBehind(body, heading) && dir != Neg(heading)
    ensures Add(body[0], dir) != body[1]
  {
  }

  /** As written the neck is bitten: after the two keys the next head is
      the second segment, so the tick resets the snake. */
  lemma NeckBittenAsWritten(body: seq<Point>)
    requires |body| >= 2 && NeckBehind(body, Point(0, -1))
    ensures Add(body[0], KeyAsWritten(KeyAsWritten(Point(0, -1), Left), Down)) == body[1]
  {
  }

  class Game {
    var dir: Point
    /** The direction of the last move. */
    var heading: Point
    var body: seq<Point>
    var food: Point

    ghost predicate Valid()
      reads this
    {
      |body| >= 1 && (forall k :: 0 <= k < |body| ==> InBounds(body[k])) && InBounds(food) &&
      Unit(dir) && Unit(heading) && dir != Neg(heading) && NeckBehind(body, heading)
    }

    constructor (rx: real, ry: real)
      requires 0.0 <= rx < 1.0 && 0.0 <= ry < 1.0
      ensures Valid() && body == [START] && dir == Point(0, -1) && food == RandomFood(rx, ry)
    {
      dir, heading, body := Point(0, -1), Point(0, -1), [START];
      food := RandomFood(rx, ry);
    }

    /** An arrow key, guarded against reversing. */
    method Press(k: Key)
      requires Valid()
      modifies this
      ensures Valid() && dir == Steer(old(dir), heading, k)
      ensures heading == old(heading) && body == old(body) && food == old(food)
    {
      dir := Steer(dir, heading, k);
    }

    /** One tick: the head moves one step; off the board or onto the body
        the snake restarts as one segment at the centre with new food;
        otherwise the head is added, and the tail is dropped unless the head
        reached the food, which then moves. */
    method Tick(rx: real, ry: real)
      requires Valid() && 0.0 <= rx < 1.0 && 0.0 <= ry < 1.0
      modifies this
      ensures Valid() && dir == old(dir) && heading == old(dir)
      ensures var head := Add(old(body)[0], old(dir));
        if !InBounds(head) || head in old(body) then body == [START] && food == RandomFood(rx, ry)
        else if head == old(food) then body == [head] + old(body) && food == RandomFood(rx, ry)
        else body == [head] + old(body)[..|old(body)| - 1] && food == old(food)
    {
      var head := Add(body[0], dir);
      if !InBounds(head) || head in body {
        body := [START];
        food := RandomFood(rx, ry);
      } else {
        body := [head] + body;
        if head == food {
          food := RandomFood(rx, ry);
        } else {
          body := body[..|body| - 1];
        }
      }
      heading := dir;
      UnitNotReverse(dir);
    }
  }

  /** A tick grows the snake by one exactly when it eats, keeps its length
      when it only moves, and otherwise leaves one segment. */
  lemma TickLength(body: seq<Point>, dir: Point, food: Point, body': seq<Point>)
    requires |body| >= 1
    requires var head := Add(body[0], dir);
      if !InBounds(head) || head in body then body' == [START]
      else if head == food then body' == [head] + body
      else body' == [head] + body[..|body| - 1]
    ensures var head := Add(body[0], dir);
      |body'| == if !InBounds(head) || head in body then 1 else if head == food then |body| + 1 else |body|
  {
  }
}

=== FILE: space.dfy ===
/** Space shooter on a 300 x 400 field: the player's cannon, rising
    bullets, hits, and the marching enemy formation. */
module Space {
  import opened Common

  const WIDTH: int := 300
  const HEIGHT: int := 400

  datatype Pos = Pos(x: int, y: int)
  datatype Key = LeftKey | RightKey | Fire

  /** The 3 x 6 formation, row by row: columns 40 apart from x = 40, rows
      30 apart from y = 40. */
  function Formation(): (es: seq<Pos>)
    ensures |es| == 18
    ensures forall i :: 0 <= i < 18 ==> es[i] == Pos(40 + (i % 6) * 40, 40 + (i / 6) * 30)
  {
    seq(18, i requires 0 <= i < 18 => Pos(40 + (i % 6) * 40, 40 + (i / 6) * 30))
  }

  /** Every bullet rises 6; those at -10 or above the top are dropped. */
  function Rise(bs: seq<Pos>): (r: seq<Pos>)
    ensures forall b :: b in r <==> b.y > -10 && Pos(b.x, b.y + 6) in bs
    ensures |r| <= |bs|
  {
    if bs == [] then []
    else (if bs[0].y - 6 > -10 then [Pos(bs[0].x, bs[0].y - 6)] else []) + Rise(bs[1..])
  }

  /** A bullet within 15 of an enemy on both axes hits it. */
  predicate Hits(b: Pos, e: Pos)
  {
    Abs(b.x - e.x) < 15 && Abs(b.y - e.y) < 15
  }

  /** The first enemy the bullet hits. */
  function FirstHit(b: Pos, es: seq<Pos>): (r: Option<nat>)
    ensures r.Some? ==> r.value < |es| && Hits(b, es[r.value]) && forall k :: 0 <= k < r.value ==> !Hits(b, es[k])
    ensures r.None? ==> forall k :: 0 <= k < |es| ==> !Hits(b, es[k])
  {
    if es == [] then None
    else if Hits(b, es[0]) then Some(0)
    else match FirstHit(b, es[1..]) case None => None case Some(j) => Some(j + 1)
  }

  datatype Field = Field(bullets: seq<Pos>, enemies: seq<Pos>)

  /** Bullets in order: a bullet that hits takes the first enemy it hits
      with it; one that hits nothing stays. */
  function Shootout(bs: seq<Pos>, es: seq<Pos>): Field
  {
    if bs == [] then Field([], es)
    else match FirstHit(bs[0], es)
      case Some(j) => Shootout(bs[1..], es[..j] + es[j + 1..])
      case None => var f := Shootout(bs[1..], es); Field([bs[0]] + f.bullets, f.enemies)
  }

  /** Every bullet that is used up takes exactly one enemy with it: as many
      enemies go as bullets, and with no enemies every bullet stays. */
  lemma {:induction false} ShootoutCounts(bs: seq<Pos>, es: seq<Pos>)
    ensures var f := Shootout(bs, es); |es| - |f.enemies| == |bs| - |f.bullets|
    ensures |es| == 0 ==> Shootout(bs, es) == Field(bs, es)
  {
    if bs != [] {
      match FirstHit(bs[0], es)
      case Some(j) => ShootoutCounts(bs[1..], es[..j] + es[j + 1..]);
      case None =>
        ShootoutCounts(bs[1..], es);
        assert bs == [bs[0]] + bs[1..];
    }
  }

  /** Nothing is created in a shootout: the bullets and enemies left are
      drawn from those that were there. */
  lemma {:induction false} ShootoutSubsets(bs: seq<Pos>, es: seq<Pos>)
    ensures var f := Shootout(bs, es); multiset(f.enemies) <= multiset(es) && multiset(f.bullets) <= multiset(bs)
  {
    if bs != [] {
      assert bs == [bs[0]] + bs[1..];
      match FirstHit(bs[0], es)
      case Some(j) =>
        ShootoutSubsets(bs[1..], es[..j] + es[j + 1..]);
        assert es == es[..j] + [es[j]] + es[j + 1..];
      case None =>
        ShootoutSubsets(bs[1..], es);
    }
  }

  /** Enemies shift along dir; if any ends up past an edge the direction
      flips and the whole formation drops 10. */
  function March(es: seq<Pos>, dir: int): (f: (seq<Pos>, int))
  {
    var moved := seq(|es|, i requires 0 <= i < |es| => Pos(es[i].x + dir, es[i].y));
    if exists k :: 0 <= k < |moved| && (moved[k].x > WIDTH - 20 || moved[k].x < 20) then
      (seq(|es|, i requires 0 <= i < |es| => Pos(moved[i].x, moved[i].y + 10)), -dir)
    else (moved, dir)
  }

  /** The march keeps the formation's size and shape: every enemy moves by
      the same step, drops 10 exactly when some enemy reached an edge, and
      the direction flips exactly then. */
  lemma MarchFacts(es: seq<Pos>, dir: int)
    ensures var (es', d') := March(es, dir);
      var edge := exists k :: 0 <= k < |es| && (es[k].x + dir > WIDTH - 20 || es[k].x + dir < 20);
      |es'| == |es| && d' == (if edge then -dir else dir) &&
      forall i :: 0 <= i < |es| ==> es'[i] == Pos(es[i].x + dir, es[i].y + (if edge then 10 else 0))
  {
    var moved := seq(|es|, i requires 0 <= i < |es| => Pos(es[i].x + dir, es[i].y));
    var edge := exists k :: 0 <= k < |es| && (es[k].x + dir > WIDTH - 20 || es[k].x + dir < 20);
    if edge {
      var k :| 0 <= k < |es| && (es[k].x + dir > WIDTH - 20 || es[k].x + dir < 20);
      assert moved[k].x > WIDTH - 20 || moved[k].x < 20;
    }
  }

  /** Some enemy came lower than 60 above the bottom. */
  predicate Landed(es: seq<Pos>)
  {
    exists k :: 0 <= k < |es| && es[k].y > HEIGHT - 60
  }

  /** The formation starts well clear of the bottom. */
  lemma FormationAloft()
    ensures !Landed(Formation())
  {
  }

  class Game {
    var playerX: int
    /** Horizontal speed of the cannon while an arrow key is held. */
    var speed: int
    var bullets: seq<Pos>
    var enemies: seq<Pos>
    var enemyDir: int

    ghost predicate Valid()
      reads this
    {
      20 <= playerX <= WIDTH - 20 && (speed == -4 || speed == 0 || speed == 4) && (enemyDir == 1 || enemyDir == -1)
    }

    constructor ()
      ensures Valid() && playerX == WIDTH / 2 && speed == 0 && bullets == [] && enemies == Formation() && enemyDir == 1
    {
      speed := 0;
      playerX, bullets, enemyDir := WIDTH / 2, [], 1;
      enemies := Formation();
      new;
      Reset();
    }

    /** `reset`: the cannon centred, no bullets, the formation back at the
        top moving right. */
    method Reset()
      modifies this
      ensures playerX == WIDTH / 2 && bullets == [] && enemies == Formation() && enemyDir == 1 && speed == old(speed)
    {
      playerX, bullets, enemyDir := WIDTH / 2, [], 1;
      var es: seq<Pos> := [];
      var r := 0;
      while r < 3
        invariant 0 <= r <= 3 && es == Formation()[..r * 6]
      {
        var c := 0;
        while c < 6
          invariant 0 <= c <= 6 && es == Formation()[..r * 6 + c]
        {
          es := es + [Pos(40 + c * 40, 40 + r * 30)];
          c := c + 1;
        }
        r := r + 1;
      }
      enemies := es;
    }

    /** Key down: an arrow sets the cannon moving, the space bar fires from
        the cannon. */
    method Press(k: Key)
      requires Valid()
      modifies this
      ensures Valid() && playerX == old(playerX) && enemies == old(enemies) && enemyDir == old(enemyDir)
      ensures k == LeftKey ==> speed == -4 && bullets == old(bullets)
      ensures k == RightKey ==> speed == 4 && bullets == old(bullets)
      ensures k == Fire ==> speed == old(speed) && bullets == old(bullets) + [Pos(playerX, HEIGHT - 40)]
    {
      match k
      case LeftKey => speed := -4;
      case RightKey => speed := 4;
      case Fire => bullets := bullets + [Pos(playerX, HEIGHT - 40)];
    }

    /** Key up: the cannon stops. */
    method Release()
      requires Valid()
      modifies this
      ensures Valid() && speed == 0
      ensures playerX == old(playerX) && bullets == old(bullets) && enemies == old(enemies) && enemyDir == old(enemyDir)
    {
      speed := 0;
    }

    /** The hit loop: each bullet in turn against the enemies left. */
    method Fight()
      modifies this
      ensures Field(bullets, enemies) == Shootout(old(bullets), old(enemies))
      ensures playerX == old(playerX) && speed == old(speed) && enemyDir == old(enemyDir)
    {
      var bs, es := bullets, enemies;
      var kept: seq<Pos> := [];
      var i := 0;
      while i < |bs|
        invariant 0 <= i <= |bs|
        invariant var f := Shootout(bs[i..], es); Shootout(bs, enemies) == Field(kept + f.bullets, f.enemies)
      {
        assert bs[i..][1..] == bs[i + 1..];
        var hit := FirstHit(bs[i], es);
        if hit.Some? {
          es := es[..hit.value] + es[hit.value + 1..];
        } else {
          kept := kept + [bs[i]];
        }
        i := i + 1;
      }
      assert bs[i..] == [];
      bullets, enemies := kept, es;
    }

    /** Bullets rise, then the hit loop: every bullet left is on the field. */
    method Volley()
      modifies this
      ensures Field(bullets, enemies) == Shootout(Rise(old(bullets)), old(enemies))
      ensures forall b :: b in bullets ==> b.y > -10
      ensures playerX == old(playerX) && speed == old(speed) && enemyDir == old(enemyDir)
    {
      bullets := Rise(bullets);
      ghost var risen := bullets;
      Fight();
      ShootoutSubsets(risen, old(enemies));
      assert forall b :: b in bullets ==> b in multiset(risen);
    }

    /** One tick: the cannon moves within [20, WIDTH - 20], bullets rise,
        hits are settled, the formation marches, and an enemy reaching the
        bottom restarts the game. */
    method Tick()
      requires Valid()
      modifies this
      ensures Valid() && speed == old(speed) && !Landed(enemies)
      ensures forall b :: b in bullets ==> b.y > -10
      ensures var f := Shootout(Rise(old(bullets)), old(enemies));
        var m := March(f.enemies, old(enemyDir));
        if Landed(m.0) then bullets == [] && enemies == Formation() && enemyDir == 1 && playerX == WIDTH / 2
        else bullets == f.bullets && enemies == m.0 && enemyDir == m.1 &&
             playerX == Clamp(old(playerX) + old(speed), 20, WIDTH - 20)
    {
      playerX := Clamp(playerX + speed, 20, WIDTH - 20);
      Volley();
      MarchFacts(enemies, enemyDir);
      var m := March(enemies, enemyDir);
      enemies, enemyDir := m.0, m.1;
      if Landed(enemies) {
        Reset();
        FormationAloft();
      }
    }
  }
}

=== FILE: tank90.dfy ===
/** Tank 90 on a 13 x 13 map: tank moves, shooting, the bullet step (brick
    sub-block masks, steel and water, the base, tank hits, bullets meeting
    head-on), cooldowns, the enemy turn and enemy reinforcements. */
module Tank90 {
  import opened Common

  const ROWS: int := 13
  const COLS: int := 13
  /** Steps of cooldown after a shot. */
  const COOLDOWN: int := 3

  datatype Tile = Empty | Brick | Steel | Water | Grass | Base
  datatype Vec = Vec(x: int, y: int)
  datatype Tank = Tank(x: int, y: int, dir: Vec, me: bool, alive: bool, cd: int)
  datatype Bullet = Bullet(x: int, y: int, dir: Vec, me: bool, alive: bool)
  datatype Judge = DestroyBrick | Block | Pass

  type Grid = seq<seq<Tile>>
  /** Brick sub-blocks: bit 0 top left, bit 1 top right, bit 2 bottom left,
      bit 3 bottom right; a set bit is a sub-block still standing. */
  type Masks = seq<seq<bv4>>

  const DIRS: seq<Vec> := [Vec(0, -1), Vec(1, 0), Vec(0, 1), Vec(-1, 0)]
  const SPAWNS: seq<Vec> := [Vec(1, 1), Vec(6, 1), Vec(11, 1)]
  const RESPAWN: Tank := Tank(6, 10, Vec(0, -1), true, true, 0)
  /** The base's cell, where the enemy aim looks. */
  const BASE: Vec := Vec(6, 11)

  /** A tank's heading: one of the four directions, or none at all, which
      the enemy aim can pick (see Candidates). */
  predicate Heading(d: Vec) { d in DIRS || d == Vec(0, 0) }

  const MAP_1: seq<string> := [
    "#############",
    "#   #   #   #",
    "# # # # # # #",
    "#   ###   # #",
    "###   #   # #",
    "#   #   ### #",
    "# #   #     #",
    "# ### ### ###",
    "# ~~~   ~~~ #",
    "# ~~~   ~~~ #",
    "#    # #    #",
    "#    #E#    #",
    "#############"
  ]

  /** The first map is 13 x 13, walled in by bricks, with the base at
      (6, 11) and passable ground on the player's respawn cell and on every
      enemy spawn spot. */
  lemma MapFacts()
    ensures |MAP_1| == ROWS && forall r :: 0 <= r < ROWS ==> |MAP_1[r]| == COLS
    ensures ParseTile(MAP_1[BASE.y][BASE.x]) == Base && Passable(ParseTile(MAP_1[RESPAWN.y][RESPAWN.x]))
    ensures forall k :: 0 <= k < |SPAWNS| ==> Passable(ParseTile(MAP_1[SPAWNS[k].y][SPAWNS[k].x]))
    ensures forall c :: 0 <= c < COLS ==> MAP_1[0][c] == '#' && MAP_1[ROWS - 1][c] == '#'
  {
  }

  predicate InBounds(x: int, y: int) { 0 <= x < COLS && 0 <= y < ROWS }

  predicate Shaped<T>(g: seq<seq<T>>)
  {
    |g| == ROWS && forall r :: 0 <= r < |g| ==> |g[r]| == COLS
  }

  function Set<T>(g: seq<seq<T>>, x: int, y: int, v: T): (g': seq<seq<T>>)
    requires Shaped(g) && InBounds(x, y)
    ensures Shaped(g') && g'[y][x] == v
    ensures forall r, c :: InBounds(c, r) && (r != y || c != x) ==> g'[r][c] == g[r][c]
  {
    g[y := g[y][x := v]]
  }

  function ParseTile(ch: char): Tile
  {
    if ch == '#' then Brick else if ch == '@' then Steel else if ch == '~' then Water
    else if ch == '"' then Grass else if ch == 'E' then Base else Empty
  }

  // ------------------------------------------------------------ cells

  /** `cellAt`: the tile at v; everything off the map reads as brick. */
  function CellAt(g: Grid, v: Vec): (t: Tile)
    requires Shaped(g)
    ensures !InBounds(v.x, v.y) ==> t == Brick
  {
    if !InBounds(v.x, v.y) then Brick else g[v.y][v.x]
  }

  /** Tanks may enter empty ground, grass and the base. */
  predicate Passable(t: Tile)
  {
    t == Empty || t == Grass || t == Base
  }

  /** `blockBullet`: bricks are damaged, steel and water stop bullets, the
      rest lets them through. */
  function BlockBullet(t: Tile): (j: Judge)
    ensures j == DestroyBrick <==> t == Brick
    ensures j == Block <==> t == Steel || t == Water
  {
    if t == Brick then DestroyBrick else if t == Steel || t == Water then Block else Pass
  }

  /** A tank may never stand on a cell a bullet cannot pass, except bricks:
      what stops tanks is a superset of what stops bullets. */
  lemma PassableLetsBulletsThrough(t: Tile)
    ensures Passable(t) ==> BlockBullet(t) == Pass
    ensures BlockBullet(t) == Pass ==> Passable(t)
  {
  }

  // ------------------------------------------------------------ moving

  /** `tryMove`: one step along the tank's direction, clamped to the map,
      taken only onto a passable cell. */
  function TryMove(t: Tank, g: Grid): (t': Tank)
    requires Shaped(g)
  {
    var nx, ny := Clamp(t.x + t.dir.x, 0, COLS - 1), Clamp(t.y + t.dir.y, 0, ROWS - 1);
    if Passable(CellAt(g, Vec(nx, ny))) then t.(x := nx, y := ny) else t
  }

  /** A tank moves at most one cell along its direction, stays on the map,
      lands only on a passable cell, and otherwise stays put; nothing but
      its position changes, and a tank without a direction never moves. */
  lemma TryMoveFacts(t: Tank, g: Grid)
    requires Shaped(g) && InBounds(t.x, t.y) && Heading(t.dir)
    ensures var t' := TryMove(t, g);
      InBounds(t'.x, t'.y) && t'.dir == t.dir && t'.cd == t.cd && t'.alive == t.alive && t'.me == t.me &&
      ((t'.x == t.x && t'.y == t.y) || (t'.x == t.x + t.dir.x && t'.y == t.y + t.dir.y && Passable(g[t'.y][t'.x])))
    ensures var t' := TryMove(t, g);
      (t'.x != t.x || t'.y != t.y) <==>
        t.dir != Vec(0, 0) && InBounds(t.x + t.dir.x, t.y + t.dir.y) && Passable(g[t.y + t.dir.y][t.x + t.dir.x])
  {
  }

  // ------------------------------------------------------------ shooting

  datatype Shot = Shot(tank: Tank, bullets: seq<Bullet>)

  /** Some live bullet belongs to the given side. */
  predicate SideHasBullet(bs: seq<Bullet>, me: bool)
  {
    exists i :: 0 <= i < |bs| && bs[i].alive && bs[i].me == me
  }

  /** `shoot`: refused while cooling down, while the tank's side already
      has a live bullet, or when the cell ahead is off the map; otherwise a
      bullet appears on the cell ahead and the cooldown restarts. */
  function Shoot(t: Tank, bs: seq<Bullet>): (s: Shot)
  {
    var sx, sy := t.x + t.dir.x, t.y + t.dir.y;
    if t.cd > 0 || SideHasBullet(bs, t.me) || !InBounds(sx, sy) then Shot(t, bs)
    else Shot(t.(cd := COOLDOWN), bs + [Bullet(sx, sy, t.dir, t.me, true)])
  }

  /** A shot is refused exactly in the three cases; an accepted shot adds
      exactly one live bullet of the tank's side, moving the tank's way,
      and sets the cooldown to 3. */
  lemma ShootFacts(t: Tank, bs: seq<Bullet>)
    ensures var s := Shoot(t, bs);
      s == Shot(t, bs) <==> t.cd > 0 || SideHasBullet(bs, t.me) || !InBounds(t.x + t.dir.x, t.y + t.dir.y)
    ensures var s := Shoot(t, bs);
      s != Shot(t, bs) ==>
        s.tank == t.(cd := COOLDOWN) && |s.bullets| == |bs| + 1 && s.bullets[..|bs|] == bs &&
        s.bullets[|bs|] == Bullet(t.x + t.dir.x, t.y + t.dir.y, t.dir, t.me, true)
  {
    var s := Shoot(t, bs);
    if !(t.cd > 0 || SideHasBullet(bs, t.me) || !InBounds(t.x + t.dir.x, t.y + t.dir.y)) {
      assert |s.bullets| == |bs| + 1;
    }
  }

  // ------------------------------------------------------------ bricks

  /** The sub-blocks a hit clears: the side the bullet came from. */
  function ClearedSide(dir: Vec): bv4
  {
    if dir.x != 0 then (if dir.x > 0 then 1 | 4 else 2 | 8)
    else (if dir.y > 0 then 1 | 2 else 4 | 8)
  }

  /** The brick's mask after a hit by a bullet moving along dir. */
  function HitMask(m: bv4, dir: Vec): bv4
  {
    m & !ClearedSide(dir)
  }

  /** A hit only removes sub-blocks, and removes those on the side the
      bullet came from; a second hit from the same side removes nothing
      more, and hits from both horizontal (or both vertical) sides level the
      brick. */
  lemma HitMaskFacts(m: bv4, dir: Vec)
    ensures HitMask(m, dir) & m == HitMask(m, dir)
    ensures HitMask(m, dir) & ClearedSide(dir) == 0
    ensures HitMask(HitMask(m, dir), dir) == HitMask(m, dir)
    ensures HitMask(HitMask(m, Vec(1, 0)), Vec(-1, 0)) == 0
    ensures HitMask(HitMask(m, Vec(0, 1)), Vec(0, -1)) == 0
  {
  }

  // ------------------------------------------------------------ tank hits

  /** Live enemies standing on (x, y) are destroyed; the rest are kept. */
  function KillAt(es: seq<Tank>, x: int, y: int): (es': seq<Tank>)
    ensures |es'| == |es|
    ensures forall i :: 0 <= i < |es| ==>
              es'[i] == if es[i].alive && es[i].x == x && es[i].y == y then es[i].(alive := false) else es[i]
  {
    seq(|es|, i requires 0 <= i < |es| =>
      if es[i].alive && es[i].x == x && es[i].y == y then es[i].(alive := false) else es[i])
  }

  /** Number of live enemies among the first n standing on (x, y). */
  function Kills(es: seq<Tank>, x: int, y: int, n: nat): nat
    requires n <= |es|
  {
    if n == 0 then 0
    else Kills(es, x, y, n - 1) + (if es[n - 1].alive && es[n - 1].x == x && es[n - 1].y == y then 1 else 0)
  }

  lemma {:induction false} KillsZero(es: seq<Tank>, x: int, y: int, n: nat)
    requires n <= |es|
    ensures Kills(es, x, y, n) == 0 <==> forall i :: 0 <= i < n ==> !(es[i].alive && es[i].x == x && es[i].y == y)
  {
    if n > 0 {
      KillsZero(es, x, y, n - 1);
    }
  }

  // ------------------------------------------------------------ the world

  datatype World = World(grid: Grid, mask: Masks, me: Tank, enemies: seq<Tank>, bullets: seq<Bullet>,
                         score: int, lives: int, over: bool, wave: int)

  predicate WorldShaped(w: World)
  {
    Shaped(w.grid) && Shaped(w.mask)
  }

  /** A cell is a brick exactly while some sub-block of it stands. */
  ghost predicate BricksMatchMasks(g: Grid, m: Masks)
    requires Shaped(g) && Shaped(m)
  {
    forall r, c :: InBounds(c, r) ==> (g[r][c] == Brick <==> m[r][c] != 0)
  }

  /** One bullet of the step loop: it flies one cell; off the map it dies;
      on a brick it clears that brick's sub-blocks on its side (the brick
      turning to empty ground once none is left) and dies; steel and water
      stop it; on the base the game is over; a player bullet destroys every
      live enemy on the cell (100 points each) and dies if it hit one; an
      enemy bullet on the player's tank costs a life (game over at 0,
      otherwise a respawn) and dies; a bullet that survives moves. */
  function Advance1(w: World, i: int): (w': World)
    requires WorldShaped(w) && 0 <= i < |w.bullets|
    ensures WorldShaped(w') && |w'.bullets| == |w.bullets| && w'.wave == w.wave
  {
    var b := w.bullets[i];
    var dead := b.(alive := false);
    if !b.alive then w
    else
      var nx, ny := b.x + b.dir.x, b.y + b.dir.y;
      if !InBounds(nx, ny) then w.(bullets := w.bullets[i := dead])
      else
        var hit := w.grid[ny][nx];
        match BlockBullet(hit)
        case DestroyBrick =>
          var m := HitMask(w.mask[ny][nx], b.dir);
          w.(mask := Set(w.mask, nx, ny, m),
             grid := if m == 0 then Set(w.grid, nx, ny, Empty) else w.grid,
             bullets := w.bullets[i := dead])
        case Block => w.(bullets := w.bullets[i := dead])
        case Pass =>
          if hit == Base then w.(bullets := w.bullets[i := dead], over := true)
          else if b.me then
            var k := Kills(w.enemies, nx, ny, |w.enemies|);
            w.(enemies := KillAt(w.enemies, nx, ny), score := w.score + 100 * k,
               bullets := w.bullets[i := if k > 0 then dead else b.(x := nx, y := ny)])
          else if w.me.alive && w.me.x == nx && w.me.y == ny then
            var lives := w.lives - 1;
            w.(me := if lives <= 0 then w.me.(alive := false) else RESPAWN, lives := lives,
               over := w.over || lives <= 0, bullets := w.bullets[i := dead])
          else w.(bullets := w.bullets[i := b.(x := nx, y := ny)])
  }

  /** The step of a live player bullet entering a passable cell other than
      the base. */
  lemma ShotOutcome(w: World, i: int)
    requires WorldShaped(w) && 0 <= i < |w.bullets| && w.bullets[i].alive && w.bullets[i].me
    requires var b := w.bullets[i];
             (InBounds(b.x + b.dir.x, b.y + b.dir.y) &&
              BlockBullet(w.grid[b.y + b.dir.y][b.x + b.dir.x]) == Pass && w.grid[b.y + b.dir.y][b.x + b.dir.x] != Base)
    ensures var b := w.bullets[i];
            var nx, ny := b.x + b.dir.x, b.y + b.dir.y;
            var k := Kills(w.enemies, nx, ny, |w.enemies|);
            (Advance1(w, i) == w.(enemies := KillAt(w.enemies, nx, ny), score := w.score + 100 * k,
                                  bullets := w.bullets[i := if k > 0 then b.(alive := false) else b.(x := nx, y := ny)]))
  {
  }

  /** The first n bullets processed in order. */
  function AdvanceUpTo(w: World, n: nat): (w': World)
    requires WorldShaped(w) && n <= |w.bullets|
    ensures WorldShaped(w') && |w'.bullets| == |w.bullets| && w'.wave == w.wave
  {
    if n == 0 then w else Advance1(AdvanceUpTo(w, n - 1), n - 1)
  }

  /** What one bullet does to the map and the tanks: only a hit on a brick
      touches the map; the player's tank is kept, destroyed or respawned;
      enemies are kept or lose those on the cell reached. */
  lemma Advance1Shape(w: World, i: int)
    requires WorldShaped(w) && 0 <= i < |w.bullets|
    ensures var b, w' := w.bullets[i], Advance1(w, i);
      var nx, ny := b.x + b.dir.x, b.y + b.dir.y;
      if b.alive && InBounds(nx, ny) && w.grid[ny][nx] == Brick then
        var m := HitMask(w.mask[ny][nx], b.dir);
        w'.mask == Set(w.mask, nx, ny, m) && w'.grid == (if m == 0 then Set(w.grid, nx, ny, Empty) else w.grid)
      else w'.grid == w.grid && w'.mask == w.mask
    ensures var b, w' := w.bullets[i], Advance1(w, i);
      (w'.me == w.me || w'.me == w.me.(alive := false) || w'.me == RESPAWN) &&
      (w'.enemies == w.enemies || w'.enemies == KillAt(w.enemies, b.x + b.dir.x, b.y + b.dir.y))
  {
  }

  /** A brick hit only clears sub-blocks of the brick hit, turning it into
      empty ground once none is left; every other cell is unchanged. */
  lemma BrickHit(g: Grid, m: Masks, x: int, y: int, dir: Vec)
    requires Shaped(g) && Shaped(m) && InBounds(x, y) && BricksMatchMasks(g, m) && g[y][x] == Brick
    ensures var h := HitMask(m[y][x], dir);
      var m', g' := Set(m, x, y, h), if h == 0 then Set(g, x, y, Empty) else g;
      BricksMatchMasks(g', m') &&
      forall r, c :: InBounds(c, r) ==>
        m'[r][c] & m[r][c] == m'[r][c] &&
        (g'[r][c] == g[r][c] || (g[r][c] == Brick && g'[r][c] == Empty && m'[r][c] == 0))
  {
    HitMaskFacts(m[y][x], dir);
  }

  /** A bullet step changes the map only by clearing brick sub-blocks: masks
      only lose bits, steel and water never change, a cell changes only from
      brick to empty, and bricks keep matching their masks. */
  lemma Advance1Map(w: World, i: int)
    requires WorldShaped(w) && 0 <= i < |w.bullets| && BricksMatchMasks(w.grid, w.mask)
    ensures var w' := Advance1(w, i);
      BricksMatchMasks(w'.grid, w'.mask) &&
      forall r, c :: InBounds(c, r) ==>
        w'.mask[r][c] & w.mask[r][c] == w'.mask[r][c] &&
        (w'.grid[r][c] == w.grid[r][c] || (w.grid[r][c] == Brick && w'.grid[r][c] == Empty && w'.mask[r][c] == 0))
  {
    Advance1Shape(w, i);
    var b := w.bullets[i];
    if b.alive && InBounds(b.x + b.dir.x, b.y + b.dir.y) && w.grid[b.y + b.dir.y][b.x + b.dir.x] == Brick {
      BrickHit(w.grid, w.mask, b.x + b.dir.x, b.y + b.dir.y, b.dir);
    } else {
      forall r, c | InBounds(c, r) ensures w.mask[r][c] & w.mask[r][c] == w.mask[r][c] {
      }
    }
  }

  /** What happens to the bullet itself: it dies off the map and on
      bricks, steel, water and the base; otherwise it is alive one cell
      further on or dead on a tank it hit; no other bullet changes. */
  lemma Advance1Bullet(w: World, i: int)
    requires WorldShaped(w) && 0 <= i < |w.bullets| && w.bullets[i].alive
    ensures var b, b' := w.bullets[i], Advance1(w, i).bullets[i];
      var nx, ny := b.x + b.dir.x, b.y + b.dir.y;
      (!InBounds(nx, ny) ==> !b'.alive) &&
      (InBounds(nx, ny) && w.grid[ny][nx] in {Brick, Steel, Water, Base} ==> !b'.alive) &&
      (b'.alive ==> b' == b.(x := nx, y := ny) && InBounds(nx, ny))
    ensures forall j :: 0 <= j < |w.bullets| && j != i ==> Advance1(w, i).bullets[j] == w.bullets[j]
  {
  }

  /** A player bullet leaves no live enemy on the cell it reaches, scores
      100 per enemy destroyed and touches no other tank. */
  lemma Advance1Kills(w: World, i: int)
    requires WorldShaped(w) && 0 <= i < |w.bullets| && w.bullets[i].alive && w.bullets[i].me
    requires var b := w.bullets[i];
      InBounds(b.x + b.dir.x, b.y + b.dir.y) &&
      BlockBullet(w.grid[b.y + b.dir.y][b.x + b.dir.x]) == Pass && w.grid[b.y + b.dir.y][b.x + b.dir.x] != Base
    ensures var b, w' := w.bullets[i], Advance1(w, i);
      var nx, ny := b.x + b.dir.x, b.y + b.dir.y;
      (forall j :: 0 <= j < |w'.enemies| ==> !(w'.enemies[j].alive && w'.enemies[j].x == nx && w'.enemies[j].y == ny)) &&
      w'.score == w.score + 100 * Kills(w.enemies, nx, ny, |w.enemies|) &&
      (w'.bullets[i].alive <==> Kills(w.enemies, nx, ny, |w.enemies|) == 0) &&
      w'.me == w.me && w'.lives == w.lives
  {
    var b := w.bullets[i];
    KillsZero(w.enemies, b.x + b.dir.x, b.y + b.dir.y, |w.enemies|);
  }

  // ------------------------------------------------------------ after the loop

  /** `filter(b => b.alive)`. */
  function Alive(bs: seq<Bullet>): (a: seq<Bullet>)
    ensures forall k :: 0 <= k < |a| ==> a[k].alive && a[k] in bs
    ensures forall b :: b in bs && b.alive ==> b in a
  {
    if bs == [] then [] else (if bs[0].alive then [bs[0]] else []) + Alive(bs[1..])
  }

  /** Number of bullets on cell (x, y). */
  function CountAt(bs: seq<Bullet>, x: int, y: int): nat
  {
    if bs == [] then 0 else (if bs[0].x == x && bs[0].y == y then 1 else 0) + CountAt(bs[1..], x, y)
  }

  /** The bullets alone on their cell, in order. */
  function Solo(bs: seq<Bullet>, all: seq<Bullet>): seq<Bullet>
  {
    if bs == [] then [] else (if CountAt(all, bs[0].x, bs[0].y) == 1 then [bs[0]] else []) + Solo(bs[1..], all)
  }

  lemma {:induction false} SoloFacts(bs: seq<Bullet>, all: seq<Bullet>)
    ensures forall b :: b in Solo(bs, all) <==> b in bs && CountAt(all, b.x, b.y) == 1
  {
    if bs != [] {
      SoloFacts(bs[1..], all);
      assert bs == [bs[0]] + bs[1..];
    }
  }

  lemma {:induction false} CountAtPositive(bs: seq<Bullet>, b: Bullet)
    requires b in bs
    ensures CountAt(bs, b.x, b.y) >= 1
  {
    if bs[0] != b {
      CountAtPositive(bs[1..], b);
    }
  }

  /** Bullets meeting on one cell: when two or more bullets share a cell,
      none of them survives, and a bullet alone on its cell survives. */
  lemma MeetingBulletsVanish(bs: seq<Bullet>, b: Bullet)
    requires b in bs
    ensures b in Solo(bs, bs) <==> CountAt(bs, b.x, b.y) == 1
    ensures CountAt(bs, b.x, b.y) >= 2 ==> forall c :: c in bs && c.x == b.x && c.y == b.y ==> c !in Solo(bs, bs)
  {
    SoloFacts(bs, bs);
  }

  /** The cooldown tick: a positive cooldown drops by one. */
  function CoolDown(t: Tank): (t': Tank)
    ensures t.cd >= 0 ==> 0 <= t'.cd <= t.cd
    ensures t.cd > 0 ==> t'.cd == t.cd - 1
    ensures t' == t.(cd := t'.cd)
  {
    if t.cd > 0 then t.(cd := t.cd - 1) else t
  }

  // ------------------------------------------------------------ enemies

  /** A step along c from the tank's cell, clamped to the map, is on a
      passable cell. */
  predicate Opens(e: Tank, g: Grid, c: Vec)
    requires Shaped(g)
  {
    Passable(CellAt(g, Vec(Clamp(e.x + c.x, 0, COLS - 1), Clamp(e.y + c.y, 0, ROWS - 1))))
  }

  /** The directions an enemy's aim tries, before the shuffle: a step
      along x towards the base, a step along y towards the base, then the
      four directions. A tank in the base's column (or row) gets the zero
      vector as its first (or second) candidate. */
  function Candidates(e: Tank): seq<Vec>
  {
    [Vec(Sign(BASE.x - e.x), 0), Vec(0, Sign(BASE.y - e.y))] + DIRS
  }

  /** Six candidates, each a heading; the first two lead towards the base
      and are the zero vector exactly when the tank is level with the base
      on that axis. */
  lemma CandidatesFacts(e: Tank)
    ensures var c := Candidates(e);
      |c| == 6 && (forall k :: 0 <= k < 6 ==> Heading(c[k])) && c[2..] == DIRS
    ensures var c := Candidates(e);
      (c[0] == Vec(0, 0) <==> e.x == BASE.x) && (c[1] == Vec(0, 0) <==> e.y == BASE.y)
    ensures var c := Candidates(e);
      Abs(BASE.x - (e.x + c[0].x)) <= Abs(BASE.x - e.x) && Abs(BASE.y - (e.y + c[1].y)) <= Abs(BASE.y - e.y)
  {
  }

  /** o lists 0 .. n - 1 in some order: what a shuffle of n items draws. */
  predicate IsOrder(o: seq<int>, n: int)
  {
    |o| == n && (forall i :: 0 <= i < n ==> 0 <= o[i] < n) && (forall i, j :: 0 <= i < j < n ==> o[i] != o[j])
  }

  /** The items of a listed in the order o. */
  function Arrange(a: seq<Vec>, o: seq<int>): (r: seq<Vec>)
    requires IsOrder(o, |a|)
    ensures |r| == |a| && forall i :: 0 <= i < |r| ==> r[i] in a
  {
    seq(|o|, i requires 0 <= i < |o| => a[o[i]])
  }

  /** The first candidate direction that leads onto a passable cell, or the
      tank's own direction when none does. */
  function ChooseDir(e: Tank, g: Grid, choices: seq<Vec>): (d: Vec)
    requires Shaped(g)
    ensures d == e.dir || d in choices
  {
    if choices == [] then e.dir
    else if Opens(e, g, choices[0]) then choices[0]
    else ChooseDir(e, g, choices[1..])
  }

  lemma {:induction false} ChooseDirFacts(e: Tank, g: Grid, choices: seq<Vec>)
    requires Shaped(g)
    ensures var d := ChooseDir(e, g, choices); d == e.dir || Opens(e, g, d)
    ensures (forall k :: 0 <= k < |choices| ==> !Opens(e, g, choices[k])) ==> ChooseDir(e, g, choices) == e.dir
  {
    if choices != [] {
      ChooseDirFacts(e, g, choices[1..]);
      assert forall k :: 0 <= k < |choices| - 1 ==> choices[1..][k] == choices[k + 1];
    }
  }

  /** Number of live tanks. */
  function LiveCount(es: seq<Tank>): nat
  {
    if es == [] then 0 else (if es[0].alive then 1 else 0) + LiveCount(es[1..])
  }

  lemma {:induction false} LiveCountAppend(es: seq<Tank>, t: Tank)
    ensures LiveCount(es + [t]) == LiveCount(es) + (if t.alive then 1 else 0)
  {
    if es != [] {
      assert (es + [t])[1..] == es[1..] + [t];
      LiveCountAppend(es[1..], t);
    }
  }

  /** The cap on live enemies in a wave. */
  function Cap(wave: int): int
  {
    Min(3 + wave, 6)
  }

  /** Some live enemy stands on v. */
  predicate Occupied(es: seq<Tank>, v: Vec)
  {
    exists k :: 0 <= k < |es| && es[k].alive && es[k].x == v.x && es[k].y == v.y
  }

  /** Reinforcement: with fewer live enemies than the cap and a successful
      coin, a new enemy appears on the chosen spawn spot if it is passable
      and free. */
  function Reinforce(es: seq<Tank>, g: Grid, wave: int, coin: bool, spot: int): (es': seq<Tank>)
    requires Shaped(g) && 0 <= spot < |SPAWNS|
  {
    var v := SPAWNS[spot];
    if LiveCount(es) < Cap(wave) && coin && Passable(CellAt(g, v)) && !Occupied(es, v) then
      es + [Tank(v.x, v.y, Vec(0, 1), false, true, 0)]
    else es
  }

  /** Reinforcements never push the live enemies past the cap, and a new
      enemy appears only on a free, passable spawn spot. */
  lemma ReinforceFacts(es: seq<Tank>, g: Grid, wave: int, coin: bool, spot: int)
    requires Shaped(g) && 0 <= spot < |SPAWNS|
    ensures var es' := Reinforce(es, g, wave, coin, spot);
      LiveCount(es') <= Max(LiveCount(es), Cap(wave)) && |es'| <= |es| + 1 && es'[..|es|] == es
    ensures var es' := Reinforce(es, g, wave, coin, spot);
      |es'| == |es| + 1 ==>
        LiveCount(es) < Cap(wave) && Passable(CellAt(g, SPAWNS[spot])) && !Occupied(es, SPAWNS[spot]) &&
        es'[|es|].alive && es'[|es|].x == SPAWNS[spot].x && es'[|es|].y == SPAWNS[spot].y
  {
    var v := SPAWNS[spot];
    LiveCountAppend(es, Tank(v.x, v.y, Vec(0, 1), false, true, 0));
  }

  // ------------------------------------------------------------ the battle

  predicate InMap(t: Tank) { InBounds(t.x, t.y) && Heading(t.dir) && t.cd >= 0 }

  class Battle {
    var grid: Grid
    var mask: Masks
    var me: Tank
    var enemies: seq<Tank>
    var bullets: seq<Bullet>
    var score: int
    var lives: int
    var over: bool
    var wave: int

    function State(): World
      reads this
    {
      World(grid, mask, me, enemies, bullets, score, lives, over, wave)
    }

    /** Bricks match their masks, every tank is on the map with a unit
        direction and a non-negative cooldown. */
    ghost predicate Valid()
      reads this
    {
      Shaped(grid) && Shaped(mask) && BricksMatchMasks(grid, mask) && TanksOnMap(State())
    }

    /** The page's first state: the first map with whole bricks, the player
        at the bottom facing up, three enemies at the top facing down. */
    constructor ()
      ensures Valid() && grid == StartGrid() && mask == StartMask() && me == RESPAWN && enemies == START_ENEMIES
      ensures bullets == [] && score == 0 && lives == 3 && !over && wave == 1
    {
      grid := StartGrid();
      mask := StartMask();
      me := RESPAWN;
      enemies := START_ENEMIES;
      bullets, score, lives, over, wave := [], 0, 3, false, 1;
    }

    /** An arrow key: the player's tank turns to d and tries to move. */
    method MovePlayer(d: Vec)
      requires Valid() && d in DIRS
      modifies this
      ensures Valid()
      ensures State() == if over || !me.alive then old(State()) else old(State()).(me := TryMove(old(me).(dir := d), grid))
    {
      if over || !me.alive {
        return;
      }
      me := TryMove(me.(dir := d), grid);
      TryMoveFacts(old(me).(dir := d), grid);
    }

    /** The fire key: the player's tank shoots. */
    method FirePlayer()
      requires Valid()
      modifies this
      ensures Valid()
      ensures State() == if over || !me.alive then old(State())
                         else old(State()).(me := Shoot(old(me), old(bullets)).tank, bullets := Shoot(old(me), old(bullets)).bullets)
    {
      if over || !me.alive {
        return;
      }
      var s := Shoot(me, bullets);
      me, bullets := s.tank, s.bullets;
    }

    /** One bullet of the step loop. */
    method AdvanceBullet(i: int)
      requires Shaped(grid) && Shaped(mask) && 0 <= i < |bullets|
      modifies this
      ensures State() == Advance1(old(State()), i)
    {
      var b := bullets[i];
      if !b.alive {
        return;
      }
      var nx, ny := b.x + b.dir.x, b.y + b.dir.y;
      if !InBounds(nx, ny) {
        bullets := bullets[i := b.(alive := false)];
        return;
      }
      var hit := grid[ny][nx];
      var judge := BlockBullet(hit);
      if judge == DestroyBrick {
        var m := HitMask(mask[ny][nx], b.dir);
        mask := Set(mask, nx, ny, m);
        if m == 0 {
          grid := Set(grid, nx, ny, Empty);
        }
        bullets := bullets[i := b.(alive := false)];
        return;
      }
      if judge == Block {
        bullets := bullets[i := b.(alive := false)];
        return;
      }
      PassOn(i, nx, ny);
    }

    /** A live bullet entering a cell that lets it pass: the base ends the
        game, otherwise it hits the tanks there or flies on. */
    method PassOn(i: int, nx: int, ny: int)
      requires Shaped(grid) && Shaped(mask) && 0 <= i < |bullets| && bullets[i].alive
      requires nx == bullets[i].x + bullets[i].dir.x && ny == bullets[i].y + bullets[i].dir.y
      requires InBounds(nx, ny) && BlockBullet(grid[ny][nx]) == Pass
      modifies this
      ensures State() == Advance1(old(State()), i)
    {
      var b := bullets[i];
      if grid[ny][nx] == Base {
        bullets := bullets[i := b.(alive := false)];
        over := true;
        return;
      }
      if b.me {
        PlayerShot(i, nx, ny);
      } else if me.alive && me.x == nx && me.y == ny {
        lives := lives - 1;
        if lives <= 0 {
          me := me.(alive := false);
          over := true;
        } else {
          me := RESPAWN;
        }
        bullets := bullets[i := b.(alive := false)];
      } else {
        bullets := bullets[i := b.(x := nx, y := ny)];
      }
    }

    /** A player bullet entering a passable cell other than the base: it
        destroys the enemies there, or flies on when there are none. */
    method PlayerShot(i: int, nx: int, ny: int)
      requires Shaped(grid) && Shaped(mask) && 0 <= i < |bullets| && bullets[i].alive && bullets[i].me
      requires nx == bullets[i].x + bullets[i].dir.x && ny == bullets[i].y + bullets[i].dir.y
      requires InBounds(nx, ny) && BlockBullet(grid[ny][nx]) == Pass && grid[ny][nx] != Base
      modifies this
      ensures State() == Advance1(old(State()), i)
    {
      ghost var w := State();
      ShotOutcome(w, i);
      var b := bullets[i];
      var k := HitEnemies(nx, ny);
      bullets := bullets[i := if k > 0 then b.(alive := false) else b.(x := nx, y := ny)];
      assert State() == w.(enemies := KillAt(w.enemies, nx, ny), score := w.score + 100 * k, bullets := bullets);
    }

    /** The enemy loop of a player bullet's hit on (x, y). */
    method HitEnemies(x: int, y: int) returns (k: nat)
      modifies this
      ensures k == Kills(old(enemies), x, y, |old(enemies)|)
      ensures enemies == KillAt(old(enemies), x, y) && score == old(score) + 100 * k
      ensures grid == old(grid) && mask == old(mask) && me == old(me) && bullets == old(bullets)
      ensures lives == old(lives) && over == old(over) && wave == old(wave)
    {
      ghost var es := enemies;
      k := 0;
      var j := 0;
      while j < |enemies|
        invariant 0 <= j <= |enemies| == |es|
        invariant k == Kills(es, x, y, j) && score == old(score) + 100 * k
        invariant forall n :: 0 <= n < |es| ==>
                    enemies[n] == if n < j && es[n].alive && es[n].x == x && es[n].y == y then es[n].(alive := false) else es[n]
        invariant grid == old(grid) && mask == old(mask) && me == old(me) && bullets == old(bullets)
        invariant lives == old(lives) && over == old(over) && wave == old(wave)
      {
        var e := enemies[j];
        if e.alive && e.x == x && e.y == y {
          enemies := enemies[j := e.(alive := false)];
          score := score + 100;
          k := k + 1;
        }
        j := j + 1;
      }
    }

    /** The step loop over every bullet. */
    method AdvanceBullets()
      requires Shaped(grid) && Shaped(mask)
      modifies this
      ensures State() == AdvanceUpTo(old(State()), |old(bullets)|)
    {
      var i := 0;
      while i < |bullets|
        invariant 0 <= i <= |bullets| == |old(bullets)|
        invariant Shaped(grid) && Shaped(mask)
        invariant State() == AdvanceUpTo(old(State()), i)
      {
        AdvanceBullet(i);
        i := i + 1;
      }
    }

    /** One step: every bullet advances, dead bullets are dropped, bullets
        meeting on a cell vanish, and every cooldown ticks. */
    method Step()
      requires Valid()
      modifies this
      ensures Valid()
      ensures var w := AdvanceUpTo(old(State()), |old(bullets)|);
        bullets == Solo(Alive(w.bullets), Alive(w.bullets)) &&
        grid == w.grid && mask == w.mask && score == w.score && lives == w.lives && over == w.over &&
        me == CoolDown(w.me) && |enemies| == |w.enemies| &&
        forall k :: 0 <= k < |enemies| ==> enemies[k] == CoolDown(w.enemies[k])
      ensures wave == old(wave)
      ensures forall b :: b in bullets ==> b.alive
    {
      ghost var w0 := State();
      AdvanceBullets();
      AdvanceKeepsValid(w0, |w0.bullets|);
      SoloFacts(Alive(bullets), Alive(bullets));
      bullets := Survivors(Alive(bullets));
      me := CoolDown(me);
      var es := enemies;
      enemies := seq(|es|, k requires 0 <= k < |es| => CoolDown(es[k]));
    }

    /** The enemy loop with its random draws as parameters (see EnemyAct). */
    method MoveEnemies(turn: seq<bool>, orders: seq<seq<int>>, fire: seq<bool>)
      requires Shaped(grid) && |turn| == |orders| == |fire| == |enemies|
      requires forall k :: 0 <= k < |orders| ==> IsOrder(orders[k], 6)
      modifies this
      ensures Crew(enemies, bullets) == CrewUpTo(Crew(old(enemies), old(bullets)), old(grid), turn, orders, fire, |old(enemies)|)
      ensures grid == old(grid) && mask == old(mask) && me == old(me) && score == old(score)
      ensures lives == old(lives) && over == old(over) && wave == old(wave)
    {
      var es, bs, g := enemies, bullets, grid;
      var k := 0;
      while k < |es|
        invariant 0 <= k <= |es| == |turn|
        invariant Crew(es, bs) == CrewUpTo(Crew(old(enemies), old(bullets)), g, turn, orders, fire, k)
      {
        var s := EnemyAct(es[k], g, bs, turn[k], orders[k], fire[k]);
        es, bs := es[k := s.tank], s.bullets;
        k := k + 1;
      }
      enemies, bullets := es, bs;
    }

    /** The enemy turn: every live enemy acts, then maybe a reinforcement
        arrives, and a new wave starts once every enemy is dead. The cap on
        reinforcements reads `seen`, the wave as the animation loop last
        captured it, which lags behind `wave` once a wave has been cleared. */
    method EnemyTurn(turn: seq<bool>, orders: seq<seq<int>>, fire: seq<bool>, coin: bool, spot: int, seen: int)
      requires Valid() && |turn| == |orders| == |fire| == |enemies| && 0 <= spot < |SPAWNS|
      requires forall k :: 0 <= k < |orders| ==> IsOrder(orders[k], 6)
      modifies this
      ensures Valid()
      ensures LiveCount(old(enemies)) <= Cap(seen) ==> LiveCount(enemies) <= Cap(seen)
      ensures wave == if LiveCount(enemies) == 0 then old(wave) + 1 else old(wave)
      ensures grid == old(grid) && mask == old(mask) && me == old(me) && score == old(score) && lives == old(lives)
    {
      ghost var c0 := Crew(enemies, bullets);
      MoveEnemies(turn, orders, fire);
      CrewKeeps(c0, grid, turn, orders, fire, |c0.enemies|);
      LiveSame(c0.enemies, enemies);
      ReinforceFacts(enemies, grid, seen, coin, spot);
      enemies := Reinforce(enemies, grid, seen, coin, spot);
      if LiveCount(enemies) == 0 {
        wave := wave + 1;
      }
    }
  }

  /** The bullets alone on their cell, via the per-cell tally. */
  method Survivors(bs: seq<Bullet>) returns (out: seq<Bullet>)
    ensures out == Solo(bs, bs)
  {
    var tally := Tally(bs);
    out := [];
    var i := 0;
    while i < |bs|
      invariant 0 <= i <= |bs|
      invariant Solo(bs, bs) == out + Solo(bs[i..], bs)
    {
      assert bs[i..] == [bs[i]] + bs[i + 1..];
      if tally[Vec(bs[i].x, bs[i].y)] <= 1 {
        CountAtPositive(bs, bs[i]);
        out := out + [bs[i]];
      }
      i := i + 1;
    }
    assert bs[|bs|..] == [];
  }

  // ------------------------------------------------------------ the enemy loop

  datatype Crew = Crew(enemies: seq<Tank>, bullets: seq<Bullet>)

  /** One live enemy's turn: it may re-aim (the first passable candidate,
      in the order its shuffle drew), may shoot, then tries to move, and its
      cooldown ticks; dead ones do nothing. */
  function EnemyAct(e: Tank, g: Grid, bs: seq<Bullet>, turn: bool, order: seq<int>, fire: bool): Shot
    requires Shaped(g) && IsOrder(order, 6)
  {
    if !e.alive then Shot(e, bs)
    else
      var e1 := if turn then e.(dir := ChooseDir(e, g, Arrange(Candidates(e), order))) else e;
      var s := if fire then Shoot(e1, bs) else Shot(e1, bs);
      Shot(CoolDown(TryMove(s.tank, g)), s.bullets)
  }

  /** An enemy's turn keeps it on the map and alive or dead as it was, and
      adds at most one bullet, of the enemy side. */
  lemma EnemyActFacts(e: Tank, g: Grid, bs: seq<Bullet>, turn: bool, order: seq<int>, fire: bool)
    requires Shaped(g) && InMap(e) && IsOrder(order, 6)
    ensures var s := EnemyAct(e, g, bs, turn, order, fire);
      InMap(s.tank) && s.tank.alive == e.alive &&
      (s.bullets == bs || (s.bullets == bs + [s.bullets[|bs|]] && !s.bullets[|bs|].me == !e.me))
  {
    if e.alive {
      CandidatesFacts(e);
      var choices := Arrange(Candidates(e), order);
      var e1 := if turn then e.(dir := ChooseDir(e, g, choices)) else e;
      assert Heading(e1.dir);
      ShootFacts(e1, bs);
      var s := if fire then Shoot(e1, bs) else Shot(e1, bs);
      TryMoveFacts(s.tank, g);
    }
  }

  /** The first n enemies have taken their turn. */
  function CrewUpTo(c: Crew, g: Grid, turn: seq<bool>, orders: seq<seq<int>>, fire: seq<bool>, n: nat): (c': Crew)
    requires Shaped(g) && n <= |c.enemies| == |turn| == |orders| == |fire|
    requires forall k :: 0 <= k < |orders| ==> IsOrder(orders[k], 6)
    ensures |c'.enemies| == |c.enemies|
  {
    if n == 0 then c
    else
      var p := CrewUpTo(c, g, turn, orders, fire, n - 1);
      var s := EnemyAct(p.enemies[n - 1], g, p.bullets, turn[n - 1], orders[n - 1], fire[n - 1]);
      Crew(p.enemies[n - 1 := s.tank], s.bullets)
  }

  /** The enemy loop keeps every enemy on the map and alive or dead as it
      was. */
  lemma {:induction false} CrewKeeps(c: Crew, g: Grid, turn: seq<bool>, orders: seq<seq<int>>, fire: seq<bool>, n: nat)
    requires Shaped(g) && n <= |c.enemies| == |turn| == |orders| == |fire|
    requires forall k :: 0 <= k < |orders| ==> IsOrder(orders[k], 6)
    requires forall k :: 0 <= k < |c.enemies| ==> InMap(c.enemies[k])
    ensures var c' := CrewUpTo(c, g, turn, orders, fire, n);
      forall k :: 0 <= k < |c.enemies| ==> InMap(c'.enemies[k]) && c'.enemies[k].alive == c.enemies[k].alive
  {
    if n > 0 {
      CrewKeeps(c, g, turn, orders, fire, n - 1);
      var p := CrewUpTo(c, g, turn, orders, fire, n - 1);
      assert InMap(c.enemies[n - 1]) && InMap(p.enemies[n - 1]);
      EnemyActFacts(p.enemies[n - 1], g, p.bullets, turn[n - 1], orders[n - 1], fire[n - 1]);
    }
  }

  // ------------------------------------------------------------ the zero aim

  /** The first map as the page parses it. */
  function StartGrid(): (g: Grid)
    ensures Shaped(g) && forall r, c :: InBounds(c, r) ==> g[r][c] == ParseTile(MAP_1[r][c])
  {
    MapFacts();
    seq(ROWS, r requires 0 <= r < ROWS => seq(COLS, c requires 0 <= c < COLS => ParseTile(MAP_1[r][c])))
  }

  /** The first map's brick masks: all four sub-blocks on each brick, none
      elsewhere. */
  function StartMask(): (m: Masks)
    ensures Shaped(m) && forall r, c :: InBounds(c, r) ==> m[r][c] == if MAP_1[r][c] == '#' then 15 else 0
  {
    MapFacts();
    seq(ROWS, r requires 0 <= r < ROWS => seq(COLS, c requires 0 <= c < COLS => if MAP_1[r][c] == '#' then 15 as bv4 else 0))
  }

  /** The three enemies at the top of the first map, facing down. */
  const START_ENEMIES: seq<Tank> :=
    [Tank(1, 1, Vec(0, 1), false, true, 0), Tank(6, 1, Vec(0, 1), false, true, 0), Tank(11, 1, Vec(0, 1), false, true, 0)]

  /** As written, the spawn at (6, 1), in the base's column, aims at the
      zero vector when its shuffle leaves the candidates in place: it stays
      on its cell, and its shot puts a bullet without a direction on that
      same cell. */
  lemma ZeroAimAsWritten()
    ensures var s := EnemyAct(Tank(6, 1, Vec(0, 1), false, true, 0), StartGrid(), [], true, [0, 1, 2, 3, 4, 5], true);
      s.tank == Tank(6, 1, Vec(0, 0), false, true, COOLDOWN - 1) && s.bullets == [Bullet(6, 1, Vec(0, 0), false, true)]
  {
    var e := Tank(6, 1, Vec(0, 1), false, true, 0);
    var g := StartGrid();
    assert g[1][6] == Empty;
    assert Arrange(Candidates(e), [0, 1, 2, 3, 4, 5])[0] == Vec(0, 0);
    assert Opens(e, g, Vec(0, 0));
  }

  /** As written, such a bullet never leaves: a live enemy bullet without a
      direction, on a cell bullets pass and the player is not on, is left
      as it is by the bullet step, and while it lives every enemy shot is
      refused. */
  lemma StillBulletAsWritten(w: World, i: int, t: Tank)
    requires WorldShaped(w) && 0 <= i < |w.bullets|
    requires var b := w.bullets[i];
      b.alive && !b.me && b.dir == Vec(0, 0) && InBounds(b.x, b.y) &&
      BlockBullet(w.grid[b.y][b.x]) == Pass && w.grid[b.y][b.x] != Base &&
      !(w.me.alive && w.me.x == b.x && w.me.y == b.y)
    requires !t.me
    ensures Advance1(w, i) == w
    ensures Shoot(t, w.bullets) == Shot(t, w.bullets)
  {
    var b := w.bullets[i];
    assert w.bullets[i := b.(x := b.x, y := b.y)] == w.bullets;
    assert SideHasBullet(w.bullets, t.me);
  }

  /** The aim as evidently intended: a step towards the base only on an
      axis where the tank is not level with it, then the four directions. */
  function AimCandidates(e: Tank): (c: seq<Vec>)
    ensures 4 <= |c| <= 6 && c[|c| - 4..] == DIRS
    ensures forall k :: 0 <= k < |c| ==> c[k] in DIRS
  {
    (if e.x != BASE.x then [Vec(Sign(BASE.x - e.x), 0)] else []) +
    (if e.y != BASE.y then [Vec(0, Sign(BASE.y - e.y))] else []) + DIRS
  }

  /** With the intended candidates, in whatever order the shuffle draws
      them, an enemy that turns keeps one of the four directions, so the
      bullets it fires move. */
  lemma IntendedAimMoves(e: Tank, g: Grid, order: seq<int>)
    requires Shaped(g) && e.dir in DIRS && IsOrder(order, |AimCandidates(e)|)
    ensures ChooseDir(e, g, Arrange(AimCandidates(e), order)) in DIRS
  {
    var d := ChooseDir(e, g, Arrange(AimCandidates(e), order));
    assert d == e.dir || d in Arrange(AimCandidates(e), order);
  }

  /** A live bullet moving in one of the four directions never stays as it
      is: each step either kills it or moves it to the next cell. */
  lemma AimedBulletMoves(w: World, i: int)
    requires WorldShaped(w) && 0 <= i < |w.bullets| && w.bullets[i].alive && w.bullets[i].dir in DIRS
    ensures var b := w.bullets[i];
      var b' := Advance1(w, i).bullets[i];
      !b'.alive || (b'.x == b.x + b.dir.x && b'.y == b.y + b.dir.y && b' != b)
  {
  }

  /** The per-cell tally of the meeting check. */
  method Tally(bs: seq<Bullet>) returns (tally: map<Vec, nat>)
    ensures forall k :: 0 <= k < |bs| ==> Vec(bs[k].x, bs[k].y) in tally && tally[Vec(bs[k].x, bs[k].y)] == CountAt(bs, bs[k].x, bs[k].y)
  {
    tally := map[];
    var i := |bs|;
    while i > 0
      invariant 0 <= i <= |bs|
      invariant forall v :: v in tally <==> exists k :: i <= k < |bs| && v == Vec(bs[k].x, bs[k].y)
      invariant forall v :: v in tally ==> tally[v] == CountAt(bs[i..], v.x, v.y)
    {
      i := i - 1;
      var v := Vec(bs[i].x, bs[i].y);
      assert bs[i..] == [bs[i]] + bs[i + 1..];
      forall u | u in tally && u != v ensures CountAt(bs[i..], u.x, u.y) == CountAt(bs[i + 1..], u.x, u.y) {
      }
      if v in tally {
        tally := tally[v := tally[v] + 1];
      } else {
        CountAtAbsent(bs[i + 1..], v);
        tally := tally[v := 1];
      }
    }
    forall k | 0 <= k < |bs| ensures Vec(bs[k].x, bs[k].y) in tally {
      assert bs[0..] == bs;
    }
    assert bs[0..] == bs;
  }

  lemma {:induction false} CountAtAbsent(bs: seq<Bullet>, v: Vec)
    requires forall k :: 0 <= k < |bs| ==> Vec(bs[k].x, bs[k].y) != v
    ensures CountAt(bs, v.x, v.y) == 0
  {
    if bs != [] {
      CountAtAbsent(bs[1..], v);
    }
  }

  lemma {:induction false} LiveSame(es: seq<Tank>, es': seq<Tank>)
    requires |es| == |es'| && forall j :: 0 <= j < |es| ==> es'[j].alive == es[j].alive
    ensures LiveCount(es') == LiveCount(es)
  {
    if es != [] {
      LiveSame(es[1..], es'[1..]);
    }
  }

  ghost predicate TanksOnMap(w: World)
  {
    InMap(w.me) && forall k :: 0 <= k < |w.enemies| ==> InMap(w.enemies[k])
  }

  lemma Advance1Tanks(w: World, i: int)
    requires WorldShaped(w) && 0 <= i < |w.bullets| && TanksOnMap(w)
    ensures TanksOnMap(Advance1(w, i))
  {
    Advance1Shape(w, i);
  }

  lemma Advance1Keeps(w: World, i: int)
    requires Consistent(w) && 0 <= i < |w.bullets|
    ensures Consistent(Advance1(w, i))
  {
    Advance1Map(w, i);
    Advance1Tanks(w, i);
  }

  /** The map matches its masks and every tank is on the map. */
  ghost predicate Consistent(w: World)
  {
    WorldShaped(w) && BricksMatchMasks(w.grid, w.mask) && TanksOnMap(w)
  }

  /** The bullet loop keeps the map consistent and every tank on the map. */
  lemma AdvanceKeepsValid(w: World, n: nat)
    requires Consistent(w) && n <= |w.bullets|
    ensures Consistent(AdvanceUpTo(w, n))
  {
    AdvanceKeepsMap(w, n);
    AdvanceKeepsTanks(w, n);
  }

  lemma {:induction false} AdvanceKeepsMap(w: World, n: nat)
    requires WorldShaped(w) && BricksMatchMasks(w.grid, w.mask) && n <= |w.bullets|
    ensures BricksMatchMasks(AdvanceUpTo(w, n).grid, AdvanceUpTo(w, n).mask)
  {
    if n > 0 {
      AdvanceKeepsMap(w, n - 1);
      MapStep(AdvanceUpTo(w, n - 1), n - 1, AdvanceUpTo(w, n));
    }
  }

  lemma {:induction false} AdvanceKeepsTanks(w: World, n: nat)
    requires WorldShaped(w) && TanksOnMap(w) && n <= |w.bullets|
    ensures TanksOnMap(AdvanceUpTo(w, n))
  {
    if n > 0 {
      AdvanceKeepsTanks(w, n - 1);
      var v := AdvanceUpTo(w, n - 1);
      assert AdvanceUpTo(w, n) == Advance1(v, n - 1);
      TanksStep(v, n - 1, AdvanceUpTo(w, n));
    }
  }

  /** One bullet's step keeps bricks matching their masks, whatever the
      result is named. */
  lemma MapStep(v: World, i: int, y: World)
    requires WorldShaped(v) && BricksMatchMasks(v.grid, v.mask) && 0 <= i < |v.bullets| && y == Advance1(v, i)
    ensures WorldShaped(y) && BricksMatchMasks(y.grid, y.mask)
  {
    Advance1Map(v, i);
  }

  /** One bullet's step keeps every tank on the map. */
  lemma TanksStep(v: World, i: int, y: World)
    requires WorldShaped(v) && TanksOnMap(v) && 0 <= i < |v.bullets| && y == Advance1(v, i)
    ensures TanksOnMap(y)
  {
    Advance1Tanks(v, i);
  }
}

=== FILE: tetris.dfy ===
/** Tetris on a 20 x 10 well: rotation, collision, merging a landed piece,
    clearing full lines, the guarded moves and the gravity step. A board
    cell holds 0 (empty) or a piece kind plus 1. */
module Tetris {
  const COLS: int := 10
  const ROWS: int := 20
  const SPAWN_X: int := 3

  type Shape = seq<seq<int>>
  type Board = seq<seq<int>>

  /** The seven tetrominoes; kind k is drawn in colour k, and merge writes
      k + 1 (the colour's index plus one). */
  const SHAPES: seq<Shape> := [
    [[1, 1, 1, 1]],
    [[1, 1], [1, 1]],
    [[0, 1, 0], [1, 1, 1]],
    [[1, 0, 0], [1, 1, 1]],
    [[0, 0, 1], [1, 1, 1]],
    [[1, 1, 0], [0, 1, 1]],
    [[0, 1, 1], [1, 1, 0]]
  ]

  /** A non-empty rectangle of cells. */
  predicate Rect(s: Shape)
  {
    |s| > 0 && |s[0]| > 0 && forall i :: 0 <= i < |s| ==> |s[i]| == |s[0]|
  }

  predicate WellFormed(b: Board)
  {
    |b| == ROWS && forall i :: 0 <= i < |b| ==> |b[i]| == COLS
  }

  function EmptyRow(): (row: seq<int>)
    ensures |row| == COLS && forall j :: 0 <= j < COLS ==> row[j] == 0
  {
    seq(COLS, j => 0)
  }

  function EmptyBoard(): (b: Board)
    ensures WellFormed(b) && forall i, j :: 0 <= i < ROWS && 0 <= j < COLS ==> b[i][j] == 0
  {
    seq(ROWS, i => EmptyRow())
  }

  // ---------------------------------------------------------------- rotate

  /** `rotate`: row i of the result is column i of the shape read from the
      bottom up, so the shape turns a quarter clockwise. */
  function Rotate(s: Shape): (r: Shape)
    requires Rect(s)
    ensures Rect(r) && |r| == |s[0]| && |r[0]| == |s|
    ensures forall i, j :: 0 <= i < |r| && 0 <= j < |s| ==> r[i][j] == s[|s| - 1 - j][i]
  {
    seq(|s[0]|, i requires 0 <= i < |s[0]| => seq(|s|, j requires 0 <= j < |s| => s[|s| - 1 - j][i]))
  }

  /** Two quarter turns: the shape upside down and mirrored. */
  lemma RotateTwice(s: Shape)
    requires Rect(s)
    ensures |Rotate(Rotate(s))| == |s| && |Rotate(Rotate(s))[0]| == |s[0]|
    ensures forall i, j :: 0 <= i < |s| && 0 <= j < |s[0]| ==>
              Rotate(Rotate(s))[i][j] == s[|s| - 1 - i][|s[0]| - 1 - j]
  {
    var r := Rotate(s);
    var rr := Rotate(r);
    forall i, j | 0 <= i < |s| && 0 <= j < |s[0]|
      ensures rr[i][j] == s[|s| - 1 - i][|s[0]| - 1 - j]
    {
      assert rr[i][j] == r[|r| - 1 - j][i];
    }
  }

  /** Four quarter turns give back the shape. */
  lemma RotateFourTimes(s: Shape)
    requires Rect(s)
    ensures Rotate(Rotate(Rotate(Rotate(s)))) == s
  {
    var t := Rotate(Rotate(s));
    RotateTwice(s);
    RotateTwice(t);
    var u := Rotate(Rotate(t));
    assert |u| == |s|;
    forall i | 0 <= i < |s| ensures u[i] == s[i] {
      assert |u[i]| == |s[i]|;
      forall j | 0 <= j < |s[i]| ensures u[i][j] == s[i][j] {
        assert u[i][j] == t[|s| - 1 - i][|s[0]| - 1 - j];
      }
    }
  }

  /** A rotation keeps every filled cell: it moves (r, c) to
      (c, height - 1 - r). */
  lemma RotateMovesCells(s: Shape, r: int, c: int)
    requires Rect(s) && 0 <= r < |s| && 0 <= c < |s[0]|
    ensures Rotate(s)[c][|s| - 1 - r] == s[r][c]
  {
  }

  // ------------------------------------------------------------- collide

  /** Cell (x, y) of the well is outside it or taken. The well has no top
      wall: rows above 0 are never reached since pieces only move down. */
  predicate Blocked(b: Board, x: int, y: int)
    requires WellFormed(b) && y >= 0
  {
    x < 0 || x >= COLS || y >= ROWS || b[y][x] != 0
  }

  /** Some filled cell among the first n of shape row `row` (drawn at row y)
      is blocked. */
  predicate RowHits(b: Board, px: int, y: int, row: seq<int>, n: nat)
    requires WellFormed(b) && y >= 0 && n <= |row|
  {
    n > 0 && (RowHits(b, px, y, row, n - 1) || (row[n - 1] != 0 && Blocked(b, px + n - 1, y)))
  }

  /** Some filled cell among the first m rows of the shape is blocked. */
  predicate ShapeHits(b: Board, px: int, py: int, s: Shape, m: nat)
    requires WellFormed(b) && py >= 0 && m <= |s|
  {
    m > 0 && (ShapeHits(b, px, py, s, m - 1) || RowHits(b, px, py + m - 1, s[m - 1], |s[m - 1]|))
  }

  /** `collide`: the shape placed with its corner at (px, py) hits a wall,
      the floor or a taken cell. */
  predicate Collide(b: Board, px: int, py: int, s: Shape)
    requires WellFormed(b) && py >= 0
  {
    ShapeHits(b, px, py, s, |s|)
  }

  /** Cell (r, c) of the shape is filled. */
  predicate Covers(s: Shape, r: int, c: int)
  {
    0 <= r < |s| && 0 <= c < |s[r]| && s[r][c] != 0
  }

  lemma {:induction false} RowHitsExact(b: Board, px: int, y: int, row: seq<int>, n: nat)
    requires WellFormed(b) && y >= 0 && n <= |row|
    ensures RowHits(b, px, y, row, n) <==> exists c :: 0 <= c < n && row[c] != 0 && Blocked(b, px + c, y)
  {
    if n > 0 {
      RowHitsExact(b, px, y, row, n - 1);
    }
  }

  lemma {:induction false} ShapeHitsExact(b: Board, px: int, py: int, s: Shape, m: nat)
    requires WellFormed(b) && py >= 0 && m <= |s|
    ensures ShapeHits(b, px, py, s, m) <==>
              exists r, c :: 0 <= r < m && Covers(s, r, c) && Blocked(b, px + c, py + r)
  {
    if m > 0 {
      ShapeHitsExact(b, px, py, s, m - 1);
      RowHitsExact(b, px, py + m - 1, s[m - 1], |s[m - 1]|);
      if RowHits(b, px, py + m - 1, s[m - 1], |s[m - 1]|) {
        var c :| 0 <= c < |s[m - 1]| && s[m - 1][c] != 0 && Blocked(b, px + c, py + m - 1);
        assert Covers(s, m - 1, c);
      }
      if exists r, c :: 0 <= r < m && Covers(s, r, c) && Blocked(b, px + c, py + r) {
        var r, c :| 0 <= r < m && Covers(s, r, c) && Blocked(b, px + c, py + r);
        if r == m - 1 {
          assert RowHits(b, px, py + m - 1, s[m - 1], |s[m - 1]|);
        }
      }
    }
  }

  /** `collide` is true exactly when some filled cell of the shape lands
      left of column 0, right of the last column, below the last row or on
      a taken cell; when it is false every filled cell lands on an empty
      cell inside the well. */
  lemma CollideMeans(b: Board, px: int, py: int, s: Shape)
    requires WellFormed(b) && py >= 0
    ensures Collide(b, px, py, s) <==> exists r, c :: Covers(s, r, c) && Blocked(b, px + c, py + r)
    ensures !Collide(b, px, py, s) ==>
              forall r, c :: Covers(s, r, c) ==>
                0 <= px + c < COLS && 0 <= py + r < ROWS && b[py + r][px + c] == 0
  {
    ShapeHitsExact(b, px, py, s, |s|);
  }

  // --------------------------------------------------------------- merge

  /** The board with value v written into the cells the shape covers at
      (px, py) and every other cell unchanged. */
  function Merged(b: Board, s: Shape, px: int, py: int, v: int): (m: Board)
    ensures |m| == |b| && forall i :: 0 <= i < |b| ==> |m[i]| == |b[i]|
  {
    seq(|b|, i requires 0 <= i < |b| =>
      seq(|b[i]|, j requires 0 <= j < |b[i]| => if Covers(s, i - py, j - px) then v else b[i][j]))
  }

  /** When the shape fits at (px, py), merging fills exactly its filled
      cells, each of them previously empty, and leaves the rest alone. */
  lemma MergeFills(b: Board, s: Shape, px: int, py: int, v: int)
    requires WellFormed(b) && py >= 0 && !Collide(b, px, py, s)
    ensures WellFormed(Merged(b, s, px, py, v))
    ensures forall r, c :: Covers(s, r, c) ==>
              0 <= px + c < COLS && 0 <= py + r < ROWS &&
              b[py + r][px + c] == 0 && Merged(b, s, px, py, v)[py + r][px + c] == v
    ensures forall i, j :: 0 <= i < ROWS && 0 <= j < COLS && !Covers(s, i - py, j - px) ==>
              Merged(b, s, px, py, v)[i][j] == b[i][j]
  {
    CollideMeans(b, px, py, s);
  }

  // ---------------------------------------------------------- clear lines

  /** A row with no empty cell. */
  predicate Full(row: seq<int>)
  {
    forall j :: 0 <= j < |row| ==> row[j] != 0
  }

  /** The rows kept by `filter(row => row.some(v => !v))`, in order. */
  function Kept(b: Board): (k: Board)
    ensures |k| <= |b|
    ensures forall i :: 0 <= i < |k| ==> !Full(k[i]) && k[i] in b
  {
    if b == [] then [] else if Full(b[0]) then Kept(b[1..]) else [b[0]] + Kept(b[1..])
  }

  /** Number of full rows. */
  function FullCount(b: Board): nat
  {
    if b == [] then 0 else (if Full(b[0]) then 1 else 0) + FullCount(b[1..])
  }

  /** Keeping rows distributes over concatenation: the kept rows keep their
      order. */
  lemma {:induction false} KeptAppend(a: Board, b: Board)
    ensures Kept(a + b) == Kept(a) + Kept(b)
  {
    if a == [] {
      assert a + b == b;
    } else {
      assert (a + b)[0] == a[0] && (a + b)[1..] == a[1..] + b;
      KeptAppend(a[1..], b);
      if Full(a[0]) {
        calc {
          Kept(a + b);
          Kept(a[1..] + b);
          Kept(a[1..]) + Kept(b);
          Kept(a) + Kept(b);
        }
      } else {
        calc {
          Kept(a + b);
          [a[0]] + Kept(a[1..] + b);
          [a[0]] + (Kept(a[1..]) + Kept(b));
          ([a[0]] + Kept(a[1..])) + Kept(b);
          Kept(a) + Kept(b);
        }
      }
    }
  }

  /** Every row that is not full survives and the full ones are the rows
      removed. */
  lemma {:induction false} KeptFacts(b: Board)
    ensures |Kept(b)| + FullCount(b) == |b|
    ensures forall row :: row in b && !Full(row) ==> row in Kept(b)
  {
    if b != [] {
      KeptFacts(b[1..]);
      forall row | row in b && !Full(row) ensures row in Kept(b) {
        if row != b[0] {
          assert row in b[1..];
        }
      }
    }
  }

  lemma {:induction false} KeptNoFull(b: Board)
    requires forall i :: 0 <= i < |b| ==> !Full(b[i])
    ensures Kept(b) == b
  {
    if b != [] {
      KeptNoFull(b[1..]);
    }
  }

  function EmptyRows(n: nat): (e: Board)
    ensures |e| == n && forall i :: 0 <= i < n ==> e[i] == EmptyRow()
  {
    seq(n, i => EmptyRow())
  }

  /** The refill loop of `clearLines`: empty rows pushed on top until the
      well is full height again. */
  method Refill(kept: Board) returns (b: Board)
    requires |kept| <= ROWS
    ensures b == EmptyRows(ROWS - |kept|) + kept
  {
    b := kept;
    ghost var n := 0;
    while |b| < ROWS
      invariant |b| <= ROWS && |b| == n + |kept|
      invariant b == EmptyRows(n) + kept
      decreases ROWS - |b|
    {
      EmptyRowsCons(n);
      assert [EmptyRow()] + (EmptyRows(n) + kept) == ([EmptyRow()] + EmptyRows(n)) + kept;
      b := [EmptyRow()] + b;
      n := n + 1;
    }
  }

  lemma EmptyRowsCons(n: nat)
    ensures [EmptyRow()] + EmptyRows(n) == EmptyRows(n + 1)
  {
  }

  /** `clearLines`: the kept rows under enough empty rows to refill the
      well. */
  function Cleared(b: Board): (c: Board)
    requires WellFormed(b)
  {
    EmptyRows(ROWS - |Kept(b)|) + Kept(b)
  }

  /** Clearing keeps the well's shape, leaves no full row, removes exactly
      the full rows (their number is the number of new empty rows on top)
      and keeps every other row, in order, at the bottom. */
  lemma ClearedFacts(b: Board)
    requires WellFormed(b)
    ensures WellFormed(Cleared(b)) && |Kept(b)| + FullCount(b) == ROWS
    ensures forall i :: 0 <= i < ROWS ==> !Full(Cleared(b)[i])
    ensures Cleared(b)[..FullCount(b)] == EmptyRows(FullCount(b))
    ensures Cleared(b)[FullCount(b)..] == Kept(b)
    ensures forall row :: row in b && !Full(row) ==> row in Cleared(b)
  {
    KeptFacts(b);
    var c := Cleared(b);
    forall i | 0 <= i < ROWS ensures !Full(c[i]) && |c[i]| == COLS {
      if i < ROWS - |Kept(b)| {
        assert c[i] == EmptyRow() && c[i][0] == 0;
      } else {
        assert c[i] == Kept(b)[i - (ROWS - |Kept(b)|)];
      }
    }
  }

  /** A well with no full row is left as it is. */
  lemma ClearedIdle(b: Board)
    requires WellFormed(b) && forall i :: 0 <= i < ROWS ==> !Full(b[i])
    ensures Cleared(b) == b
  {
    KeptNoFull(b);
  }

  // --------------------------------------------------------------- pieces

  lemma ShapesFacts()
    ensures |SHAPES| == 7
    ensures forall k :: 0 <= k < 7 ==> Rect(SHAPES[k]) && |SHAPES[k]| <= 2 && |SHAPES[k][0]| <= 4
  {
  }

  /** A spawned piece fits an empty well. */
  lemma SpawnFitsEmpty(k: int)
    requires 0 <= k < 7
    ensures !Collide(EmptyBoard(), SPAWN_X, 0, SHAPES[k])
  {
    ShapesFacts();
    CollideMeans(EmptyBoard(), SPAWN_X, 0, SHAPES[k]);
  }

  /** The falling piece fits: every filled cell is inside the well on an
      empty cell. */
  predicate Fits(b: Board, s: Shape, x: int, y: int)
  {
    WellFormed(b) && Rect(s) && y >= 0 && !Collide(b, x, y, s)
  }

  class Game {
    var board: Board
    var shape: Shape
    var x: int
    var y: int
    var kind: int

    /** The well has its size, cells hold 0 .. 7 and the falling piece fits. */
    ghost predicate Valid()
      reads this
    {
      Fits(board, shape, x, y) && 0 <= kind < 7 &&
      forall i, j :: 0 <= i < ROWS && 0 <= j < COLS ==> 0 <= board[i][j] <= 7
    }

    /** An empty well and a random piece (kind k) at the spawn point. */
    constructor (k: int)
      requires 0 <= k < 7
      ensures Valid()
      ensures board == EmptyBoard() && shape == SHAPES[k] && x == SPAWN_X && y == 0 && kind == k
    {
      board := EmptyBoard();
      shape := SHAPES[k];
      x, y, kind := SPAWN_X, 0, k;
      ShapesFacts();
      SpawnFitsEmpty(k);
    }

    /** Left arrow: one column left unless that collides. */
    method MoveLeft()
      requires Valid()
      modifies this
      ensures Valid()
      ensures x == (if Collide(old(board), old(x) - 1, old(y), old(shape)) then old(x) else old(x) - 1)
      ensures board == old(board) && shape == old(shape) && y == old(y) && kind == old(kind)
    {
      if !Collide(board, x - 1, y, shape) {
        x := x - 1;
      }
    }

    /** Right arrow: one column right unless that collides. */
    method MoveRight()
      requires Valid()
      modifies this
      ensures Valid()
      ensures x == (if Collide(old(board), old(x) + 1, old(y), old(shape)) then old(x) else old(x) + 1)
      ensures board == old(board) && shape == old(shape) && y == old(y) && kind == old(kind)
    {
      if !Collide(board, x + 1, y, shape) {
        x := x + 1;
      }
    }

    /** Down arrow: one row down unless that collides. */
    method MoveDown()
      requires Valid()
      modifies this
      ensures Valid()
      ensures y == (if Collide(old(board), old(x), old(y) + 1, old(shape)) then old(y) else old(y) + 1)
      ensures board == old(board) && shape == old(shape) && x == old(x) && kind == old(kind)
    {
      if !Collide(board, x, y + 1, shape) {
        y := y + 1;
      }
    }

    /** Up arrow: the piece turns a quarter unless the turned shape collides
        where it stands. */
    method RotatePiece()
      requires Valid()
      modifies this
      ensures Valid()
      ensures shape == (if Collide(old(board), old(x), old(y), Rotate(old(shape))) then old(shape) else Rotate(old(shape)))
      ensures board == old(board) && x == old(x) && y == old(y) && kind == old(kind)
    {
      var rot := Rotate(shape);
      if !Collide(board, x, y, rot) {
        shape := rot;
      }
    }

    /** `merge`: the piece's filled cells take its kind plus 1. */
    method Merge()
      requires Fits(board, shape, x, y) && 0 <= kind < 7
      modifies this
      ensures board == Merged(old(board), shape, x, y, kind + 1)
      ensures shape == old(shape) && x == old(x) && y == old(y) && kind == old(kind)
    {
      var b0, s, px, py, v := board, shape, x, y, kind + 1;
      CollideMeans(b0, px, py, s);
      var b := b0;
      var r := 0;
      while r < |s|
        invariant 0 <= r <= |s|
        invariant board == b0 && shape == s && x == px && y == py && kind + 1 == v
        invariant WellFormed(b)
        invariant forall i, j :: 0 <= i < ROWS && 0 <= j < COLS ==>
                    b[i][j] == if Covers(s, i - py, j - px) && i - py < r then v else b0[i][j]
      {
        b := MergeRow(b, s, r, px, py, v);
        r := r + 1;
      }
      forall i | 0 <= i < ROWS ensures b[i] == Merged(b0, s, px, py, v)[i] {
      }
      board := b;
    }

    /** `clearLines`: the filter, then empty rows pushed on top until the
        well is full height again. */
    method ClearLines()
      requires WellFormed(board)
      modifies this
      ensures board == Cleared(old(board))
      ensures shape == old(shape) && x == old(x) && y == old(y) && kind == old(kind)
    {
      board := Refill(Kept(board));
    }

    /** The gravity tick with k the kind of the next random piece: one row
        down if free; otherwise the piece lands. */
    method Drop(k: int)
      requires Valid() && 0 <= k < 7
      modifies this
      ensures Valid()
      ensures !Collide(old(board), old(x), old(y) + 1, old(shape)) ==>
                board == old(board) && shape == old(shape) && x == old(x) && y == old(y) + 1 && kind == old(kind)
      ensures Collide(old(board), old(x), old(y) + 1, old(shape)) ==>
                shape == SHAPES[k] && x == SPAWN_X && y == 0 && kind == k &&
                board == AfterLanding(old(board), old(shape), old(x), old(y), old(kind), k)
    {
      if !Collide(board, x, y + 1, shape) {
        y := y + 1;
      } else {
        Land(k);
      }
    }

    /** The landing: the piece is merged, full lines are cleared, the next
        piece (kind k) appears at the spawn point, and if it does not fit
        the well is emptied. */
    method Land(k: int)
      requires Valid() && 0 <= k < 7
      modifies this
      ensures Valid()
      ensures shape == SHAPES[k] && x == SPAWN_X && y == 0 && kind == k
      ensures board == AfterLanding(old(board), old(shape), old(x), old(y), old(kind), k)
    {
      LandingFacts(board, shape, x, y, kind, k);
      Merge();
      ClearLines();
      ghost var landed := board;
      AfterLandingIs(old(board), old(shape), old(x), old(y), old(kind), k, landed);
      CellsInRange(landed, old(board), old(shape), old(x), old(y), old(kind) + 1);
      Spawn(k);
    }

    /** A new piece of kind k at the spawn point; the well is emptied when
        it does not fit. */
    method Spawn(k: int)
      requires WellFormed(board) && 0 <= k < 7
      requires forall i, j :: 0 <= i < ROWS && 0 <= j < COLS ==> 0 <= board[i][j] <= 7
      modifies this
      ensures Valid()
      ensures shape == SHAPES[k] && x == SPAWN_X && y == 0 && kind == k
      ensures board == if Collide(old(board), SPAWN_X, 0, SHAPES[k]) then EmptyBoard() else old(board)
    {
      ShapesFacts();
      shape := SHAPES[k];
      x, y, kind := SPAWN_X, 0, k;
      if Collide(board, x, y, shape) {
        board := EmptyBoard();
        SpawnFitsEmpty(k);
      }
    }
  }

  lemma AfterLandingIs(b: Board, s: Shape, px: int, py: int, kind: int, k: int, landed: Board)
    requires WellFormed(b) && 0 <= k < 7 && landed == Cleared(Merged(b, s, px, py, kind + 1))
    ensures WellFormed(Merged(b, s, px, py, kind + 1)) ==> WellFormed(landed)
    ensures AfterLanding(b, s, px, py, kind, k) == if Collide(landed, SPAWN_X, 0, SHAPES[k]) then EmptyBoard() else landed
  {
  }

  /** The well after a piece of kind `kind` lands at (px, py) and a piece of
      kind k spawns: merged and cleared, or emptied if the new piece does
      not fit. */
  function AfterLanding(b: Board, s: Shape, px: int, py: int, kind: int, k: int): Board
    requires WellFormed(b) && 0 <= k < 7
  {
    ShapesFacts();
    var landed := Cleared(Merged(b, s, px, py, kind + 1));
    if Collide(landed, SPAWN_X, 0, SHAPES[k]) then EmptyBoard() else landed
  }

  /** After a landing the new piece fits and every cell stays in 0 .. 7. */
  lemma LandingFacts(b: Board, s: Shape, px: int, py: int, kind: int, k: int)
    requires Fits(b, s, px, py) && 0 <= kind < 7 && 0 <= k < 7
    requires forall i, j :: 0 <= i < ROWS && 0 <= j < COLS ==> 0 <= b[i][j] <= 7
    ensures WellFormed(Merged(b, s, px, py, kind + 1))
    ensures Rect(SHAPES[k])
    ensures Fits(AfterLanding(b, s, px, py, kind, k), SHAPES[k], SPAWN_X, 0)
    ensures forall i, j :: 0 <= i < ROWS && 0 <= j < COLS ==> 0 <= AfterLanding(b, s, px, py, kind, k)[i][j] <= 7
  {
    MergeFills(b, s, px, py, kind + 1);
    ShapesFacts();
    var landed := Cleared(Merged(b, s, px, py, kind + 1));
    CellsInRange(landed, b, s, px, py, kind + 1);
    if Collide(landed, SPAWN_X, 0, SHAPES[k]) {
      SpawnFitsEmpty(k);
    }
  }

  /** The inner loop of `merge`: row r of the shape written at (px, py). */
  method MergeRow(b: Board, s: Shape, r: int, px: int, py: int, v: int) returns (m: Board)
    requires WellFormed(b) && 0 <= r < |s|
    requires forall c :: Covers(s, r, c) ==> 0 <= px + c < COLS && 0 <= py + r < ROWS
    ensures WellFormed(m)
    ensures forall i, j :: 0 <= i < ROWS && 0 <= j < COLS ==>
              m[i][j] == if i - py == r && Covers(s, r, j - px) then v else b[i][j]
  {
    m := b;
    var c := 0;
    while c < |s[r]|
      invariant 0 <= c <= |s[r]|
      invariant WellFormed(m)
      invariant forall i, j :: 0 <= i < ROWS && 0 <= j < COLS ==>
                  m[i][j] == if i - py == r && Covers(s, r, j - px) && j - px < c then v else b[i][j]
    {
      if s[r][c] != 0 {
        assert Covers(s, r, c);
        m := m[py + r := m[py + r][px + c := v]];
      }
      c := c + 1;
    }
  }

  /** Merging a value in 1 .. 7 and clearing keep every cell in 0 .. 7. */
  lemma CellsInRange(landed: Board, b: Board, s: Shape, px: int, py: int, v: int)
    requires WellFormed(b) && forall i, j :: 0 <= i < ROWS && 0 <= j < COLS ==> 0 <= b[i][j] <= 7
    requires 1 <= v <= 7 && landed == Cleared(Merged(b, s, px, py, v))
    ensures forall i, j :: 0 <= i < ROWS && 0 <= j < COLS ==> 0 <= landed[i][j] <= 7
  {
    var m := Merged(b, s, px, py, v);
    assert WellFormed(m);
    ClearedFacts(m);
    forall i, j | 0 <= i < ROWS && 0 <= j < COLS ensures 0 <= landed[i][j] <= 7 {
      var f := FullCount(m);
      if i < f {
        assert landed[i] == EmptyRows(f)[i];
      } else {
        var row := Kept(m)[i - f];
        assert landed[i] == row;
        assert row in m;
        var n :| 0 <= n < |m| && m[n] == row;
      }
    }
  }
}

=== FILE: tictactoe.dfy ===
/** Tic-tac-toe on nine cells 0..8 in row-major order (TicTacToe.tsx). Cells hold
    0 (empty), 1 (X) or 2 (O). */
module TicTacToe {
  import opened Common

  type Board = seq<int>

  datatype Line = Line(a: nat, b: nat, c: nat)
  datatype Level = Easy | Normal | Perfect
  /** The `{ score, move }` pair `minimax` returns. */
  datatype Scored = Scored(score: int, move: int)

  const LINES: seq<Line> := [
    Line(0, 1, 2), Line(3, 4, 5), Line(6, 7, 8),
    Line(0, 3, 6), Line(1, 4, 7), Line(2, 5, 8),
    Line(0, 4, 8), Line(2, 4, 6)]

  /** Centre, then corners, then edges. */
  const ORDER: seq<nat> := [4, 0, 2, 6, 8, 1, 3, 5, 7]

  /** Stands in for the `Infinity` that seeds the search; every score lies in [-10, 10]. */
  const INF: int := 1000

  predicate IsPlayer(p: int) { p == 1 || p == 2 }

  function Other(p: int): int { if p == 1 then 2 else 1 }

  predicate Cells(b: Board)
  {
    |b| == 9 && forall i :: 0 <= i < 9 ==> 0 <= b[i] <= 2
  }

  predicate Full(b: Board)
    requires |b| == 9
  {
    forall i :: 0 <= i < 9 ==> b[i] != 0
  }

  /** Line l holds three discs of player p. */
  predicate Complete(b: Board, l: Line, p: int)
    requires |b| == 9 && l.a < 9 && l.b < 9 && l.c < 9
  {
    p != 0 && b[l.a] == p && b[l.b] == p && b[l.c] == p
  }

  lemma LinesInRange()
    ensures |LINES| == 8
    ensures forall k :: 0 <= k < 8 ==> LINES[k].a < 9 && LINES[k].b < 9 && LINES[k].c < 9
  {
  }

  ghost predicate HasLine(b: Board, p: int)
    requires |b| == 9
  {
    LinesInRange();
    exists k :: 0 <= k < 8 && Complete(b, LINES[k], p)
  }

  /** The owner of the first complete line from LINES[k] on, or 0. (The board
      is named in the decreases clauses of this and the other scans below only
      so that a call with a literal start is not unfolded all the way down
      wherever it appears.) */
  function LineWinner(b: Board, k: nat): int
    requires |b| == 9 && k <= 8
    decreases 8 - k, b
  {
    if k == 8 then 0
    else
      LinesInRange();
      var l := LINES[k];
      if b[l.a] != 0 && b[l.a] == b[l.b] && b[l.a] == b[l.c] then b[l.a] else LineWinner(b, k + 1)
  }

  /** `calcWinner`: a line owner, else -1 for a full board, else 0. */
  function CalcWinner(b: Board): int
    requires |b| == 9
  {
    var lw := LineWinner(b, 0);
    if lw != 0 then lw else if Full(b) then -1 else 0
  }

  lemma {:induction false} LineWinnerFacts(b: Board, k: nat)
    requires Cells(b) && k <= 8
    ensures 0 <= LineWinner(b, k) <= 2
    ensures LineWinner(b, k) != 0 ==> exists j :: k <= j < 8 && Complete(b, LINES[j], LineWinner(b, k))
    ensures LineWinner(b, k) == 0 ==> forall j, p :: k <= j < 8 ==> !Complete(b, LINES[j], p)
    decreases 8 - k, b
  {
    LinesInRange();
    if k < 8 {
      LineWinnerFacts(b, k + 1);
    }
  }

  /** `calcWinner` answers p in {1, 2} only for a completed line of p, answers
      -1 exactly for a full board without a line and 0 exactly for an unfinished
      board without a line; a line is found before a full board is called a draw. */
  lemma CalcWinnerSpec(b: Board)
    requires Cells(b)
    ensures -1 <= CalcWinner(b) <= 2
    ensures IsPlayer(CalcWinner(b)) ==> HasLine(b, CalcWinner(b))
    ensures HasLine(b, 1) || HasLine(b, 2) ==> IsPlayer(CalcWinner(b))
    ensures CalcWinner(b) == -1 <==> !HasLine(b, 1) && !HasLine(b, 2) && Full(b)
    ensures CalcWinner(b) == 0 <==> !HasLine(b, 1) && !HasLine(b, 2) && !Full(b)
  {
    LineWinnerFacts(b, 0);
    LinesInRange();
  }

  // ---------------------------------------------------------------------------
  // The page state: `place`, `undo`, `restart`
  // ---------------------------------------------------------------------------

  class Game {
    var board: Board
    var turn: int
    var winner: int
    var moves: seq<nat>

    /** The history lists each occupied cell once; while nobody has won, X moves
        on an even history length and O on an odd one. */
    ghost predicate Valid()
      reads this
    {
      Cells(board) && IsPlayer(turn) &&
      (forall k :: 0 <= k < |moves| ==> moves[k] < 9) &&
      (forall i :: 0 <= i < 9 ==> (board[i] != 0 <==> i in moves)) &&
      (forall j, k :: 0 <= j < k < |moves| ==> moves[j] != moves[k]) &&
      (winner == 0 ==> turn == if |moves| % 2 == 0 then 1 else 2)
    }

    /** `restart` (and the initial state). */
    constructor ()
      ensures Valid()
      ensures board == seq(9, _ => 0) && turn == 1 && winner == 0 && moves == []
    {
      board, turn, winner, moves := seq(9, _ => 0), 1, 0, [];
    }

    /** `place(i)`: ignored once there is a result or on an occupied cell;
        otherwise only cell i changes, to the mover, i joins the history, and the
        turn passes unless the move ended the game. */
    method Place(i: nat)
      requires Valid() && i < 9
      modifies this
      ensures Valid()
      ensures old(winner) != 0 || old(board)[i] != 0 ==>
        board == old(board) && turn == old(turn) && winner == old(winner) && moves == old(moves)
      ensures old(winner) == 0 && old(board)[i] == 0 ==>
        board == old(board)[i := old(turn)] && moves == old(moves) + [i] &&
        winner == CalcWinner(board) &&
        turn == (if winner != 0 then old(turn) else Other(old(turn)))
    {
      if winner != 0 || board[i] != 0 { return; }
      var next := board[i := turn];
      board := next;
      moves := moves + [i];
      var w := CalcWinner(next);
      if w != 0 {
        winner := w;
        return;
      }
      turn := if turn == 1 then 2 else 1;
    }

    /** `undo`: ignored with an empty history or once there is a result; otherwise
        the last-played cell is cleared, the history shrinks by one and the turn flips. */
    method Undo()
      requires Valid()
      modifies this
      ensures Valid()
      ensures old(moves) == [] || old(winner) != 0 ==>
        board == old(board) && turn == old(turn) && winner == old(winner) && moves == old(moves)
      ensures old(moves) != [] && old(winner) == 0 ==>
        board == old(board)[old(moves)[|old(moves)| - 1] := 0] &&
        moves == old(moves)[..|old(moves)| - 1] &&
        turn == Other(old(turn)) && winner == 0
    {
      if |moves| == 0 || winner != 0 { return; }
      var last := moves[|moves| - 1];
      board := board[last := 0];
      moves := moves[..|moves| - 1];
      turn := if turn == 1 then 2 else 1;
    }
  }

  /** A move that does not end the game, taken back, leaves the page as it was. */
  method PlaceThenUndo(g: Game, i: nat)
    requires g.Valid() && i < 9 && g.winner == 0 && g.board[i] == 0
    requires CalcWinner(g.board[i := g.turn]) == 0
    modifies g
    ensures g.Valid()
    ensures g.board == old(g.board) && g.turn == old(g.turn) && g.moves == old(g.moves) && g.winner == 0
  {
    g.Place(i);
    g.Undo();
  }

  // ---------------------------------------------------------------------------
  // Move choice: `findImmediateWin`, `bestHeuristic`
  // ---------------------------------------------------------------------------

  /** The first empty cell from k on where `who` completes a line. */
  function ImmediateWin(b: Board, who: int, k: nat): int
    requires |b| == 9 && k <= 9
    decreases 9 - k, b
  {
    if k == 9 then -1
    else if b[k] == 0 && CalcWinner(b[k := who]) == who then k
    else ImmediateWin(b, who, k + 1)
  }

  lemma {:induction false} ImmediateWinFacts(b: Board, who: int, k: nat)
    requires |b| == 9 && k <= 9
    ensures var w := ImmediateWin(b, who, k);
      (w == -1 <==> forall i :: k <= i < 9 ==> !(b[i] == 0 && CalcWinner(b[i := who]) == who)) &&
      (w != -1 ==> (k <= w < 9 && b[w] == 0 && CalcWinner(b[w := who]) == who &&
        forall i :: k <= i < w ==> !(b[i] == 0 && CalcWinner(b[i := who]) == who)))
    decreases 9 - k, b
  {
    if k < 9 {
      ImmediateWinFacts(b, who, k + 1);
    }
  }

  /** `findImmediateWin(b, who)`: -1 when no empty cell wins at once for `who`,
      otherwise the lowest such cell. */
  method FindImmediateWin(b: Board, who: int) returns (w: int)
    requires |b| == 9
    ensures w == ImmediateWin(b, who, 0)
    ensures w == -1 <==> forall i :: 0 <= i < 9 ==> !(b[i] == 0 && CalcWinner(b[i := who]) == who)
    ensures w != -1 ==> 0 <= w < 9 && b[w] == 0 && CalcWinner(b[w := who]) == who
  {
    ImmediateWinFacts(b, who, 0);
    var i := 0;
    while i < 9
      invariant 0 <= i <= 9
      invariant ImmediateWin(b, who, i) == ImmediateWin(b, who, 0)
    {
      if b[i] != 0 { i := i + 1; continue; }
      var n := b[i := who];
      if CalcWinner(n) == who { return i; }
      i := i + 1;
    }
    return -1;
  }

  /** The first empty cell of ORDER from position k on, or -1. */
  function FirstInOrder(b: Board, k: nat): (r: int)
    requires |b| == 9 && k <= 9
    ensures r == -1 <==> forall j :: k <= j < 9 ==> b[ORDER[j]] != 0
    ensures r != -1 ==> exists j :: (k <= j < 9 && r == ORDER[j] && b[r] == 0 &&
      forall j' :: k <= j' < j ==> b[ORDER[j']] != 0)
    decreases 9 - k, b
  {
    if k == 9 then -1 else if b[ORDER[k]] == 0 then ORDER[k] else FirstInOrder(b, k + 1)
  }

  lemma OrderIsPermutation()
    ensures |ORDER| == 9
    ensures forall i :: 0 <= i < 9 ==> i in ORDER
    ensures forall j :: 0 <= j < 9 ==> ORDER[j] < 9
  {
    assert ORDER[1] == 0 && ORDER[5] == 1 && ORDER[2] == 2 && ORDER[6] == 3 && ORDER[0] == 4;
    assert ORDER[7] == 5 && ORDER[3] == 6 && ORDER[8] == 7 && ORDER[4] == 8;
  }

  /** `bestHeuristic`: the first empty cell in the order 4, 0, 2, 6, 8, 1, 3, 5, 7;
      -1 only on a full board. */
  function BestHeuristic(b: Board): (r: int)
    requires |b| == 9
    ensures r == -1 <==> Full(b)
    ensures r != -1 ==> 0 <= r < 9 && b[r] == 0
  {
    FullInOrder(b);
    FirstInOrder(b, 0)
  }

  /** A board is full exactly when every cell of ORDER is taken. */
  lemma FullInOrder(b: Board)
    requires |b| == 9
    ensures Full(b) <==> forall j :: 0 <= j < 9 ==> b[ORDER[j]] != 0
    ensures forall j :: 0 <= j < 9 ==> ORDER[j] < 9
  {
    OrderIsPermutation();
    if forall j :: 0 <= j < 9 ==> b[ORDER[j]] != 0 {
      forall i | 0 <= i < 9
        ensures b[i] != 0
      {
        assert i in ORDER;
        var j :| 0 <= j < 9 && ORDER[j] == i;
      }
    }
  }

  // ---------------------------------------------------------------------------
  // `minimax`
  // ---------------------------------------------------------------------------

  /** The score of a finished board as the source computes it: the loss test
      `w && w !== ai` comes first and also catches the draw value -1. */
  function TerminalScoreAsWritten(w: int, ai: int, depth: int): int
    requires w != 0
  {
    if w == ai then 10 - depth
    else if w != 0 && w != ai then depth - 10
    else 0
  }

  /** The score of a finished board with the draw test ahead of the loss test. */
  function TerminalScore(w: int, ai: int, depth: int): (s: int)
    requires w != 0
    ensures w == ai ==> s == 10 - depth
    ensures w == -1 && ai != -1 ==> s == 0
    ensures w != ai && w != -1 ==> s == depth - 10
  {
    if w == ai then 10 - depth
    else if w == -1 then 0
    else depth - 10
  }

  /** As written, a drawn board scores like a loss at the same depth and the
      `w === -1` branch is never reached. */
  lemma DrawScoredAsLoss()
    ensures var drawn := [1, 2, 1, 1, 2, 2, 2, 1, 1];
      CalcWinner(drawn) == -1 &&
      TerminalScoreAsWritten(CalcWinner(drawn), 2, 0) == -10 &&
      TerminalScoreAsWritten(1, 2, 0) == -10 &&
      TerminalScore(CalcWinner(drawn), 2, 0) == 0
    ensures forall ai, depth :: IsPlayer(ai) ==> TerminalScoreAsWritten(-1, ai, depth) == depth - 10
  {
    var drawn := [1, 2, 1, 1, 2, 2, 2, 1, 1];
    assert LineWinner(drawn, 0) == 0 by {
      assert LineWinner(drawn, 8) == 0;
    }
  }

  /** `minimax(board, player, ai, depth)` with the corrected terminal scores. */
  function Minimax(b: Board, player: int, ai: int, depth: int): Scored
    requires Cells(b) && IsPlayer(player)
    decreases Count(b, 0), 1
  {
    var w := CalcWinner(b);
    if w != 0 then Scored(TerminalScore(w, ai, depth), -1)
    else Search(b, player, ai, depth, 0, if player == ai then -INF else INF, -1)
  }

  /** The `for (const i of order)` loop of `minimax` from ORDER[k] on, given the
      best score and move so far; -1 as the final move scores 0. */
  function Search(b: Board, player: int, ai: int, depth: int, k: nat, bestScore: int, bestMove: int): Scored
    requires Cells(b) && IsPlayer(player) && k <= 9
    decreases Count(b, 0), 0, 9 - k
  {
    if k == 9 then (if bestMove == -1 then Scored(0, -1) else Scored(bestScore, bestMove))
    else
      var i := ORDER[k];
      if b[i] != 0 then Search(b, player, ai, depth, k + 1, bestScore, bestMove)
      else
        CountUpdate(b, i, 0, player);
        var s := Minimax(b[i := player], Other(player), ai, depth + 1).score;
        if (player == ai && s > bestScore) || (player != ai && s < bestScore)
        then Search(b, player, ai, depth, k + 1, s, i)
        else Search(b, player, ai, depth, k + 1, bestScore, bestMove)
  }

  /** On a finished board `minimax` answers the terminal score with move -1; on any
      other board it answers an empty cell; scores lie in [-10, 10]. */
  lemma {:induction false} MinimaxFacts(b: Board, player: int, ai: int, depth: int)
    requires Cells(b) && IsPlayer(player) && IsPlayer(ai)
    requires 0 <= depth && depth + Count(b, 0) <= 9
    ensures var r := Minimax(b, player, ai, depth);
      -10 <= r.score <= 10 &&
      (CalcWinner(b) != 0 ==> r == Scored(TerminalScore(CalcWinner(b), ai, depth), -1)) &&
      (CalcWinner(b) == 0 ==> 0 <= r.move < 9 && b[r.move] == 0)
    decreases Count(b, 0), 1
  {
    var w := CalcWinner(b);
    if w == 0 {
      CalcWinnerSpec(b);
      OrderIsPermutation();
      var i :| 0 <= i < 9 && b[i] == 0;
      assert i in ORDER;
      var j :| 0 <= j < 9 && ORDER[j] == i;
      SearchFacts(b, player, ai, depth, 0, if player == ai then -INF else INF, -1, j);
    }
  }

  lemma {:induction false} SearchFacts(b: Board, player: int, ai: int, depth: int, k: nat,
                                       bestScore: int, bestMove: int, j: nat)
    requires Cells(b) && IsPlayer(player) && IsPlayer(ai) && k <= 9
    requires 0 <= depth && depth + Count(b, 0) <= 9
    requires bestMove == -1 ==> bestScore == if player == ai then -INF else INF
    requires bestMove != -1 ==> 0 <= bestMove < 9 && b[bestMove] == 0 && -10 <= bestScore <= 10
    requires j < 9 && b[ORDER[j]] == 0 && (bestMove == -1 ==> k <= j)
    ensures var r := Search(b, player, ai, depth, k, bestScore, bestMove);
      -10 <= r.score <= 10 && 0 <= r.move < 9 && b[r.move] == 0
    decreases Count(b, 0), 0, 9 - k
  {
    OrderIsPermutation();
    if k < 9 {
      var i := ORDER[k];
      if b[i] != 0 {
        SearchFacts(b, player, ai, depth, k + 1, bestScore, bestMove, j);
      } else {
        CountUpdate(b, i, 0, player);
        var next := b[i := player];
        MinimaxFacts(next, Other(player), ai, depth + 1);
        var s := Minimax(next, Other(player), ai, depth + 1).score;
        if (player == ai && s > bestScore) || (player != ai && s < bestScore) {
          SearchFacts(b, player, ai, depth, k + 1, s, i, j);
        } else {
          SearchFacts(b, player, ai, depth, k + 1, bestScore, bestMove, j);
        }
      }
    }
  }

  /** A drawn board scores 0 (the corrected behaviour). */
  lemma DrawScoresZero(b: Board, player: int, ai: int, depth: int)
    requires Cells(b) && IsPlayer(player) && IsPlayer(ai) && CalcWinner(b) == -1
    ensures Minimax(b, player, ai, depth) == Scored(0, -1)
  {
  }

  /** `minimax`, recursive, with its loop over ORDER tracking the best score and move. */
  method MinimaxSearch(b: Board, player: int, ai: int, depth: int) returns (score: int, move: int)
    requires Cells(b) && IsPlayer(player) && IsPlayer(ai)
    ensures Scored(score, move) == Minimax(b, player, ai, depth)
    decreases Count(b, 0)
  {
    var w := CalcWinner(b);
    if w == ai { return 10 - depth, -1; }
    if w == -1 { return 0, -1; }
    if w != 0 { return depth - 10, -1; }
    var bestScore := if player == ai then -INF else INF;
    var bestMove: int := -1;
    var k := 0;
    while k < 9
      invariant 0 <= k <= 9
      invariant Search(b, player, ai, depth, k, bestScore, bestMove) == Minimax(b, player, ai, depth)
    {
      var i := ORDER[k];
      if b[i] != 0 { k := k + 1; continue; }
      var next := b[i := player];
      CountUpdate(b, i, 0, player);
      var s, _ := MinimaxSearch(next, if player == 1 then 2 else 1, ai, depth + 1);
      if player == ai {
        if s > bestScore { bestScore, bestMove := s, i; }
      } else {
        if s < bestScore { bestScore, bestMove := s, i; }
      }
      k := k + 1;
    }
    if bestMove == -1 { return 0, -1; }
    return bestScore, bestMove;
  }

  // ---------------------------------------------------------------------------
  // `computeAIMoveByLevel`
  // ---------------------------------------------------------------------------

  /** The empty cells in ascending order (`empties`). */
  function EmptyCells(b: Board, k: nat): (es: seq<nat>)
    requires |b| == 9 && k <= 9
    decreases 9 - k, b
  {
    if k == 9 then [] else (if b[k] == 0 then [k] else []) + EmptyCells(b, k + 1)
  }

  /** A uniform draw from the empty cells, the draw given as `pick`. */
  function RandomEmpty(b: Board, pick: nat): int
    requires |b| == 9
  {
    var es := EmptyCells(b, 0);
    if es == [] then -1 else es[pick % |es|]
  }

  /** The move the source picks. `skipRoll` and `halfRoll` are the two
      `Math.random()` draws in tenths and `pick` the draw of an empty cell.
      Every level returns a block before reaching the easy-level branch, so the
      test `block !== -1` there is always false. */
  function AIMoveAsWritten(b: Board, ai: int, level: Level, skipRoll: int, halfRoll: int, pick: nat): int
    requires Cells(b) && IsPlayer(ai)
  {
    var human := Other(ai);
    if level == Perfect then Minimax(b, ai, ai, 0).move
    else
      var win := ImmediateWin(b, ai, 0);
      if win != -1 then win
      else
        var block := ImmediateWin(b, human, 0);
        if block != -1 then block
        else if level == Normal then BestHeuristic(b)
        else if EmptyCells(b, 0) == [] then -1
        else if skipRoll < 2 && block != -1 then RandomEmpty(b, pick)
        else if halfRoll < 5 && BestHeuristic(b) != -1 then BestHeuristic(b)
        else RandomEmpty(b, pick)
  }

  /** As written the easy level blocks whenever it can, whatever the draws. */
  lemma EasyAlwaysBlocksAsWritten(b: Board, ai: int, skipRoll: int, halfRoll: int, pick: nat)
    requires Cells(b) && IsPlayer(ai)
    requires ImmediateWin(b, ai, 0) == -1 && ImmediateWin(b, Other(ai), 0) != -1
    ensures AIMoveAsWritten(b, ai, Easy, skipRoll, halfRoll, pick) == ImmediateWin(b, Other(ai), 0)
  {
  }

  /** The move choice with the easy level's deliberate miss restored: on a 0 or 1
      `skipRoll` it plays a random empty cell instead of the block. */
  function AIMove(b: Board, ai: int, level: Level, skipRoll: int, halfRoll: int, pick: nat): int
    requires Cells(b) && IsPlayer(ai)
  {
    if level == Perfect then Minimax(b, ai, ai, 0).move
    else RuleMove(b, ai, level, skipRoll, halfRoll, pick)
  }

  /** The easy and normal levels: win, else block (except on a skip for the easy
      level), else the heuristic or a random empty cell. */
  function RuleMove(b: Board, ai: int, level: Level, skipRoll: int, halfRoll: int, pick: nat): int
    requires Cells(b) && IsPlayer(ai)
  {
    var win := ImmediateWin(b, ai, 0);
    if win != -1 then win
    else
      var block := ImmediateWin(b, Other(ai), 0);
      if level == Easy && skipRoll < 2 && block != -1 && EmptyCells(b, 0) != [] then RandomEmpty(b, pick)
      else if block != -1 then block
      else if level == Normal then BestHeuristic(b)
      else if EmptyCells(b, 0) == [] then -1
      else if halfRoll < 5 && BestHeuristic(b) != -1 then BestHeuristic(b)
      else RandomEmpty(b, pick)
  }

  /** The board X X _ / _ O _ / _ _ _ with O to move: O has no winning cell
      and X threatens cell 2. */
  predicate ThreatBoard(b: Board)
  {
    b == [1, 1, 0, 0, 2, 0, 0, 0, 0]
  }

  lemma ThreatBoardFacts(b: Board)
    requires ThreatBoard(b)
    ensures ImmediateWin(b, 2, 0) == -1 && ImmediateWin(b, 1, 0) == 2
    ensures EmptyCells(b, 0) == [2, 3, 5, 6, 7, 8]
  {
    ThreatOfX(b);
    NoWinForO(b);
    ThreatEmpties(b);
  }

  /** X completes the top row at cell 2. */
  lemma ThreatOfX(b: Board)
    requires ThreatBoard(b)
    ensures ImmediateWin(b, 1, 0) == 2
  {
    LinesInRange();
    assert LINES[0] == Line(0, 1, 2);
    assert b[2 := 1][0] == 1 && b[2 := 1][1] == 1 && b[2 := 1][2] == 1;
    assert LineWinner(b[2 := 1], 0) == 1;
    assert CalcWinner(b[2 := 1]) == 1;
    assert ImmediateWin(b, 1, 2) == 2;
    assert ImmediateWin(b, 1, 1) == 2;
  }

  /** No empty cell gives O a line. */
  lemma NoWinForO(b: Board)
    requires ThreatBoard(b)
    ensures ImmediateWin(b, 2, 0) == -1
  {
    NoLineWithTwo(b[8 := 2], 8);
    assert ImmediateWin(b, 2, 8) == -1;
    NoLineWithTwo(b[7 := 2], 7);
    assert ImmediateWin(b, 2, 7) == -1;
    NoLineWithTwo(b[6 := 2], 6);
    assert ImmediateWin(b, 2, 6) == -1;
    NoLineWithTwo(b[5 := 2], 5);
    assert ImmediateWin(b, 2, 5) == -1;
    assert ImmediateWin(b, 2, 4) == -1;
    NoLineWithTwo(b[3 := 2], 3);
    assert ImmediateWin(b, 2, 3) == -1;
    NoLineWithTwo(b[2 := 2], 2);
    assert ImmediateWin(b, 2, 2) == -1;
  }

  lemma ThreatEmpties(b: Board)
    requires ThreatBoard(b)
    ensures EmptyCells(b, 0) == [2, 3, 5, 6, 7, 8]
  {
    assert EmptyCells(b, 9) == [];
    assert EmptyCells(b, 8) == [8];
    assert EmptyCells(b, 7) == [7, 8];
    assert EmptyCells(b, 6) == [6, 7, 8];
    assert EmptyCells(b, 5) == [5, 6, 7, 8];
    assert EmptyCells(b, 4) == [5, 6, 7, 8];
    assert EmptyCells(b, 3) == [3, 5, 6, 7, 8];
    assert EmptyCells(b, 2) == [2, 3, 5, 6, 7, 8];
    assert EmptyCells(b, 1) == [2, 3, 5, 6, 7, 8];
  }

  /** Two O discs never make a line. */
  lemma NoLineWithTwo(b: Board, x: nat)
    requires Cells(b) && x < 9
    requires forall i :: 0 <= i < 9 && i != 4 && i != x ==> b[i] != 2
    ensures CalcWinner(b) != 2
  {
    LineWinnerFacts(b, 0);
    LinesInRange();
  }

  /** As written the easy level blocks at cell 2 whatever the draws; with the
      correction a low `skipRoll` lets it play the drawn cell 3 instead, and a
      high one still blocks. */
  lemma EasyMaySkipBlock(b: Board)
    requires ThreatBoard(b)
    ensures forall skipRoll, halfRoll, pick: nat :: AIMoveAsWritten(b, 2, Easy, skipRoll, halfRoll, pick) == 2
    ensures AIMove(b, 2, Easy, 0, 0, 1) == 3
    ensures AIMove(b, 2, Easy, 9, 0, 1) == 2
  {
    ThreatBoardFacts(b);
  }

  /** The normal level plays an immediate win first, then a block, then the
      heuristic; a returned cell is always empty. */
  lemma NormalLevelPriorities(b: Board, ai: int, skipRoll: int, halfRoll: int, pick: nat)
    requires Cells(b) && IsPlayer(ai)
    ensures var m := AIMove(b, ai, Normal, skipRoll, halfRoll, pick);
      var win := ImmediateWin(b, ai, 0);
      var block := ImmediateWin(b, Other(ai), 0);
      (win != -1 ==> m == win) &&
      (win == -1 && block != -1 ==> m == block) &&
      (win == -1 && block == -1 ==> m == BestHeuristic(b)) &&
      (m != -1 ==> 0 <= m < 9 && b[m] == 0)
  {
    ImmediateWinFacts(b, ai, 0);
    ImmediateWinFacts(b, Other(ai), 0);
  }

  /** `computeAIMoveByLevel` with the corrected easy level and minimax. */
  method ComputeAIMove(b: Board, ai: int, level: Level, skipRoll: int, halfRoll: int, pick: nat)
    returns (m: int)
    requires Cells(b) && IsPlayer(ai)
    ensures m == AIMove(b, ai, level, skipRoll, halfRoll, pick)
  {
    if level == Perfect {
      var _, mv := MinimaxSearch(b, ai, ai, 0);
      return mv;
    }
    m := ComputeRuleMove(b, ai, level, skipRoll, halfRoll, pick);
  }

  method ComputeRuleMove(b: Board, ai: int, level: Level, skipRoll: int, halfRoll: int, pick: nat)
    returns (m: int)
    requires Cells(b) && IsPlayer(ai)
    ensures m == RuleMove(b, ai, level, skipRoll, halfRoll, pick)
  {
    var human := if ai == 1 then 2 else 1;
    var win := FindImmediateWin(b, ai);
    if win != -1 { return win; }
    var block := FindImmediateWin(b, human);
    var empties := EmptyCells(b, 0);
    if level == Easy && skipRoll < 2 && block != -1 && |empties| > 0 {
      return empties[pick % |empties|];
    }
    if block != -1 { return block; }
    if level == Normal { return BestHeuristic(b); }
    if |empties| == 0 { return -1; }
    if halfRoll < 5 {
      var h := BestHeuristic(b);
      if h != -1 { return h; }
    }
    return empties[pick % |empties|];
  }
}
